=== FILE: README.md ===
# BookLeaf assistant core, modelled in Dafny

This project models the decision and text-handling core of the BookLeaf
AI assistant, a support back end for self-published authors. The model
covers:

- **Identifier handling.** It resolves who is writing by normalising
  e-mail addresses and names (`Normalizer`), scoring names fuzzily
  (`Fuzzy`) and validating a language model's choice among candidates
  (`Disambiguate`). It then runs the four-stage identity matcher over an
  in-memory store (`Matcher`, `Store`, `Records`), which the identity
  service wraps (`IdentityService`).
- **Confidence.** It weighs the confidence of an answer (`Confidence`) and
  routes queries through the online pipeline (`Processor`) or the offline,
  rule-based one (`LocalProcessor`).
- **Retrieval.** It retrieves and packs knowledge-base text, both by
  keyword (`LocalRetriever`) and by similarity (`ContextBuilder`), and cuts
  documents into chunks for the knowledge base (`Chunker`).
- **Endpoints.** It models the decisions of the offline chat endpoint
  (`LocalChat`), the analytics aggregates (`Analytics`) and the escalation
  endpoints (`Escalations`).
- **Prompts and seeding.** It assembles the response prompt (`Prompts`)
  and models the two seeding scripts that fill the identity tables
  (`Seeding`).

Modelling choices:

- **Data.** Each source file is one module. Shared pieces live in
  `Wrappers` (Option, and `Field` for a JSON key that is missing, null or present), `Strings` (ASCII case mapping, strip, split, join,
  substring search) and `Sorting` (a stable best-first insertion sort).
  Rows are immutable datatypes. The database is a `Store` of author and
  identity sequences, and "the first row returned" is the first match in
  sequence order. Scores and weights are `real`s.
- **Parameters.** Everything the code delegates to something it cannot see
  is a function-valued parameter:
  - the phone parser;
  - the rapidfuzz scorers, bounded to 0..100;
  - the language model's replies;
  - the knowledge-base search;
  - the tokenizer;
  - whether a database insert succeeds.
- **Proofs.** Operations are paired with one of three things, and a
  lemma or the contract connects the two for all inputs:
  - a reference definition, such as an order-preserving filter or a count;
  - a law they obey, such as concatenation, a round trip, stability, top-k
    dominance or idempotence;
  - their counterpart as written.
  Text renderers are characterised case by case by what their text opens
  with, contains or ends with. Their fixed fallback texts have "exactly
  when" lemmas that say which inputs produce them.

## Model

| member | source | states |
|---|---|---|
| Normalizer.NormalizeEmail | backend/app/core/identity/normalizer.py:26-58 | None exactly when the text has no '@' (lower-casing and stripping never remove one); the address itself is described by the three lemmas below |
| Normalizer.NormalizeEmailLowerCase | backend/app/core/identity/normalizer.py:31-54 | a normalised address is lower-case and keeps its '@' |
| Normalizer.NormalizeEmailGmail | backend/app/core/identity/normalizer.py:42-51 | for gmail.com and googlemail.com the domain becomes gmail.com and the local part loses its dots and everything from the first '+' |
| Normalizer.NormalizeEmailOtherDomain | backend/app/core/identity/normalizer.py:54 | other domains change only by case and trimming |
| Normalizer.GmailLocalHasNoDotOrPlus | backend/app/core/identity/normalizer.py:44-49 | a gmail result's local part contains neither '.' nor '+' |
| Normalizer.NormalizeEmailIdempotent | backend/app/core/identity/normalizer.py:30-54 | normalising a normalised address (one not starting with whitespace) gives it back unchanged |
| Normalizer.LeadingSpaceNotIdempotent | backend/app/core/identity/normalizer.py:31-51 | a normalised address that starts with whitespace is changed by a second normalisation |
| Normalizer.LeadingSpaceReachable | backend/app/core/identity/normalizer.py:42-51 | such addresses exist: ". w@gmail.com" normalises to an address with a leading space |
| Normalizer.NormalizeName | backend/app/core/identity/normalizer.py:131-159 | None exactly for the empty name |
| Normalizer.NormalizeNameIsTokenRun | backend/app/core/identity/normalizer.py:136-155 | the result is the space-join of a contiguous run of the lower-cased tokens, losing at most the first and the last |
| Normalizer.DropTitleAndSuffixIsRun | backend/app/core/identity/normalizer.py:145-153 | the first token is dropped exactly when it is a title, the last remaining one exactly when it is a suffix |
| Normalizer.NormalizeNameNotIdempotent | backend/app/core/identity/normalizer.py:145-149 | a name with two leading titles loses one title per normalisation, so normalising twice differs from once |
| Normalizer.MatchesEmailShapeIsLanguage | backend/app/core/identity/normalizer.py:183-184 | the position-based check accepts exactly the addresses local@domain.tld of the pattern's character classes |
| Normalizer.ValidateEmail | backend/app/core/identity/normalizer.py:180-185 | true exactly for text in the e-mail language, or such text followed by one final newline |
| Fuzzy.EffectiveThreshold | backend/app/core/identity/fuzzy.py:264-298 | an absent or zero threshold falls back to the matcher's own |
| Fuzzy.ScoreToConfidence | backend/app/core/identity/fuzzy.py:307-339 | the confidence lies in [0.5, 0.9], with the 95/90/85 score bands mapped to at least 0.85, [0.80, 0.85) and [0.75, 0.80) |
| Fuzzy.ScoreToConfidenceLowThreshold | backend/app/core/identity/fuzzy.py:330-334 | with a matcher threshold of 50 a score of 84 gets a higher confidence than a score of 85 |
| Fuzzy.Extract | backend/app/core/identity/fuzzy.py:58-64 | at most `limit` hits, best first, each a choice at its index scoring at least the cutoff |
| Fuzzy.ExtractTopK | backend/app/core/identity/fuzzy.py:58-64 | a qualifying choice is either returned or crowded out by `limit` hits scoring at least as well |
| Fuzzy.MatchName | backend/app/core/identity/fuzzy.py:26-92 | nothing for an empty query or no candidates; at most ten results, best first, each at or above the effective threshold, with its candidate's name and its score's confidence |
| Fuzzy.MatchNameAdvanced | backend/app/core/identity/fuzzy.py:94-215 | nothing for an empty query or no names; results sorted by combined score, best first |
| Fuzzy.MatchNameAdvancedSound | backend/app/core/identity/fuzzy.py:119-197 | each result is a distinct record reached through the name-to-index map, scores 0.7 token-sort plus 0.3 partial, and passed the cutoff under one scorer at least |
| Fuzzy.MatchNameAdvancedComplete | backend/app/core/identity/fuzzy.py:134-184 | every non-empty name that either scorer returned is represented in the result |
| Fuzzy.IsSimilar | backend/app/core/identity/fuzzy.py:264-305 | (false, 0) when a side is empty; otherwise the score and whether it reaches the effective threshold |
| Fuzzy.IsSimilarThresholdMonotone | backend/app/core/identity/fuzzy.py:264-305 | the score does not depend on the threshold, and a pair similar at a higher threshold is similar at any lower non-zero one |
| Disambiguate.ProcessLlmResult | backend/app/core/identity/llm_disambiguate.py:236-271 | a missing key takes its default and a null one does not: a null confidence raises in `float`, and a withdrawn claim with null reasoning raises on the append; otherwise the confidence is clamped to [0.5, 0.9], a match is reported only for the first candidate with the claimed id, a withdrawn claim drops to confidence 0 with the reasoning extended, and the evidence is passed through (an empty list when missing) |
| Disambiguate.Disambiguate | backend/app/core/identity/llm_disambiguate.py:23-131 | no candidates gives a non-match at 0 and one candidate is accepted at 0.8, both without the model; an unparsable reply, a failed call or an error raised while processing the reply is a non-match at 0 whose reasoning names the failure |
| Disambiguate.DisambiguateSound | backend/app/core/identity/llm_disambiguate.py:40-252 | a reported match is one of the candidates, at a confidence in [0.5, 0.9], the first with the claimed id |
| Disambiguate.DisambiguateComplete | backend/app/core/identity/llm_disambiguate.py:236-252 | a claim with a non-null confidence naming some candidate's id is never withdrawn |
| Disambiguate.ClaimWithoutCandidate | backend/app/core/identity/llm_disambiguate.py:255-262 | a claim naming no candidate becomes a non-match at confidence 0, its reasoning (or the default) extended by the not-found note; a null reasoning makes the append raise, reported as a disambiguation error |
| Disambiguate.NullConfidenceFails | backend/app/core/identity/llm_disambiguate.py:238 | a reply whose confidence is null is a non-match at 0 reporting the `float` error, whatever else it says |
| Disambiguate.NoClaimKeepsClampedConfidence | backend/app/core/identity/llm_disambiguate.py:236-265 | a reply that claims no match, with a non-null confidence, keeps its clamped confidence of at least 0.5 and its own reasoning: the default when missing, none when null |
| Disambiguate.ExplainMatch | backend/app/core/identity/llm_disambiguate.py:273-310 | the text ends in a full stop exactly when some name, e-mail or phone pair was compared, and then contains every explanation sentence |
| Disambiguate.ExplainEmailIgnoresCase | backend/app/core/identity/llm_disambiguate.py:293-296 | e-mails differing only in case are explained as an exact match |
| Matcher.Handle | backend/app/core/identity/matcher.py:62-72 | never empty: the given identifier, else the normalised e-mail, else the normalised phone, else "unknown_" and the platform |
| Matcher.NormalizedIdentifier | backend/app/core/identity/matcher.py:541-551 | e-mail normalisation for identifiers with '@', phone normalisation on phone platforms, else lower-cased stripped text |
| Matcher.CreateIdentityLink | backend/app/core/identity/matcher.py:518-584 | appends exactly one identity for an existing author, verified exactly when the confidence is at least 0.95, and keeps the store valid |
| Matcher.Stage1 | backend/app/core/identity/matcher.py:159-281 | a hit has confidence 1.0 and the asked handle; a handle hit changes nothing, an e-mail or phone hit appends one link, a miss leaves the store unchanged |
| Matcher.Stage1HandleFirst | backend/app/core/identity/matcher.py:180-203 | a handle already on file wins, answered by the first row carrying it, with no write |
| Matcher.Stage1EmailNext | backend/app/core/identity/matcher.py:207-237 | without the handle on file, a row with the normalised e-mail is found and its author gets the link |
| Matcher.Stage1Miss | backend/app/core/identity/matcher.py:180-281 | stage 1 misses exactly when no row carries the handle, the e-mail or the phone |
| Matcher.Examine | backend/app/core/identity/matcher.py:327-345 | at most the top five name matches, as candidates in best-combined-score-first order, each naming an author of the store |
| Matcher.Boosted | backend/app/core/identity/matcher.py:335-342 | the boosted confidence is the input plus 0.15 or the cap 0.95, never above 0.95, and never below an input that is at most 0.95 |
| Matcher.Adjusted | backend/app/core/identity/matcher.py:330-345 | no agreeing contact leaves the confidence unchanged; an agreeing contact adds 0.15, capped at 0.95 |
| Matcher.AdjustedBounded | backend/app/core/identity/matcher.py:327-345 | an adjusted confidence never exceeds 0.95 |
| Matcher.Retained | backend/app/core/identity/matcher.py:347-349 | exactly the candidates at or above 0.70, in order |
| Matcher.RetainedSorted | backend/app/core/identity/matcher.py:327-352 | the retained candidates stay in best-name-first order |
| Matcher.Stage2 | backend/app/core/identity/matcher.py:283-394 | with `kept` the retained candidates: a miss exactly when none is kept; a commit exactly when the first kept one reaches 0.75, linking that candidate's author at its adjusted confidence (one fuzzy link, in [0.75, 0.95]); otherwise all kept candidates, at most five, are handed over |
| Matcher.Stage2PassesOverBetterContact | backend/app/core/identity/matcher.py:347-356 | a concrete pair: names scoring 95 and 90 with adjusted confidences 0.80 and 0.95 are both retained in name order, so stage 2 commits to the first although the second is more confident |
| Matcher.Stage2CommitsBestName | backend/app/core/identity/matcher.py:352-356 | the committed candidate has the best combined name score among those retained, not necessarily the best adjusted confidence |
| Matcher.Stage3 | backend/app/core/identity/matcher.py:109-147 | the model's confirmed choice is linked at a confidence in [0.5, 0.9]; otherwise a new author is created |
| Matcher.Stage4 | backend/app/core/identity/matcher.py:439-516 | a fresh author named as given or "Unknown User", with the raw contacts, and one unverified link at 0.5 |
| Matcher.AfterStage1 | backend/app/core/identity/matcher.py:89-157 | exactly one link is appended; a new author is added exactly when the outcome is a new identity |
| Matcher.MatchIdentity | backend/app/core/identity/matcher.py:34-157 | the store stays valid and only grows; it is unchanged exactly for a handle hit; each method reports its confidence range |
| Matcher.MatchIdentityStable | backend/app/core/identity/matcher.py:34-88 | asking again with the same query finds the handle left on file, returns the same author and writes nothing |
| IdentityService.ResolveIdentity | backend/app/services/identity_service.py:22-111 | with no name, e-mail or phone it fails and the store is untouched; otherwise it succeeds with the matcher's link for the query's handle |
| IdentityService.ValidateIdentityInfo | backend/app/services/identity_service.py:172-223 | valid exactly when no check fails; a name with no contact draws the one warning |
| IdentityService.ValidInputResolves | backend/app/services/identity_service.py:172-223 | anything the validator accepts passes the resolver's guard |
| IdentityService.GuessName | backend/app/services/identity_service.py:140-146 | a name is guessed exactly when the first line has two to four words, each capitalised |
| IdentityService.ExtractAndResolve | backend/app/services/identity_service.py:113-170 | with a first e-mail it succeeds with that e-mail as the identifier, else with a first phone the phone; with no name, e-mail or phone it fails and writes nothing |
| IdentityService.ExtractAndResolveStable | backend/app/services/identity_service.py:113-170 | resolving the same message a second time writes nothing, succeeds exactly when the first call did, and finds the same author by exact identity match |
| Confidence.Weakest | backend/app/core/llm/confidence.py:112-122 | a factor with the least score, and no factor earlier in the order identity, intent, rag, llm scores as little |
| Confidence.RoundHalfEven | backend/app/core/llm/confidence.py:83 | the integer chosen lies within one half of the value, and an integer is its own rounding |
| Confidence.RoundHalfEvenMonotone | backend/app/core/llm/confidence.py:83 | rounding to an integer never reverses an order |
| Confidence.Round3 | backend/app/core/llm/confidence.py:83 | `round(x, 3)` lies within 0.0005 of `x` |
| Confidence.Round3Monotone | backend/app/core/llm/confidence.py:83-104 | rounding keeps the order of two values, so a rounded minimum stays a minimum |
| Confidence.Round3Exact | backend/app/core/llm/confidence.py:83 | a value with three decimals is its own rounding |
| Confidence.Round3Idempotent | backend/app/core/llm/confidence.py:83 | rounding an already rounded value changes nothing |
| Confidence.Round3InUnit | backend/app/core/llm/confidence.py:83 | a value in [0, 1] rounds to a value in [0, 1] |
| Confidence.InputScores | backend/app/core/llm/confidence.py:57-61 | each score is the given one, or 0.5 when it is absent |
| Confidence.RoundScores | backend/app/core/llm/confidence.py:84-104 | each factor's reported score is its exact score rounded to three decimals |
| Confidence.RoundKeepsWeakest | backend/app/core/llm/confidence.py:112-122 | the factor with the least exact score also has the least reported score |
| Confidence.CalculateConfidence | backend/app/core/llm/confidence.py:24-131 | absent scores count as 0.5; the answer is automatic exactly when the exact weighted sum reaches the threshold; the reported confidence and each reported score are those values rounded to three decimals; the weakest factor scores no more than any other, both exactly and after rounding |
| Confidence.OverallInUnitRange | backend/app/core/llm/confidence.py:64-83 | with the default weights, scores in [0, 1] give an exact and a reported overall confidence in [0, 1] |
| Confidence.RaisingAScoreNeverEscalates | backend/app/core/llm/confidence.py:64-79 | raising one score never lowers the confidence, so it never turns an automatic answer into an escalation |
| Confidence.ShouldEscalate | backend/app/core/llm/confidence.py:207-217 | escalate exactly when the action is to escalate |
| Confidence.ShouldEscalateBelowThreshold | backend/app/core/llm/confidence.py:72-83 | a computed breakdown escalates exactly when its exact confidence is below the threshold; for a threshold with three decimals a reported confidence below it implies escalation, and an escalated breakdown never reports more than the threshold |
| Confidence.EscalationReasons | backend/app/core/llm/confidence.py:231-254 | never empty; led by the missed threshold when the reported confidence is below it, followed by the factor reasons; the factor reasons alone when the threshold is met and some apply; only the weakest factor and its reported score when nothing applies |
| Confidence.FactorReasons | backend/app/core/llm/confidence.py:239-251 | each factor reason is given exactly when its reported score is below its bound (0.5 for identity, 0.6 for the others), the model's own doubt last; none is given exactly when every bound is met; no factor reason starts like the threshold reason |
| Confidence.WeakestReason | backend/app/core/llm/confidence.py:253-254 | the fallback reason starts with "Low confidence in" |
| Confidence.EscalationReason | backend/app/core/llm/confidence.py:219-256 | the joined text contains every reason that applies |
| Confidence.EscalationCitesThreshold | backend/app/core/llm/confidence.py:235-236 | the reasons lead with the threshold reason exactly when the reported confidence is below the threshold |
| Confidence.ClearEscalationCitesThreshold | backend/app/core/llm/confidence.py:72-83 | an exact confidence more than 0.0005 below the threshold escalates and cites the threshold first |
| Confidence.RoundedToThresholdStillEscalates | backend/app/core/llm/confidence.py:72-124 | four scores of 0.7996 escalate, yet the breakdown reports 0.8 and the reason names only the weakest factor, identity, at 80% |
| Confidence.ExplanationParts | backend/app/core/llm/confidence.py:150-203 | four or five parts, led by the band of the reported overall confidence, with the weakest factor mentioned exactly when its reported score is below 0.6, and closed by the action's sentence |
| Confidence.ExplainConfidence | backend/app/core/llm/confidence.py:133-205 | the explanation contains every part and ends with the sentence that matches the action |
| Processor.ClampLlm | backend/app/core/query/processor.py:390-391 | the result lies in [0.1, 0.95] and leaves values already there alone |
| Processor.AssessLlmConfidenceAsWritten | backend/app/core/query/processor.py:370-391 | the heuristic as written, in [0.1, 0.95] |
| Processor.AssessLlmConfidence | backend/app/core/query/processor.py:378-391 | in [0.1, 0.95]; an admission of uncertainty costs the penalty; otherwise it agrees with the heuristic as written |
| Processor.UncertaintyIgnoredAsWritten | backend/app/core/query/processor.py:385 | "I don't know" without "contact support" is never penalised as written, but is by the corrected heuristic |
| Processor.PriorityFor | backend/app/core/query/processor.py:464-470 | high below 0.3, medium from 0.3 to below 0.5, low from 0.5 |
| Processor.PriorityAntitone | backend/app/core/query/processor.py:464-470 | a less confident answer never gets a less urgent priority |
| Processor.AvgRelevance | backend/app/core/query/processor.py:316-319 | the mean similarity, and 0 for no chunks |
| Processor.AvgRelevanceBounded | backend/app/core/query/processor.py:316-317 | the mean lies between the least and the greatest similarity |
| Processor.Route | backend/app/core/query/processor.py:110-137 | knowledge questions search all documents, support questions the support documents, author questions use 0.8 and the author context, anything else, a null intent included, 0.5 |
| Processor.RouteRelevanceInUnit | backend/app/core/query/processor.py:110-137 | when the retrieved similarities lie in [0, 1], so does the routed relevance, for every intent |
| Processor.ErrorResponse | backend/app/core/query/processor.py:499-508 | a failure at confidence 0 that escalates |
| Processor.Answer | backend/app/core/query/processor.py:100-278 | the response succeeds and carries the resolved author, identity confidence and method; a missing intent is "general_knowledge" and a missing intent confidence 0.5, while null ones stay null; the scored factors are the identity confidence, the intent confidence (0.5 when null), the routed relevance, and the confidence of the generated response from the routed context, assessed with the corrected heuristic `AssessLlmConfidence`; it reports them and the overall confidence rounded to three decimals; it escalates exactly when the exact overall confidence is below 0.80, and exactly then records an escalation with the reported confidence's priority, status "pending" and the scorer's reason |
| Processor.ProcessQuery | backend/app/core/query/processor.py:47-278 | the corrected pipeline always succeeds, answering from the store left by identity matching |
| Processor.ProcessQueryAsWritten | backend/app/core/query/processor.py:88-278 | as written, identity matching still writes its link, and then the "success" lookup raises, so the response is always a failure at confidence 0 that escalates, with the missing key as the detail |
| Processor.NoSuccessKey | backend/app/core/query/processor.py:93 | the matcher's result keys include "match_found" but not "success" |
| Processor.EveryQueryFailsAsWritten | backend/app/core/query/processor.py:93 | every query fails as written, because the matcher's result has no "success" key; the corrected pipeline answers each one |
| Processor.NewAuthorOffTopicEscalates | backend/app/core/query/processor.py:110-208 | a new user whose question is of an unrecognised kind, or whose intent came back null, is always escalated and an escalation is recorded |
| LocalProcessor.ClassifyIntent | backend/app/core/query/local_processor.py:22-54 | each intent is chosen exactly when its keyword group matches and no earlier group does; "general" when none match |
| LocalProcessor.DeliveryIsBookStatus | backend/app/core/query/local_processor.py:32-45 | a question mentioning "delivery" is classified as book status |
| LocalProcessor.BookLinesComplete | backend/app/core/query/local_processor.py:91-116 | every book with a recognised status contributes its sentence |
| LocalProcessor.BookLinesSound | backend/app/core/query/local_processor.py:91-116 | every sentence comes from a book with a recognised status |
| LocalProcessor.AnswerBookStatus | backend/app/core/query/local_processor.py:83-122 | fixed texts for no books and for no recognised status; otherwise the recognised books' sentences |
| LocalProcessor.BookStatusNamesEveryKnownBook | backend/app/core/query/local_processor.py:91-120 | every book with a recognised status is named in quotes in the answer |
| LocalProcessor.UnknownBookChangesNothing | backend/app/core/query/local_processor.py:91-120 | a book with an unrecognised status does not change the answer when other books are present |
| LocalProcessor.AnswerRoyaltyInquiry | backend/app/core/query/local_processor.py:124-148 | the not-available text when the date or the amount is "N/A"; otherwise starts with the payment date and ends with the standard closing |
| LocalProcessor.RoyaltyUnavailableExactly | backend/app/core/query/local_processor.py:124-148 | the not-available text is given exactly when the payment date or the amount is unknown |
| LocalProcessor.DeliveredWording | backend/app/core/query/local_processor.py:156-160 | a delivered answer opens with the number of copies and agreeing wording: "copies … were" for more than one, "copy … was" otherwise, one copy when the count is missing |
| LocalProcessor.AnswerAuthorCopy | backend/app/core/query/local_processor.py:150-201 | per status: delivered opens with the count and agreeing wording; shipped opens with its lead and the date when present and ends with the 5-7 business days closing; in transit opens with its lead and the expected date when present; both carry a present tracking number; production opens with "being prepared" and the expected ship date, or gives the shipped-after-publication sentence when there is none; pending opens with its lead, carries the expected date and the note when present, and is the lead alone when neither is; copies not due yet get the note or the after-publication default; any other status gets the fixed fallback |
| LocalProcessor.CopyFallbackExactly | backend/app/core/query/local_processor.py:150-201 | the fallback text is given exactly for an unrecognised status, or for copies not due yet whose note is that very text |
| LocalProcessor.ShippedAnswer | backend/app/core/query/local_processor.py:162-171 | opens with the shipped lead, then " on " and the date when there is one; carries a present tracking number; ends with the delivery window; lead and closing alone when neither value is present |
| LocalProcessor.InTransitAnswer | backend/app/core/query/local_processor.py:173-181 | opens with the in-transit lead, then the expected arrival when there is one; carries a present tracking number; the lead alone when neither value is present |
| LocalProcessor.PreparingAnswer | backend/app/core/query/local_processor.py:183-185 | opens with "being prepared", followed by the expected ship date when there is one and by the shipped-after-publication sentence otherwise |
| LocalProcessor.PendingAnswer | backend/app/core/query/local_processor.py:187-196 | opens with the pending lead and carries the expected ship date and the note when each is present; the lead alone when neither is |
| LocalProcessor.TrackingShown | backend/app/core/query/local_processor.py:161-181 | a tracking number that is present appears in the answer |
| LocalProcessor.ActionFor | backend/app/core/query/local_processor.py:301 | respond exactly at a confidence of 0.80 or more |
| LocalProcessor.BranchResponds | backend/app/core/query/local_processor.py:250-301 | a branch responds exactly for greetings, knowledge questions, and author questions when the author is known |
| LocalProcessor.ExtractAuthorInfo | backend/app/core/query/local_processor.py:56-81 | the author row for the identity's author id, nothing when there is no id or no such row |
| LocalProcessor.AnswerGeneralKnowledge | backend/app/core/query/local_processor.py:203-220 | the context built from up to three retrieved chunks, or the fallback when there are none |
| LocalProcessor.KnowledgeFallbackExactly | backend/app/core/query/local_processor.py:203-220 | the fallback text is given exactly when the search returns no chunk |
| LocalProcessor.GreetingShape | backend/app/core/query/local_processor.py:253 | the greeting opens with "Hello", names an identified author in full just before the exclamation mark, and carries the assistant's introduction |
| LocalProcessor.GeneralShape | backend/app/core/query/local_processor.py:284-298 | the general fallback thanks an identified author by name, otherwise opens by repeating the query; it always repeats the query; found chunks appear under the documentation lead; with none it ends with the no-information text |
| LocalProcessor.NeedIdentityShape | backend/app/core/query/local_processor.py:260-278 | each of the three requests for identification asks for a name and e-mail address |
| LocalProcessor.AuthorAnswer | backend/app/core/query/local_processor.py:256-278 | without an identified author, an author-specific answer asks for a name and e-mail address |
| LocalProcessor.BranchAnswerAddressesAuthor | backend/app/core/query/local_processor.py:252-278 | book, royalty and author-copy branches ask for a name and e-mail address when the author is unknown; the greeting opens with "Hello" and names an identified author in full |
| LocalProcessor.BranchAnswerFallbacks | backend/app/core/query/local_processor.py:280-298 | the knowledge branch gives its fallback exactly when the three-chunk search is empty; the general branch repeats the query, thanks an identified author by name, and ends with the no-information text when the two-chunk search is empty |
| LocalProcessor.ProcessQuery | backend/app/core/query/local_processor.py:222-322 | the intent is the classifier's, the confidence the branch's, the action respond exactly at 0.80, and the identity flag says whether an author was found |
| LocalProcessor.OfflineHitNeedsKeyword | backend/app/core/query/local_processor.py:288-298 | the fallback branch's higher confidence needs a knowledge-base chunk that mentions a keyword of the query |
| LocalRetriever.Tokens | backend/app/core/rag/local_retriever.py:40 | every token is a run of word characters occurring in the text |
| LocalRetriever.TokensOfToken | backend/app/core/rag/local_retriever.py:40 | a run of word characters is found as one whole token |
| LocalRetriever.TokensSplit | backend/app/core/rag/local_retriever.py:40 | tokens never cross a non-word character: the tokens of a + c + b are those of a followed by those of b, which with the one-token case fixes the tokens of every text, order and repeats included |
| LocalRetriever.ExtractKeywords | backend/app/core/rag/local_retriever.py:20-47 | the lower-cased tokens in order, without stop words or tokens shorter than three characters |
| LocalRetriever.ExtractKeywordsSplit | backend/app/core/rag/local_retriever.py:40-43 | keyword extraction splits at non-word characters: the keywords of a + c + b are those of a followed by those of b |
| LocalRetriever.ExtractKeywordsOfToken | backend/app/core/rag/local_retriever.py:31-43 | a single word yields its lower-cased form when that is longer than two characters and not a stop word, and nothing otherwise |
| LocalRetriever.KeywordScore | backend/app/core/rag/local_retriever.py:72-84 | positive exactly when the keyword occurs, then at least one more for a space-delimited occurrence, and never more than 4 |
| LocalRetriever.ChunkScore | backend/app/core/rag/local_retriever.py:70-86 | positive exactly when the chunk mentions some keyword, and at most 4 per keyword |
| LocalRetriever.SearchChunks | backend/app/core/rag/local_retriever.py:49-113 | min(topK, number of matching chunks) chunks, each a chunk of the table with its own positive score, best first; all matches when they fit |
| LocalRetriever.SearchChunksTopK | backend/app/core/rag/local_retriever.py:96-101 | a matching chunk that is left out scores no more than any returned one |
| LocalRetriever.SearchChunksStable | backend/app/core/rag/local_retriever.py:96-101 | chunks with equal scores come out in table order: for each score, the returned chunks with it are a prefix of the matching chunks with it |
| LocalRetriever.RetrievedOrder | backend/app/core/rag/local_retriever.py:98-101 | results come out in non-increasing score order |
| LocalRetriever.Retrieve | backend/app/core/rag/local_retriever.py:115-158 | nothing when no keywords are extracted; otherwise at most topK chunks with positive scores, best first |
| LocalRetriever.RetrieveTopK | backend/app/core/rag/local_retriever.py:115-158 | a matching chunk that is not returned scores no more than any returned result |
| LocalRetriever.RetrieveFromTable | backend/app/core/rag/local_retriever.py:133-152 | every result is a chunk of the table that mentions a keyword of the query |
| LocalRetriever.BuildContext | backend/app/core/rag/local_retriever.py:160-200 | "" for no chunks; otherwise the longest prefix of formatted chunks within the character budget, in retrieval order |
| LocalRetriever.ContextLength | backend/app/core/rag/local_retriever.py:181-192 | the context can exceed the budget by the separators, five characters per gap |
| ContextBuilder.Deduplicate | backend/app/core/rag/context_builder.py:88-125 | chunks of the input with no two sharing a key, and every key of the input kept |
| ContextBuilder.DeduplicateSnoc | backend/app/core/rag/context_builder.py:101-125 | appending a chunk appends it to the result exactly when its key is new |
| ContextBuilder.FilterRelevant | backend/app/core/rag/context_builder.py:127-155 | exactly the chunks with similarity at least 0.7, in order |
| ContextBuilder.FilterRelevantAppend | backend/app/core/rag/context_builder.py:142-145 | the filter distributes over concatenation |
| ContextBuilder.AssembleContext | backend/app/core/rag/context_builder.py:157-218 | the longest prefix of the best-first order that fits the token limit; truncated exactly when a chunk was left out |
| ContextBuilder.UsedAreMostSimilar | backend/app/core/rag/context_builder.py:177-206 | no chunk left out is more similar than one used |
| ContextBuilder.TalliesAreCounts | backend/app/core/rag/context_builder.py:233-255 | one tally per named document, with its chunk count and summed similarity |
| ContextBuilder.ExtractSources | backend/app/core/rag/context_builder.py:220-267 | one source per document, with its count and mean similarity, most similar first |
| ContextBuilder.SourcesCounts | backend/app/core/rag/context_builder.py:255-262 | each source carries its document's chunk count and mean similarity |
| ContextBuilder.SourcesCover | backend/app/core/rag/context_builder.py:233-265 | every document some chunk names has a source |
| ContextBuilder.TokenLimit | backend/app/core/rag/context_builder.py:53 | a missing or zero budget means the default |
| ContextBuilder.BuildContext | backend/app/core/rag/context_builder.py:25-86 | an empty context for no chunks; otherwise dedup, then the relevance filter, then packing, with sources for the packed chunks |
| ContextBuilder.ContextGuarantees | backend/app/core/rag/context_builder.py:55-218 | within budget, only relevant chunks, no two with the same deduplication key, and total_chunks equal to the number of chunks left after deduplication and the relevance filter |
| Sorting.SortDescStable | backend/app/core/rag/local_retriever.py:98 | the sort is stable: for each key value, the elements with it keep their input order |
| Chunker.Step | backend/scripts/prepare_local_knowledge_base.py:83-100 | one paragraph keeps the chunks numbered 0.. with one-based positions and stripped texts; with the corrected flush test it also keeps every chunk non-empty |
| Chunker.Run | backend/scripts/prepare_local_knowledge_base.py:83-100 | the whole paragraph loop keeps the same two invariants |
| Chunker.ChunkDocumentAsWritten | backend/scripts/prepare_local_knowledge_base.py:73-117 | chunks are numbered 0.. with one-based positions and are stripped |
| Chunker.ChunkDocument | backend/scripts/prepare_local_knowledge_base.py:73-117 | numbered and stripped chunks, none empty, and none at all exactly when the document is whitespace only |
| Chunker.OverlapKeepsLastWords | backend/scripts/prepare_local_knowledge_base.py:95-98 | after a flush the new chunk opens with the last ten (or fewer) words of the old one |
| Chunker.NothingDropped | backend/scripts/prepare_local_knowledge_base.py:83-110 | every paragraph's stripped text occurs in some chunk, in both versions |
| Chunker.BlankChunkAsWritten | backend/scripts/prepare_local_knowledge_base.py:85-100 | as written, a whitespace-only document with a first paragraph over 500 characters yields an empty chunk |
| Chunker.ChunkingOutcome | backend/scripts/prepare_local_knowledge_base.py:196-198 | a document yielding no chunks is reported as failed |
| Chunker.FailsIffBlank | backend/scripts/prepare_local_knowledge_base.py:181-213 | with the corrected chunker a document fails exactly when it is whitespace only |
| LocalChat.ByEmail | backend/app/api/v1/local_chat.py:45-57 | the first e-mail identity whose identifier equals the address up to case |
| LocalChat.ByPhone | backend/app/api/v1/local_chat.py:59-76 | the first phone or WhatsApp identity whose digits equal the given digits, both non-empty |
| LocalChat.ByName | backend/app/api/v1/local_chat.py:78-91 | the first author with the name up to case, with that author's first identity if any |
| LocalChat.FindAuthorByIdentity | backend/app/api/v1/local_chat.py:41-97 | e-mail, then phone, then name; the first pass that hits decides, and nothing when none hits |
| LocalChat.SendMessage | backend/app/api/v1/local_chat.py:101-183 | a conversation is opened only when none was given and the sender was found; an escalation is written only for an escalate action inside a conversation |
| LocalChat.AnonymousWritesNothing | backend/app/api/v1/local_chat.py:123-170 | an unidentified sender outside a conversation causes no write at all |
| LocalChat.AnonymousBookStatusNotEscalated | backend/app/api/v1/local_chat.py:123-170 | an anonymous book-status question gets an escalate action but no escalation row |
| Analytics.CountSuccessful | backend/app/api/v1/analytics.py:33 | never more than the rows; 0 exactly when no row succeeded, all of them exactly when every row did |
| Analytics.CountSuccessfulAppend | backend/app/api/v1/analytics.py:33 | the count of a + b is the count of a plus the count of b, which with the one-row case makes it the number of successful rows |
| Analytics.CountEscalated | backend/app/api/v1/analytics.py:34 | never more than the rows; 0 exactly when no row escalated, all of them exactly when every row did |
| Analytics.CountEscalatedAppend | backend/app/api/v1/analytics.py:34 | the count of a + b is the count of a plus the count of b |
| Analytics.Average | backend/app/api/v1/analytics.py:36-44 | the sum over present values divided by all rows, and 0 for no rows |
| Analytics.AverageConfidenceInUnit | backend/app/api/v1/analytics.py:36-39 | confidences in [0, 1] average to a value in [0, 1] |
| Analytics.IntentCountsShape | backend/app/api/v1/analytics.py:50-53 | one entry per intent, with counts summing to the number of rows |
| Analytics.IntentOf | backend/app/api/v1/analytics.py:52 | a missing intent counts as "unknown", a null one under the key None, any other under its own name |
| Analytics.IntentCountsExact | backend/app/api/v1/analytics.py:50-53 | each key's entry is the number of rows with that key |
| Analytics.Rate | backend/app/api/v1/analytics.py:58-60 | the proportion, and 0 for no rows |
| Analytics.GetStats | backend/app/api/v1/analytics.py:14-73 | every field is the count or average of the rows it names: successful and escalated counts, average confidence and response time, pending and resolved escalations, and the intent dictionary; failed plus successful is the total; the escalation rate is a proportion; intent counts sum to the total |
| Analytics.BinOf | backend/app/api/v1/analytics.py:104-114 | one of five bins; a score in bin i is at least that bin's lower edge (for i > 0) and below the next bin's edge (for i < 4) |
| Analytics.BinOfExactly | backend/app/api/v1/analytics.py:95-112 | a score is in bin i exactly when it lies between that bin's edges, the last bin taking everything from 0.8 up |
| Analytics.BinsAddUp | backend/app/api/v1/analytics.py:95-119 | each score is counted in exactly one bin, so the bins add up to the number of scores |
| Analytics.ConfidenceDistribution | backend/app/api/v1/analytics.py:77-126 | no scores give an empty histogram; otherwise five bins, each holding its count, adding up to the total |
| Escalations.Filter | backend/app/api/v1/escalation.py:34-38 | exactly the rows matching the given status and priority |
| Escalations.FilterAppend | backend/app/api/v1/escalation.py:34-38 | the filter of a + b is the filter of a followed by that of b, so it keeps table order and repeats |
| Escalations.FilterOne | backend/app/api/v1/escalation.py:34-38 | one row is kept exactly when it passes the filters |
| Escalations.CountStatus | backend/app/api/v1/escalation.py:47-48 | at most the number of rows; all rows exactly when every row has the status, none exactly when none has it |
| Escalations.ListEscalations | backend/app/api/v1/escalation.py:19-55 | rejected exactly when the limit is outside 1..200; otherwise a prefix of the filtered rows of at most the limit, with the status counts of that page |
| Escalations.StatusCountsDisjoint | backend/app/api/v1/escalation.py:47-48 | pending and in-progress counts never add up to more than the rows |
| Escalations.FilteredByPending | backend/app/api/v1/escalation.py:34-48 | listing only pending rows counts every returned row as pending and none as in progress |
| Escalations.GetEscalation | backend/app/api/v1/escalation.py:65-82 | not found exactly when no row has the id; otherwise a row with the id before which no row has it |
| Escalations.BuildUpdate | backend/app/api/v1/escalation.py:103-117 | holds exactly the request fields that are set; an assignee without a status sets "in_progress" |
| Escalations.UpdateRow | backend/app/api/v1/escalation.py:125-136 | not found exactly when no row has the id; otherwise the table with every row of the id updated, and the updated first row with the id |
| Escalations.UpdateEscalation | backend/app/api/v1/escalation.py:94-138 | an empty request is rejected before the lookup; a missing id is not found; otherwise every row with the id gets the update |
| Escalations.AssignMovesToInProgress | backend/app/api/v1/escalation.py:108-111 | assigning without a status moves the escalation to "in_progress" |
| Escalations.UpdateIdempotent | backend/app/api/v1/escalation.py:103-138 | applying the same update twice gives the same rows as once |
| Escalations.ResolveEscalation | backend/app/api/v1/escalation.py:150-174 | notes of 1 to 2000 characters; a missing id is not found; otherwise each row with the id becomes resolved with the notes and time, keeping its assignee and priority, and all others stay as they were |
| Escalations.ResolveThenGet | backend/app/api/v1/escalation.py:65-174 | reading an escalation back after resolving it gives the resolved row, with status "resolved" and the notes |
| Prompts.IntentKindOf | backend/app/core/llm/prompts.py:141-150 | an instruction kind exactly for the four known intents, each intent mapped to its own kind |
| Prompts.IntentInstruction | backend/app/core/llm/prompts.py:142-150 | an instruction exactly for the four known intents, each with its own text |
| Prompts.AuthorFacts | backend/app/core/llm/prompts.py:157-169 | at most four facts; none exactly when the author has no name, e-mail, book count or genre |
| Prompts.AuthorFactsOrdered | backend/app/core/llm/prompts.py:158-165 | the facts come in field order: name, e-mail, books published, genre |
| Prompts.AuthorFactsPresent | backend/app/core/llm/prompts.py:158-165 | each fact is listed exactly when the author has a non-empty value for it |
| Prompts.AuthorFactsValues | backend/app/core/llm/prompts.py:158-165 | every listed fact carries the author's own value for that field |
| Prompts.Sections | backend/app/core/llm/prompts.py:140-182 | two to five sections in strictly increasing kind order, ending with the question and the task |
| Prompts.InstructionSection | backend/app/core/llm/prompts.py:142-150 | the instruction section is present exactly for a known intent, of that intent's kind |
| Prompts.KnowledgeSection | backend/app/core/llm/prompts.py:153-154 | the knowledge-base section is present exactly when the context is non-empty, carrying it |
| Prompts.AuthorSection | backend/app/core/llm/prompts.py:157-169 | the author section is present exactly when the author has some fact, carrying the author's facts |
| Prompts.BuildResponsePrompt | backend/app/core/llm/prompts.py:121-184 | the prompt contains the user's message and any non-empty context, and ends with the task text |
| Seeding.SeedNormalization | backend/scripts/seed_local_data.py:571 | the stored identifier is the lower-cased stripped text, and None only for the empty identifier |
| Seeding.CreateIdentity | backend/scripts/seed_local_data.py:568-595 | an exact, verified identity at the given confidence, with the seed normalisation of its identifier |
| Seeding.PhonePlatform | backend/scripts/seed_local_data.py:621-627 | "whatsapp" exactly when WhatsApp is the preferred contact, else "phone" |
| Seeding.Plan | backend/scripts/seed_local_data.py:612-637 | at most three identities on distinct platforms, each taken from the author's contacts |
| Seeding.PlanEmail | backend/scripts/seed_local_data.py:615-618 | an e-mail identity is planned exactly when the author has an e-mail |
| Seeding.PlanPhone | backend/scripts/seed_local_data.py:621-627 | a phone identity is planned exactly when the author has a phone, on the preferred platform |
| Seeding.PlanInstagram | backend/scripts/seed_local_data.py:630-637 | an instagram handle "@" plus the user name is planned exactly for instagram-preferring authors with an e-mail |
| Seeding.SeedOne | backend/scripts/seed_local_data.py:600-637 | a failed author insert adds nothing; otherwise the author and its accepted identities are appended and counted |
| Seeding.SeedAll | backend/scripts/seed_local_data.py:598-650 | the store stays valid and only grows; the counters equal the rows added, authors counting only accepted inserts |
| Seeding.SeededGmailMissedAsWritten | backend/scripts/seed_local_data.py:571 | a seeded gmail address with a dot in its local part is not found by the matcher's e-mail lookup |
| Seeding.SeededEmailFound | backend/app/core/identity/matcher.py:207-237 | seeded with the matcher's own normalisation, the author is found by e-mail |
| Seeding.SeededPhoneFound | backend/app/core/identity/matcher.py:241-271 | seeded with the matcher's own normalisation, the author is found by phone |
| Seeding.UserName | backend/scripts/seed_data.py:149 | the text before the first '@', with no '@' in it; the whole text when it has none |
| Seeding.SeedInserted | backend/scripts/seed_data.py:126-154 | an inserted author is appended and counted once, followed by one exact, verified link per accepted planned identity |
| Seeding.SeedSingleIdentities | backend/scripts/seed_local_data.py:612-637 | a lone author seeded with every insert succeeding holds exactly its planned identities |

## Left out

- Phone parsing (`normalize_phone`, `validate_phone`) wraps the `phonenumbers` library. It is a parameter `string -> Option<string>`.
- `extract_identifiers` relies on Python regular-expression search. The e-mails and phones it extracts are parameters of `IdentityService.ExtractAndResolve`.
- The rapidfuzz scorers are parameters bounded to 0..100. `process.extract` is modelled as a cutoff, a stable best-first sort and a cut to the limit, which is its documented behaviour. `match_partial_contact` is not modelled; the pipeline does not call it.
- All language-model calls are parameters or reply datatypes: the disambiguation chat, the intent classifier, the entity extractor and response generation. The same holds for the embedder and the vector retriever (`retriever.py`), whose retrieval result is a parameter of `Processor.Route`.
- `build_disambiguation_prompt` and the long prompt constants are not modelled. Only the section structure of `build_response_prompt` is.
- The token-window chunker of the online knowledge-base script depends on tiktoken's encode/decode round trip. It is not part of this model. Token counting in `ContextBuilder` is an uninterpreted `string -> nat`.
- Database access is modelled by the in-memory `Store` or the escalation row sequence:
  - the insert, update and delete plumbing;
  - the 500 error paths of the endpoints;
  - `get_conversation`, `create_conversation`, `get_author_identities` and the health endpoints;
  - `clear_existing_data`.
  Inserts into the in-memory store always succeed. The seeding scripts take insert success as a parameter.
- FastAPI routing, pydantic schemas, configuration loading and the app entry points are left out. The exceptions are the 422 checks on the list limit and the resolution notes, which are modelled.
- Floating-point numbers are exact reals. `round(x, 3)` is round-half-even on the exact value (`Confidence.Round3`). A binary float that lies just off a decimal tie can round the other way in Python; that is not modelled.
- Confidence.CalculateConfidence: the breakdown leaves out each factor's weight, its rounded contribution and the recommendation sentence. Nothing the model covers reads them.
- Logging, timing, the singleton getters, the rounding of the averages in `get_stats` (to three places and to whole milliseconds) and percentage formatting are left out. Percentage text is a parameter where a sentence contains it.
- `top_k` is a parameter of the local retriever rather than shared mutable state.
- Identifiers are `nat`s taken from a counter. In the source they are UUID strings, which are always non-empty.
- Timestamps are parameters.
- Text is ASCII: `lower()` maps only A-Z, and whitespace is the ASCII set.
- A Python exception that the code catches becomes the error value it produces. A `None` metadata entry that would raise in the prompt builder is treated as absent.
- JSON `null` inside an author's metadata blob is not modelled: a metadata field is either missing or holds a value. In the source a null book title would render as "None", and a null copies count would raise. Table columns do not have this gap, because the source reads them without defaults, so SQL NULL and a missing value behave alike.
- Disambiguate.ProcessLlmResult: the model's reply is typed. `match_found` is a boolean, `best_match_id` and the candidate ids are strings, and the confidence is a number or null. A confidence sent as a numeric string, which `float` would parse, and a non-numeric one, which `float` would reject, are not modelled. Neither are truthiness tests on other JSON values.
- Analytics.GetStats: `success` and `escalated` are modelled only by their truthiness, so a null or missing value reads as false. A null, missing or zero confidence or response time adds nothing to its sum, as Python's truthiness test does.
- The mock author data in the seeding scripts is not transcribed. The seeding lemmas hold for any author.
- Normalizer.NormalizeEmailIdempotent: idempotence is stated only for results that do not start with whitespace, because `LeadingSpaceNotIdempotent` shows the other results are not fixed points.
- Escalations.ListEscalations: the rows are taken in the order the table gives them, which stands for newest first. The `created_at` ordering is assumed, not computed.
- Fuzzy.ScoreToConfidence: the banding is stated for scores of 85 and above. Below 85 the curve depends on the matcher's threshold and is not monotone for low thresholds (`ScoreToConfidenceLowThreshold`).

## Findings

| source | as written | input that shows it | evidently intended | confidence | as-written member | corrected member |
|---|---|---|---|---|---|---|
| backend/app/core/query/processor.py:93 | reads `identity_result["success"]`, a key the matcher's result never has, so the catch-all turns every query into an error response | any query, e.g. "When will my book be published?" from any sender | check `match_found`, which the matcher always sets, and answer | high, not executed | Processor.EveryQueryFailsAsWritten | Processor.ProcessQuery |
| backend/scripts/seed_local_data.py:571 (and backend/scripts/seed_data.py:83) | seeds `normalized_identifier` as lower-cased stripped text, while the matcher looks e-mails up in gmail form | the seeded author with "priya.sharma@gmail.com" (backend/scripts/seed_local_data.py:132): the lookup key is "priyasharma@gmail.com" | store the matcher's normalisation so that seeded authors are found by e-mail and phone | high, not executed | Seeding.SeededGmailMissedAsWritten | Seeding.SeededEmailFound |
| backend/app/core/query/processor.py:385 | looks for "I don't know" and "I'm not sure" in lower-cased text, so the capital I never matches | the response "I don't know." | penalise an admission of uncertainty in any letter case | high, not executed | Processor.UncertaintyIgnoredAsWritten | Processor.AssessLlmConfidence |
| backend/scripts/prepare_local_knowledge_base.py:85 | flushes whenever the current chunk is non-empty, so a whitespace-only chunk is emitted as "" | a document of 501 spaces, a blank line, then one more space | flush only a chunk that holds text, as the final flush at line 103 does | medium, not executed | Chunker.BlankChunkAsWritten | Chunker.ChunkDocument |

=== FILE: analytics.dfy ===
/**
 * `Analytics`: the aggregate statistics over the `query_analytics` and
 * `escalations` rows, and the histogram of confidence scores.
 *
 * Scores and response times are reals; the final rounding of the averages
 * is not modelled.
 */
module Analytics {
  import opened Wrappers

  /**
   * One `query_analytics` row. `success` and `escalated` are the truthiness
   * of those fields. The numeric fields are only tested for truthiness or
   * for `is not None`, where a missing field and a `null` both read as
   * `None`; the intent is read with a default, which a `null` does not get.
   */
  datatype QueryRow = QueryRow(
    success: bool,
    escalated: bool,
    confidenceScore: Option<real>,
    responseTimeMs: Option<real>,
    intent: Field<string>)

  const UnknownIntent := "unknown"

  // ---------------------------------------------------------------------
  // Counting

  /** `len([a for a in rows if a.get("success")])`. */
  function CountSuccessful(rows: seq<QueryRow>): (n: nat)
    ensures n <= |rows|
    ensures n == 0 <==> forall k | 0 <= k < |rows| :: !rows[k].success
    ensures n == |rows| <==> forall k | 0 <= k < |rows| :: rows[k].success
  {
    if rows == [] then 0 else (if rows[0].success then 1 else 0) + CountSuccessful(rows[1..])
  }

  /** `len([a for a in rows if a.get("escalated")])`. */
  function CountEscalated(rows: seq<QueryRow>): (n: nat)
    ensures n <= |rows|
    ensures n == 0 <==> forall k | 0 <= k < |rows| :: !rows[k].escalated
    ensures n == |rows| <==> forall k | 0 <= k < |rows| :: rows[k].escalated
  {
    if rows == [] then 0 else (if rows[0].escalated then 1 else 0) + CountEscalated(rows[1..])
  }

  /** Counting splits over concatenation: the rows of `a + b` are counted as those of `a` and of `b`. */
  lemma {:induction false} CountSuccessfulAppend(a: seq<QueryRow>, b: seq<QueryRow>)
    ensures CountSuccessful(a + b) == CountSuccessful(a) + CountSuccessful(b)
  {
    if a != [] {
      assert (a + b)[1..] == a[1..] + b;
      CountSuccessfulAppend(a[1..], b);
    } else {
      assert a + b == b;
    }
  }

  lemma {:induction false} CountEscalatedAppend(a: seq<QueryRow>, b: seq<QueryRow>)
    ensures CountEscalated(a + b) == CountEscalated(a) + CountEscalated(b)
  {
    if a != [] {
      assert (a + b)[1..] == a[1..] + b;
      CountEscalatedAppend(a[1..], b);
    } else {
      assert a + b == b;
    }
  }

  /** Python truthiness of an optional number: present and non-zero. */
  predicate TruthyReal(o: Option<real>) {
    o.Some? && o.value != 0.0
  }

  /** `sum(a.get(f, 0) for a in rows if a.get(f))`. */
  function SumPresent(values: seq<Option<real>>): real {
    if values == [] then 0.0
    else (if TruthyReal(values[0]) then values[0].value else 0.0) + SumPresent(values[1..])
  }

  function Confidences(rows: seq<QueryRow>): (r: seq<Option<real>>)
    ensures |r| == |rows| && forall k | 0 <= k < |rows| :: r[k] == rows[k].confidenceScore
  {
    seq(|rows|, k requires 0 <= k < |rows| => rows[k].confidenceScore)
  }

  function ResponseTimes(rows: seq<QueryRow>): (r: seq<Option<real>>)
    ensures |r| == |rows| && forall k | 0 <= k < |rows| :: r[k] == rows[k].responseTimeMs
  {
    seq(|rows|, k requires 0 <= k < |rows| => rows[k].responseTimeMs)
  }

  /** Values within [lo, hi] add up to within [|values| * lo, |values| * hi] (absent ones count as 0). */
  lemma {:induction false} SumPresentBounds(values: seq<Option<real>>, hi: real)
    requires 0.0 <= hi
    requires forall k | 0 <= k < |values| :: values[k].Some? ==> 0.0 <= values[k].value <= hi
    ensures 0.0 <= SumPresent(values) <= (|values| as real) * hi
  {
    if values != [] {
      SumPresentBounds(values[1..], hi);
    }
  }

  /**
   * The average over ALL rows: rows lacking the field count in the
   * denominator. No rows give 0.
   */
  function Average(values: seq<Option<real>>): (avg: real)
    ensures values == [] ==> avg == 0.0
    ensures values != [] ==> avg == SumPresent(values) / (|values| as real)
  {
    if values == [] then 0.0 else SumPresent(values) / (|values| as real)
  }

  /** Confidence scores in [0, 1] average to a value in [0, 1]. */
  lemma AverageConfidenceInUnit(rows: seq<QueryRow>)
    requires forall k | 0 <= k < |rows| ::
      rows[k].confidenceScore.Some? ==> 0.0 <= rows[k].confidenceScore.value <= 1.0
    ensures 0.0 <= Average(Confidences(rows)) <= 1.0
  {
    var c := Confidences(rows);
    SumPresentBounds(c, 1.0);
    if c != [] {
      DivideBound(SumPresent(c), |c| as real);
    }
  }

  lemma DivideBound(x: real, n: real)
    requires n > 0.0 && 0.0 <= x <= n
    ensures 0.0 <= x / n <= 1.0
  {
  }

  // ---------------------------------------------------------------------
  // The intent distribution

  /** A key of the intent dictionary: an intent name, or Python's `None`. */
  datatype IntentKey = Named(name: string) | NoneKey

  /** A dictionary in insertion order, as the JSON response lists it. */
  type Counts = seq<(IntentKey, nat)>

  /**
   * `a.get("intent", "unknown")`: a missing intent counts as "unknown",
   * a `null` one under the key `None`.
   */
  function IntentOf(row: QueryRow): (k: IntentKey)
    ensures k == NoneKey <==> row.intent.Null?
    ensures row.intent.Absent? ==> k == Named(UnknownIntent)
    ensures row.intent.Present? ==> k == Named(row.intent.value)
  {
    match row.intent.Get(UnknownIntent)
    case None => NoneKey
    case Some(i) => Named(i)
  }

  function CountIntent(rows: seq<QueryRow>, intent: IntentKey): (n: nat)
    ensures n <= |rows|
  {
    if rows == [] then 0 else (if IntentOf(rows[0]) == intent then 1 else 0) + CountIntent(rows[1..], intent)
  }

  function SumCounts(cs: Counts): nat {
    if cs == [] then 0 else cs[0].1 + SumCounts(cs[1..])
  }

  ghost predicate DistinctKeys(cs: Counts) {
    forall i, j | 0 <= i < j < |cs| :: cs[i].0 != cs[j].0
  }

  /** Where `key` sits in the dictionary, if it is there. */
  function KeyIndex(cs: Counts, key: IntentKey): (r: Option<nat>)
    ensures r.Some? ==> r.value < |cs| && cs[r.value].0 == key
    ensures r.None? ==> forall i | 0 <= i < |cs| :: cs[i].0 != key
  {
    if cs == [] then None
    else if cs[0].0 == key then Some(0)
    else match KeyIndex(cs[1..], key)
      case None => None
      case Some(i) => Some(i + 1)
  }

  /** `counts.get(key, 0)`. */
  function Get(cs: Counts, key: IntentKey): nat {
    match KeyIndex(cs, key)
    case None => 0
    case Some(i) => cs[i].1
  }

  /** `counts[key] = counts.get(key, 0) + 1`: bump the entry, or append a new one. */
  function Bump(cs: Counts, key: IntentKey): Counts {
    match KeyIndex(cs, key)
    case None => cs + [(key, 1)]
    case Some(i) => cs[i := (key, cs[i].1 + 1)]
  }

  /** The dictionary of intents, filled row by row. */
  function IntentCounts(rows: seq<QueryRow>): Counts {
    if rows == [] then [] else Bump(IntentCounts(rows[..|rows| - 1]), IntentOf(rows[|rows| - 1]))
  }

  lemma {:induction false} KeyIndexSameKeys(cs: Counts, ds: Counts, key: IntentKey)
    requires |cs| == |ds| && forall i | 0 <= i < |cs| :: cs[i].0 == ds[i].0
    ensures KeyIndex(cs, key) == KeyIndex(ds, key)
  {
    if cs != [] {
      KeyIndexSameKeys(cs[1..], ds[1..], key);
    }
  }

  lemma {:induction false} KeyIndexSnoc(cs: Counts, x: (IntentKey, nat), key: IntentKey)
    ensures KeyIndex(cs + [x], key) ==
      if KeyIndex(cs, key).Some? then KeyIndex(cs, key) else if x.0 == key then Some(|cs|) else None
  {
    if cs == [] {
      assert [] + [x] == [x];
    } else {
      assert (cs + [x])[1..] == cs[1..] + [x];
      KeyIndexSnoc(cs[1..], x, key);
    }
  }

  /** Bumping `k` adds one to its count and leaves every other count alone. */
  lemma GetBump(cs: Counts, k: IntentKey, key: IntentKey)
    ensures Get(Bump(cs, k), key) == Get(cs, key) + (if k == key then 1 else 0)
  {
    var r := Bump(cs, k);
    match KeyIndex(cs, k)
    case None =>
      KeyIndexSnoc(cs, (k, 1), key);
    case Some(i) =>
      KeyIndexSameKeys(cs, r, key);
  }

  lemma {:induction false} SumCountsSnoc(cs: Counts, x: (IntentKey, nat))
    ensures SumCounts(cs + [x]) == SumCounts(cs) + x.1
  {
    if cs == [] {
      assert [] + [x] == [x];
    } else {
      assert (cs + [x])[1..] == cs[1..] + [x];
      SumCountsSnoc(cs[1..], x);
    }
  }

  lemma {:induction false} SumCountsUpdate(cs: Counts, i: nat, x: (IntentKey, nat))
    requires i < |cs|
    ensures SumCounts(cs[i := x]) + cs[i].1 == SumCounts(cs) + x.1
  {
    if i > 0 {
      assert cs[i := x][1..] == cs[1..][i - 1 := x];
      SumCountsUpdate(cs[1..], i - 1, x);
    }
  }

  /** Bumping keeps the keys distinct and adds one to the total. */
  lemma BumpShape(cs: Counts, k: IntentKey)
    requires DistinctKeys(cs)
    ensures DistinctKeys(Bump(cs, k)) && SumCounts(Bump(cs, k)) == SumCounts(cs) + 1
  {
    match KeyIndex(cs, k)
    case None =>
      SumCountsSnoc(cs, (k, 1));
    case Some(i) =>
      SumCountsUpdate(cs, i, (k, cs[i].1 + 1));
  }

  /** The dictionary has one entry per intent and its counts add up to the number of rows. */
  lemma {:induction false} IntentCountsShape(rows: seq<QueryRow>)
    ensures DistinctKeys(IntentCounts(rows)) && SumCounts(IntentCounts(rows)) == |rows|
  {
    if rows != [] {
      IntentCountsShape(rows[..|rows| - 1]);
      BumpShape(IntentCounts(rows[..|rows| - 1]), IntentOf(rows[|rows| - 1]));
    }
  }

  /** Looking an intent up in the dictionary gives the number of rows with that intent (0 if none). */
  lemma {:induction false} IntentCountsExact(rows: seq<QueryRow>, key: IntentKey)
    ensures Get(IntentCounts(rows), key) == CountIntent(rows, key)
  {
    if rows != [] {
      var init, last := rows[..|rows| - 1], rows[|rows| - 1];
      IntentCountsExact(init, key);
      GetBump(IntentCounts(init), IntentOf(last), key);
      CountIntentSnoc(init, last, key);
      assert init + [last] == rows;
    }
  }

  lemma {:induction false} CountIntentSnoc(rows: seq<QueryRow>, x: QueryRow, key: IntentKey)
    ensures CountIntent(rows + [x], key) == CountIntent(rows, key) + (if IntentOf(x) == key then 1 else 0)
  {
    if rows == [] {
      assert [] + [x] == [x];
    } else {
      assert (rows + [x])[1..] == rows[1..] + [x];
      CountIntentSnoc(rows[1..], x, key);
    }
  }

  // ---------------------------------------------------------------------
  // get_stats

  /** `len([e for e in escalations if e.get("status") == status])`. */
  function CountStatus(statuses: seq<Option<string>>, status: string): (n: nat)
    ensures n <= |statuses|
    ensures n == 0 <==> forall k | 0 <= k < |statuses| :: statuses[k] != Some(status)
  {
    if statuses == [] then 0
    else (if statuses[0] == Some(status) then 1 else 0) + CountStatus(statuses[1..], status)
  }

  datatype Stats = Stats(
    totalQueries: nat,
    successfulQueries: nat,
    failedQueries: int,
    escalatedQueries: nat,
    escalationRate: real,
    averageConfidence: real,
    averageResponseTimeMs: real,
    pendingEscalations: nat,
    resolvedEscalations: nat,
    intentDistribution: Counts)

  /** `part / total if total > 0 else 0`, a proportion of the rows. */
  function Rate(part: nat, total: nat): (r: real)
    requires part <= total
    ensures total == 0 ==> r == 0.0
    ensures total > 0 ==> r == (part as real) / (total as real) && 0.0 <= r <= 1.0
  {
    if total > 0 then
      DivideBound(part as real, total as real);
      (part as real) / (total as real)
    else 0.0
  }

  /** `get_stats` over the analytics rows and the escalation statuses. */
  function GetStats(rows: seq<QueryRow>, statuses: seq<Option<string>>): (r: Stats)
    ensures r.totalQueries == |rows|
    ensures r.successfulQueries + r.failedQueries == r.totalQueries && r.failedQueries >= 0
    ensures r.totalQueries == 0 ==> r.escalationRate == 0.0
    ensures r.totalQueries > 0 ==> r.escalationRate == (r.escalatedQueries as real) / (r.totalQueries as real)
    ensures 0.0 <= r.escalationRate <= 1.0
    ensures r.successfulQueries == CountSuccessful(rows) && r.escalatedQueries == CountEscalated(rows)
    ensures r.averageConfidence == Average(Confidences(rows))
    ensures r.averageResponseTimeMs == Average(ResponseTimes(rows))
    ensures r.pendingEscalations == CountStatus(statuses, "pending")
    ensures r.resolvedEscalations == CountStatus(statuses, "resolved")
    ensures r.intentDistribution == IntentCounts(rows)
    ensures SumCounts(r.intentDistribution) == r.totalQueries && DistinctKeys(r.intentDistribution)
    ensures r.pendingEscalations + r.resolvedEscalations <= |statuses|
  {
    var total := |rows|;
    var successful := CountSuccessful(rows);
    var escalated := CountEscalated(rows);
    var rate := Rate(escalated, total);
    PendingResolvedDisjoint(statuses);
    IntentCountsShape(rows);
    Stats(total, successful, total - successful, escalated, rate,
          Average(Confidences(rows)), Average(ResponseTimes(rows)),
          CountStatus(statuses, "pending"), CountStatus(statuses, "resolved"), IntentCounts(rows))
  }

  lemma {:induction false} PendingResolvedDisjoint(statuses: seq<Option<string>>)
    ensures CountStatus(statuses, "pending") + CountStatus(statuses, "resolved") <= |statuses|
  {
    if statuses != [] {
      PendingResolvedDisjoint(statuses[1..]);
    }
  }

  // ---------------------------------------------------------------------
  // get_confidence_distribution

  const BinRanges: seq<string> := ["0.0-0.2", "0.2-0.4", "0.4-0.6", "0.6-0.8", "0.8-1.0"]

  /** The lower edge of bin `i` (the first bin is open below). */
  function BinFloor(i: nat): real
    requires i < 5
  {
    [0.0, 0.2, 0.4, 0.6, 0.8][i]
  }

  /** The bin a score falls in; everything from 0.8 up, including scores above 1, goes in the last. */
  function BinOf(score: real): (i: nat)
    ensures i < 5
    ensures i > 0 ==> BinFloor(i) <= score
    ensures i < 4 ==> score < BinFloor(i + 1)
  {
    if score < 0.2 then 0
    else if score < 0.4 then 1
    else if score < 0.6 then 2
    else if score < 0.8 then 3
    else 4
  }

  /** The bins are half-open and cover every score: a score is in bin i exactly when it lies between its edges. */
  lemma BinOfExactly(score: real, i: nat)
    requires i < 5
    ensures BinOf(score) == i <==> (i == 0 || BinFloor(i) <= score) && (i == 4 || score < BinFloor(i + 1))
  {
  }

  /** `[a["confidence_score"] for a in rows if a["confidence_score"] is not None]`: zero scores are kept. */
  function PresentScores(rows: seq<QueryRow>): (r: seq<real>)
    ensures |r| <= |rows|
    ensures forall x | x in r :: exists k | 0 <= k < |rows| :: rows[k].confidenceScore == Some(x)
  {
    if rows == [] then []
    else
      var rest := PresentScores(rows[1..]);
      assert forall x | x in rest :: exists k | 1 <= k < |rows| :: rows[k].confidenceScore == Some(x) by {
        forall x | x in rest ensures exists k | 1 <= k < |rows| :: rows[k].confidenceScore == Some(x) {
          var j :| 0 <= j < |rows[1..]| && rows[1..][j].confidenceScore == Some(x);
          assert rows[j + 1] == rows[1..][j];
        }
      }
      match rows[0].confidenceScore
      case None => rest
      case Some(x) => [x] + rest
  }

  /** How many of the scores fall in bin `i`. */
  function CountBin(scores: seq<real>, i: nat): (n: nat)
    ensures n <= |scores|
  {
    if scores == [] then 0 else (if BinOf(scores[0]) == i then 1 else 0) + CountBin(scores[1..], i)
  }

  lemma {:induction false} CountBinSnoc(scores: seq<real>, x: real, i: nat)
    ensures CountBin(scores + [x], i) == CountBin(scores, i) + (if BinOf(x) == i then 1 else 0)
  {
    if scores == [] {
      assert [] + [x] == [x];
    } else {
      assert (scores + [x])[1..] == scores[1..] + [x];
      CountBinSnoc(scores[1..], x, i);
    }
  }

  /** Each score is counted in exactly one bin, so the bins add up to the number of scores. */
  lemma {:induction false} BinsAddUp(scores: seq<real>)
    ensures CountBin(scores, 0) + CountBin(scores, 1) + CountBin(scores, 2) +
            CountBin(scores, 3) + CountBin(scores, 4) == |scores|
  {
    if scores != [] {
      BinsAddUp(scores[1..]);
    }
  }

  datatype Bin = Bin(range: string, count: nat)

  datatype Distribution = Distribution(totalCount: nat, bins: seq<Bin>)

  function SumBins(bins: seq<Bin>): nat {
    if bins == [] then 0 else bins[0].count + SumBins(bins[1..])
  }

  lemma SumFiveBins(bins: seq<Bin>)
    requires |bins| == 5
    ensures SumBins(bins) == bins[0].count + bins[1].count + bins[2].count + bins[3].count + bins[4].count
  {
    var b1 := bins[1..];
    var b2 := b1[1..];
    var b3 := b2[1..];
    var b4 := b3[1..];
    assert SumBins(b4) == bins[4].count + SumBins(b4[1..]) && b4[1..] == [];
    assert SumBins(b3) == bins[3].count + SumBins(b4);
    assert SumBins(b2) == bins[2].count + SumBins(b3);
    assert SumBins(b1) == bins[1].count + SumBins(b2);
  }

  /**
   * `get_confidence_distribution`: no scores give an empty histogram;
   * otherwise the five bins in order, counted in one pass.
   */
  method ConfidenceDistribution(rows: seq<QueryRow>) returns (d: Distribution)
    ensures d.totalCount == |PresentScores(rows)|
    ensures d.totalCount == 0 ==> d.bins == []
    ensures d.totalCount > 0 ==>
      |d.bins| == 5 && forall i | 0 <= i < 5 :: d.bins[i] == Bin(BinRanges[i], CountBin(PresentScores(rows), i))
    ensures SumBins(d.bins) == d.totalCount
  {
    var scores := PresentScores(rows);
    if scores == [] {
      return Distribution(0, []);
    }
    var counts: seq<nat> := [0, 0, 0, 0, 0];
    var j := 0;
    while j < |scores|
      invariant j <= |scores|
      invariant |counts| == 5
      invariant forall i | 0 <= i < 5 :: counts[i] == CountBin(scores[..j], i)
    {
      var b := BinOf(scores[j]);
      assert scores[..j + 1] == scores[..j] + [scores[j]];
      forall i | 0 <= i < 5 {
        CountBinSnoc(scores[..j], scores[j], i);
      }
      counts := counts[b := counts[b] + 1];
      j := j + 1;
    }
    assert scores[..j] == scores;
    BinsAddUp(scores);
    var bins := seq(5, i requires 0 <= i < 5 => Bin(BinRanges[i], counts[i]));
    SumFiveBins(bins);
    d := Distribution(|scores|, bins);
  }
}

=== FILE: chunker.dfy ===
/**
 * `Chunker`: the paragraph chunker that prepares the offline knowledge
 * base. The document is split at blank lines; paragraphs are appended to
 * the current chunk until the next one would take it past 500 characters,
 * at which point the chunk is emitted (stripped) and the next one starts
 * with the last ten words of the old one. The final chunk is emitted only
 * if it holds more than whitespace.
 *
 * The chunker is written once, with a switch for the one condition that
 * differs between the code as written (a chunk is flushed whenever it is
 * non-empty, so a whitespace-only chunk can be emitted as "") and the
 * corrected chunker (a chunk is flushed only when it holds text).
 */
module Chunker {
  import opened Wrappers
  import opened Strings

  const ChunkSize: nat := 500
  const ParagraphBreak := "\n\n"
  const OverlapWords: nat := 10

  datatype ChunkRecord = ChunkRecord(chunkIndex: nat, chunkText: string, position: string)

  /** The chunks emitted so far and the chunk being built. */
  datatype State = State(chunks: seq<ChunkRecord>, current: string)

  /** Indices run 0, 1, 2, …, positions are their one-based decimal texts, and texts are stripped. */
  ghost predicate WellFormed(chunks: seq<ChunkRecord>) {
    forall k | 0 <= k < |chunks| ::
      chunks[k].chunkIndex == k && chunks[k].position == NatToString(k + 1) &&
      Strip(chunks[k].chunkText) == chunks[k].chunkText
  }

  ghost predicate NonBlank(chunks: seq<ChunkRecord>) {
    forall k | 0 <= k < |chunks| :: chunks[k].chunkText != ""
  }

  /** Append the stripped `text` as the next chunk. */
  function Emit(chunks: seq<ChunkRecord>, text: string): (r: seq<ChunkRecord>)
    requires WellFormed(chunks)
    ensures WellFormed(r)
    ensures |r| == |chunks| + 1 && r[..|chunks|] == chunks
    ensures r[|chunks|].chunkText == Strip(text)
  {
    StripIdempotent(text);
    chunks + [ChunkRecord(|chunks|, Strip(text), NatToString(|chunks| + 1))]
  }

  /** `words[-10:] if len(words) > 10 else words`. */
  function LastWords(ws: seq<string>): (r: seq<string>)
    ensures |r| == if |ws| > OverlapWords then OverlapWords else |ws|
    ensures r == ws[|ws| - |r|..]
  {
    if |ws| > OverlapWords then ws[|ws| - OverlapWords..] else ws
  }

  /** The overlap carried into the next chunk: its last words, single-spaced. */
  function Overlap(current: string): string {
    Join(LastWords(Words(current)), " ")
  }

  /** The flush test; `asWritten` flushes any non-empty chunk, the corrected test only one holding text. */
  predicate Flushes(st: State, para: string, asWritten: bool) {
    |st.current| + |para| > ChunkSize &&
    (if asWritten then st.current != "" else Strip(st.current) != "")
  }

  /** One paragraph of the loop. */
  function Step(st: State, para: string, asWritten: bool): (r: State)
    requires WellFormed(st.chunks)
    ensures WellFormed(r.chunks)
    ensures !asWritten && NonBlank(st.chunks) ==> NonBlank(r.chunks)
  {
    if Flushes(st, para, asWritten) then
      State(Emit(st.chunks, st.current), Overlap(st.current) + ParagraphBreak + para)
    else
      State(st.chunks, if st.current != "" then st.current + ParagraphBreak + para else para)
  }

  /** The loop over the paragraphs, in order. */
  function Run(paras: seq<string>, st: State, asWritten: bool): (r: State)
    requires WellFormed(st.chunks)
    ensures WellFormed(r.chunks)
    ensures !asWritten && NonBlank(st.chunks) ==> NonBlank(r.chunks)
  {
    if paras == [] then st else Run(paras[1..], Step(st, paras[0], asWritten), asWritten)
  }

  /** After the loop: the last chunk, if it holds text. */
  function Finish(st: State): (r: seq<ChunkRecord>)
    requires WellFormed(st.chunks)
    ensures WellFormed(r)
    ensures NonBlank(st.chunks) ==> NonBlank(r)
  {
    if Strip(st.current) != "" then Emit(st.chunks, st.current) else st.chunks
  }

  function Chunks(content: string, asWritten: bool): seq<ChunkRecord> {
    Finish(Run(SplitOn(content, ParagraphBreak), State([], ""), asWritten))
  }

  /**
   * `chunk_document` as written: well numbered and stripped, but a chunk
   * that is only whitespace is emitted as "" when the next paragraph
   * overflows it.
   */
  function ChunkDocumentAsWritten(content: string): (r: seq<ChunkRecord>)
    ensures WellFormed(r)
  {
    Chunks(content, true)
  }

  /**
   * `chunk_document` with the flush test the final chunk already uses:
   * well numbered, stripped, no empty chunk, and no chunks exactly when the
   * document is whitespace only.
   */
  function ChunkDocument(content: string): (r: seq<ChunkRecord>)
    ensures WellFormed(r) && NonBlank(r)
    ensures r == [] <==> AllSpace(content)
  {
    var paras := SplitOn(content, ParagraphBreak);
    CorrectedChunksEmptyIffBlank(content);
    Chunks(content, false)
  }

  // ---------------------------------------------------------------------
  // The overlap

  /** Joining words with single spaces and splitting them again gives the words back. */
  lemma {:induction false} WordsOfJoin(ws: seq<string>)
    requires forall k | 0 <= k < |ws| :: IsWord(ws[k])
    ensures Words(Join(ws, " ")) == ws
  {
    if |ws| == 0 {
      assert AllSpace("");
    } else if |ws| == 1 {
      WordsOfWord(ws[0]);
    } else {
      WordsOfJoin(ws[1..]);
      WordsOfWordSpace(ws[0], Join(ws[1..], " "));
    }
  }

  /** After a flush the new chunk opens with the old chunk's last (at most ten) words. */
  lemma OverlapKeepsLastWords(st: State, para: string, asWritten: bool)
    requires WellFormed(st.chunks) && Flushes(st, para, asWritten)
    ensures var r := Step(st, para, asWritten);
      r.current == Overlap(st.current) + ParagraphBreak + para &&
      Words(Overlap(st.current)) == LastWords(Words(st.current))
  {
    OverlapSplitsBack(st.current);
  }

  /** Splitting the overlap again gives back the words it was made of. */
  lemma OverlapSplitsBack(current: string)
    ensures Words(Overlap(current)) == LastWords(Words(current))
  {
    var all := Words(current);
    var ws := LastWords(all);
    assert forall k | 0 <= k < |ws| :: ws[k] == all[|all| - |ws| + k];
    WordsOfJoin(ws);
  }

  // ---------------------------------------------------------------------
  // No content is dropped

  /** A stripped, non-blank piece of `s` survives stripping `s`. */
  lemma StrippedInStrip(s: string, u: string)
    requires Contains(s, u) && u != [] && !IsSpace(u[0]) && !IsSpace(u[|u| - 1])
    ensures Strip(s) != [] && Contains(Strip(s), u)
  {
    var i := ContainsWitness(s, u);
    StripBounds(s, i, |u|);
    StripIsSlice(s);
    ContainsInSlice(s, FirstNonSpace(s), EndNonSpace(s), u, i);
  }

  /** A slice with non-whitespace ends lies between the outer whitespace runs. */
  lemma StripBounds(s: string, i: nat, n: nat)
    requires 0 < n && i + n <= |s| && !IsSpace(s[i]) && !IsSpace(s[i + n - 1])
    ensures !AllSpace(s) && FirstNonSpace(s) <= i && i + n <= EndNonSpace(s)
  {
    assert !AllSpace(s);
  }

  lemma StripIsSlice(s: string)
    requires !AllSpace(s)
    ensures Strip(s) == s[FirstNonSpace(s)..EndNonSpace(s)]
  {
  }

  /** An occurrence inside `s[f..e]` is an occurrence in that slice. */
  lemma ContainsInSlice(s: string, f: nat, e: nat, u: string, i: nat)
    requires f <= i && i + |u| <= e <= |s| && s[i..i + |u|] == u
    ensures Contains(s[f..e], u)
  {
    SliceOfSlice(s, s[f..e], f, e, i, |u|);
    ContainsAt(s[f..e], u, i - f);
  }

  /** A slice of the slice `s[f..e]` is the corresponding slice of `s`. */
  lemma SliceOfSlice(s: string, t: string, f: nat, e: nat, i: nat, n: nat)
    requires f <= i && i + n <= e <= |s| && t == s[f..e]
    ensures t[i - f..i - f + n] == s[i..i + n]
  {
    var a, b := t[i - f..i - f + n], s[i..i + n];
    assert |a| == n == |b|;
    forall k | 0 <= k < n ensures a[k] == b[k] {
      assert a[k] == t[i - f + k] == s[i + k];
    }
  }

  /** The stripped paragraph occurs in any text that ends with the paragraph. */
  lemma StripInTail(pre: string, p: string)
    ensures Contains(pre + p, Strip(p))
  {
    var s, u := pre + p, Strip(p);
    if u == [] {
      ContainsAt(s, [], 0);
    } else {
      var f, e := FirstNonSpace(p), EndNonSpace(p);
      assert u == p[f..e];
      TailSlice(pre, p, f, e);
      assert s[|pre| + f..|pre| + f + |u|] == u;
      ContainsAt(s, u, |pre| + f);
    }
  }

  /** A slice of the tail of `pre + p` is the corresponding slice of `p`. */
  lemma TailSlice(pre: string, p: string, i: nat, j: nat)
    requires i <= j <= |p|
    ensures (pre + p)[|pre| + i..|pre| + j] == p[i..j]
  {
    var a, b := (pre + p)[|pre| + i..|pre| + j], p[i..j];
    assert |a| == |b|;
    forall k | 0 <= k < |a| ensures a[k] == b[k] {
      assert a[k] == (pre + p)[|pre| + i + k] == p[i + k];
    }
  }

  /** An occurrence in a prefix is an occurrence in the whole. */
  lemma ContainsInPrefix(a: string, b: string, u: string)
    requires Contains(a, u)
    ensures Contains(a + b, u)
  {
    var i := ContainsWitness(a, u);
    assert (a + b)[i..i + |u|] == a[i..i + |u|];
    ContainsAt(a + b, u, i);
  }

  /** Every paragraph with text so far occurs in the current chunk or in an emitted chunk. */
  ghost predicate Covered(done: seq<string>, st: State) {
    forall i | 0 <= i < |done| && Strip(done[i]) != "" ::
      Contains(st.current, Strip(done[i])) ||
      exists k | 0 <= k < |st.chunks| :: Contains(st.chunks[k].chunkText, Strip(done[i]))
  }

  /** The occurrence of a stripped paragraph in the current chunk is kept by whatever follows. */
  lemma KeptInStep(st: State, para: string, asWritten: bool, u: string)
    requires WellFormed(st.chunks)
    requires u != [] && !IsSpace(u[0]) && !IsSpace(u[|u| - 1])
    requires Contains(st.current, u)
    ensures var r := Step(st, para, asWritten);
      Contains(r.current, u) || (|r.chunks| > |st.chunks| && Contains(r.chunks[|st.chunks|].chunkText, u))
  {
    var r := Step(st, para, asWritten);
    StrippedInStrip(st.current, u);
    if Flushes(st, para, asWritten) {
      assert r.chunks == Emit(st.chunks, st.current);
    } else {
      assert st.current != "";
      assert r.current == st.current + ParagraphBreak + para;
      ContainsInPrefix(st.current, ParagraphBreak + para, u);
      assert st.current + (ParagraphBreak + para) == st.current + ParagraphBreak + para;
    }
  }

  lemma StepCovered(done: seq<string>, st: State, para: string, asWritten: bool)
    requires WellFormed(st.chunks) && Covered(done, st)
    ensures Covered(done + [para], Step(st, para, asWritten))
  {
    var r := Step(st, para, asWritten);
    var done' := done + [para];
    forall i | 0 <= i < |done'| && Strip(done'[i]) != ""
      ensures Contains(r.current, Strip(done'[i])) ||
              exists k | 0 <= k < |r.chunks| :: Contains(r.chunks[k].chunkText, Strip(done'[i]))
    {
      if i == |done| {
        NewParaCovered(st, para, asWritten);
      } else {
        assert done'[i] == done[i];
        OldParaCovered(st, para, asWritten, Strip(done[i]));
      }
    }
  }

  /** The paragraph just added occurs, stripped, in the new current chunk. */
  lemma NewParaCovered(st: State, para: string, asWritten: bool)
    requires WellFormed(st.chunks)
    ensures Contains(Step(st, para, asWritten).current, Strip(para))
  {
    var r := Step(st, para, asWritten);
    if Flushes(st, para, asWritten) {
      StripInTail(Overlap(st.current) + ParagraphBreak, para);
      assert r.current == Overlap(st.current) + ParagraphBreak + para;
    } else if st.current != "" {
      StripInTail(st.current + ParagraphBreak, para);
      assert r.current == st.current + ParagraphBreak + para;
    } else {
      StripInTail([], para);
      assert [] + para == para;
    }
  }

  /** A stripped paragraph covered before a step is covered after it. */
  lemma OldParaCovered(st: State, para: string, asWritten: bool, u: string)
    requires WellFormed(st.chunks)
    requires u != [] && !IsSpace(u[0]) && !IsSpace(u[|u| - 1])
    requires Contains(st.current, u) || exists k | 0 <= k < |st.chunks| :: Contains(st.chunks[k].chunkText, u)
    ensures var r := Step(st, para, asWritten);
      Contains(r.current, u) || exists k | 0 <= k < |r.chunks| :: Contains(r.chunks[k].chunkText, u)
  {
    var r := Step(st, para, asWritten);
    assert r.chunks[..|st.chunks|] == st.chunks;
    if Contains(st.current, u) {
      KeptInStep(st, para, asWritten, u);
    } else {
      var k :| 0 <= k < |st.chunks| && Contains(st.chunks[k].chunkText, u);
      assert r.chunks[k] == st.chunks[k];
    }
  }

  lemma {:induction false} RunCovered(done: seq<string>, paras: seq<string>, st: State, asWritten: bool)
    requires WellFormed(st.chunks) && Covered(done, st)
    ensures Covered(done + paras, Run(paras, st, asWritten))
    decreases paras
  {
    if paras == [] {
      assert done + paras == done;
    } else {
      StepCovered(done, st, paras[0], asWritten);
      assert done + [paras[0]] + paras[1..] == done + paras;
      RunCovered(done + [paras[0]], paras[1..], Step(st, paras[0], asWritten), asWritten);
    }
  }

  /** Emitting the last chunk leaves every paragraph with text inside some chunk. */
  lemma FinishCovered(paras: seq<string>, st: State)
    requires WellFormed(st.chunks) && Covered(paras, st)
    ensures forall i | 0 <= i < |paras| && Strip(paras[i]) != "" ::
      exists k | 0 <= k < |Finish(st)| :: Contains(Finish(st)[k].chunkText, Strip(paras[i]))
  {
    var r := Finish(st);
    assert r[..|st.chunks|] == st.chunks;
    forall i | 0 <= i < |paras| && Strip(paras[i]) != ""
      ensures exists k | 0 <= k < |r| :: Contains(r[k].chunkText, Strip(paras[i]))
    {
      var u := Strip(paras[i]);
      if Contains(st.current, u) {
        StrippedInStrip(st.current, u);
        assert r[|st.chunks|].chunkText == Strip(st.current);
      } else {
        var k :| 0 <= k < |st.chunks| && Contains(st.chunks[k].chunkText, u);
        assert r[k] == st.chunks[k];
      }
    }
  }

  /** No content is dropped: each paragraph's text lands, stripped, in some chunk (in both versions). */
  lemma NothingDropped(content: string, asWritten: bool, i: nat)
    requires i < |SplitOn(content, ParagraphBreak)|
    requires Strip(SplitOn(content, ParagraphBreak)[i]) != ""
    ensures exists k | 0 <= k < |Chunks(content, asWritten)| ::
      Contains(Chunks(content, asWritten)[k].chunkText, Strip(SplitOn(content, ParagraphBreak)[i]))
  {
    var paras := SplitOn(content, ParagraphBreak);
    var st := Run(paras, State([], ""), asWritten);
    RunCovered([], paras, State([], ""), asWritten);
    assert [] + paras == paras;
    FinishCovered(paras, st);
    assert Chunks(content, asWritten) == Finish(st);
    assert Strip(paras[i]) != "";
  }

  // ---------------------------------------------------------------------
  // Whitespace-only documents

  /** With only blank paragraphs, the corrected chunker never flushes and its chunk stays blank. */
  lemma {:induction false} RunBlank(paras: seq<string>, st: State)
    requires WellFormed(st.chunks) && st.chunks == [] && AllSpace(st.current)
    requires forall k | 0 <= k < |paras| :: AllSpace(paras[k])
    ensures Run(paras, st, false).chunks == [] && AllSpace(Run(paras, st, false).current)
  {
    if paras != [] {
      var r := Step(st, paras[0], false);
      assert Strip(st.current) == "";
      assert AllSpace(ParagraphBreak);
      assert AllSpace(st.current + ParagraphBreak + paras[0]);
      RunBlank(paras[1..], r);
    }
  }

  /** A join of blank parts with a blank separator is blank. */
  lemma {:induction false} JoinBlank(parts: seq<string>, sep: string)
    requires AllSpace(sep) && forall k | 0 <= k < |parts| :: AllSpace(parts[k])
    ensures AllSpace(Join(parts, sep))
  {
    if |parts| > 1 {
      JoinBlank(parts[1..], sep);
      assert AllSpace(parts[0] + sep + Join(parts[1..], sep));
    }
  }

  lemma CorrectedChunksEmptyIffBlank(content: string)
    ensures Chunks(content, false) == [] <==> AllSpace(content)
  {
    var paras := SplitOn(content, ParagraphBreak);
    if forall k | 0 <= k < |paras| :: AllSpace(paras[k]) {
      assert AllSpace(ParagraphBreak);
      JoinBlank(paras, ParagraphBreak);
      RunBlank(paras, State([], ""));
    } else {
      var i :| 0 <= i < |paras| && !AllSpace(paras[i]);
      NothingDropped(content, false, i);
      assert !AllSpace(Join(paras, ParagraphBreak)) by {
        NonBlankPartInJoin(paras, ParagraphBreak, i);
      }
    }
  }

  /** A part with text makes the join hold text. */
  lemma {:induction false} NonBlankPartInJoin(parts: seq<string>, sep: string, i: nat)
    requires i < |parts| && !AllSpace(parts[i])
    ensures !AllSpace(Join(parts, sep))
  {
    var j := Join(parts, sep);
    if |parts| == 1 {
    } else if i == 0 {
      var k :| 0 <= k < |parts[0]| && !IsSpace(parts[0][k]);
      assert j[k] == parts[0][k];
    } else {
      NonBlankPartInJoin(parts[1..], sep, i - 1);
      var rest := Join(parts[1..], sep);
      var k :| 0 <= k < |rest| && !IsSpace(rest[k]);
      assert j[|parts[0]| + |sep| + k] == rest[k];
    }
  }

  // ---------------------------------------------------------------------
  // The blank chunk of the code as written

  function Spaces(n: nat): (s: string)
    ensures |s| == n && AllSpace(s)
    ensures forall k | 0 <= k < n :: s[k] == ' '
  {
    seq(n, _ => ' ')
  }

  /** A run of `n` spaces, a paragraph break, and one more space. */
  function BlankDocument(n: nat): string {
    Spaces(n) + ParagraphBreak + " "
  }

  lemma SplitBlankDocument(n: nat)
    ensures SplitOn(BlankDocument(n), ParagraphBreak) == [Spaces(n), " "]
  {
    var s := BlankDocument(n);
    assert s[n..n + 2] == ParagraphBreak;
    ContainsAt(s, ParagraphBreak, n);
    var f := Find(s, ParagraphBreak);
    assert f.Some?;
    assert s[f.value] == '\n';
    assert f.value == n by {
      assert forall k | 0 <= k < n :: s[k] == ' ';
      assert ParagraphBreak <= s[n..];
    }
    assert s[n + 2..] == " ";
    assert Find(" ", ParagraphBreak) == None by {
      NoRoomNoOccurrence(" ", ParagraphBreak);
    }
  }

  /**
   * The code as written emits a blank chunk for a whitespace-only document
   * whose first paragraph is longer than a chunk, so the document is stored
   * instead of being reported as failed; the corrected chunker emits
   * nothing for it.
   */
  lemma BlankChunkAsWritten(n: nat)
    requires n > ChunkSize
    ensures AllSpace(BlankDocument(n))
    ensures ChunkDocumentAsWritten(BlankDocument(n)) == [ChunkRecord(0, "", "1")]
    ensures ChunkDocument(BlankDocument(n)) == []
  {
    BlankDocumentIsBlank(n);
    BlankChunksAsWritten(n);
  }

  lemma BlankDocumentIsBlank(n: nat)
    ensures AllSpace(BlankDocument(n))
  {
    var s := BlankDocument(n);
    forall k | 0 <= k < |s| ensures IsSpace(s[k]) {
      if k < n {
        assert s[k] == Spaces(n)[k];
      }
    }
  }

  lemma BlankChunksAsWritten(n: nat)
    requires n > ChunkSize
    ensures ChunkDocumentAsWritten(BlankDocument(n)) == [ChunkRecord(0, "", "1")]
  {
    var w := Spaces(n);
    SplitBlankDocument(n);
    ChunksOfParagraphs(BlankDocument(n), [w, " "], true);
    BlankRunAsWritten(w);
    FinishBlank();
  }

  lemma ChunksOfParagraphs(content: string, paras: seq<string>, asWritten: bool)
    requires SplitOn(content, ParagraphBreak) == paras
    ensures Chunks(content, asWritten) == Finish(Run(paras, State([], ""), asWritten))
  {
  }

  lemma BlankRunAsWritten(w: string)
    requires AllSpace(w) && |w| > ChunkSize
    ensures Run([w, " "], State([], ""), true) == State([ChunkRecord(0, "", "1")], ParagraphBreak + " ")
  {
    RunPair(w, " ", State([], ""), true);
    FirstBlankStep(w);
    SecondBlankStep(w);
  }

  /** Two paragraphs are two steps. */
  lemma RunPair(a: string, b: string, st: State, asWritten: bool)
    requires WellFormed(st.chunks)
    ensures Run([a, b], st, asWritten) == Step(Step(st, a, asWritten), b, asWritten)
  {
    var st1 := Step(st, a, asWritten);
    assert [a, b][1..] == [b];
    assert Run([b], st1, asWritten) == Run([], Step(st1, b, asWritten), asWritten);
  }

  /** The blank remainder after the flush is not emitted. */
  lemma FinishBlank()
    ensures WellFormed([ChunkRecord(0, "", "1")])
    ensures Finish(State([ChunkRecord(0, "", "1")], ParagraphBreak + " ")) == [ChunkRecord(0, "", "1")]
  {
    assert NatToString(1) == "1";
    assert AllSpace(ParagraphBreak + " ");
  }

  /** The blank paragraph starts the chunk. */
  lemma FirstBlankStep(w: string)
    requires AllSpace(w) && |w| > ChunkSize
    ensures Step(State([], ""), w, true) == State([], w)
  {
  }

  /** The next paragraph overflows it, and the code as written emits it stripped, as "". */
  lemma SecondBlankStep(w: string)
    requires AllSpace(w) && |w| > ChunkSize
    ensures Step(State([], w), " ", true) == State([ChunkRecord(0, "", "1")], ParagraphBreak + " ")
  {
    BlankOverlap(w);
    assert Flushes(State([], w), " ", true);
    assert Emit([], w) == [ChunkRecord(0, "", "1")] by {
      assert NatToString(1) == "1";
    }
  }

  lemma BlankOverlap(w: string)
    requires AllSpace(w)
    ensures Strip(w) == "" && Overlap(w) == ""
  {
    assert Words(w) == [];
  }

  // ---------------------------------------------------------------------
  // process_document

  datatype Outcome = Failed(error: string) | Stored(chunkCount: nat)

  /** A document that yields no chunks is reported as failed. */
  function ChunkingOutcome(chunks: seq<ChunkRecord>): (o: Outcome)
    ensures o.Failed? <==> chunks == []
    ensures o.Stored? ==> o.chunkCount == |chunks|
  {
    if chunks == [] then Failed("Failed to chunk document") else Stored(|chunks|)
  }

  /** With the corrected chunker, a document fails exactly when it is whitespace only. */
  lemma FailsIffBlank(content: string)
    ensures ChunkingOutcome(ChunkDocument(content)).Failed? <==> AllSpace(content)
  {
  }
}

=== FILE: confidence.dfy ===
/**
 * `ConfidenceScorer`: four factor scores combine into one weighted
 * confidence, which decides between answering automatically and handing
 * the query to a person. Percentages in the texts (`{x:.0%}`) are printed
 * by a `percent` parameter. The breakdown reports every number rounded to
 * three decimals, and everything read from it (the escalation reason, the
 * explanation, the priority) sees the rounded values; only the action is
 * decided on the exact sum.
 */
module Confidence {
  import opened Wrappers
  import opened Strings

  /** The four factors, in the order the weakest-factor search visits them. */
  datatype Factor = IdentityFactor | IntentFactor | RagFactor | LlmFactor

  const FactorOrder: seq<Factor> := [IdentityFactor, IntentFactor, RagFactor, LlmFactor]

  /** The key each factor has in the breakdown. */
  function FactorKey(f: Factor): string {
    match f
    case IdentityFactor => "identity"
    case IntentFactor => "intent"
    case RagFactor => "rag"
    case LlmFactor => "llm"
  }

  /** The phrase `explain_confidence` uses for the weakest factor. */
  function FactorPhrase(f: Factor): string {
    match f
    case IdentityFactor => "identity matching"
    case IntentFactor => "intent classification"
    case RagFactor => "knowledge base relevance"
    case LlmFactor => "response quality"
  }

  datatype Weights = Weights(identity: real, intent: real, rag: real, llm: real)

  /** The configured weights: 30% identity, 20% intent, 25% each for retrieval and the model. */
  const DefaultWeights := Weights(0.30, 0.20, 0.25, 0.25)

  /** `confidence_threshold_auto_respond`. */
  const DefaultThreshold: real := 0.80

  /** The score a factor gets when the caller has none. */
  const MissingScore: real := 0.5

  datatype Scores = Scores(identity: real, intent: real, rag: real, llm: real)

  function ScoreOf(s: Scores, f: Factor): real {
    match f
    case IdentityFactor => s.identity
    case IntentFactor => s.intent
    case RagFactor => s.rag
    case LlmFactor => s.llm
  }

  datatype Action = AutoRespond | Escalate

  // ---------------------------------------------------------------------
  // round(x, 3)

  /** The integer nearest to `v`, a tie going to the even one. */
  function RoundHalfEven(v: real): (n: int)
    ensures -0.5 <= n as real - v <= 0.5
    ensures v == v.Floor as real ==> n == v.Floor
  {
    var f := v.Floor;
    var frac := v - f as real;
    if frac < 0.5 then f
    else if frac > 0.5 then f + 1
    else if f % 2 == 0 then f
    else f + 1
  }

  /** Rounding to an integer never reverses an order. */
  lemma RoundHalfEvenMonotone(u: real, v: real)
    requires u <= v
    ensures RoundHalfEven(u) <= RoundHalfEven(v)
  {
    var fu, fv := u.Floor, v.Floor;
    if fu == fv {
      assert u - fu as real <= v - fv as real;
    } else {
      assert fu + 1 <= fv;
    }
  }

  /** Python's `round(x, 3)`: the nearest multiple of 0.001, a tie going to the even multiple. */
  function Round3(x: real): (r: real)
    ensures -0.0005 <= r - x <= 0.0005
  {
    RoundHalfEven(x * 1000.0) as real / 1000.0
  }

  /** Rounding keeps the order of its inputs (possibly making them equal). */
  lemma Round3Monotone(x: real, y: real)
    requires x <= y
    ensures Round3(x) <= Round3(y)
  {
    RoundHalfEvenMonotone(x * 1000.0, y * 1000.0);
  }

  /** A number with three decimals is its own rounding. */
  lemma Round3Exact(k: int)
    ensures Round3(k as real / 1000.0) == k as real / 1000.0
  {
    var v := k as real / 1000.0 * 1000.0;
    assert v == k as real;
    assert v.Floor == k;
  }

  /** Rounding twice is rounding once. */
  lemma Round3Idempotent(x: real)
    ensures Round3(Round3(x)) == Round3(x)
  {
    Round3Exact(RoundHalfEven(x * 1000.0));
  }

  /** Rounding keeps a proportion a proportion. */
  lemma Round3InUnit(x: real)
    requires InUnit(x)
    ensures InUnit(Round3(x))
  {
    Round3Monotone(0.0, x);
    Round3Monotone(x, 1.0);
    Round3Exact(0);
    Round3Exact(1000);
  }

  /** The scores `calculate_confidence` works with: a missing one counts as 0.5. */
  function InputScores(identity: Option<real>, intent: Option<real>, rag: Option<real>,
                       llm: Option<real>): (s: Scores)
    ensures identity.Some? ==> s.identity == identity.value
    ensures identity.None? ==> s.identity == MissingScore
    ensures intent.Some? ==> s.intent == intent.value
    ensures intent.None? ==> s.intent == MissingScore
    ensures rag.Some? ==> s.rag == rag.value
    ensures rag.None? ==> s.rag == MissingScore
    ensures llm.Some? ==> s.llm == llm.value
    ensures llm.None? ==> s.llm == MissingScore
  {
    Scores(identity.GetOr(MissingScore), intent.GetOr(MissingScore),
           rag.GetOr(MissingScore), llm.GetOr(MissingScore))
  }

  /** Every score rounded to three decimals, as the breakdown reports them. */
  function RoundScores(s: Scores): (r: Scores)
    ensures forall f | f in FactorOrder :: ScoreOf(r, f) == Round3(ScoreOf(s, f))
  {
    Scores(Round3(s.identity), Round3(s.intent), Round3(s.rag), Round3(s.llm))
  }

  /** The least exact score is still a least score once every score is rounded. */
  lemma RoundKeepsWeakest(s: Scores)
    ensures forall g | g in FactorOrder :: ScoreOf(RoundScores(s), Weakest(s)) <= ScoreOf(RoundScores(s), g)
  {
    forall g | g in FactorOrder
      ensures ScoreOf(RoundScores(s), Weakest(s)) <= ScoreOf(RoundScores(s), g)
    {
      Round3Monotone(ScoreOf(s, Weakest(s)), ScoreOf(s, g));
    }
  }

  /**
   * What `calculate_confidence` returns: the weighted sum and every score
   * rounded to three decimals, the action decided on the exact sum, and the
   * weakest factor chosen on the exact scores.
   */
  datatype Breakdown = Breakdown(
    overall: real,
    scores: Scores,
    action: Action,
    threshold: real,
    weakest: Factor)

  function WeightedSum(w: Weights, s: Scores): real {
    s.identity * w.identity + s.intent * w.intent + s.rag * w.rag + s.llm * w.llm
  }

  /** `min(factors_list, key=...)`: the first factor with the least score. */
  function Weakest(s: Scores): (f: Factor)
    ensures forall g | g in FactorOrder :: ScoreOf(s, f) <= ScoreOf(s, g)
    ensures f == IntentFactor ==> s.identity > s.intent
    ensures f == RagFactor ==> s.identity > s.rag && s.intent > s.rag
    ensures f == LlmFactor ==> s.identity > s.llm && s.intent > s.llm && s.rag > s.llm
  {
    var f1 := if s.intent < s.identity then IntentFactor else IdentityFactor;
    var f2 := if s.rag < ScoreOf(s, f1) then RagFactor else f1;
    if s.llm < ScoreOf(s, f2) then LlmFactor else f2
  }

  /**
   * `calculate_confidence`: absent scores count as 0.5; the action is to
   * answer automatically exactly when the exact weighted sum reaches the
   * threshold, while the reported confidence and scores are rounded.
   */
  function CalculateConfidence(w: Weights, threshold: real, identity: Option<real>,
                               intent: Option<real>, rag: Option<real>, llm: Option<real>)
    : (b: Breakdown)
    ensures var exact := InputScores(identity, intent, rag, llm);
      forall f | f in FactorOrder :: ScoreOf(b.scores, f) == Round3(ScoreOf(exact, f))
    ensures var exact := InputScores(identity, intent, rag, llm);
      b.overall == Round3(WeightedSum(w, exact))
    ensures var exact := InputScores(identity, intent, rag, llm);
      b.action == AutoRespond <==> WeightedSum(w, exact) >= threshold
    ensures b.threshold == threshold
    ensures var exact := InputScores(identity, intent, rag, llm);
      forall g | g in FactorOrder :: ScoreOf(exact, b.weakest) <= ScoreOf(exact, g)
    ensures forall g | g in FactorOrder :: ScoreOf(b.scores, b.weakest) <= ScoreOf(b.scores, g)
  {
    var exact := InputScores(identity, intent, rag, llm);
    var sum := WeightedSum(w, exact);
    RoundKeepsWeakest(exact);
    Breakdown(Round3(sum), RoundScores(exact), if sum >= threshold then AutoRespond else Escalate,
              threshold, Weakest(exact))
  }

  predicate InUnit(x: real) { 0.0 <= x <= 1.0 }

  /** With the default weights, unit-range scores give a unit-range confidence, exact and reported. */
  lemma OverallInUnitRange(identity: real, intent: real, rag: real, llm: real)
    requires InUnit(identity) && InUnit(intent) && InUnit(rag) && InUnit(llm)
    ensures InUnit(WeightedSum(DefaultWeights, Scores(identity, intent, rag, llm)))
    ensures InUnit(CalculateConfidence(DefaultWeights, DefaultThreshold, Some(identity),
                                       Some(intent), Some(rag), Some(llm)).overall)
  {
    Round3InUnit(WeightedSum(DefaultWeights, Scores(identity, intent, rag, llm)));
  }

  /**
   * Raising any one factor's score (with non-negative weights) never lowers
   * the confidence, so it never turns an automatic answer into an escalation.
   */
  lemma RaisingAScoreNeverEscalates(w: Weights, threshold: real, s: Scores, t: Scores)
    requires w.identity >= 0.0 && w.intent >= 0.0 && w.rag >= 0.0 && w.llm >= 0.0
    requires forall f | f in FactorOrder :: ScoreOf(s, f) <= ScoreOf(t, f)
    ensures WeightedSum(w, s) <= WeightedSum(w, t)
    ensures var bs := CalculateConfidence(w, threshold, Some(s.identity), Some(s.intent), Some(s.rag), Some(s.llm));
      var bt := CalculateConfidence(w, threshold, Some(t.identity), Some(t.intent), Some(t.rag), Some(t.llm));
      bs.action == AutoRespond ==> bt.action == AutoRespond
  {
    assert ScoreOf(s, IdentityFactor) <= ScoreOf(t, IdentityFactor);
    assert ScoreOf(s, IntentFactor) <= ScoreOf(t, IntentFactor);
    assert ScoreOf(s, RagFactor) <= ScoreOf(t, RagFactor);
    assert ScoreOf(s, LlmFactor) <= ScoreOf(t, LlmFactor);
    MulMonotone(s.identity, t.identity, w.identity);
    MulMonotone(s.intent, t.intent, w.intent);
    MulMonotone(s.rag, t.rag, w.rag);
    MulMonotone(s.llm, t.llm, w.llm);
  }

  lemma MulMonotone(a: real, b: real, c: real)
    requires a <= b && c >= 0.0
    ensures a * c <= b * c
  {
  }

  /** `should_escalate`. */
  function ShouldEscalate(b: Breakdown): (r: bool)
    ensures r <==> b.action == Escalate
  {
    b.action == Escalate
  }

  /**
   * A fresh breakdown escalates exactly when its exact confidence is below
   * the threshold. For a threshold with at most three decimals the reported
   * confidence agrees except at the threshold itself: an escalated
   * breakdown may report exactly the threshold, but never more.
   */
  lemma ShouldEscalateBelowThreshold(w: Weights, threshold: real, identity: Option<real>,
                                     intent: Option<real>, rag: Option<real>, llm: Option<real>)
    ensures var b := CalculateConfidence(w, threshold, identity, intent, rag, llm);
      ShouldEscalate(b) <==> WeightedSum(w, InputScores(identity, intent, rag, llm)) < threshold
    ensures var b := CalculateConfidence(w, threshold, identity, intent, rag, llm);
      Round3(threshold) == threshold ==>
        (b.overall < threshold ==> ShouldEscalate(b)) && (ShouldEscalate(b) ==> b.overall <= threshold)
  {
    var b := CalculateConfidence(w, threshold, identity, intent, rag, llm);
    var sum := WeightedSum(w, InputScores(identity, intent, rag, llm));
    if Round3(threshold) == threshold {
      if sum >= threshold {
        Round3Monotone(threshold, sum);
      } else {
        Round3Monotone(sum, threshold);
      }
    }
  }

  // ---------------------------------------------------------------------
  // get_escalation_reason

  /** The reason given first when the reported confidence misses the threshold. */
  function ThresholdReason(b: Breakdown, percent: real -> string): string {
    "Overall confidence (" + percent(b.overall) + ") below threshold (" + percent(b.threshold) + ")"
  }

  /** The reasons drawn from single scores, in the order they are checked. */
  function FactorReasons(s: Scores): (r: seq<string>)
    ensures s.identity < 0.5 <==> "Unable to confidently identify user" in r
    ensures s.intent < 0.6 <==> "Unclear intent or ambiguous question" in r
    ensures s.rag < 0.6 <==> "No relevant knowledge base information found" in r
    ensures s.llm < 0.6 <==> r != [] && r[|r| - 1] == "LLM not confident in generated response"
    ensures r == [] <==> s.identity >= 0.5 && s.intent >= 0.6 && s.rag >= 0.6 && s.llm >= 0.6
    ensures forall k | 0 <= k < |r| :: r[k] != [] && r[k][0] != 'O'
  {
    (if s.identity < 0.5 then ["Unable to confidently identify user"] else []) +
    (if s.intent < 0.6 then ["Unclear intent or ambiguous question"] else []) +
    (if s.rag < 0.6 then ["No relevant knowledge base information found"] else []) +
    (if s.llm < 0.6 then ["LLM not confident in generated response"] else [])
  }

  /** The reason given when nothing else applies: the weakest factor and its reported score. */
  function WeakestReason(b: Breakdown, percent: real -> string): (r: string)
    ensures r != [] && r[0] == 'L'
  {
    "Low confidence in " + FactorKey(b.weakest) + " (" + percent(ScoreOf(b.scores, b.weakest)) + ")"
  }

  /** The escalation reasons, in the order they are checked. */
  function EscalationReasons(b: Breakdown, percent: real -> string): (reasons: seq<string>)
    ensures reasons != []
    ensures b.overall < b.threshold ==> reasons[0] == ThresholdReason(b, percent)
    ensures b.overall >= b.threshold && FactorReasons(b.scores) != [] ==> reasons == FactorReasons(b.scores)
    ensures b.overall < b.threshold ==> reasons == [ThresholdReason(b, percent)] + FactorReasons(b.scores)
    ensures b.overall >= b.threshold && FactorReasons(b.scores) == [] ==> reasons == [WeakestReason(b, percent)]
  {
    var found := (if b.overall < b.threshold then [ThresholdReason(b, percent)] else []) + FactorReasons(b.scores);
    if found == [] then [WeakestReason(b, percent)] else found
  }

  /** `get_escalation_reason`: the reasons joined by ". "; never empty. */
  function EscalationReason(b: Breakdown, percent: real -> string): (r: string)
    ensures var reasons := EscalationReasons(b, percent);
      forall k | 0 <= k < |reasons| :: Contains(r, reasons[k])
  {
    var reasons := EscalationReasons(b, percent);
    forall k | 0 <= k < |reasons| ensures Contains(Join(reasons, ". "), reasons[k]) {
      JoinContainsPart(reasons, ". ", k);
    }
    Join(reasons, ". ")
  }

  /**
   * The reasons lead with the missed threshold exactly when the reported
   * (rounded) confidence is below it; every other reason starts with a
   * different letter.
   */
  lemma EscalationCitesThreshold(b: Breakdown, percent: real -> string)
    ensures EscalationReasons(b, percent)[0] == ThresholdReason(b, percent) <==> b.overall < b.threshold
  {
    if b.overall >= b.threshold {
      assert ThresholdReason(b, percent)[0] == 'O';
    }
  }

  /**
   * An escalation whose exact confidence is more than half a thousandth
   * below the threshold cites the threshold first.
   */
  lemma ClearEscalationCitesThreshold(w: Weights, threshold: real, identity: Option<real>,
                                      intent: Option<real>, rag: Option<real>, llm: Option<real>,
                                      percent: real -> string)
    requires WeightedSum(w, InputScores(identity, intent, rag, llm)) + 0.0005 < threshold
    ensures var b := CalculateConfidence(w, threshold, identity, intent, rag, llm);
      ShouldEscalate(b) && EscalationReasons(b, percent)[0] == ThresholdReason(b, percent)
  {
  }

  /**
   * Scores of 0.7996 all round: the exact confidence misses 0.8, so the
   * query escalates, but the breakdown reports 0.8 everywhere, so no
   * threshold or factor reason applies and the reason names the weakest
   * factor at the threshold's own value.
   */
  lemma RoundedToThresholdStillEscalates(percent: real -> string)
    ensures var b := CalculateConfidence(DefaultWeights, DefaultThreshold, Some(0.7996),
                                         Some(0.7996), Some(0.7996), Some(0.7996));
      ShouldEscalate(b) && b.overall == DefaultThreshold &&
      EscalationReasons(b, percent) == ["Low confidence in identity (" + percent(0.8) + ")"]
  {
    var x := 0.7996;
    var b := CalculateConfidence(DefaultWeights, DefaultThreshold, Some(x), Some(x), Some(x), Some(x));
    var exact := InputScores(Some(x), Some(x), Some(x), Some(x));
    assert exact == Scores(x, x, x, x);
    assert WeightedSum(DefaultWeights, exact) == x;
    RoundsToThreshold();
    assert b.overall == 0.8;
    assert b.scores == Scores(0.8, 0.8, 0.8, 0.8) by {
      assert ScoreOf(b.scores, IdentityFactor) == 0.8;
      assert ScoreOf(b.scores, IntentFactor) == 0.8;
      assert ScoreOf(b.scores, RagFactor) == 0.8;
      assert ScoreOf(b.scores, LlmFactor) == 0.8;
    }
    assert b.weakest == IdentityFactor;
    assert FactorReasons(b.scores) == [];
    var p := percent(0.8);
    assert WeakestReason(b, percent) == "Low confidence in " + "identity" + " (" + p + ")";
    assert "Low confidence in " + "identity" + " (" == "Low confidence in identity (";
  }

  lemma RoundsToThreshold()
    ensures Round3(0.7996) == 0.8
  {
    var v := 0.7996 * 1000.0;
    assert v == 799.6;
    assert v.Floor == 799;
  }

  // ---------------------------------------------------------------------
  // explain_confidence

  function OverallBand(overall: real): string {
    if overall >= 0.9 then "Very high confidence"
    else if overall >= 0.8 then "High confidence"
    else if overall >= 0.7 then "Moderate confidence"
    else if overall >= 0.6 then "Low confidence"
    else "Very low confidence"
  }

  /** The per-factor phrases: identity, intent and retrieval (the model's own score is not described). */
  function FactorPhrases(s: Scores, percent: real -> string): (r: seq<string>)
    ensures |r| == 3
  {
    [(if s.identity >= 0.8 then "strong identity match"
      else if s.identity >= 0.6 then "moderate identity match"
      else "weak identity match") + " (" + percent(s.identity) + ")",
     (if s.intent >= 0.8 then "clear intent" else "uncertain intent") + " (" + percent(s.intent) + ")",
     (if s.rag >= 0.8 then "highly relevant context"
      else if s.rag >= 0.6 then "moderately relevant context"
      else "low relevance context") + " (" + percent(s.rag) + ")"]
  }

  function ActionSentence(a: Action): string {
    if a == Escalate then ". Recommend escalation to human agent." else ". Safe to respond automatically."
  }

  /** The pieces `explain_confidence` joins with spaces. */
  function ExplanationParts(b: Breakdown, percent: real -> string): (parts: seq<string>)
    ensures |parts| == 4 || |parts| == 5
    ensures |parts| == 5 <==> ScoreOf(b.scores, b.weakest) < 0.6
    ensures parts[|parts| - 1] == ActionSentence(b.action)
    ensures parts[0] == OverallBand(b.overall) + " (" + percent(b.overall) + ")"
    ensures |parts| == 5 ==>
      parts[3] == ". Weakest factor: " + FactorPhrase(b.weakest) + " (" +
                  percent(ScoreOf(b.scores, b.weakest)) + ")"
  {
    var ws := ScoreOf(b.scores, b.weakest);
    [OverallBand(b.overall) + " (" + percent(b.overall) + ")",
     "based on:",
     Join(FactorPhrases(b.scores, percent), ", ")] +
    (if ws < 0.6
     then [". Weakest factor: " + FactorPhrase(b.weakest) + " (" + percent(ws) + ")"] else []) +
    [ActionSentence(b.action)]
  }

  /** `explain_confidence`: it always ends with the sentence matching the action. */
  function ExplainConfidence(b: Breakdown, percent: real -> string): (r: string)
    ensures var parts := ExplanationParts(b, percent);
      var tail := ActionSentence(b.action);
      |r| >= |tail| && r[|r| - |tail|..] == tail &&
      forall k | 0 <= k < |parts| :: Contains(r, parts[k])
  {
    var parts := ExplanationParts(b, percent);
    var n := |parts|;
    assert parts == parts[..n - 1] + [parts[n - 1]];
    JoinAppend(parts[..n - 1], parts[n - 1], " ");
    forall k | 0 <= k < n ensures Contains(Join(parts, " "), parts[k]) {
      JoinContainsPart(parts, " ", k);
    }
    Join(parts, " ")
  }
}

=== FILE: context_builder.dfy ===
/**
 * `ContextBuilder`: turns the chunks the vector search returned into the
 * context block of the answer prompt. Duplicates (same text up to case and
 * outer whitespace) are dropped, chunks under 0.7 similarity are filtered
 * out, the rest are packed most-similar-first until the token budget is
 * spent, and the documents the packed chunks came from are listed with
 * their chunk counts and mean similarity.
 *
 * The tokenizer is a parameter: it counts the tokens of a formatted chunk.
 */
module ContextBuilder {
  import opened Wrappers
  import opened Strings
  import opened Sorting

  /** A retrieved chunk; every field may be missing from the row. */
  datatype Chunk = Chunk(
    chunkText: Option<string>,
    similarity: Option<real>,
    documentId: Option<string>,
    documentTitle: Option<string>,
    documentType: Option<string>)

  type Tokenizer = string -> nat

  /** The default token budget of the settings. */
  const DefaultMaxTokens: nat := 8000
  const MinSimilarity: real := 0.7
  const PartSeparator := "\n---\n"

  function Text(c: Chunk): string { c.chunkText.GetOr("") }

  function Similarity(c: Chunk): real { c.similarity.GetOr(0.0) }

  // ---------------------------------------------------------------------
  // _deduplicate_chunks

  /** The text two chunks are compared by: stripped and lower-cased. */
  function DedupKey(c: Chunk): string { ToLower(Strip(Text(c))) }

  /** The keys of the chunks. */
  function Keys(cs: seq<Chunk>): set<string> { KeysOf(cs, DedupKey) }

  ghost predicate DistinctKeys(cs: seq<Chunk>) { DistinctBy(cs, DedupKey) }

  /** `_deduplicate_chunks`: the first chunk of each key, in input order. */
  function Deduplicate(cs: seq<Chunk>): (r: seq<Chunk>)
    ensures forall k | 0 <= k < |r| :: r[k] in cs
    ensures DistinctKeys(r)
    ensures Keys(r) == Keys(cs)
  {
    FirstByKeySound(cs, {}, DedupKey);
    FirstByKey(cs, {}, DedupKey)
  }

  /**
   * Appending a chunk appends it to the result exactly when its key is new:
   * together with `Deduplicate([]) == []` this pins the result down as the
   * first occurrence of each key, in order.
   */
  lemma DeduplicateSnoc(cs: seq<Chunk>, x: Chunk)
    ensures Deduplicate(cs + [x]) ==
      Deduplicate(cs) + (if DedupKey(x) in Keys(cs) then [] else [x])
  {
    FirstByKeySnoc(cs, x, {}, DedupKey);
  }

  /** The keys of a sequence under `key`. */
  function KeysOf<T, K>(cs: seq<T>, key: T -> K): set<K> {
    if cs == [] then {} else {key(cs[0])} + KeysOf(cs[1..], key)
  }

  /** A key not among the keys of `cs` differs from each of them. */
  lemma {:induction false} KeysOfBound<T, K>(cs: seq<T>, k: K, key: T -> K)
    ensures k !in KeysOf(cs, key) ==> forall i | 0 <= i < |cs| :: key(cs[i]) != k
  {
    if cs != [] {
      KeysOfBound(cs[1..], k, key);
      assert forall i | 1 <= i < |cs| :: cs[i] == cs[1..][i - 1];
    }
  }

  /** The scan of `_deduplicate_chunks`, given the keys already seen. */
  function FirstByKey<T, K>(cs: seq<T>, seen: set<K>, key: T -> K): seq<T> {
    if cs == [] then []
    else if key(cs[0]) in seen then FirstByKey(cs[1..], seen, key)
    else [cs[0]] + FirstByKey(cs[1..], seen + {key(cs[0])}, key)
  }

  /** The scan keeps elements of the input with new, pairwise distinct keys, and every new key. */
  lemma {:induction false} FirstByKeySound<T, K>(cs: seq<T>, seen: set<K>, key: T -> K)
    ensures var r := FirstByKey(cs, seen, key);
      (forall i | 0 <= i < |r| :: r[i] in cs && key(r[i]) !in seen) &&
      DistinctBy(r, key) && KeysOf(r, key) == KeysOf(cs, key) - seen
  {
    if cs != [] {
      var k, t := key(cs[0]), cs[1..];
      assert forall c | c in t :: c in cs;
      if k in seen {
        FirstByKeySound(t, seen, key);
      } else {
        FirstByKeySound(t, seen + {k}, key);
        var rest := FirstByKey(t, seen + {k}, key);
        var r := [cs[0]] + rest;
        assert r[1..] == rest;
        KeysOfBound(rest, k, key);
      }
    }
  }

  lemma {:induction false} FirstByKeySnoc<T, K>(cs: seq<T>, x: T, seen: set<K>, key: T -> K)
    ensures FirstByKey(cs + [x], seen, key) ==
      FirstByKey(cs, seen, key) + (if key(x) in seen || key(x) in KeysOf(cs, key) then [] else [x])
  {
    if cs == [] {
      assert [] + [x] == [x];
    } else {
      var t := cs[1..];
      assert (cs + [x])[0] == cs[0];
      assert (cs + [x])[1..] == t + [x];
      if key(cs[0]) in seen {
        FirstByKeySnoc(t, x, seen, key);
      } else {
        FirstByKeySnoc(t, x, seen + {key(cs[0])}, key);
      }
    }
  }

  // ---------------------------------------------------------------------
  // _filter_by_relevance

  /** `_filter_by_relevance` at 0.7: the chunks at least that similar, in order. */
  function FilterRelevant(cs: seq<Chunk>): (r: seq<Chunk>)
    ensures forall k | 0 <= k < |r| :: r[k] in cs && Similarity(r[k]) >= MinSimilarity
    ensures forall c | c in cs && Similarity(c) >= MinSimilarity :: c in r
    ensures |r| <= |cs|
  {
    if cs == [] then []
    else
      var rest := FilterRelevant(cs[1..]);
      assert forall c | c in cs :: c == cs[0] || c in cs[1..];
      if Similarity(cs[0]) >= MinSimilarity then [cs[0]] + rest else rest
  }

  /** The filter keeps the input order: it distributes over concatenation. */
  lemma {:induction false} FilterRelevantAppend(a: seq<Chunk>, b: seq<Chunk>)
    ensures FilterRelevant(a + b) == FilterRelevant(a) + FilterRelevant(b)
  {
    if a == [] {
      assert a + b == b;
    } else {
      assert (a + b)[0] == a[0];
      assert (a + b)[1..] == a[1..] + b;
      FilterRelevantAppend(a[1..], b);
    }
  }

  // ---------------------------------------------------------------------
  // _assemble_context

  function Formatted(c: Chunk): string {
    "[Source: " + c.documentTitle.GetOr("Unknown Document") + "]\n" + Text(c) + "\n"
  }

  function FormattedAll(cs: seq<Chunk>): (r: seq<string>)
    ensures |r| == |cs|
    ensures forall k | 0 <= k < |cs| :: r[k] == Formatted(cs[k])
  {
    if cs == [] then [] else [Formatted(cs[0])] + FormattedAll(cs[1..])
  }

  /** The tokens of the chunks, formatted. */
  function TokenSum(cs: seq<Chunk>, tokens: Tokenizer): nat {
    if cs == [] then 0 else tokens(Formatted(cs[0])) + TokenSum(cs[1..], tokens)
  }

  /**
   * The greedy packing loop: how many chunks, from the front, fit in
   * `limit` tokens on top of `used`; it stops at the first chunk that does
   * not fit.
   */
  function FitCount(cs: seq<Chunk>, tokens: Tokenizer, used: nat, limit: nat): (n: nat)
    requires used <= limit
    ensures n <= |cs|
    ensures used + TokenSum(cs[..n], tokens) <= limit
    ensures n < |cs| ==> used + TokenSum(cs[..n + 1], tokens) > limit
  {
    if cs == [] then 0
    else
      var t := tokens(Formatted(cs[0]));
      if used + t > limit then
        assert cs[..1] == [cs[0]];
        assert cs[..0] == [];
        0
      else
        var n := FitCount(cs[1..], tokens, used + t, limit);
        assert cs[..n + 1][1..] == cs[1..][..n];
        assert n < |cs[1..]| ==> cs[..n + 2][1..] == cs[1..][..n + 1];
        n + 1
  }

  datatype Assembly = Assembly(
    contextText: string,
    chunksUsed: seq<Chunk>,
    totalChunks: nat,
    chunksIncluded: nat,
    totalTokens: nat,
    truncated: bool)

  /**
   * `_assemble_context`: sort by similarity, most similar first, take the
   * longest prefix whose formatted token counts fit the limit, and join the
   * formatted chunks with the separator. `truncated` records that a chunk
   * was left out; `total_chunks` counts the chunks offered.
   */
  function AssembleContext(cs: seq<Chunk>, tokens: Tokenizer, limit: nat): (a: Assembly)
    ensures var sorted := SortDesc(cs, Similarity);
      |a.chunksUsed| <= |cs| && a.chunksUsed == sorted[..|a.chunksUsed|]
    ensures a.totalTokens == TokenSum(a.chunksUsed, tokens) <= limit
    ensures a.truncated <==> |a.chunksUsed| < |cs|
    ensures a.truncated ==>
      TokenSum(SortDesc(cs, Similarity)[..|a.chunksUsed| + 1], tokens) > limit
    ensures a.totalChunks == |cs| && a.chunksIncluded == |a.chunksUsed|
    ensures a.contextText == Join(FormattedAll(a.chunksUsed), PartSeparator)
  {
    var sorted := SortDesc(cs, Similarity);
    var n := FitCount(sorted, tokens, 0, limit);
    var used := sorted[..n];
    Assembly(Join(FormattedAll(used), PartSeparator), used, |cs|, n, TokenSum(used, tokens), n < |cs|)
  }

  /** The chunks used are the most similar ones: none left out beats one kept. */
  lemma UsedAreMostSimilar(cs: seq<Chunk>, tokens: Tokenizer, limit: nat, i: nat, j: nat)
    requires var a := AssembleContext(cs, tokens, limit);
      i < |a.chunksUsed| <= j < |cs|
    ensures Similarity(AssembleContext(cs, tokens, limit).chunksUsed[i]) >=
            Similarity(SortDesc(cs, Similarity)[j])
  {
    var a := AssembleContext(cs, tokens, limit);
    var sorted := SortDesc(cs, Similarity);
    assert a.chunksUsed[i] == sorted[i];
  }

  // ---------------------------------------------------------------------
  // _extract_sources

  /** A document's running totals while the chunks are scanned. */
  datatype Tally = Tally(documentId: string, title: string, documentType: Option<string>,
                         count: nat, total: real)

  /** The chunk belongs to document `id` (a chunk without an id belongs to none). */
  predicate InDocument(c: Chunk, id: string) {
    id != "" && c.documentId == Some(id)
  }

  /** The chunk names a document. */
  predicate Named(c: Chunk) {
    c.documentId.Some? && c.documentId.value != ""
  }

  /** How many of the chunks belong to document `id`. */
  function CountIn(cs: seq<Chunk>, id: string): nat {
    if cs == [] then 0
    else CountIn(cs[..|cs| - 1], id) + (if InDocument(cs[|cs| - 1], id) then 1 else 0)
  }

  /** The summed similarity of the chunks of document `id`. */
  function SimilarityIn(cs: seq<Chunk>, id: string): real {
    if cs == [] then 0.0
    else SimilarityIn(cs[..|cs| - 1], id) + (if InDocument(cs[|cs| - 1], id) then Similarity(cs[|cs| - 1]) else 0.0)
  }

  /** Where document `id` sits in the tallies, if anywhere. */
  function TallyIndex(ts: seq<Tally>, id: string): (i: Option<nat>)
    ensures i.Some? ==> i.value < |ts| && ts[i.value].documentId == id
    ensures i.None? ==> forall k | 0 <= k < |ts| :: ts[k].documentId != id
  {
    if ts == [] then None
    else if ts[0].documentId == id then Some(0)
    else
      var rest := TallyIndex(ts[1..], id);
      assert forall k | 1 <= k < |ts| :: ts[k] == ts[1..][k - 1];
      if rest.None? then None else Some(rest.value + 1)
  }

  /** One step of the scan: count the chunk under its document, opening a tally the first time. */
  function AddChunk(ts: seq<Tally>, c: Chunk): seq<Tally> {
    if !Named(c) then ts
    else
      var id := c.documentId.value;
      match TallyIndex(ts, id)
      case Some(i) => ts[i := ts[i].(count := ts[i].count + 1, total := ts[i].total + Similarity(c))]
      case None => ts + [Tally(id, c.documentTitle.GetOr("Unknown"), c.documentType, 1, Similarity(c))]
  }

  /** The tallies after scanning all of `cs`, in order of first appearance. */
  function Tallies(cs: seq<Chunk>): seq<Tally> {
    if cs == [] then [] else AddChunk(Tallies(cs[..|cs| - 1]), cs[|cs| - 1])
  }

  /**
   * What the scan keeps true: tallies for distinct documents, each holding
   * its document's (positive) chunk count and summed similarity, and no
   * chunk of any document without a tally.
   */
  ghost predicate TalliesMatch(ts: seq<Tally>, cs: seq<Chunk>) {
    (forall a, b | 0 <= a < b < |ts| :: ts[a].documentId != ts[b].documentId) &&
    (forall k | 0 <= k < |ts| ::
       ts[k].documentId != "" && ts[k].count > 0 &&
       ts[k].count == CountIn(cs, ts[k].documentId) && ts[k].total == SimilarityIn(cs, ts[k].documentId)) &&
    (forall id {:trigger TallyIndex(ts, id)} | TallyIndex(ts, id).None? ::
       CountIn(cs, id) == 0 && SimilarityIn(cs, id) == 0.0)
  }

  lemma AddChunkKeepsMatch(ts: seq<Tally>, cs: seq<Chunk>, c: Chunk)
    requires TalliesMatch(ts, cs)
    ensures TalliesMatch(AddChunk(ts, c), cs + [c])
  {
    var cs' := cs + [c];
    assert cs'[..|cs'| - 1] == cs;
    var r := AddChunk(ts, c);
    if !Named(c) {
    } else {
      var id := c.documentId.value;
      match TallyIndex(ts, id)
      case Some(i) =>
        forall x | TallyIndex(r, x).None?
          ensures CountIn(cs', x) == 0 && SimilarityIn(cs', x) == 0.0
        {
          assert forall k | 0 <= k < |ts| :: r[k].documentId == ts[k].documentId;
          assert x != id;
          TallyIndexNone(ts, x);
        }
      case None =>
        forall x | TallyIndex(r, x).None?
          ensures CountIn(cs', x) == 0 && SimilarityIn(cs', x) == 0.0
        {
          assert r[|ts|].documentId == id;
          assert x != id;
          assert forall k | 0 <= k < |ts| :: r[k] == ts[k];
          TallyIndexNone(ts, x);
        }
    }
  }

  /** A document that no tally holds has no index. */
  lemma TallyIndexNone(ts: seq<Tally>, id: string)
    requires forall k | 0 <= k < |ts| :: ts[k].documentId != id
    ensures TallyIndex(ts, id).None?
  {
  }

  /** The scan ends with one tally per named document, holding its chunk count and summed similarity. */
  lemma {:induction false} TalliesAreCounts(cs: seq<Chunk>)
    ensures TalliesMatch(Tallies(cs), cs)
  {
    if cs != [] {
      var init := cs[..|cs| - 1];
      TalliesAreCounts(init);
      assert init + [cs[|cs| - 1]] == cs;
      AddChunkKeepsMatch(Tallies(init), init, cs[|cs| - 1]);
    }
  }

  /** A document some chunk names has a positive count. */
  lemma {:induction false} NamedCounts(cs: seq<Chunk>, i: nat)
    requires i < |cs| && Named(cs[i])
    ensures CountIn(cs, cs[i].documentId.value) > 0
  {
    var init := cs[..|cs| - 1];
    if i < |cs| - 1 {
      assert init[i] == cs[i];
      NamedCounts(init, i);
    }
  }

  /** A source document with its chunk count and mean similarity. */
  datatype Source = Source(documentId: string, title: string, documentType: Option<string>,
                           chunkCount: nat, avgSimilarity: real)

  function AvgKey(s: Source): real { s.avgSimilarity }

  function SourceId(s: Source): string { s.documentId }

  function ToSource(t: Tally): (s: Source)
    requires t.count > 0
    ensures s.documentId == t.documentId && s.chunkCount == t.count
    ensures s.avgSimilarity == t.total / (t.count as real)
  {
    Source(t.documentId, t.title, t.documentType, t.count, t.total / (t.count as real))
  }

  function ToSources(ts: seq<Tally>): (r: seq<Source>)
    requires forall k | 0 <= k < |ts| :: ts[k].count > 0
    ensures |r| == |ts|
    ensures forall k | 0 <= k < |ts| :: r[k] == ToSource(ts[k])
  {
    if ts == [] then [] else [ToSource(ts[0])] + ToSources(ts[1..])
  }

  /** A source for each document the chunks name, as `Sources` promises. */
  ghost predicate SourcesMatch(r: seq<Source>, cs: seq<Chunk>) {
    (forall k | 0 <= k < |r| ::
       r[k].documentId != "" &&
       r[k].chunkCount == CountIn(cs, r[k].documentId) > 0 &&
       r[k].avgSimilarity == SimilarityIn(cs, r[k].documentId) / (r[k].chunkCount as real)) &&
    (forall i | 0 <= i < |cs| && Named(cs[i]) ::
       exists k | 0 <= k < |r| :: r[k].documentId == cs[i].documentId.value) &&
    DistinctBy(r, SourceId)
  }

  /**
   * `_extract_sources`: one entry per document the chunks name, carrying
   * its chunk count and mean similarity, most similar first.
   */
  function ExtractSources(cs: seq<Chunk>): (r: seq<Source>)
    ensures SortedDesc(r, AvgKey)
    ensures SourcesMatch(r, cs)
  {
    TalliesAreCounts(cs);
    var ts := Tallies(cs);
    SortedSourcesMatch(ts, cs);
    SortDesc(ToSources(ts), AvgKey)
  }

  lemma SortedSourcesMatch(ts: seq<Tally>, cs: seq<Chunk>)
    requires TalliesMatch(ts, cs)
    ensures SourcesMatch(SortDesc(ToSources(ts), AvgKey), cs)
  {
    var sources := ToSources(ts);
    var r := SortDesc(sources, AvgKey);
    SortDescSameElements(sources, AvgKey);
    assert DistinctBy(sources, SourceId);
    SortDescDistinct(sources, AvgKey, SourceId);
    SourcesCounts(ts, cs, r);
    SourcesCover(ts, cs, r);
  }

  /** Sources drawn from the tallies carry their documents' counts and sums. */
  lemma SourcesCounts(ts: seq<Tally>, cs: seq<Chunk>, r: seq<Source>)
    requires TalliesMatch(ts, cs)
    requires forall x | x in r :: x in ToSources(ts)
    ensures forall k | 0 <= k < |r| ::
      r[k].documentId != "" &&
      r[k].chunkCount == CountIn(cs, r[k].documentId) > 0 &&
      r[k].avgSimilarity == SimilarityIn(cs, r[k].documentId) / (r[k].chunkCount as real)
  {
    forall k | 0 <= k < |r|
      ensures r[k].documentId != ""
      ensures r[k].chunkCount == CountIn(cs, r[k].documentId) > 0
      ensures r[k].avgSimilarity == SimilarityIn(cs, r[k].documentId) / (r[k].chunkCount as real)
    {
      assert r[k] in r;
      var sources := ToSources(ts);
      var j :| 0 <= j < |sources| && sources[j] == r[k];
    }
  }

  /** Sources holding all the tallies name every document the chunks name. */
  lemma SourcesCover(ts: seq<Tally>, cs: seq<Chunk>, r: seq<Source>)
    requires TalliesMatch(ts, cs)
    requires forall x | x in ToSources(ts) :: x in r
    ensures forall i | 0 <= i < |cs| && Named(cs[i]) ::
      exists k | 0 <= k < |r| :: r[k].documentId == cs[i].documentId.value
  {
    var sources := ToSources(ts);
    forall i | 0 <= i < |cs| && Named(cs[i])
      ensures exists k | 0 <= k < |r| :: r[k].documentId == cs[i].documentId.value
    {
      var id := cs[i].documentId.value;
      NamedCounts(cs, i);
      var j := TallyIndex(ts, id).value;
      assert sources[j] in r;
      var k :| 0 <= k < |r| && r[k] == sources[j];
      assert r[k].documentId == id;
    }
  }

  // ---------------------------------------------------------------------
  // build_context

  datatype Context = Context(
    contextText: string,
    sources: seq<Source>,
    totalChunks: nat,
    totalTokens: nat,
    truncated: bool,
    chunksUsed: seq<Chunk>,
    chunksIncluded: nat)

  /** `max_tokens or self.max_tokens`: a missing or zero budget means the default. */
  function TokenLimit(maxTokens: Option<nat>): (limit: nat)
    ensures maxTokens.Some? && maxTokens.value > 0 ==> limit == maxTokens.value
    ensures maxTokens.None? || maxTokens.value == 0 ==> limit == DefaultMaxTokens
  {
    if maxTokens.Some? && maxTokens.value != 0 then maxTokens.value else DefaultMaxTokens
  }

  /**
   * `build_context`: nothing for no chunks; otherwise deduplicate, filter
   * at 0.7, pack within the token limit and list the packed chunks' sources.
   */
  function BuildContext(cs: seq<Chunk>, maxTokens: Option<nat>, tokens: Tokenizer): (r: Context)
    ensures cs == [] ==> r == Context("", [], 0, 0, false, [], 0)
    ensures cs != [] ==>
      var a := AssembleContext(FilterRelevant(Deduplicate(cs)), tokens, TokenLimit(maxTokens));
      r == Context(a.contextText, ExtractSources(a.chunksUsed), a.totalChunks, a.totalTokens,
                   a.truncated, a.chunksUsed, a.chunksIncluded)
  {
    if cs == [] then Context("", [], 0, 0, false, [], 0)
    else
      var a := AssembleContext(FilterRelevant(Deduplicate(cs)), tokens, TokenLimit(maxTokens));
      Context(a.contextText, ExtractSources(a.chunksUsed), a.totalChunks, a.totalTokens,
              a.truncated, a.chunksUsed, a.chunksIncluded)
  }

  /**
   * What the context promises: within budget, only relevant chunks, no two
   * with the same normalised text, and `total_chunks` counting the relevant
   * distinct chunks.
   */
  lemma ContextGuarantees(cs: seq<Chunk>, maxTokens: Option<nat>, tokens: Tokenizer)
    ensures var r := BuildContext(cs, maxTokens, tokens);
      r.totalTokens <= TokenLimit(maxTokens) &&
      r.chunksIncluded == |r.chunksUsed| <= r.totalChunks &&
      (forall k | 0 <= k < |r.chunksUsed| ::
         r.chunksUsed[k] in cs && Similarity(r.chunksUsed[k]) >= MinSimilarity) &&
      (r.truncated ==> r.chunksIncluded < r.totalChunks) &&
      DistinctKeys(r.chunksUsed) &&
      r.totalChunks == if cs == [] then 0 else |FilterRelevant(Deduplicate(cs))|
  {
    if cs != [] {
      var relevant := FilterRelevant(Deduplicate(cs));
      var sorted := SortDesc(relevant, Similarity);
      SortDescSameElements(relevant, Similarity);
      var a := AssembleContext(relevant, tokens, TokenLimit(maxTokens));
      forall k | 0 <= k < |a.chunksUsed|
        ensures a.chunksUsed[k] in cs && Similarity(a.chunksUsed[k]) >= MinSimilarity
      {
        assert a.chunksUsed[k] == sorted[k];
        assert sorted[k] in relevant;
      }
      FilterRelevantDistinct(Deduplicate(cs), DedupKey);
      SortDescDistinct(relevant, Similarity, DedupKey);
      assert DistinctKeys(a.chunksUsed) by {
        forall i, j | 0 <= i < j < |a.chunksUsed| ensures DedupKey(a.chunksUsed[i]) != DedupKey(a.chunksUsed[j]) {
          assert a.chunksUsed[i] == sorted[i] && a.chunksUsed[j] == sorted[j];
        }
      }
    }
  }

  /** Filtering keeps chunks that differ under `f` apart. */
  lemma {:induction false} FilterRelevantDistinct<U>(cs: seq<Chunk>, f: Chunk -> U)
    requires DistinctBy(cs, f)
    ensures DistinctBy(FilterRelevant(cs), f)
  {
    if cs != [] {
      var tail := cs[1..];
      assert DistinctBy(tail, f) by {
        forall i, j | 0 <= i < j < |tail| ensures f(tail[i]) != f(tail[j]) {
          assert tail[i] == cs[i + 1] && tail[j] == cs[j + 1];
        }
      }
      FilterRelevantDistinct(tail, f);
      var rest := FilterRelevant(tail);
      if Similarity(cs[0]) >= MinSimilarity {
        var r := [cs[0]] + rest;
        forall i, j | 0 <= i < j < |r| ensures f(r[i]) != f(r[j]) {
          assert r[j] == rest[j - 1];
          if i == 0 {
            assert rest[j - 1] in tail;
            var m :| 0 <= m < |tail| && tail[m] == rest[j - 1];
            assert cs[m + 1] == rest[j - 1];
          } else {
            assert r[i] == rest[i - 1];
          }
        }
      }
    }
  }
}

=== FILE: disambiguate.dfy ===
/**
 * Disambiguation between fuzzy-match candidates. The chat-completion call
 * itself is outside the model: its outcome arrives as an `LlmReply`, the
 * JSON object after `json.loads` (or the failure that prevented it). What
 * is modelled is everything the service does around that call.
 */
module Disambiguate {
  import opened Wrappers
  import opened Strings
  import opened Records
  import opened Store
  import Fuzzy

  /**
   * What the model call produced. The fields of a parsed reply are read
   * with `dict.get`, so each may be missing, `null`, or set.
   */
  datatype LlmReply =
    | Unparsable                    // `json.JSONDecodeError`
    | CallFailed(error: string)     // any other exception, with `str(e)`
    | Answer(
        matchFound: bool,
        bestMatchId: Option<string>,
        confidence: Field<real>,
        reasoning: Field<string>,
        evidence: Field<seq<string>>)

  /**
   * The dictionary `disambiguate` returns. `reasoning` is `None` when the
   * model sent a `null` one; `evidence` is `Absent` in the dictionaries
   * that have no such key.
   */
  datatype Outcome = Outcome(
    matchFound: bool,
    bestMatch: Option<Author>,
    confidence: real,
    reasoning: Option<string>,
    evidence: Field<seq<string>>)

  /** What `_process_llm_result` does: return a dictionary, or raise. */
  datatype Processed = Done(outcome: Outcome) | Raised(error: string)

  /** Disambiguation never reports full certainty, nor less than an even chance. */
  const ConfidenceFloor: real := 0.5
  const ConfidenceCeiling: real := 0.9

  /** The confidence given to the only candidate, without asking the model. */
  const SingleCandidateConfidence: real := 0.8

  const NoReasoning := "No reasoning provided"
  const NotFoundSuffix := " (But matched ID not found in candidates)"
  const ErrorPrefix := "Error during disambiguation: "

  /** `str(e)` of the `TypeError` raised by `float(None)`. */
  const FloatOfNullError := "float() argument must be a string or a real number, not 'NoneType'"

  /** `str(e)` of the `TypeError` raised by `None += str`. */
  const AppendToNullError := "unsupported operand type(s) for +=: 'NoneType' and 'str'"

  /** `str(author.get("id")) == str(best_match_id)`. */
  predicate HasId(a: Author, id: string) {
    NatToString(a.id) == id
  }

  /** The non-match the exception handler of `disambiguate` returns. */
  function Failure(reasoning: string): Outcome {
    Outcome(false, None, 0.0, Some(reasoning), Absent)
  }

  /**
   * `_process_llm_result`: convert and clamp the confidence, look the
   * claimed id up among the candidates (first hit wins), and withdraw a
   * claim whose id is not there. A `null` confidence makes `float` raise,
   * and a withdrawn claim with a `null` reasoning makes the `+=` raise.
   */
  function ProcessLlmResult(matchFound: bool, bestMatchId: Option<string>, confidence: Field<real>,
                            reasoning: Field<string>, evidence: Field<seq<string>>,
                            candidates: seq<Author>): (r: Processed)
    ensures confidence.Null? <==> r == Raised(FloatOfNullError)
    ensures r.Raised? <==>
      confidence.Null? || (matchFound && reasoning.Null? &&
        !(Truthy(bestMatchId) && exists k | 0 <= k < |candidates| :: HasId(candidates[k], bestMatchId.value)))
    ensures r.Raised? && !confidence.Null? ==> r.error == AppendToNullError
    ensures r.Done? ==> r.outcome.evidence == if evidence.Absent? then Present([]) else evidence
    ensures r.Done? ==> (r.outcome.matchFound ==> matchFound && Truthy(bestMatchId))
    ensures r.Done? ==> (r.outcome.matchFound <==> r.outcome.bestMatch.Some?)
    ensures r.Done? && r.outcome.matchFound ==>
      exists k | 0 <= k < |candidates| :: candidates[k] == r.outcome.bestMatch.value &&
        HasId(candidates[k], bestMatchId.value) &&
        forall j | 0 <= j < k :: !HasId(candidates[j], bestMatchId.value)
    ensures r.Done? ==> (r.outcome.matchFound <==>
      matchFound && Truthy(bestMatchId) &&
      exists k | 0 <= k < |candidates| :: HasId(candidates[k], bestMatchId.value))
    ensures r.Done? && (r.outcome.matchFound || !matchFound) ==>
      r.outcome.confidence == Fuzzy.Clamp(confidence.Get(0.0).GetOr(0.0), ConfidenceFloor, ConfidenceCeiling)
    ensures r.Done? && matchFound && !r.outcome.matchFound ==>
      r.outcome.confidence == 0.0 && r.outcome.reasoning == Some(reasoning.Get(NoReasoning).value + NotFoundSuffix)
    ensures r.Done? && (!matchFound || r.outcome.matchFound) ==> r.outcome.reasoning == reasoning.Get(NoReasoning)
  {
    match confidence.Get(0.0)
    case None => Raised(FloatOfNullError)
    case Some(c) =>
      var clamped := Fuzzy.Clamp(c, ConfidenceFloor, ConfidenceCeiling);
      var why := reasoning.Get(NoReasoning);
      var ev := match evidence.Get([]) case None => Null case Some(e) => Present(e);
      var hit :=
        if matchFound && Truthy(bestMatchId) then FirstIndex(candidates, a => HasId(a, bestMatchId.value))
        else None;
      if hit.Some? then Done(Outcome(true, Some(candidates[hit.value]), clamped, why, ev))
      else if matchFound then
        match why
        case None => Raised(AppendToNullError)
        case Some(w) => Done(Outcome(false, None, 0.0, Some(w + NotFoundSuffix), ev))
      else Done(Outcome(false, None, clamped, why, ev))
  }

  /**
   * `disambiguate`: no candidates is a non-match and one candidate is
   * accepted at 0.8, both without asking the model; otherwise the model's
   * reply is validated, and a failed or unparsable call, or an exception
   * while validating, is a non-match at confidence 0.
   */
  function Disambiguate(candidates: seq<Author>, reply: LlmReply): (r: Outcome)
    ensures candidates == [] ==> r == Outcome(false, None, 0.0, Some("No candidates provided"), Absent)
    ensures |candidates| == 1 ==>
      r == Outcome(true, Some(candidates[0]), SingleCandidateConfidence,
                   Some("Only one candidate available"), Absent)
    ensures |candidates| >= 2 && reply.Unparsable? ==> r == Failure("Failed to parse LLM response")
    ensures |candidates| >= 2 && reply.CallFailed? ==> r == Failure(ErrorPrefix + reply.error)
    ensures |candidates| >= 2 && reply.Answer? ==>
      match ProcessLlmResult(reply.matchFound, reply.bestMatchId, reply.confidence, reply.reasoning,
                             reply.evidence, candidates)
      case Done(o) => r == o
      case Raised(e) => r == Failure(ErrorPrefix + e)
  {
    if candidates == [] then Outcome(false, None, 0.0, Some("No candidates provided"), Absent)
    else if |candidates| == 1 then
      Outcome(true, Some(candidates[0]), SingleCandidateConfidence, Some("Only one candidate available"), Absent)
    else
      match reply
      case Unparsable => Failure("Failed to parse LLM response")
      case CallFailed(e) => Failure(ErrorPrefix + e)
      case Answer(found, id, c, why, ev) =>
        match ProcessLlmResult(found, id, c, why, ev, candidates)
        case Done(o) => o
        case Raised(e) => Failure(ErrorPrefix + e)
  }

  /**
   * A reported match is always one of the supplied candidates, with a
   * confidence in [0.5, 0.9]; with two or more candidates it is the first
   * one whose id the model named.
   */
  lemma DisambiguateSound(candidates: seq<Author>, reply: LlmReply)
    ensures var r := Disambiguate(candidates, reply);
      r.matchFound ==>
        r.bestMatch.Some? && r.bestMatch.value in candidates &&
        ConfidenceFloor <= r.confidence <= ConfidenceCeiling &&
        (|candidates| >= 2 ==>
          reply.Answer? && reply.matchFound && Truthy(reply.bestMatchId) &&
          HasId(r.bestMatch.value, reply.bestMatchId.value))
  {
    var r := Disambiguate(candidates, reply);
    if r.matchFound && |candidates| >= 2 {
      var k :| 0 <= k < |candidates| && candidates[k] == r.bestMatch.value &&
        HasId(candidates[k], reply.bestMatchId.value) &&
        forall j | 0 <= j < k :: !HasId(candidates[j], reply.bestMatchId.value);
      assert r.bestMatch.value in candidates;
    }
  }

  /**
   * Conversely, when the model claims a match with a usable confidence and
   * names the id of some candidate, the claim stands: it is never withdrawn.
   */
  lemma DisambiguateComplete(candidates: seq<Author>, reply: LlmReply, k: nat)
    requires |candidates| >= 2 && reply.Answer? && reply.matchFound && !reply.confidence.Null?
    requires Truthy(reply.bestMatchId) && k < |candidates|
    requires HasId(candidates[k], reply.bestMatchId.value)
    ensures Disambiguate(candidates, reply).matchFound
  {
  }

  /**
   * A claim the model cannot back with a candidate id is turned into a
   * non-match at confidence 0, whatever confidence the model gave; the
   * reasoning is extended, or, when it was `null`, the extension raises and
   * the outcome is the error non-match without evidence.
   */
  lemma ClaimWithoutCandidate(candidates: seq<Author>, reply: LlmReply)
    requires |candidates| >= 2 && reply.Answer? && reply.matchFound
    requires !Truthy(reply.bestMatchId) ||
      forall k | 0 <= k < |candidates| :: !HasId(candidates[k], reply.bestMatchId.value)
    ensures var r := Disambiguate(candidates, reply);
      !r.matchFound && r.bestMatch.None? && r.confidence == 0.0
    ensures !reply.confidence.Null? ==>
      Disambiguate(candidates, reply).reasoning ==
        if reply.reasoning.Null? then Some(ErrorPrefix + AppendToNullError)
        else Some(reply.reasoning.Get(NoReasoning).value + NotFoundSuffix)
  {
  }

  /**
   * A `null` confidence never yields a match: `float(None)` raises before
   * anything else is looked at, whatever the model claimed.
   */
  lemma NullConfidenceFails(candidates: seq<Author>, reply: LlmReply)
    requires |candidates| >= 2 && reply.Answer? && reply.confidence.Null?
    ensures Disambiguate(candidates, reply) == Failure(ErrorPrefix + FloatOfNullError)
  {
  }

  /**
   * A reply that claims no match still leaves a clamped confidence of at
   * least 0.5 in the outcome, and its reasoning as sent (`None` for a
   * `null`); only callers that look at `match_found` ignore the confidence.
   */
  lemma NoClaimKeepsClampedConfidence(candidates: seq<Author>, reply: LlmReply)
    requires |candidates| >= 2 && reply.Answer? && !reply.matchFound && !reply.confidence.Null?
    ensures var r := Disambiguate(candidates, reply);
      !r.matchFound && r.confidence >= ConfidenceFloor && r.reasoning == reply.reasoning.Get(NoReasoning)
  {
  }

  // ---------------------------------------------------------------------
  // explain_match

  const OverallSimilarity := "Match based on overall similarity of provided information"

  /** The explanation sentences, in name, e-mail, phone order. */
  function Explanations(name: Option<string>, email: Option<string>, phone: Option<string>,
                        matched: Author): (r: seq<string>)
    ensures |r| <= 3
    ensures r == [] <==>
      !(Truthy(name) && matched.fullName != "") && !(Truthy(email) && Truthy(matched.email)) &&
      !(Truthy(phone) && Truthy(matched.phone))
    ensures Truthy(phone) && Truthy(matched.phone) ==> r[|r| - 1] == "Phone numbers match"
    ensures Truthy(name) && matched.fullName != "" ==>
      r[0] == "Name '" + name.value + "' matches '" + matched.fullName + "'"
  {
    (if Truthy(name) && matched.fullName != "" then
       ["Name '" + name.value + "' matches '" + matched.fullName + "'"]
     else []) +
    (if Truthy(email) && Truthy(matched.email) then
       if ToLower(email.value) == ToLower(matched.email.value) then ["Email address matches exactly"]
       else ["Email addresses are similar"]
     else []) +
    (if Truthy(phone) && Truthy(matched.phone) then ["Phone numbers match"] else [])
  }

  /**
   * `explain_match`: the fixed overall-similarity sentence when no
   * name/e-mail/phone pair is present on both sides, otherwise the
   * explanations joined by ". " with a closing full stop. So the text ends
   * in a full stop exactly when some pair was compared, and then every
   * explanation sentence occurs in it.
   */
  function ExplainMatch(name: Option<string>, email: Option<string>, phone: Option<string>,
                        matched: Author): (r: string)
    ensures |r| > 0
    ensures r[|r| - 1] == '.' <==> Explanations(name, email, phone, matched) != []
    ensures var parts := Explanations(name, email, phone, matched);
      forall k | 0 <= k < |parts| :: Contains(r, parts[k])
  {
    var parts := Explanations(name, email, phone, matched);
    if parts == [] then
      assert OverallSimilarity[|OverallSimilarity| - 1] == 'n';
      OverallSimilarity
    else
      JoinedWithStopContainsParts(parts);
      Join(parts, ". ") + "."
  }

  /** The parts joined by ". " with a closing full stop contain every part. */
  lemma JoinedWithStopContainsParts(parts: seq<string>)
    ensures var r := Join(parts, ". ") + ".";
      r[|r| - 1] == '.' && forall k | 0 <= k < |parts| :: Contains(r, parts[k])
  {
    var r := Join(parts, ". ") + ".";
    forall k | 0 <= k < |parts| ensures Contains(r, parts[k]) {
      JoinContainsPart(parts, ". ", k);
      var i := ContainsWitness(Join(parts, ". "), parts[k]);
      assert r[i..i + |parts[k]|] == Join(parts, ". ")[i..i + |parts[k]|];
      ContainsAt(r, parts[k], i);
    }
  }

  /** E-mail comparison ignores case: a case-only difference still matches exactly. */
  lemma ExplainEmailIgnoresCase(email: string, matched: Author)
    requires email != "" && Truthy(matched.email)
    requires ToLower(email) == ToLower(matched.email.value)
    requires matched.fullName == "" && matched.phone.None?
    ensures ExplainMatch(None, Some(email), None, matched) == "Email address matches exactly."
  {
  }
}

=== FILE: escalation.dfy ===
/**
 * `Escalations`: the support queue's endpoints over the `escalations`
 * table — listing with filters and per-status counts, reading one row,
 * partial updates, and resolving.
 *
 * The table is a sequence of rows in the order the query returns them
 * (newest first for the list). The resolve time is a parameter.
 */
module Escalations {
  import opened Wrappers

  datatype EscalationRow = EscalationRow(
    id: string,
    conversationId: string,
    reason: string,
    priority: string,
    status: string,
    assignedTo: Option<string>,
    resolutionNotes: Option<string>,
    createdAt: string,
    resolvedAt: Option<string>)

  /** The outcome of an endpoint: the HTTP error it raises, or its rows. */
  datatype Outcome<T> =
    | BadRequest(detail: string)        // 400
    | NotFound(detail: string)          // 404
    | Unprocessable(detail: string)     // 422, request validation
    | Ok(value: T)

  // ---------------------------------------------------------------------
  // list_escalations

  const DefaultLimit: nat := 50
  const MaxLimit: nat := 200

  predicate Truthy(o: Option<string>) {
    o.Some? && o.value != ""
  }

  /** A row passes the optional filters; an empty filter value is no filter. */
  predicate Passes(e: EscalationRow, status: Option<string>, priority: Option<string>) {
    (Truthy(status) ==> e.status == status.value) && (Truthy(priority) ==> e.priority == priority.value)
  }

  function Filter(rows: seq<EscalationRow>, status: Option<string>, priority: Option<string>)
    : (r: seq<EscalationRow>)
    ensures |r| <= |rows|
    ensures forall e | e in r :: e in rows && Passes(e, status, priority)
    ensures forall e | e in rows && Passes(e, status, priority) :: e in r
  {
    if rows == [] then []
    else (if Passes(rows[0], status, priority) then [rows[0]] else []) + Filter(rows[1..], status, priority)
  }

  /**
   * Filtering splits over concatenation, so the rows that pass keep the
   * table's order and repeats: with the one-row case this pins `Filter`
   * down as the order-preserving filter.
   */
  lemma {:induction false} FilterAppend(a: seq<EscalationRow>, b: seq<EscalationRow>,
                                        status: Option<string>, priority: Option<string>)
    ensures Filter(a + b, status, priority) == Filter(a, status, priority) + Filter(b, status, priority)
  {
    if a == [] {
      assert a + b == b;
    } else {
      assert (a + b)[0] == a[0];
      assert (a + b)[1..] == a[1..] + b;
      FilterAppend(a[1..], b, status, priority);
    }
  }

  /** A single row is kept exactly when it passes the filters. */
  lemma FilterOne(e: EscalationRow, status: Option<string>, priority: Option<string>)
    ensures Filter([e], status, priority) == if Passes(e, status, priority) then [e] else []
  {
    assert [e][1..] == [];
  }

  function CountStatus(rows: seq<EscalationRow>, status: string): (n: nat)
    ensures n <= |rows|
    ensures n == 0 <==> forall e | e in rows :: e.status != status
    ensures n == |rows| <==> forall e | e in rows :: e.status == status
  {
    if rows == [] then 0
    else (if rows[0].status == status then 1 else 0) + CountStatus(rows[1..], status)
  }

  datatype Listing = Listing(escalations: seq<EscalationRow>, count: nat, pendingCount: nat, inProgressCount: nat)

  /**
   * `list_escalations`: the first `limit` rows passing the filters, with
   * the number of pending and in-progress rows among them. An absent limit
   * is 50; one outside 1..200 is rejected by request validation.
   */
  function ListEscalations(rows: seq<EscalationRow>, status: Option<string>, priority: Option<string>, limitParam: Option<int>)
    : (r: Outcome<Listing>)
    ensures var limit := limitParam.GetOr(DefaultLimit);
      (r.Unprocessable? <==> !(1 <= limit <= MaxLimit)) && (r.Ok? ==> r.value.count <= limit)
    ensures !r.BadRequest? && !r.NotFound?
    ensures r.Ok? ==> var l := r.value;
      l.escalations <= Filter(rows, status, priority) &&
      l.count == |l.escalations| &&
      (l.count < limitParam.GetOr(DefaultLimit) ==> l.escalations == Filter(rows, status, priority)) &&
      l.pendingCount == CountStatus(l.escalations, "pending") &&
      l.inProgressCount == CountStatus(l.escalations, "in_progress") &&
      l.pendingCount + l.inProgressCount <= l.count
  {
    var limit := limitParam.GetOr(DefaultLimit);
    if !(1 <= limit <= MaxLimit) then Unprocessable("limit must be between 1 and 200")
    else
      var matching := Filter(rows, status, priority);
      var page := if |matching| <= limit then matching else matching[..limit];
      StatusCountsDisjoint(page, "pending", "in_progress");
      Ok(Listing(page, |page|, CountStatus(page, "pending"), CountStatus(page, "in_progress")))
  }

  lemma {:induction false} StatusCountsDisjoint(rows: seq<EscalationRow>, a: string, b: string)
    requires a != b
    ensures CountStatus(rows, a) + CountStatus(rows, b) <= |rows|
  {
    if rows != [] {
      StatusCountsDisjoint(rows[1..], a, b);
    }
  }

  /** Filtering by a status makes every listed row that status, so all of them are counted. */
  lemma FilteredByPending(rows: seq<EscalationRow>, priority: Option<string>, limit: Option<int>)
    requires 1 <= limit.GetOr(DefaultLimit) <= MaxLimit
    ensures var r := ListEscalations(rows, Some("pending"), priority, limit);
      r.Ok? && r.value.pendingCount == r.value.count && r.value.inProgressCount == 0
  {
    var l := ListEscalations(rows, Some("pending"), priority, limit).value;
    assert forall e | e in l.escalations :: e in Filter(rows, Some("pending"), priority);
  }

  // ---------------------------------------------------------------------
  // get_escalation

  /** The index of the first row with the id. */
  function FirstIndexWithId(rows: seq<EscalationRow>, id: string): (r: Option<nat>)
    ensures r.Some? ==> r.value < |rows| && rows[r.value].id == id &&
                        forall j | 0 <= j < r.value :: rows[j].id != id
    ensures r.None? <==> forall k | 0 <= k < |rows| :: rows[k].id != id
  {
    if rows == [] then None
    else if rows[0].id == id then Some(0)
    else match FirstIndexWithId(rows[1..], id)
      case None => None
      case Some(i) => Some(i + 1)
  }

  /** `.eq("id", id)` and the first row of the result. */
  function FirstWithId(rows: seq<EscalationRow>, id: string): (r: Option<EscalationRow>)
    ensures r.Some? ==> exists k | 0 <= k < |rows| :: rows[k] == r.value && rows[k].id == id &&
                                                      forall j | 0 <= j < k :: rows[j].id != id
    ensures r.None? <==> forall e | e in rows :: e.id != id
  {
    match FirstIndexWithId(rows, id)
    case None => None
    case Some(i) => Some(rows[i])
  }

  /** `get_escalation`: the first row with the id, or 404. */
  function GetEscalation(rows: seq<EscalationRow>, id: string): (r: Outcome<EscalationRow>)
    ensures r.NotFound? <==> forall e | e in rows :: e.id != id
    ensures r.Ok? ==> exists k | 0 <= k < |rows| :: rows[k] == r.value && rows[k].id == id &&
                                                     forall j | 0 <= j < k :: rows[j].id != id
    ensures r.Ok? || r.NotFound?
  {
    match FirstWithId(rows, id)
    case None => NotFound("Escalation " + id + " not found")
    case Some(e) => Ok(e)
  }

  // ---------------------------------------------------------------------
  // update_escalation and resolve_escalation

  /** The request body; every field is optional. */
  datatype UpdateRequest = UpdateRequest(
    status: Option<string>,
    assignedTo: Option<string>,
    resolutionNotes: Option<string>,
    priority: Option<string>)

  /** The columns an update writes; `None` leaves a column alone. */
  datatype Update = Update(
    status: Option<string>,
    assignedTo: Option<string>,
    resolutionNotes: Option<string>,
    priority: Option<string>,
    resolvedAt: Option<string>)

  predicate IsEmpty(u: Update) {
    u.status.None? && u.assignedTo.None? && u.resolutionNotes.None? && u.priority.None? && u.resolvedAt.None?
  }

  const InProgress := "in_progress"

  /**
   * The update dictionary: each field that is not None, and a status of
   * "in_progress" when someone is assigned without a (non-empty) status.
   */
  function BuildUpdate(req: UpdateRequest): (u: Update)
    ensures u.assignedTo == req.assignedTo && u.resolutionNotes == req.resolutionNotes
    ensures u.priority == req.priority && u.resolvedAt.None?
    ensures u.status.None? <==> req.status.None? && req.assignedTo.None?
    ensures Truthy(req.status) ==> u.status == req.status
    ensures req.assignedTo.Some? && !Truthy(req.status) ==> u.status == Some(InProgress)
    ensures req.assignedTo.None? ==> u.status == req.status
    ensures IsEmpty(u) <==> req == UpdateRequest(None, None, None, None)
  {
    var status :=
      if req.assignedTo.Some? && !Truthy(req.status) then Some(InProgress) else req.status;
    Update(status, req.assignedTo, req.resolutionNotes, req.priority, None)
  }

  /** One row after the update: the written columns replaced, the rest kept. */
  function Apply(u: Update, e: EscalationRow): (r: EscalationRow)
    ensures r.id == e.id && r.conversationId == e.conversationId && r.reason == e.reason
    ensures r.createdAt == e.createdAt
    ensures r.status == u.status.GetOr(e.status) && r.priority == u.priority.GetOr(e.priority)
    ensures r.assignedTo == (if u.assignedTo.Some? then u.assignedTo else e.assignedTo)
    ensures r.resolutionNotes == (if u.resolutionNotes.Some? then u.resolutionNotes else e.resolutionNotes)
    ensures r.resolvedAt == (if u.resolvedAt.Some? then u.resolvedAt else e.resolvedAt)
  {
    e.(status := u.status.GetOr(e.status),
       priority := u.priority.GetOr(e.priority),
       assignedTo := if u.assignedTo.Some? then u.assignedTo else e.assignedTo,
       resolutionNotes := if u.resolutionNotes.Some? then u.resolutionNotes else e.resolutionNotes,
       resolvedAt := if u.resolvedAt.Some? then u.resolvedAt else e.resolvedAt)
  }

  /** `update(u).eq("id", id)`: every row with that id is updated, in place. */
  function UpdateWhere(rows: seq<EscalationRow>, id: string, u: Update): (r: seq<EscalationRow>)
    ensures |r| == |rows|
    ensures forall k | 0 <= k < |rows| :: r[k] == if rows[k].id == id then Apply(u, rows[k]) else rows[k]
  {
    seq(|rows|, k requires 0 <= k < |rows| => if rows[k].id == id then Apply(u, rows[k]) else rows[k])
  }

  /** Apply an update to the row with the id and return the updated row and table. */
  function UpdateRow(rows: seq<EscalationRow>, id: string, u: Update)
    : (r: Outcome<(EscalationRow, seq<EscalationRow>)>)
    ensures r.NotFound? <==> forall e | e in rows :: e.id != id
    ensures r.Ok? || r.NotFound?
    ensures r.Ok? ==>
      r.value.1 == UpdateWhere(rows, id, u) &&
      exists k | 0 <= k < |rows| :: rows[k].id == id && r.value.0 == Apply(u, rows[k]) &&
                                    forall j | 0 <= j < k :: rows[j].id != id
  {
    match FirstWithId(rows, id)
    case None => NotFound("Escalation " + id + " not found")
    case Some(e) => Ok((Apply(u, e), UpdateWhere(rows, id, u)))
  }

  /**
   * `update_escalation`: an empty update is rejected with 400 before the
   * table is touched; an unknown id gives 404.
   */
  function UpdateEscalation(rows: seq<EscalationRow>, id: string, req: UpdateRequest)
    : (r: Outcome<(EscalationRow, seq<EscalationRow>)>)
    ensures r.BadRequest? <==> req == UpdateRequest(None, None, None, None)
    ensures r.NotFound? <==> req != UpdateRequest(None, None, None, None) && forall e | e in rows :: e.id != id
    ensures r.Ok? ==> r.value.1 == UpdateWhere(rows, id, BuildUpdate(req))
    ensures !r.Unprocessable?
  {
    var u := BuildUpdate(req);
    if IsEmpty(u) then BadRequest("No update fields provided")
    else UpdateRow(rows, id, u)
  }

  /** Assigning someone without a status moves the row to "in_progress"; other columns keep their values. */
  lemma AssignMovesToInProgress(rows: seq<EscalationRow>, id: string, who: string, k: nat)
    requires k < |rows| && rows[k].id == id
    ensures var r := UpdateEscalation(rows, id, UpdateRequest(None, Some(who), None, None));
      r.Ok? && r.value.1[k].status == InProgress && r.value.1[k].assignedTo == Some(who) &&
      r.value.1[k].priority == rows[k].priority && r.value.1[k].resolutionNotes == rows[k].resolutionNotes
  {
    assert rows[k] in rows;
  }

  /** Sending the same update again leaves the table as the first update left it. */
  lemma UpdateIdempotent(rows: seq<EscalationRow>, id: string, req: UpdateRequest)
    requires UpdateEscalation(rows, id, req).Ok?
    ensures var once := UpdateEscalation(rows, id, req).value.1;
      UpdateEscalation(once, id, req).Ok? && UpdateEscalation(once, id, req).value.1 == once
  {
    var u := BuildUpdate(req);
    var once := UpdateWhere(rows, id, u);
    var k :| 0 <= k < |rows| && rows[k].id == id;
    assert once[k] in once;
    var twice := UpdateWhere(once, id, u);
    forall j | 0 <= j < |once| ensures twice[j] == once[j] {
      if rows[j].id == id {
        ApplyIdempotent(u, rows[j]);
      }
    }
    assert twice == once;
  }

  /** An update applied twice writes nothing new. */
  lemma ApplyIdempotent(u: Update, e: EscalationRow)
    ensures Apply(u, Apply(u, e)) == Apply(u, e)
  {
  }

  const MaxNotesLength: nat := 2000

  /**
   * `resolve_escalation`: status "resolved", the notes and the resolve time
   * are written; the notes must be 1..2000 characters.
   */
  function ResolveEscalation(rows: seq<EscalationRow>, id: string, notes: string, now: string)
    : (r: Outcome<(EscalationRow, seq<EscalationRow>)>)
    ensures r.Unprocessable? <==> !(1 <= |notes| <= MaxNotesLength)
    ensures r.NotFound? <==> 1 <= |notes| <= MaxNotesLength && forall e | e in rows :: e.id != id
    ensures r.Ok? ==>
      r.value.0.status == "resolved" && r.value.0.resolutionNotes == Some(notes) &&
      r.value.0.resolvedAt == Some(now) && r.value.0.id == id
    ensures r.Ok? ==>
      r.value.1 == UpdateWhere(rows, id, Update(Some("resolved"), None, Some(notes), None, Some(now)))
    ensures r.Ok? ==> |r.value.1| == |rows| && forall k | 0 <= k < |rows| ::
      (rows[k].id != id ==> r.value.1[k] == rows[k]) &&
      (rows[k].id == id ==>
        r.value.1[k].status == "resolved" && r.value.1[k].resolutionNotes == Some(notes) &&
        r.value.1[k].resolvedAt == Some(now) && r.value.1[k].assignedTo == rows[k].assignedTo &&
        r.value.1[k].priority == rows[k].priority)
    ensures !r.BadRequest?
  {
    if !(1 <= |notes| <= MaxNotesLength) then Unprocessable("resolution_notes must be 1 to 2000 characters")
    else UpdateRow(rows, id, Update(Some("resolved"), None, Some(notes), None, Some(now)))
  }

  /**
   * Resolving and then reading the escalation gives back the resolved row:
   * the read sees the same first row with the id that the resolve wrote.
   */
  lemma ResolveThenGet(rows: seq<EscalationRow>, id: string, notes: string, now: string)
    requires ResolveEscalation(rows, id, notes, now).Ok?
    ensures var r := ResolveEscalation(rows, id, notes, now).value;
      GetEscalation(r.1, id) == Ok(r.0) && r.0.status == "resolved" && r.0.resolutionNotes == Some(notes)
  {
    var r := ResolveEscalation(rows, id, notes, now).value;
    var u := Update(Some("resolved"), None, Some(notes), None, Some(now));
    var k :| 0 <= k < |rows| && rows[k].id == id && r.0 == Apply(u, rows[k]) &&
             forall j | 0 <= j < k :: rows[j].id != id;
    UpdateKeepsFirst(rows, id, u, k);
  }

  /** An update keeps every id, so the first row with an id stays first, now updated. */
  lemma UpdateKeepsFirst(rows: seq<EscalationRow>, id: string, u: Update, k: nat)
    requires k < |rows| && rows[k].id == id && forall j | 0 <= j < k :: rows[j].id != id
    ensures FirstIndexWithId(UpdateWhere(rows, id, u), id) == Some(k)
  {
    var t := UpdateWhere(rows, id, u);
    assert t[k].id == id;
    assert forall j | 0 <= j < k :: t[j].id == rows[j].id;
    FirstIndexAt(t, id, k);
  }

  /** The first index is the one before which no row has the id. */
  lemma FirstIndexAt(rows: seq<EscalationRow>, id: string, k: nat)
    requires k < |rows| && rows[k].id == id && forall j | 0 <= j < k :: rows[j].id != id
    ensures FirstIndexWithId(rows, id) == Some(k)
  {
  }
}

=== FILE: fuzzy.dfy ===
/**
 * Fuzzy name matching. The two rapidfuzz scorers (`token_sort_ratio` and
 * `partial_ratio`) are parameters: any function into [0, 100]. What is
 * modelled is everything around them: `process.extract` (cutoff, ranking,
 * limit), the merge of the two result lists through the name-to-index map,
 * the 0.7/0.3 score combination and the score-to-confidence curve.
 */
module Fuzzy {
  import opened Wrappers
  import opened Sorting

  /** A similarity score as rapidfuzz reports it. */
  type Score = r: real | 0.0 <= r <= 100.0

  /** A rapidfuzz scorer, e.g. `fuzz.token_sort_ratio`. */
  type Scorer = (string, string) -> Score

  /** `settings.fuzzy_match_threshold`. */
  const DefaultThreshold: real := 85.0

  /** The `limit` every `process.extract` call passes. */
  const ExtractLimit: nat := 10

  /** `threshold or fallback`: an absent or zero threshold falls back. */
  function EffectiveThreshold(threshold: Option<real>, fallback: real): (t: real)
    ensures threshold.Some? && threshold.value != 0.0 ==> t == threshold.value
    ensures threshold.None? || threshold.value == 0.0 ==> t == fallback
  {
    if threshold.Some? && threshold.value != 0.0 then threshold.value else fallback
  }

  /** A `FuzzyMatcher` instance: only its default threshold is state. */
  datatype FuzzyMatcher = FuzzyMatcher(threshold: real)

  function NewFuzzyMatcher(threshold: Option<real>): (m: FuzzyMatcher)
    ensures threshold.None? ==> m.threshold == DefaultThreshold
  {
    FuzzyMatcher(EffectiveThreshold(threshold, DefaultThreshold))
  }

  // ---------------------------------------------------------------------
  // _score_to_confidence

  function Clamp(x: real, lo: real, hi: real): (r: real)
    requires lo <= hi
    ensures lo <= r <= hi
    ensures lo <= x <= hi ==> r == x
  {
    if x < lo then lo else if x > hi then hi else x
  }

  /**
   * Piecewise-linear map from a 0-100 score to a confidence, clamped to
   * [0.5, 0.9]; below 85 the curve is anchored at the matcher's threshold.
   */
  function ScoreToConfidence(score: real, matcherThreshold: real): (c: real)
    ensures 0.5 <= c <= 0.9
    ensures score >= 95.0 ==> c >= 0.85
    ensures 90.0 <= score < 95.0 ==> 0.80 <= c < 0.85
    ensures 85.0 <= score < 90.0 ==> 0.75 <= c < 0.80
  {
    var normalized := score / 100.0;
    var raw :=
      if score >= 95.0 then 0.85 + (normalized - 0.95) * 2.0
      else if score >= 90.0 then 0.80 + (normalized - 0.90)
      else if score >= 85.0 then 0.75 + (normalized - 0.85)
      else 0.70 + (normalized - matcherThreshold / 100.0) * 0.5;
    Clamp(raw, 0.5, 0.9)
  }

  /** With the matcher threshold at 85 or above, a higher score never lowers the confidence. */
  lemma ScoreToConfidenceMonotone(a: real, b: real, matcherThreshold: real)
    requires a <= b && matcherThreshold >= 85.0
    ensures ScoreToConfidence(a, matcherThreshold) <= ScoreToConfidence(b, matcherThreshold)
  {
  }

  /**
   * A matcher built with a low threshold breaks monotonicity: at threshold
   * 50 a score of 84 maps above the score of 85.
   */
  lemma ScoreToConfidenceLowThreshold()
    ensures ScoreToConfidence(84.0, 50.0) > ScoreToConfidence(85.0, 50.0)
  {
  }

  // ---------------------------------------------------------------------
  // process.extract

  /** One `(choice, score, index)` triple of `process.extract`. */
  datatype Hit = Hit(choice: string, score: Score, index: nat)

  /** The hit is what `scorer` gives `choices[index]`, and it passed the cutoff. */
  ghost predicate HitOf(h: Hit, query: string, choices: seq<string>, scorer: Scorer, cutoff: real) {
    h.index < |choices| && h.choice == choices[h.index] &&
    h.score == scorer(query, h.choice) && h.score >= cutoff
  }

  /** The hit for every choice from `from` on that reaches the cutoff, in index order. */
  function Qualifying(query: string, choices: seq<string>, scorer: Scorer, cutoff: real, from: nat)
    : (r: seq<Hit>)
    ensures forall h | h in r :: HitOf(h, query, choices, scorer, cutoff) && from <= h.index
    ensures forall i | from <= i < |choices| && scorer(query, choices[i]) >= cutoff ::
      Hit(choices[i], scorer(query, choices[i]), i) in r
    decreases |choices| - from
  {
    if from >= |choices| then []
    else
      var rest := Qualifying(query, choices, scorer, cutoff, from + 1);
      var s := scorer(query, choices[from]);
      if s >= cutoff then [Hit(choices[from], s, from)] + rest else rest
  }

  function HitScore(h: Hit): real { h.score }

  function Take<T>(s: seq<T>, n: nat): (r: seq<T>)
    ensures |r| <= n && r <= s
    ensures |s| <= n ==> r == s
  {
    if |s| <= n then s else s[..n]
  }

  /**
   * `process.extract(query, choices, scorer, score_cutoff, limit)`: the
   * qualifying choices, best score first (ties keep index order), at most
   * `limit` of them.
   */
  function Extract(query: string, choices: seq<string>, scorer: Scorer, cutoff: real, limit: nat)
    : (r: seq<Hit>)
    ensures |r| <= limit
    ensures SortedDesc(r, HitScore)
    ensures forall h | h in r :: HitOf(h, query, choices, scorer, cutoff)
  {
    var all := Qualifying(query, choices, scorer, cutoff, 0);
    var sorted := SortDesc(all, HitScore);
    SortDescSameElements(all, HitScore);
    Take(sorted, limit)
  }

  lemma SortedPrefix<T>(s: seq<T>, n: nat, key: T -> real)
    requires SortedDesc(s, key) && n <= |s|
    ensures SortedDesc(s[..n], key)
  {
  }

  /**
   * Extraction keeps the best: a qualifying choice that is not returned was
   * crowded out by `limit` hits scoring at least as well.
   */
  lemma ExtractTopK(query: string, choices: seq<string>, scorer: Scorer, cutoff: real, limit: nat, i: nat)
    requires i < |choices| && scorer(query, choices[i]) >= cutoff
    ensures var r := Extract(query, choices, scorer, cutoff, limit);
      Hit(choices[i], scorer(query, choices[i]), i) in r ||
      (|r| == limit && forall h | h in r :: h.score >= scorer(query, choices[i]))
  {
    var all := Qualifying(query, choices, scorer, cutoff, 0);
    SortDescSameElements(all, HitScore);
    TakeKeepsBest(SortDesc(all, HitScore), Hit(choices[i], scorer(query, choices[i]), i), limit);
  }

  /** Cutting a best-first list at `limit` drops only elements no better than the kept ones. */
  lemma TakeKeepsBest(sorted: seq<Hit>, x: Hit, limit: nat)
    requires SortedDesc(sorted, HitScore) && x in sorted
    ensures var r := Take(sorted, limit);
      x in r || (|r| == limit && forall h | h in r :: h.score >= x.score)
  {
    var p :| 0 <= p < |sorted| && sorted[p] == x;
    if p >= limit {
      var r := Take(sorted, limit);
      assert r == sorted[..limit];
      forall h | h in r ensures h.score >= x.score {
        var q :| 0 <= q < |r| && r[q] == h;
        assert sorted[q] == h;
      }
    } else if |sorted| > limit {
      assert Take(sorted, limit)[p] == x;
    }
  }

  // ---------------------------------------------------------------------
  // match_name

  /** Which scorer first put a record into the advanced result. */
  datatype MatchMethod = TokenSortRatio | PartialRatio

  /** One entry of `match_name`'s result. */
  datatype NameMatch = NameMatch(matchedName: string, score: Score, index: nat, confidence: real)

  function ToNameMatches(hits: seq<Hit>, matcherThreshold: real): (r: seq<NameMatch>)
    ensures |r| == |hits|
    ensures forall k | 0 <= k < |r| ::
      r[k] == NameMatch(hits[k].choice, hits[k].score, hits[k].index,
                        ScoreToConfidence(hits[k].score, matcherThreshold))
  {
    if hits == [] then []
    else [NameMatch(hits[0].choice, hits[0].score, hits[0].index,
                    ScoreToConfidence(hits[0].score, matcherThreshold))]
         + ToNameMatches(hits[1..], matcherThreshold)
  }

  /**
   * `match_name`: the top ten `token_sort_ratio` hits at or above the
   * threshold, each with its confidence; nothing for an empty query or an
   * empty candidate list.
   */
  function MatchName(m: FuzzyMatcher, tokenSort: Scorer, query: string, candidates: seq<string>,
                     threshold: Option<real>): (r: seq<NameMatch>)
    ensures query == "" || candidates == [] ==> r == []
    ensures |r| <= ExtractLimit
    ensures forall k | 0 <= k < |r| ::
      var t := EffectiveThreshold(threshold, m.threshold);
      r[k].index < |candidates| && r[k].matchedName == candidates[r[k].index] &&
      r[k].score == tokenSort(query, r[k].matchedName) && r[k].score >= t &&
      r[k].confidence == ScoreToConfidence(r[k].score, m.threshold)
    ensures forall j, k | 0 <= j < k < |r| :: r[j].score >= r[k].score
  {
    if query == "" || candidates == [] then []
    else
      var hits := Extract(query, candidates, tokenSort,
                          EffectiveThreshold(threshold, m.threshold), ExtractLimit);
      assert forall k | 0 <= k < |hits| :: hits[k] in hits;
      ToNameMatches(hits, m.threshold)
  }

  // ---------------------------------------------------------------------
  // match_name_advanced

  /** Last position of `x` in `s`: the index `{name: i for i, name in ...}` keeps. */
  function LastIndexOf<T(==)>(s: seq<T>, x: T): (r: Option<nat>)
    ensures r.Some? ==> r.value < |s| && s[r.value] == x
    ensures r.Some? ==> forall k | r.value < k < |s| :: s[k] != x
    ensures r.None? <==> x !in s
  {
    if s == [] then None
    else if s[|s| - 1] == x then Some(|s| - 1)
    else LastIndexOf(s[..|s| - 1], x)
  }

  /** A value of the insertion-ordered `matches_map`, keyed by `index`. */
  datatype Entry = Entry(index: nat, matchedName: string, tokenSortScore: real,
                         partialScore: real, scorer: MatchMethod)

  /** Position of the entry for `idx`, if there is one. */
  function EntryPos(mm: seq<Entry>, idx: nat): (r: Option<nat>)
    ensures r.Some? ==> r.value < |mm| && mm[r.value].index == idx
    ensures r.None? <==> forall k | 0 <= k < |mm| :: mm[k].index != idx
  {
    if mm == [] then None
    else if mm[|mm| - 1].index == idx then Some(|mm| - 1)
    else EntryPos(mm[..|mm| - 1], idx)
  }

  ghost predicate DistinctIndices(mm: seq<Entry>) {
    forall j, k | 0 <= j < k < |mm| :: mm[j].index != mm[k].index
  }

  /**
   * An entry names the record its name maps to, and each score is either 0
   * (that scorer did not report the name) or the scorer's value for the
   * name, at or above the cutoff.
   */
  ghost predicate EntryOk(e: Entry, query: string, names: seq<string>,
                          tokenSort: Scorer, partial: Scorer, cutoff: real) {
    e.matchedName != "" && LastIndexOf(names, e.matchedName) == Some(e.index) &&
    (e.tokenSortScore == 0.0 ||
      (e.tokenSortScore == tokenSort(query, e.matchedName) && e.tokenSortScore >= cutoff)) &&
    (e.partialScore == 0.0 ||
      (e.partialScore == partial(query, e.matchedName) && e.partialScore >= cutoff)) &&
    (e.tokenSortScore >= cutoff || e.partialScore >= cutoff)
  }

  ghost predicate MapOk(mm: seq<Entry>, query: string, names: seq<string>,
                        tokenSort: Scorer, partial: Scorer, cutoff: real) {
    DistinctIndices(mm) &&
    forall k | 0 <= k < |mm| :: EntryOk(mm[k], query, names, tokenSort, partial, cutoff)
  }

  /** The map already holds an entry for the record the name maps to. */
  ghost predicate Covers(mm: seq<Entry>, names: seq<string>, name: string) {
    name == "" || (LastIndexOf(names, name).Some? &&
                   EntryPos(mm, LastIndexOf(names, name).value).Some?)
  }

  /** Replace position `p` of `mm`. */
  function Put(mm: seq<Entry>, p: nat, e: Entry): (r: seq<Entry>)
    requires p < |mm|
    ensures |r| == |mm| && r[p] == e
    ensures forall k | 0 <= k < |mm| && k != p :: r[k] == mm[k]
  {
    mm[p := e]
  }

  /** One iteration of the `token_sort_ratio` loop. */
  function AddTokenSortHit(mm: seq<Entry>, h: Hit, names: seq<string>): (r: seq<Entry>)
    requires h.index < |names| && names[h.index] == h.choice
  {
    if h.choice == "" then mm
    else
      var idx := LastIndexOf(names, h.choice).value;
      var p := EntryPos(mm, idx);
      if p.None? then mm + [Entry(idx, h.choice, h.score, 0.0, TokenSortRatio)]
      else if mm[p.value].tokenSortScore < h.score then
        Put(mm, p.value, Entry(idx, h.choice, h.score, 0.0, TokenSortRatio))
      else mm
  }

  /** One iteration of the `partial_ratio` loop. */
  function AddPartialHit(mm: seq<Entry>, h: Hit, names: seq<string>): (r: seq<Entry>)
    requires h.index < |names| && names[h.index] == h.choice
  {
    if h.choice == "" then mm
    else
      var idx := LastIndexOf(names, h.choice).value;
      var p := EntryPos(mm, idx);
      if p.None? then mm + [Entry(idx, h.choice, 0.0, h.score, PartialRatio)]
      else Put(mm, p.value, mm[p.value].(partialScore := h.score))
  }

  /** Lemma-level facts about one token-sort step. */
  lemma AddTokenSortHitOk(mm: seq<Entry>, h: Hit, query: string, names: seq<string>,
                          tokenSort: Scorer, partial: Scorer, cutoff: real)
    requires MapOk(mm, query, names, tokenSort, partial, cutoff)
    requires HitOf(h, query, names, tokenSort, cutoff)
    ensures var r := AddTokenSortHit(mm, h, names);
      MapOk(r, query, names, tokenSort, partial, cutoff) && Covers(r, names, h.choice) &&
      |mm| <= |r| && forall k | 0 <= k < |mm| :: r[k].index == mm[k].index
  {
    var r := AddTokenSortHit(mm, h, names);
    if h.choice != "" {
      var idx := LastIndexOf(names, h.choice).value;
      var p := EntryPos(mm, idx);
      if p.None? {
        assert r[|mm|].index == idx;
      } else {
        assert r[p.value].index == idx;
      }
      assert EntryPos(r, idx).Some?;
    }
  }

  lemma AddPartialHitOk(mm: seq<Entry>, h: Hit, query: string, names: seq<string>,
                        tokenSort: Scorer, partial: Scorer, cutoff: real)
    requires MapOk(mm, query, names, tokenSort, partial, cutoff)
    requires HitOf(h, query, names, partial, cutoff)
    ensures var r := AddPartialHit(mm, h, names);
      MapOk(r, query, names, tokenSort, partial, cutoff) && Covers(r, names, h.choice) &&
      |mm| <= |r| && forall k | 0 <= k < |mm| :: r[k].index == mm[k].index
  {
    var r := AddPartialHit(mm, h, names);
    if h.choice != "" {
      var idx := LastIndexOf(names, h.choice).value;
      var p := EntryPos(mm, idx);
      if p.None? {
        assert r[|mm|].index == idx;
      } else {
        assert r[p.value].index == idx;
      }
      assert EntryPos(r, idx).Some?;
    }
  }

  /** Coverage survives a later step, since steps only add or rewrite in place. */
  lemma CoversKept(mm: seq<Entry>, r: seq<Entry>, names: seq<string>, name: string)
    requires Covers(mm, names, name)
    requires |mm| <= |r| && forall k | 0 <= k < |mm| :: r[k].index == mm[k].index
    ensures Covers(r, names, name)
  {
    if name != "" {
      var idx := LastIndexOf(names, name).value;
      var p := EntryPos(mm, idx).value;
      assert r[p].index == idx;
    }
  }

  function MergeTokenSort(mm: seq<Entry>, hits: seq<Hit>, names: seq<string>): seq<Entry>
    requires forall h | h in hits :: h.index < |names| && names[h.index] == h.choice
    decreases |hits|
  {
    if hits == [] then mm
    else
      assert hits[0] in hits;
      assert forall h | h in hits[1..] :: h in hits;
      MergeTokenSort(AddTokenSortHit(mm, hits[0], names), hits[1..], names)
  }

  function MergePartial(mm: seq<Entry>, hits: seq<Hit>, names: seq<string>): seq<Entry>
    requires forall h | h in hits :: h.index < |names| && names[h.index] == h.choice
    decreases |hits|
  {
    if hits == [] then mm
    else
      assert hits[0] in hits;
      assert forall h | h in hits[1..] :: h in hits;
      MergePartial(AddPartialHit(mm, hits[0], names), hits[1..], names)
  }

  lemma {:induction false} MergeTokenSortOk(mm: seq<Entry>, hits: seq<Hit>, query: string,
                                             names: seq<string>, tokenSort: Scorer,
                                             partial: Scorer, cutoff: real)
    requires MapOk(mm, query, names, tokenSort, partial, cutoff)
    requires forall h | h in hits :: HitOf(h, query, names, tokenSort, cutoff)
    requires forall h | h in hits :: h.index < |names| && names[h.index] == h.choice
    ensures var r := MergeTokenSort(mm, hits, names);
      MapOk(r, query, names, tokenSort, partial, cutoff) &&
      (forall h | h in hits :: Covers(r, names, h.choice)) &&
      |mm| <= |r| && (forall k | 0 <= k < |mm| :: r[k].index == mm[k].index)
    decreases |hits|
  {
    if hits != [] {
      var m1 := AddTokenSortHit(mm, hits[0], names);
      AddTokenSortHitOk(mm, hits[0], query, names, tokenSort, partial, cutoff);
      assert forall h | h in hits[1..] :: h in hits;
      MergeTokenSortOk(m1, hits[1..], query, names, tokenSort, partial, cutoff);
      var r := MergeTokenSort(m1, hits[1..], names);
      CoversKept(m1, r, names, hits[0].choice);
      forall h | h in hits ensures Covers(r, names, h.choice) {
        if h != hits[0] {
          assert h in hits[1..];
        }
      }
    }
  }

  lemma {:induction false} MergePartialOk(mm: seq<Entry>, hits: seq<Hit>, query: string,
                                           names: seq<string>, tokenSort: Scorer,
                                           partial: Scorer, cutoff: real)
    requires MapOk(mm, query, names, tokenSort, partial, cutoff)
    requires forall h | h in hits :: HitOf(h, query, names, partial, cutoff)
    requires forall h | h in hits :: h.index < |names| && names[h.index] == h.choice
    ensures var r := MergePartial(mm, hits, names);
      MapOk(r, query, names, tokenSort, partial, cutoff) &&
      (forall h | h in hits :: Covers(r, names, h.choice)) &&
      |mm| <= |r| && (forall k | 0 <= k < |mm| :: r[k].index == mm[k].index)
    decreases |hits|
  {
    if hits != [] {
      var m1 := AddPartialHit(mm, hits[0], names);
      AddPartialHitOk(mm, hits[0], query, names, tokenSort, partial, cutoff);
      assert forall h | h in hits[1..] :: h in hits;
      MergePartialOk(m1, hits[1..], query, names, tokenSort, partial, cutoff);
      var r := MergePartial(m1, hits[1..], names);
      CoversKept(m1, r, names, hits[0].choice);
      forall h | h in hits ensures Covers(r, names, h.choice) {
        if h != hits[0] {
          assert h in hits[1..];
        }
      }
    }
  }

  /** One entry of `match_name_advanced`'s result (the candidate is `index`). */
  datatype AdvancedMatch = AdvancedMatch(
    index: nat,
    matchedName: string,
    tokenSortScore: real,
    partialScore: real,
    combinedScore: real,
    confidence: real,
    scorer: MatchMethod)

  function CombinedScore(tokenSortScore: real, partialScore: real): real {
    tokenSortScore * 0.7 + partialScore * 0.3
  }

  function ToAdvanced(mm: seq<Entry>, matcherThreshold: real): (r: seq<AdvancedMatch>)
    ensures |r| == |mm|
    ensures forall k | 0 <= k < |r| ::
      var c := CombinedScore(mm[k].tokenSortScore, mm[k].partialScore);
      r[k] == AdvancedMatch(mm[k].index, mm[k].matchedName, mm[k].tokenSortScore,
                            mm[k].partialScore, c, ScoreToConfidence(c, matcherThreshold),
                            mm[k].scorer)
  {
    if mm == [] then []
    else
      var c := CombinedScore(mm[0].tokenSortScore, mm[0].partialScore);
      [AdvancedMatch(mm[0].index, mm[0].matchedName, mm[0].tokenSortScore, mm[0].partialScore,
                     c, ScoreToConfidence(c, matcherThreshold), mm[0].scorer)]
      + ToAdvanced(mm[1..], matcherThreshold)
  }

  function Combined(m: AdvancedMatch): real { m.combinedScore }

  /** The insertion-ordered `matches_map` after both loops. */
  function MatchesMap(tokenSort: Scorer, partial: Scorer, query: string, names: seq<string>,
                      cutoff: real): seq<Entry>
  {
    var ts := Extract(query, names, tokenSort, cutoff, ExtractLimit);
    var pr := Extract(query, names, partial, cutoff, ExtractLimit);
    MergePartial(MergeTokenSort([], ts, names), pr, names)
  }

  /**
   * `match_name_advanced` over the candidates' `full_name` values: both
   * scorers' top ten hits are merged per record, scored 0.7/0.3, and sorted
   * by the combined score, highest first.
   */
  function MatchNameAdvanced(m: FuzzyMatcher, tokenSort: Scorer, partial: Scorer, query: string,
                             names: seq<string>, threshold: Option<real>): (r: seq<AdvancedMatch>)
    ensures query == "" || names == [] ==> r == []
    ensures SortedDesc(r, Combined)
  {
    if query == "" || names == [] then []
    else
      var cutoff := EffectiveThreshold(threshold, m.threshold);
      SortDesc(ToAdvanced(MatchesMap(tokenSort, partial, query, names, cutoff), m.threshold),
               Combined)
  }

  /** A record of `match_name_advanced`'s result, stated per element. */
  ghost predicate AdvancedOk(a: AdvancedMatch, query: string, names: seq<string>,
                             tokenSort: Scorer, partial: Scorer, cutoff: real,
                             matcherThreshold: real) {
    a.matchedName != "" && LastIndexOf(names, a.matchedName) == Some(a.index) &&
    (a.tokenSortScore == 0.0 ||
      (a.tokenSortScore == tokenSort(query, a.matchedName) && a.tokenSortScore >= cutoff)) &&
    (a.partialScore == 0.0 ||
      (a.partialScore == partial(query, a.matchedName) && a.partialScore >= cutoff)) &&
    (a.tokenSortScore >= cutoff || a.partialScore >= cutoff) &&
    a.combinedScore == CombinedScore(a.tokenSortScore, a.partialScore) &&
    a.confidence == ScoreToConfidence(a.combinedScore, matcherThreshold)
  }

  lemma MatchesMapOk(tokenSort: Scorer, partial: Scorer, query: string, names: seq<string>,
                     cutoff: real)
    ensures var mm := MatchesMap(tokenSort, partial, query, names, cutoff);
      MapOk(mm, query, names, tokenSort, partial, cutoff) &&
      (forall h | h in Extract(query, names, tokenSort, cutoff, ExtractLimit) ::
         Covers(mm, names, h.choice)) &&
      (forall h | h in Extract(query, names, partial, cutoff, ExtractLimit) ::
         Covers(mm, names, h.choice))
  {
    var ts := Extract(query, names, tokenSort, cutoff, ExtractLimit);
    var pr := Extract(query, names, partial, cutoff, ExtractLimit);
    MergeTokenSortOk([], ts, query, names, tokenSort, partial, cutoff);
    var m1 := MergeTokenSort([], ts, names);
    MergePartialOk(m1, pr, query, names, tokenSort, partial, cutoff);
    var mm := MergePartial(m1, pr, names);
    forall h | h in ts ensures Covers(mm, names, h.choice) {
      CoversKept(m1, mm, names, h.choice);
    }
  }

  /**
   * Every advanced result is a distinct record reached through the
   * name-to-index map (so records sharing a name collapse to the last one,
   * and empty names never match); each scorer contributes its score or 0;
   * at least one scorer passed the cutoff; and the combined score is
   * 0.7 * token_sort + 0.3 * partial.
   */
  lemma MatchNameAdvancedSound(m: FuzzyMatcher, tokenSort: Scorer, partial: Scorer, query: string,
                               names: seq<string>, threshold: Option<real>)
    ensures var r := MatchNameAdvanced(m, tokenSort, partial, query, names, threshold);
      var cutoff := EffectiveThreshold(threshold, m.threshold);
      (forall a | a in r :: AdvancedOk(a, query, names, tokenSort, partial, cutoff, m.threshold)) &&
      DistinctRecords(r)
  {
    if query != "" && names != [] {
      var cutoff := EffectiveThreshold(threshold, m.threshold);
      var mm := MatchesMap(tokenSort, partial, query, names, cutoff);
      MatchesMapOk(tokenSort, partial, query, names, cutoff);
      var adv := ToAdvanced(mm, m.threshold);
      ToAdvancedOk(mm, query, names, tokenSort, partial, cutoff, m.threshold);
      SortDescSameElements(adv, Combined);
      SortDescDistinct(adv, Combined, RecordIndex);
    }
  }

  function RecordIndex(a: AdvancedMatch): nat { a.index }

  /** No two results are the same record. */
  ghost predicate DistinctRecords(r: seq<AdvancedMatch>) {
    DistinctBy(r, RecordIndex)
  }

  /** Converting the map to result records keeps every per-entry fact and the distinct keys. */
  lemma ToAdvancedOk(mm: seq<Entry>, query: string, names: seq<string>, tokenSort: Scorer,
                     partial: Scorer, cutoff: real, matcherThreshold: real)
    requires MapOk(mm, query, names, tokenSort, partial, cutoff)
    ensures var adv := ToAdvanced(mm, matcherThreshold);
      (forall a | a in adv :: AdvancedOk(a, query, names, tokenSort, partial, cutoff, matcherThreshold)) &&
      DistinctRecords(adv)
  {
    var adv := ToAdvanced(mm, matcherThreshold);
    forall a | a in adv
      ensures AdvancedOk(a, query, names, tokenSort, partial, cutoff, matcherThreshold)
    {
      var k :| 0 <= k < |adv| && adv[k] == a;
      assert EntryOk(mm[k], query, names, tokenSort, partial, cutoff);
    }
  }

  /**
   * Every hit of either scorer with a non-empty name is represented: the
   * record its name maps to appears in the advanced result.
   */
  lemma MatchNameAdvancedComplete(m: FuzzyMatcher, tokenSort: Scorer, partial: Scorer,
                                  query: string, names: seq<string>, threshold: Option<real>,
                                  h: Hit)
    requires query != "" && names != [] && h.choice != ""
    requires var cutoff := EffectiveThreshold(threshold, m.threshold);
      h in Extract(query, names, tokenSort, cutoff, ExtractLimit) ||
      h in Extract(query, names, partial, cutoff, ExtractLimit)
    ensures exists a | a in MatchNameAdvanced(m, tokenSort, partial, query, names, threshold) ::
      a.matchedName == h.choice
  {
    var cutoff := EffectiveThreshold(threshold, m.threshold);
    var mm := MatchesMap(tokenSort, partial, query, names, cutoff);
    MatchesMapOk(tokenSort, partial, query, names, cutoff);
    assert Covers(mm, names, h.choice);
    var p := EntryPos(mm, LastIndexOf(names, h.choice).value).value;
    assert mm[p].matchedName == h.choice by {
      assert EntryOk(mm[p], query, names, tokenSort, partial, cutoff);
    }
    var adv := ToAdvanced(mm, m.threshold);
    assert adv[p] in adv;
    SortDescSameElements(adv, Combined);
  }

  // ---------------------------------------------------------------------
  // is_similar

  /** `is_similar`: `(False, 0)` for an empty side, else the score against the threshold. */
  function IsSimilar(m: FuzzyMatcher, tokenSort: Scorer, a: string, b: string,
                     threshold: Option<real>): (r: (bool, real))
    ensures a == "" || b == "" ==> r == (false, 0.0)
    ensures a != "" && b != "" ==>
      r.1 == tokenSort(a, b) && (r.0 <==> r.1 >= EffectiveThreshold(threshold, m.threshold))
  {
    if a == "" || b == "" then (false, 0.0)
    else
      var s := tokenSort(a, b);
      (s >= EffectiveThreshold(threshold, m.threshold), s)
  }

  /**
   * Raising the threshold can only turn a similar pair dissimilar, never
   * the reverse, and the score does not depend on it.
   */
  lemma IsSimilarThresholdMonotone(m: FuzzyMatcher, tokenSort: Scorer, a: string, b: string,
                                   lo: real, hi: real)
    requires lo != 0.0 && hi != 0.0 && lo <= hi
    ensures IsSimilar(m, tokenSort, a, b, Some(lo)).1 == IsSimilar(m, tokenSort, a, b, Some(hi)).1
    ensures IsSimilar(m, tokenSort, a, b, Some(hi)).0 ==> IsSimilar(m, tokenSort, a, b, Some(lo)).0
  {
  }
}


=== FILE: identity_service.dfy ===
/**
 * `IdentityService`: the entry point the chat handlers call. It guards the
 * matcher against empty input, checks identity fields for plausibility, and
 * pulls a name out of free text. The regular-expression extraction of
 * e-mails and phone numbers arrives as two lists of matches.
 */
module IdentityService {
  import opened Wrappers
  import opened Strings
  import opened Records
  import opened Store
  import Normalizer
  import Matcher

  const NothingToMatch := "At least one of name, email, or phone must be provided"

  /** Some identifying field was supplied (`name or email or phone`). */
  predicate AnyIdentifier(name: Option<string>, email: Option<string>, phone: Option<string>) {
    Truthy(name) || Truthy(email) || Truthy(phone)
  }

  /** `resolve_identity`'s answer: an error, or the matcher's result. */
  datatype Resolve = Failure(error: string) | Success(resolution: Matcher.Resolution)

  /**
   * `resolve_identity`: with no name, e-mail or phone the matcher is not
   * called and the store is untouched; otherwise the matcher's answer is
   * reported as a success. (The in-memory matcher always finds or creates
   * an author, so its `match_found` is always true.)
   */
  function ResolveIdentity(env: Matcher.Env, s: Store, q: Matcher.Query): (r: (Store, Resolve))
    requires Valid(s)
    ensures Valid(r.0) && Extends(r.0, s)
    ensures !AnyIdentifier(q.name, q.email, q.phone) ==> r == (s, Failure(NothingToMatch))
    ensures r.1.Success? <==> AnyIdentifier(q.name, q.email, q.phone)
    ensures r.1.Success? ==>
      Matcher.Resolved(r.0, r.1.resolution) &&
      Matcher.IsHandleOf(r.1.resolution.identity, q.platform, Matcher.Handle(env, q))
  {
    if !AnyIdentifier(q.name, q.email, q.phone) then (s, Failure(NothingToMatch))
    else
      var (t, res) := Matcher.MatchIdentity(env, s, q);
      (t, Success(res))
  }

  // ---------------------------------------------------------------------
  // validate_identity_info

  datatype Validation = Validation(valid: bool, errors: seq<string>, warnings: seq<string>)

  /** `any(c.isalpha() for c in s)`, for ASCII letters. */
  predicate HasLetter(s: string) {
    exists k | 0 <= k < |s| :: IsAlpha(s[k])
  }

  /** The error messages, in the order the checks run. */
  function ValidationErrors(validatePhone: string -> bool, name: Option<string>,
                            email: Option<string>, phone: Option<string>): (errors: seq<string>)
    ensures errors == [] <==>
      AnyIdentifier(name, email, phone) &&
      (Truthy(email) ==> Normalizer.ValidateEmail(email.value)) &&
      (Truthy(phone) ==> validatePhone(phone.value)) &&
      (Truthy(name) ==> |Strip(name.value)| >= 2 && HasLetter(name.value))
    ensures Truthy(email) && !Normalizer.ValidateEmail(email.value) ==>
      errors[0] == "Invalid email format: " + email.value
    ensures !AnyIdentifier(name, email, phone) ==> errors == [NothingToMatch]
  {
    (if Truthy(email) && !Normalizer.ValidateEmail(email.value)
     then ["Invalid email format: " + email.value] else []) +
    (if Truthy(phone) && !validatePhone(phone.value)
     then ["Invalid phone format: " + phone.value] else []) +
    (if Truthy(name) && |Strip(name.value)| < 2 then ["Name is too short"] else []) +
    (if Truthy(name) && !HasLetter(name.value) then ["Name must contain letters"] else []) +
    (if !AnyIdentifier(name, email, phone) then [NothingToMatch] else [])
  }

  /**
   * `validate_identity_info`: valid exactly when no check failed; a name
   * with neither e-mail nor phone draws the one warning.
   */
  function ValidateIdentityInfo(validatePhone: string -> bool, name: Option<string>,
                                email: Option<string>, phone: Option<string>): (v: Validation)
    ensures v.valid <==> v.errors == []
    ensures v.errors == ValidationErrors(validatePhone, name, email, phone)
    ensures |v.warnings| <= 1
    ensures v.warnings != [] <==> Truthy(name) && !Truthy(email) && !Truthy(phone)
  {
    var errors := ValidationErrors(validatePhone, name, email, phone);
    var warnings := if Truthy(name) && !(Truthy(email) || Truthy(phone))
                    then ["Name only provided - matching may be less accurate"] else [];
    Validation(|errors| == 0, errors, warnings)
  }

  /** Anything the validator accepts, the resolver accepts too. */
  lemma ValidInputResolves(env: Matcher.Env, validatePhone: string -> bool, s: Store, q: Matcher.Query)
    requires Valid(s)
    requires ValidateIdentityInfo(validatePhone, q.name, q.email, q.phone).valid
    ensures ResolveIdentity(env, s, q).1.Success?
  {
  }

  // ---------------------------------------------------------------------
  // extract_and_resolve

  /** `text.split('\n')[0]`: the text up to its first line break. */
  function FirstLine(text: string): (line: string)
    ensures '\n' !in line && line <= text
    ensures |line| < |text| ==> text[|line|] == '\n'
  {
    if text == [] || text[0] == '\n' then [] else [text[0]] + FirstLine(text[1..])
  }

  /** Every word starts with an upper-case letter. */
  predicate Capitalised(words: seq<string>) {
    forall k | 0 <= k < |words| :: |words[k]| > 0 && IsUpper(words[k][0])
  }

  /** The name heuristic: a first line of two to four capitalised words is a name. */
  function GuessName(text: string): (name: Option<string>)
    ensures name.Some? <==>
      2 <= |Words(Strip(FirstLine(text)))| <= 4 && Capitalised(Words(Strip(FirstLine(text))))
    ensures name.Some? ==> name.value == Strip(FirstLine(text)) && '\n' !in name.value
  {
    var line := Strip(FirstLine(text));
    var words := Words(line);
    StripCharsFromInput(FirstLine(text));
    if 2 <= |words| <= 4 && Capitalised(words) then Some(line) else None
  }

  function FirstOf(found: seq<string>): (r: Option<string>)
    ensures r.Some? <==> found != []
    ensures r.Some? ==> r.value == found[0]
  {
    if found == [] then None else Some(found[0])
  }

  /**
   * `extract_and_resolve`: resolve the guessed name with the first
   * extracted e-mail and phone, using the e-mail (or else the phone) as the
   * platform identifier.
   */
  function ExtractAndResolve(env: Matcher.Env, s: Store, text: string, platform: string,
                             emails: seq<string>, phones: seq<string>): (r: (Store, Resolve))
    requires Valid(s)
    ensures Valid(r.0) && Extends(r.0, s)
    ensures emails != [] && emails[0] != "" ==>
      r.1.Success? && r.1.resolution.identity.platformIdentifier == emails[0] &&
      r.1.resolution.identity.platform == platform
    ensures (emails == [] || emails[0] == "") && phones != [] && phones[0] != "" ==>
      r.1.Success? && r.1.resolution.identity.platformIdentifier == phones[0]
    ensures (GuessName(text).None? && (emails == [] || emails[0] == "") &&
             (phones == [] || phones[0] == "")) ==> r == (s, Failure(NothingToMatch))
  {
    var email := FirstOf(emails);
    var phone := FirstOf(phones);
    var pid := if Truthy(email) then email else phone;
    ResolveIdentity(env, s, Matcher.Query(GuessName(text), email, phone, platform, pid))
  }

  /**
   * Extraction is stable: handling the same message again resolves to the
   * same author through the handle the first call left on file, and
   * writes nothing.
   */
  lemma ExtractAndResolveStable(env: Matcher.Env, s: Store, text: string, platform: string,
                                emails: seq<string>, phones: seq<string>)
    requires Valid(s)
    ensures var (s1, r1) := ExtractAndResolve(env, s, text, platform, emails, phones);
      var (s2, r2) := ExtractAndResolve(env, s1, text, platform, emails, phones);
      s2 == s1 && (r2.Success? <==> r1.Success?) &&
      (r1.Success? ==>
        r2.resolution.author == r1.resolution.author && r2.resolution.via == "exact_identity_match")
  {
    var email := FirstOf(emails);
    var phone := FirstOf(phones);
    var pid := if Truthy(email) then email else phone;
    var q := Matcher.Query(GuessName(text), email, phone, platform, pid);
    if AnyIdentifier(q.name, q.email, q.phone) {
      Matcher.MatchIdentityStable(env, s, q);
    }
  }
}


=== FILE: local_chat.dfy ===
/**
 * `LocalChat`: the offline chat endpoint. It looks the sender up by e-mail,
 * then phone, then name; hands the message to the offline query processor;
 * and decides what to persist: a new conversation, the two messages of the
 * exchange, and an escalation row.
 *
 * The store inserts are returned as rows instead of being performed; the id
 * the `conversations` insert hands back is a parameter.
 */
module LocalChat {
  import opened Wrappers
  import opened Strings
  import opened Records
  import opened Store
  import LocalProcessor

  /** `IdentityInfo` of the request. */
  datatype IdentityInfo = IdentityInfo(
    name: Option<string>,
    email: Option<string>,
    phone: Option<string>,
    platform: string)

  const DefaultPlatform := "web_chat"

  /** The dictionary `find_author_by_identity` returns. */
  datatype Found = Found(authorId: nat, identityId: Option<nat>, author: Author)

  // ---------------------------------------------------------------------
  // find_author_by_identity

  /** An e-mail identity whose handle equals the e-mail up to case, of an existing author. */
  predicate EmailHit(s: Store, email: string, x: Identity) {
    x.platform == "email" && ToLower(x.platformIdentifier) == ToLower(email) &&
    FindAuthor(s, x.authorId).Some?
  }

  /** A phone or WhatsApp identity with the same non-empty digit string, of an existing author. */
  predicate PhoneHit(s: Store, phone: string, x: Identity) {
    (x.platform == "phone" || x.platform == "whatsapp") &&
    Digits(x.platformIdentifier) != "" && Digits(phone) != "" &&
    Digits(x.platformIdentifier) == Digits(phone) &&
    FindAuthor(s, x.authorId).Some?
  }

  /** An author whose full name equals the name up to case. */
  predicate NameHit(name: string, a: Author) {
    ToLower(a.fullName) == ToLower(name)
  }

  /** The result for a matching identity row: its author and its own id. */
  function ViaIdentity(s: Store, x: Identity): (r: Found)
    requires FindAuthor(s, x.authorId).Some?
    ensures r.author in s.authors && r.author.id == r.authorId == x.authorId
    ensures r.identityId == Some(x.id)
  {
    Found(x.authorId, Some(x.id), FindAuthor(s, x.authorId).value)
  }

  /** The e-mail pass: the first e-mail identity that matches, in row order. */
  function ByEmail(s: Store, email: string): (r: Option<Found>)
    ensures r.None? <==> forall k | 0 <= k < |s.identities| :: !EmailHit(s, email, s.identities[k])
    ensures r.Some? ==> exists k | 0 <= k < |s.identities| ::
      EmailHit(s, email, s.identities[k]) && r.value == ViaIdentity(s, s.identities[k]) &&
      (forall j | 0 <= j < k :: !EmailHit(s, email, s.identities[j]))
  {
    match FirstIndex(s.identities, x => EmailHit(s, email, x))
    case None => None
    case Some(k) => Some(ViaIdentity(s, s.identities[k]))
  }

  /** The phone pass: the first phone or WhatsApp identity whose digits match, in row order. */
  function ByPhone(s: Store, phone: string): (r: Option<Found>)
    ensures r.None? <==> forall k | 0 <= k < |s.identities| :: !PhoneHit(s, phone, s.identities[k])
    ensures r.Some? ==> exists k | 0 <= k < |s.identities| ::
      PhoneHit(s, phone, s.identities[k]) && r.value == ViaIdentity(s, s.identities[k]) &&
      (forall j | 0 <= j < k :: !PhoneHit(s, phone, s.identities[j]))
  {
    match FirstIndex(s.identities, x => PhoneHit(s, phone, x))
    case None => None
    case Some(k) => Some(ViaIdentity(s, s.identities[k]))
  }

  /** The first identity row of the author, if there is one. */
  function FirstIdentityOf(s: Store, authorId: nat): (r: Option<nat>)
    ensures r.None? <==> forall k | 0 <= k < |s.identities| :: s.identities[k].authorId != authorId
    ensures r.Some? ==> exists k | 0 <= k < |s.identities| ::
      s.identities[k].authorId == authorId && s.identities[k].id == r.value &&
      (forall j | 0 <= j < k :: s.identities[j].authorId != authorId)
  {
    match FirstIndex(s.identities, (x: Identity) => x.authorId == authorId)
    case None => None
    case Some(k) => Some(s.identities[k].id)
  }

  /** The name pass: the first author with that name, and that author's first identity. */
  function ByName(s: Store, name: string): (r: Option<Found>)
    ensures r.None? <==> forall k | 0 <= k < |s.authors| :: !NameHit(name, s.authors[k])
    ensures r.Some? ==> exists k | 0 <= k < |s.authors| ::
      NameHit(name, s.authors[k]) && r.value.author == s.authors[k] &&
      (forall j | 0 <= j < k :: !NameHit(name, s.authors[j]))
    ensures r.Some? ==>
      r.value.authorId == r.value.author.id && r.value.identityId == FirstIdentityOf(s, r.value.authorId)
  {
    match FirstIndex(s.authors, a => NameHit(name, a))
    case None => None
    case Some(k) =>
      var a := s.authors[k];
      Some(Found(a.id, FirstIdentityOf(s, a.id), a))
  }

  predicate EmailMatches(s: Store, info: IdentityInfo) {
    Truthy(info.email) && exists k | 0 <= k < |s.identities| :: EmailHit(s, info.email.value, s.identities[k])
  }

  predicate PhoneMatches(s: Store, info: IdentityInfo) {
    Truthy(info.phone) && exists k | 0 <= k < |s.identities| :: PhoneHit(s, info.phone.value, s.identities[k])
  }

  predicate NameMatches(s: Store, info: IdentityInfo) {
    Truthy(info.name) && exists k | 0 <= k < |s.authors| :: NameHit(info.name.value, s.authors[k])
  }

  /**
   * `find_author_by_identity`: e-mail first, then phone, then name; the
   * first pass with a hit decides, and nothing is found when no pass hits.
   */
  function FindAuthorByIdentity(s: Store, info: IdentityInfo): (r: Option<Found>)
    ensures r.None? <==> !EmailMatches(s, info) && !PhoneMatches(s, info) && !NameMatches(s, info)
    ensures r.Some? ==> r.value.author in s.authors && r.value.author.id == r.value.authorId
    ensures EmailMatches(s, info) ==> exists k | 0 <= k < |s.identities| ::
      EmailHit(s, info.email.value, s.identities[k]) && r == Some(ViaIdentity(s, s.identities[k]))
    ensures !EmailMatches(s, info) && PhoneMatches(s, info) ==> exists k | 0 <= k < |s.identities| ::
      PhoneHit(s, info.phone.value, s.identities[k]) && r == Some(ViaIdentity(s, s.identities[k]))
    ensures !EmailMatches(s, info) && !PhoneMatches(s, info) && NameMatches(s, info) ==>
      r.Some? && NameHit(info.name.value, r.value.author)
  {
    var byEmail := if Truthy(info.email) then ByEmail(s, info.email.value) else None;
    var byPhone := if Truthy(info.phone) then ByPhone(s, info.phone.value) else None;
    if byEmail.Some? then byEmail
    else if byPhone.Some? then byPhone
    else if Truthy(info.name) then ByName(s, info.name.value)
    else None
  }

  // ---------------------------------------------------------------------
  // send_message

  datatype ChatRequest = ChatRequest(
    message: string,
    identity: Option<IdentityInfo>,
    conversationId: Option<string>)

  datatype Conversation = Conversation(authorId: nat, identityId: Option<nat>, platform: string, status: string)

  datatype Message = Message(
    conversationId: string,
    role: string,
    content: string,
    confidenceScore: Option<real>,
    intent: LocalProcessor.LocalIntent)

  /** The escalation row; its `reason` text formats the confidence and intent. */
  datatype Escalation = Escalation(
    conversationId: string,
    status: string,
    priority: string,
    query: string,
    confidence: real,
    intent: LocalProcessor.LocalIntent)

  /** What the endpoint writes. */
  datatype Writes = Writes(conversation: Option<Conversation>, messages: seq<Message>, escalation: Option<Escalation>)

  datatype ChatResponse = ChatResponse(
    response: string,
    confidence: real,
    intent: LocalProcessor.LocalIntent,
    action: LocalProcessor.Action,
    conversationId: Option<string>)

  /** The sender's identity, looked up only when the request carries identity information. */
  function Lookup(s: Store, req: ChatRequest): (r: Option<Found>)
    ensures req.identity.None? ==> r.None?
    ensures req.identity.Some? ==> r == FindAuthorByIdentity(s, req.identity.value)
  {
    if req.identity.Some? then FindAuthorByIdentity(s, req.identity.value) else None
  }

  /** The author the processor sees: the row for the found identity's author. */
  function AuthorOf(s: Store, found: Option<Found>): (r: Option<Author>)
    ensures r.Some? <==> found.Some? && found.value.authorId in AuthorIds(s)
  {
    if found.None? then None else LocalProcessor.ExtractAuthorInfo(s, Some(found.value.authorId))
  }

  /**
   * The query processor: the message and the identified author's row to a
   * result. Offline it is `LocalProcessor.ProcessQuery` over a knowledge-base
   * search (`OfflineProcessor`).
   */
  type Processor = (string, Option<Author>) -> LocalProcessor.LocalResult

  function OfflineProcessor(search: LocalProcessor.Search): Processor {
    (query: string, author: Option<Author>) => LocalProcessor.ProcessQuery(search, query, author)
  }

  /**
   * `send_message`: process the message, open a conversation when none was
   * given and the sender was identified, store the exchange when there is a
   * conversation, and escalate only within a conversation. `inserted` is the
   * id the conversation insert returns (None when it returns no row).
   */
  function SendMessage(s: Store, process: Processor, req: ChatRequest, inserted: Option<string>)
    : (r: (ChatResponse, Writes))
    ensures var found := Lookup(s, req);
      var result := process(req.message, AuthorOf(s, found));
      r.0.response == result.answer && r.0.confidence == result.confidence &&
      r.0.intent == result.intent && r.0.action == result.action
    ensures r.1.conversation.Some? <==> !Truthy(req.conversationId) && Lookup(s, req).Some?
    ensures r.1.conversation.Some? ==>
      r.1.conversation.value.authorId == Lookup(s, req).value.authorId &&
      r.1.conversation.value.identityId == Lookup(s, req).value.identityId &&
      r.1.conversation.value.status == "active" &&
      r.1.conversation.value.platform == req.identity.value.platform
    ensures Truthy(req.conversationId) ==> r.0.conversationId == req.conversationId
    ensures r.1.conversation.Some? && inserted.Some? ==> r.0.conversationId == inserted
    ensures Truthy(r.0.conversationId) ==>
      |r.1.messages| == 2 &&
      r.1.messages[0] == Message(r.0.conversationId.value, "user", req.message, None, r.0.intent) &&
      r.1.messages[1] == Message(r.0.conversationId.value, "assistant", r.0.response, Some(r.0.confidence), r.0.intent)
    ensures !Truthy(r.0.conversationId) ==> r.1.messages == []
    ensures r.1.escalation.Some? <==> r.0.action == LocalProcessor.Escalate && Truthy(r.0.conversationId)
    ensures r.1.escalation.Some? ==>
      r.1.escalation.value == Escalation(r.0.conversationId.value, "pending", "medium", req.message,
                                          r.0.confidence, r.0.intent)
  {
    var found := Lookup(s, req);
    var result := process(req.message, AuthorOf(s, found));
    var conversation :=
      if !Truthy(req.conversationId) && found.Some? then
        Some(Conversation(found.value.authorId, found.value.identityId,
                          if req.identity.Some? then req.identity.value.platform else DefaultPlatform, "active"))
      else None;
    var conversationId := if conversation.Some? && inserted.Some? then inserted else req.conversationId;
    var messages :=
      if Truthy(conversationId) then
        [Message(conversationId.value, "user", req.message, None, result.intent),
         Message(conversationId.value, "assistant", result.answer, Some(result.confidence), result.intent)]
      else [];
    var escalation :=
      if result.action == LocalProcessor.Escalate && Truthy(conversationId) then
        Some(Escalation(conversationId.value, "pending", "medium", req.message, result.confidence, result.intent))
      else None;
    (ChatResponse(result.answer, result.confidence, result.intent, result.action, conversationId),
     Writes(conversation, messages, escalation))
  }

  /**
   * A message from an unidentified sender outside a conversation writes
   * nothing, so even an escalation decision leaves no escalation row.
   */
  lemma AnonymousWritesNothing(s: Store, process: Processor, req: ChatRequest, inserted: Option<string>)
    requires req.identity.None? && !Truthy(req.conversationId)
    ensures var r := SendMessage(s, process, req, inserted);
      r.1 == Writes(None, [], None) && r.0.conversationId == req.conversationId
  {
  }

  /**
   * An anonymous book-status question is answered with an escalate action
   * (the processor needs an identity), yet no escalation row is written.
   */
  lemma AnonymousBookStatusNotEscalated(s: Store, search: LocalProcessor.Search, req: ChatRequest,
                                        inserted: Option<string>)
    requires req.identity.None? && !Truthy(req.conversationId)
    requires LocalProcessor.ClassifyIntent(req.message) == LocalProcessor.BookStatus
    ensures var r := SendMessage(s, OfflineProcessor(search), req, inserted);
      r.0.action == LocalProcessor.Escalate && r.1.escalation.None?
  {
    AnonymousWritesNothing(s, OfflineProcessor(search), req, inserted);
  }
}

=== FILE: local_processor.dfy ===
/**
 * `LocalQueryProcessor`: the offline answer path. A keyword classifier
 * picks the intent, author-specific questions are answered from the
 * author's metadata, knowledge questions from the local retriever, and a
 * fixed confidence per branch decides between answering and escalating.
 */
module LocalProcessor {
  import opened Wrappers
  import opened Strings
  import opened Records
  import opened Store
  import LocalRetriever

  // ---------------------------------------------------------------------
  // classify_intent

  datatype LocalIntent = BookStatus | RoyaltyInquiry | AuthorCopyQuery | GeneralKnowledge | Greeting | General

  function IntentName(i: LocalIntent): string {
    match i
    case BookStatus => "book_status"
    case RoyaltyInquiry => "royalty_inquiry"
    case AuthorCopyQuery => "author_copy"
    case GeneralKnowledge => "general_knowledge"
    case Greeting => "greeting"
    case General => "general"
  }

  const BookStatusWords: seq<string> := ["live", "published", "publish", "book", "available", "status"]
  const RoyaltyWords: seq<string> := ["royalty", "payment", "paid", "money", "earnings", "revenue"]
  const AuthorCopyWords: seq<string> := ["copy", "copies", "shipped", "delivery", "tracking", "author copy"]
  const KnowledgeWords: seq<string> :=
    ["how", "what", "process", "policy", "guideline", "refund", "addon", "premium", "dashboard"]
  const GreetingWords: seq<string> := ["hello", "hi", "hey", "greetings"]

  /** `any(word in text for word in words)`: plain substring tests. */
  predicate MentionsAny(text: string, words: seq<string>) {
    exists k | 0 <= k < |words| :: Contains(text, words[k])
  }

  /**
   * `classify_intent`: the first keyword group, in the fixed order book
   * status, royalty, author copy, knowledge, greeting, that has a member
   * occurring anywhere in the lower-cased query.
   */
  function ClassifyIntent(query: string): (i: LocalIntent)
    ensures var q := ToLower(query);
      (i == BookStatus <==> MentionsAny(q, BookStatusWords)) &&
      (i == RoyaltyInquiry <==> !MentionsAny(q, BookStatusWords) && MentionsAny(q, RoyaltyWords)) &&
      (i == AuthorCopyQuery <==>
         !MentionsAny(q, BookStatusWords) && !MentionsAny(q, RoyaltyWords) && MentionsAny(q, AuthorCopyWords)) &&
      (i == GeneralKnowledge <==>
         !MentionsAny(q, BookStatusWords) && !MentionsAny(q, RoyaltyWords) && !MentionsAny(q, AuthorCopyWords) &&
         MentionsAny(q, KnowledgeWords)) &&
      (i == Greeting <==>
         !MentionsAny(q, BookStatusWords) && !MentionsAny(q, RoyaltyWords) && !MentionsAny(q, AuthorCopyWords) &&
         !MentionsAny(q, KnowledgeWords) && MentionsAny(q, GreetingWords)) &&
      (i == General <==>
         !MentionsAny(q, BookStatusWords) && !MentionsAny(q, RoyaltyWords) && !MentionsAny(q, AuthorCopyWords) &&
         !MentionsAny(q, KnowledgeWords) && !MentionsAny(q, GreetingWords))
  {
    var q := ToLower(query);
    if MentionsAny(q, BookStatusWords) then BookStatus
    else if MentionsAny(q, RoyaltyWords) then RoyaltyInquiry
    else if MentionsAny(q, AuthorCopyWords) then AuthorCopyQuery
    else if MentionsAny(q, KnowledgeWords) then GeneralKnowledge
    else if MentionsAny(q, GreetingWords) then Greeting
    else General
  }

  lemma ContainsTransitive(s: string, t: string, u: string)
    requires Contains(s, t) && Contains(t, u)
    ensures Contains(s, u)
  {
    var i := ContainsWitness(s, t);
    var j := ContainsWitness(t, u);
    forall m | 0 <= m < |u| ensures s[i + j + m] == u[m] {
      assert t[j + m] == u[m];
      assert s[i + j + m] == t[j + m];
    }
    assert s[i + j..i + j + |u|] == u;
    ContainsAt(s, u, i + j);
  }

  /**
   * Because the tests are substring tests, "delivery" (an author-copy
   * keyword) contains "live" (a book-status keyword): a question about
   * delivery is always classified as a book-status question.
   */
  lemma DeliveryIsBookStatus(query: string)
    requires Contains(ToLower(query), "delivery")
    ensures ClassifyIntent(query) == BookStatus
  {
    assert "delivery"[2..6] == "live";
    ContainsAt("delivery", "live", 2);
    ContainsTransitive(ToLower(query), "delivery", "live");
    assert Contains(ToLower(query), BookStatusWords[0]);
  }

  // ---------------------------------------------------------------------
  // answer_book_status

  const NoBooks := "I don't have any book information on file for you. Please contact our support team for assistance."
  const NoStatus := "I couldn't find specific status information for your book. Please contact our support team."

  const KnownBookStatuses: set<string> := {"live", "in_production", "in_editing", "in_review", "submitted"}

  function Quoted(title: string): string { "\"" + title + "\"" }

  function BookTitle(b: Book): string { b.title.GetOr("Unknown") }

  /** The text after the quoted title, for a recognised status. */
  function BookTail(b: Book, status: string): string {
    if status == "live" then
      " is live and available for purchase." +
      (if Truthy(b.publishedDate) then " It was published on " + b.publishedDate.value + "." else "") +
      (if Truthy(b.isbn) then " ISBN: " + b.isbn.value else "")
    else if status == "in_production" then
      " is currently in production. Expected publication date: " + b.expectedDate.GetOr("soon") + "."
    else if status == "in_editing" then
      " is in the editing phase. " +
      (if Truthy(b.expectedDate) then "Expected completion: " + b.expectedDate.value + "."
       else "Our team is working on it.")
    else if status == "in_review" then
      " is under review. " +
      (if Truthy(b.expectedDate) then "Review expected to complete by: " + b.expectedDate.value + "."
       else "We'll notify you once the review is complete.")
    else
      " has been submitted for review. " +
      (if Truthy(b.submissionDate) then "Submission date: " + b.submissionDate.value + ". " else "") +
      "Our team will review it and get back to you soon."
  }

  /** One book's sentence, or nothing for a status the assistant does not describe. */
  function BookLine(b: Book): (r: Option<string>)
    ensures r.Some? <==> KnownBook(b)
    ensures r.Some? ==> Contains(r.value, Quoted(BookTitle(b)))
  {
    var status := b.status.GetOr("unknown");
    if status !in KnownBookStatuses then None
    else
      var lead := if status == "live" then "Great news! Your book " else "Your book ";
      var line := lead + Quoted(BookTitle(b)) + BookTail(b, status);
      assert line[|lead|..|lead| + |Quoted(BookTitle(b))|] == Quoted(BookTitle(b));
      ContainsAt(line, Quoted(BookTitle(b)), |lead|);
      Some(line)
  }

  /** A status `answer_book_status` describes. */
  predicate KnownBook(b: Book) {
    b.status.GetOr("unknown") in KnownBookStatuses
  }

  /** The sentences of the books with a recognised status, in order. */
  function BookLines(books: seq<Book>): (r: seq<string>)
    ensures |r| <= |books|
    ensures r == [] <==> forall k | 0 <= k < |books| :: !KnownBook(books[k])
  {
    if books == [] then []
    else
      var rest := BookLines(books[1..]);
      assert forall k | 1 <= k < |books| :: books[k] == books[1..][k - 1];
      (match BookLine(books[0]) case Some(line) => [line] case None => []) + rest
  }

  /** Every recognised book contributes its sentence. */
  lemma {:induction false} BookLinesComplete(books: seq<Book>, k: nat)
    requires k < |books| && KnownBook(books[k])
    ensures BookLine(books[k]).value in BookLines(books)
  {
    if k > 0 {
      assert books[k] == books[1..][k - 1];
      BookLinesComplete(books[1..], k - 1);
    }
  }

  /** Every sentence comes from some recognised book. */
  lemma {:induction false} BookLinesSound(books: seq<Book>, line: string)
    requires line in BookLines(books)
    ensures exists k | 0 <= k < |books| :: BookLine(books[k]) == Some(line)
  {
    if BookLine(books[0]) != Some(line) {
      assert line in BookLines(books[1..]);
      BookLinesSound(books[1..], line);
      var k :| 0 <= k < |books[1..]| && BookLine(books[1..][k]) == Some(line);
      assert books[1..][k] == books[k + 1];
    }
  }

  /**
   * `answer_book_status`: one sentence per book with a recognised status,
   * separated by blank lines; fixed texts for no books and for no
   * recognised status.
   */
  function AnswerBookStatus(m: Metadata): (r: string)
    ensures m.books == [] ==> r == NoBooks
    ensures m.books != [] && BookLines(m.books) == [] ==> r == NoStatus
    ensures BookLines(m.books) != [] ==> r == Join(BookLines(m.books), "\n\n")
  {
    if m.books == [] then NoBooks
    else
      var lines := BookLines(m.books);
      if lines == [] then NoStatus else Join(lines, "\n\n")
  }

  /** Every book with a recognised status is named, in quotes, in the answer. */
  lemma BookStatusNamesEveryKnownBook(m: Metadata, k: nat)
    requires k < |m.books| && KnownBook(m.books[k])
    ensures Contains(AnswerBookStatus(m), Quoted(BookTitle(m.books[k])))
  {
    var lines := BookLines(m.books);
    var line := BookLine(m.books[k]).value;
    BookLinesComplete(m.books, k);
    var j :| 0 <= j < |lines| && lines[j] == line;
    JoinContainsPart(lines, "\n\n", j);
    ContainsTransitive(AnswerBookStatus(m), line, Quoted(BookTitle(m.books[k])));
  }

  /** A book whose status is not recognised changes nothing in the answer, unless it is the only book. */
  lemma UnknownBookChangesNothing(m: Metadata, b: Book)
    requires m.books != [] && !KnownBook(b)
    ensures AnswerBookStatus(m.(books := m.books + [b])) == AnswerBookStatus(m)
  {
    BookLinesSnoc(m.books, b);
  }

  lemma {:induction false} BookLinesSnoc(books: seq<Book>, b: Book)
    requires BookLine(b).None?
    ensures BookLines(books + [b]) == BookLines(books)
  {
    if books == [] {
      assert BookLines([b]) == [] + BookLines([]);
    } else {
      assert (books + [b])[1..] == books[1..] + [b];
      assert (books + [b])[0] == books[0];
      BookLinesSnoc(books[1..], b);
    }
  }

  // ---------------------------------------------------------------------
  // answer_royalty_inquiry

  const NoRoyaltyLead := "Your book hasn't generated royalty payments yet, "
  const NoRoyalty :=
    NoRoyaltyLead + "or royalty information is not available at this time. " +
    "Royalties are typically paid quarterly after publication. Please contact our finance team for more details."
  const Congratulations :=
    "\n\n\U{1F389} Congratulations! Your book has bestseller status, which may result in additional bonuses."
  const RoyaltyClosing :=
    "\n\nRoyalties are calculated based on net sales and are paid quarterly. " +
    "You can view detailed breakdowns in your author dashboard."

  /** Royalty data is usable unless the payment date or the amount is missing ("N/A"). */
  predicate RoyaltyKnown(r: Royalty) {
    r.nextPaymentDate.GetOr("N/A") != "N/A" && r.amount.GetOr("N/A") != "N/A"
  }

  const ScheduledLead := "Your next royalty payment is scheduled for "

  /**
   * `answer_royalty_inquiry`: the not-available text when the date or
   * amount is "N/A"; otherwise the scheduled date first and the standard
   * closing last, congratulating bestsellers in between.
   */
  function AnswerRoyaltyInquiry(r: Royalty): (answer: string)
    ensures !RoyaltyKnown(r) ==> answer == NoRoyalty
    ensures RoyaltyKnown(r) ==>
      ScheduledLead + r.nextPaymentDate.value + "." <= answer &&
      EndsWith(answer, RoyaltyClosing)
    ensures RoyaltyKnown(r) && r.bestseller ==> Contains(answer, Congratulations)
    ensures RoyaltyKnown(r) && r.amount.value != "" ==> Contains(answer, " Expected amount: " + r.amount.value)
  {
    if !RoyaltyKnown(r) then NoRoyalty
    else
      var next := r.nextPaymentDate.value;
      var amount := r.amount.value;
      var period := r.period.GetOr("");
      var head := ScheduledLead + next + ".";
      var withAmount := head + (if amount != "" then " Expected amount: " + amount else "");
      var body := withAmount + (if period != "" then " for " + period else "");
      var withBonus := body + (if r.bestseller then Congratulations else "");
      var answer := withBonus + RoyaltyClosing;
      PiecesOfAnswer(head, if amount != "" then " Expected amount: " + amount else "",
                     if period != "" then " for " + period else "",
                     if r.bestseller then Congratulations else "", RoyaltyClosing);
      answer
  }

  /**
   * The not-available text is given exactly when the date or the amount is
   * missing: a known royalty is always answered with its own date.
   */
  lemma RoyaltyUnavailableExactly(r: Royalty)
    ensures AnswerRoyaltyInquiry(r) == NoRoyalty <==> !RoyaltyKnown(r)
  {
    if RoyaltyKnown(r) {
      var answer := AnswerRoyaltyInquiry(r);
      assert answer[5] == ScheduledLead[5];
      assert ScheduledLead[5] == 'n' && NoRoyaltyLead[5] == 'b';
      assert NoRoyalty[5] == NoRoyaltyLead[5];
    }
  }

  /** Where each piece of a five-part concatenation sits. */
  lemma PiecesOfAnswer(a: string, b: string, c: string, d: string, e: string)
    ensures var s := a + b + c + d + e;
      a <= s && Contains(s, b) && Contains(s, d) &&
      EndsWith(s, e)
  {
    var s := a + b + c + d + e;
    assert s[|a|..|a| + |b|] == b;
    ContainsAt(s, b, |a|);
    assert s[|a + b + c|..|a + b + c| + |d|] == d;
    ContainsAt(s, d, |a + b + c|);
  }

  // ---------------------------------------------------------------------
  // answer_author_copy

  const NoCopyLead := "I don't have specific information"
  const NoCopyInfo :=
    NoCopyLead + " about your author copy. Please contact our fulfillment team for assistance."
  const CopiesAfterPublication := "Author copies are provided after publication."
  const DeliveredClosing := ". If you haven't received them, please contact our shipping department."
  const ShippedLead := "Your author copy has been shipped"
  const ShippedClosing := ". You should receive it within 5-7 business days."
  const InTransitLead := "Your author copy is currently in transit"
  const PreparingLead := "Your author copy is being prepared. "
  const ShipDateLead := "Expected ship date: "
  const ShippedAfterPublication := "It will be shipped shortly after your book is published."
  const PendingLead := "Your author copy is pending. "

  const KnownCopyStatuses: set<string> :=
    {"delivered", "shipped", "in_transit", "production", "pending", "not_applicable", "not_yet"}

  /** The plural ending of "cop…": "ies" for more than one copy, else "y". */
  function PluralEnding(copies: int): string {
    if copies > 1 then "ies" else "y"
  }

  /** The verb agreeing with the number of copies. */
  function PluralVerb(copies: int): string {
    if copies > 1 then "were" else "was"
  }

  function TrackingSuffix(tracking: Option<string>): string {
    if Truthy(tracking) then ". Tracking number: " + tracking.value else ""
  }

  function DeliveredAnswer(c: AuthorCopy): (answer: string)
    ensures var copies := c.copies.GetOr(1);
      "Your author cop" + PluralEnding(copies) + " (" + IntToString(copies) + ") " +
        PluralVerb(copies) + " delivered on " <= answer
  {
    var copies := c.copies.GetOr(1);
    "Your author cop" + PluralEnding(copies) + " (" + IntToString(copies) + ") " +
    PluralVerb(copies) + " delivered on " + c.deliveredDate.GetOr("") + DeliveredClosing
  }

  /**
   * A delivered status names the number of copies with matching wording:
   * "copies … were" for more than one copy, "copy … was" otherwise (a
   * missing count reads as one copy).
   */
  lemma DeliveredWording(c: AuthorCopy)
    requires c.status == Some("delivered")
    ensures var copies := c.copies.GetOr(1); var answer := AnswerAuthorCopy(c);
      (copies > 1 ==> "Your author copies (" + IntToString(copies) + ") were delivered on " <= answer) &&
      (copies <= 1 ==> "Your author copy (" + IntToString(copies) + ") was delivered on " <= answer)
  {
    var copies := c.copies.GetOr(1);
    var n := IntToString(copies);
    if copies > 1 {
      assert PluralEnding(copies) == "ies" && PluralVerb(copies) == "were";
      PluralWording(n);
    } else {
      assert PluralEnding(copies) == "y" && PluralVerb(copies) == "was";
      SingularWording(n);
    }
  }

  lemma PluralWording(n: string)
    ensures "Your author cop" + "ies" + " (" + n + ") " + "were" + " delivered on " ==
      "Your author copies (" + n + ") were delivered on "
  {
  }

  lemma SingularWording(n: string)
    ensures "Your author cop" + "y" + " (" + n + ") " + "was" + " delivered on " ==
      "Your author copy (" + n + ") was delivered on "
  {
  }

  /** Opens with the shipped lead and the date when there is one, and closes with the delivery window. */
  function ShippedAnswer(c: AuthorCopy): (answer: string)
    ensures ShippedLead <= answer
    ensures EndsWith(answer, ShippedClosing)
    ensures Truthy(c.shippedDate) ==> ShippedLead + " on " + c.shippedDate.value <= answer
    ensures Truthy(c.trackingNumber) ==> Contains(answer, c.trackingNumber.value)
    ensures !Truthy(c.shippedDate) && !Truthy(c.trackingNumber) ==> answer == ShippedLead + ShippedClosing
  {
    var head := ShippedLead + (if Truthy(c.shippedDate) then " on " + c.shippedDate.value else "");
    TrackingShown(head, c.trackingNumber, ShippedClosing);
    head + TrackingSuffix(c.trackingNumber) + ShippedClosing
  }

  /** Opens with the in-transit lead and the expected arrival when there is one. */
  function InTransitAnswer(c: AuthorCopy): (answer: string)
    ensures InTransitLead <= answer
    ensures Truthy(c.expectedDelivery) ==>
      InTransitLead + " and expected to arrive by " + c.expectedDelivery.value <= answer
    ensures Truthy(c.trackingNumber) ==> Contains(answer, c.trackingNumber.value)
    ensures !Truthy(c.expectedDelivery) && !Truthy(c.trackingNumber) ==> answer == InTransitLead
  {
    var head := InTransitLead +
      (if Truthy(c.expectedDelivery) then " and expected to arrive by " + c.expectedDelivery.value else "");
    TrackingShown(head, c.trackingNumber, "");
    head + TrackingSuffix(c.trackingNumber) + ""
  }

  /** The preparing lead, then the expected ship date or, without one, the after-publication sentence. */
  function PreparingAnswer(c: AuthorCopy): (answer: string)
    ensures PreparingLead <= answer
    ensures Truthy(c.expectedDate) ==> PreparingLead + ShipDateLead + c.expectedDate.value <= answer
    ensures !Truthy(c.expectedDate) ==> answer == PreparingLead + ShippedAfterPublication
  {
    PreparingLead +
    (if Truthy(c.expectedDate) then ShipDateLead + c.expectedDate.value + "." else ShippedAfterPublication)
  }

  /** The pending lead, carrying the expected ship date and the note when each is present. */
  function PendingAnswer(c: AuthorCopy): (answer: string)
    ensures PendingLead <= answer
    ensures Truthy(c.expectedDate) ==> Contains(answer, ShipDateLead + c.expectedDate.value)
    ensures Truthy(c.note) ==> Contains(answer, " Note: " + c.note.value)
    ensures !Truthy(c.expectedDate) && !Truthy(c.note) ==> answer == PendingLead
  {
    var date := if Truthy(c.expectedDate) then ShipDateLead + c.expectedDate.value + "." else "";
    var note := if Truthy(c.note) then " Note: " + c.note.value else "";
    ConcatPieces(PendingLead, date, note);
    if Truthy(c.expectedDate) then
      ContainsTransitive(PendingLead + date + note, date, ShipDateLead + c.expectedDate.value);
      PendingLead + date + note
    else
      PendingLead + date + note
  }

  /** Where the pieces of a three-part concatenation sit. */
  lemma ConcatPieces(a: string, b: string, c: string)
    ensures var s := a + b + c; a <= s && Contains(s, b) && Contains(s, c)
  {
    var s := a + b + c;
    assert s[|a|..|a| + |b|] == b;
    ContainsAt(s, b, |a|);
    assert s[|a + b|..|a + b| + |c|] == c;
    ContainsAt(s, c, |a + b|);
  }

  /**
   * `answer_author_copy`: a sentence per shipping status, opening with
   * that status's own lead and carrying the dates, tracking number and
   * note the record has; the note for copies not due yet; and the fixed
   * fallback for any other status.
   */
  function AnswerAuthorCopy(c: AuthorCopy): (answer: string)
    ensures c.status.GetOr("unknown") !in KnownCopyStatuses ==> answer == NoCopyInfo
    ensures c.status == Some("delivered") ==>
      "Your author cop" + PluralEnding(c.copies.GetOr(1)) + " (" + IntToString(c.copies.GetOr(1)) + ") " +
        PluralVerb(c.copies.GetOr(1)) + " delivered on " <= answer
    ensures c.status == Some("not_applicable") || c.status == Some("not_yet") ==>
      answer == c.note.GetOr(CopiesAfterPublication)
    ensures
      (c.status == Some("shipped") ==>
         ShippedLead <= answer &&
         EndsWith(answer, ShippedClosing) &&
         (Truthy(c.shippedDate) ==> ShippedLead + " on " + c.shippedDate.value <= answer) &&
         (Truthy(c.trackingNumber) ==> Contains(answer, c.trackingNumber.value))) &&
      (c.status == Some("in_transit") ==>
         InTransitLead <= answer &&
         (Truthy(c.expectedDelivery) ==>
            InTransitLead + " and expected to arrive by " + c.expectedDelivery.value <= answer) &&
         (Truthy(c.trackingNumber) ==> Contains(answer, c.trackingNumber.value))) &&
      (c.status == Some("production") ==>
         (Truthy(c.expectedDate) ==> PreparingLead + ShipDateLead + c.expectedDate.value <= answer) &&
         (!Truthy(c.expectedDate) ==> answer == PreparingLead + ShippedAfterPublication)) &&
      (c.status == Some("pending") ==>
         PendingLead <= answer &&
         (Truthy(c.expectedDate) ==> Contains(answer, ShipDateLead + c.expectedDate.value)) &&
         (Truthy(c.note) ==> Contains(answer, " Note: " + c.note.value)) &&
         (!Truthy(c.expectedDate) && !Truthy(c.note) ==> answer == PendingLead))
  {
    var status := c.status.GetOr("unknown");
    if status == "delivered" then DeliveredAnswer(c)
    else if status == "shipped" then ShippedAnswer(c)
    else if status == "in_transit" then InTransitAnswer(c)
    else if status == "production" then PreparingAnswer(c)
    else if status == "pending" then PendingAnswer(c)
    else if status == "not_applicable" || status == "not_yet" then c.note.GetOr(CopiesAfterPublication)
    else NoCopyInfo
  }

  /**
   * The fallback text is given exactly for an unrecognised status, or for
   * copies not due yet whose note happens to be that very text: every
   * status sentence opens with "Your author cop…".
   */
  lemma CopyFallbackExactly(c: AuthorCopy)
    ensures AnswerAuthorCopy(c) == NoCopyInfo <==>
      c.status.GetOr("unknown") !in KnownCopyStatuses ||
      ((c.status == Some("not_applicable") || c.status == Some("not_yet")) &&
       c.note.GetOr(CopiesAfterPublication) == NoCopyInfo)
  {
    var answer := AnswerAuthorCopy(c);
    var status := c.status.GetOr("unknown");
    assert NoCopyInfo[0] == NoCopyLead[0] == 'I';
    if status == "delivered" {
      assert answer[0] == "Your author cop"[0];
    } else if status == "shipped" {
      assert answer[0] == ShippedLead[0];
    } else if status == "in_transit" {
      assert answer[0] == InTransitLead[0];
    } else if status == "production" {
      assert answer[0] == PreparingLead[0];
    } else if status == "pending" {
      assert answer[0] == PendingLead[0];
    }
  }

  lemma TrackingShown(head: string, tracking: Option<string>, tail: string)
    ensures Truthy(tracking) ==> Contains(head + TrackingSuffix(tracking) + tail, tracking.value)
  {
    if Truthy(tracking) {
      var s := head + TrackingSuffix(tracking) + tail;
      var at := |head| + |". Tracking number: "|;
      assert s[at..at + |tracking.value|] == tracking.value;
      ContainsAt(s, tracking.value, at);
    }
  }

  // ---------------------------------------------------------------------
  // process_query

  datatype Action = Respond | Escalate

  /** The threshold at which the offline path answers by itself. */
  const RespondThreshold: real := 0.80

  /** The author-specific intents, answered from the author's own metadata. */
  predicate AuthorSpecific(i: LocalIntent) {
    i == BookStatus || i == RoyaltyInquiry || i == AuthorCopyQuery
  }

  /** The fixed confidence of each branch of `process_query`. */
  function BranchConfidence(i: LocalIntent, hasAuthor: bool, hasChunks: bool): (c: real)
    ensures i == Greeting ==> c == 0.95
    ensures AuthorSpecific(i) ==> c == (if hasAuthor then 0.90 else 0.70)
    ensures i == GeneralKnowledge ==> c == 0.85
    ensures i == General ==> c == (if hasChunks then 0.75 else 0.60)
  {
    match i
    case Greeting => 0.95
    case BookStatus => if hasAuthor then 0.90 else 0.70
    case RoyaltyInquiry => if hasAuthor then 0.90 else 0.70
    case AuthorCopyQuery => if hasAuthor then 0.90 else 0.70
    case GeneralKnowledge => 0.85
    case General => if hasChunks then 0.75 else 0.60
  }

  function ActionFor(confidence: real): (a: Action)
    ensures a == Respond <==> confidence >= RespondThreshold
  {
    if confidence >= RespondThreshold then Respond else Escalate
  }

  /**
   * `extract_author_info`: the author row for the identity's `author_id`,
   * or nothing when there is no id or no such row.
   */
  function ExtractAuthorInfo(s: Store, authorId: Option<nat>): (r: Option<Author>)
    ensures r.Some? ==> authorId.Some? && r.value.id == authorId.value && r.value in s.authors
    ensures authorId.Some? && authorId.value in AuthorIds(s) ==> r.Some?
  {
    if authorId.None? then None else FindAuthor(s, authorId.value)
  }

  datatype LocalResult = LocalResult(
    answer: string,
    confidence: real,
    intent: LocalIntent,
    action: Action,
    hasIdentity: bool,
    authorName: Option<string>)

  /** What every author-specific branch asks for when it cannot identify the author. */
  const NameAndEmail := "name and email address"
  const NeedIdentityForBooks :=
    "I'd be happy to check your book status! To provide accurate information, I'll need to identify you. " +
    "Could you please provide your " + NameAndEmail + "?"
  const NeedIdentityForRoyalty :=
    "I can help you with royalty information! To access your specific payment details, please provide your " +
    NameAndEmail + "."
  const NeedIdentityForCopy :=
    "I can check the status of your author copy! Please provide your " + NameAndEmail +
    " so I can look up your information."
  const NoInformation := "I don't have specific information about that"
  const NoKnowledge :=
    NoInformation + " in our knowledge base. Please contact our support team at support@bookleaf.com for assistance."
  const NoGeneralInfo :=
    NoInformation + ". Please contact our support team at support@bookleaf.com for assistance."

  const KnowledgeLead := "Based on our documentation:\n\n"
  const KnowledgeClosing :=
    "\n\nFor more specific information or questions not covered here, please reach out to our support team."

  /**
   * A knowledge-base search: the query and how many chunks to return.
   * Offline this is `LocalRetriever.Retrieve` over the loaded chunks
   * (`OfflineSearch`); it is passed in so that the replies depend only on
   * what the search returns.
   */
  type Search = (string, nat) -> seq<LocalRetriever.Retrieved>

  function OfflineSearch(kb: seq<LocalRetriever.KbChunk>): Search {
    (query: string, topK: nat) => LocalRetriever.Retrieve(kb, query, topK)
  }

  /** `answer_general_knowledge`: up to three chunks within a 1000-token context. */
  function AnswerGeneralKnowledge(search: Search, query: string): (r: string)
    ensures search(query, 3) == [] ==> r == NoKnowledge
    ensures search(query, 3) != [] ==>
      KnowledgeLead + LocalRetriever.BuildContext(search(query, 3), 1000) <= r
  {
    var chunks := search(query, 3);
    if chunks == [] then NoKnowledge
    else
      KnowledgeLead + LocalRetriever.BuildContext(chunks, 1000) +
      KnowledgeClosing
  }

  /**
   * The fallback is given exactly when the search finds nothing: found
   * chunks are always presented under the documentation lead.
   */
  lemma KnowledgeFallbackExactly(search: Search, query: string)
    ensures AnswerGeneralKnowledge(search, query) == NoKnowledge <==> search(query, 3) == []
  {
    if search(query, 3) != [] {
      var r := AnswerGeneralKnowledge(search, query);
      assert r[0] == KnowledgeLead[0];
      assert KnowledgeLead[0] == 'B' && NoInformation[0] == 'I';
      assert NoKnowledge[0] == NoInformation[0];
    }
  }

  const Hello := "Hello"
  const GreetingClose := " I'm the BookLeaf AI Assistant. How can I help you today?"

  function GreetingAnswer(author: Option<Author>): string {
    Hello + (if author.Some? then " " + author.value.fullName else "") + "!" + GreetingClose
  }

  /** The greeting names the identified author in full, closed by the exclamation mark. */
  lemma GreetingShape(author: Option<Author>)
    ensures Hello <= GreetingAnswer(author) && Contains(GreetingAnswer(author), GreetingClose)
    ensures author.Some? ==> Hello + " " + author.value.fullName + "!" <= GreetingAnswer(author)
  {
    var mid := if author.Some? then " " + author.value.fullName else "";
    ConcatPieces(Hello + mid, "!", GreetingClose);
  }

  const ThankYouLead := "Thank you for your question, "
  const AskingAbout := "I understand you're asking about: "
  const DocumentationLead := "Here's what I found in our documentation:\n\n"

  function GeneralHead(author: Option<Author>): string {
    if author.Some? then ThankYouLead + author.value.fullName + ". " else ""
  }

  function GeneralTail(chunks: seq<LocalRetriever.Retrieved>): string {
    if chunks != [] then DocumentationLead + LocalRetriever.BuildContext(chunks, 500) else NoGeneralInfo
  }

  /** The fallback branch, given the (at most two) chunks retrieved for the query. */
  function GeneralAnswer(author: Option<Author>, query: string, chunks: seq<LocalRetriever.Retrieved>): string {
    GeneralHead(author) + AskingAbout + query + "\n\n" + GeneralTail(chunks)
  }

  /**
   * The fallback thanks the identified author by name, repeats the query,
   * and closes with the documentation found or, failing that, the
   * no-information text.
   */
  lemma GeneralShape(author: Option<Author>, query: string, chunks: seq<LocalRetriever.Retrieved>)
    ensures var r := GeneralAnswer(author, query, chunks);
      Contains(r, AskingAbout + query) &&
      (author.Some? ==> ThankYouLead + author.value.fullName + ". " <= r) &&
      (author.None? ==> AskingAbout + query <= r) &&
      (chunks != [] ==> Contains(r, DocumentationLead + LocalRetriever.BuildContext(chunks, 500))) &&
      (chunks == [] ==> EndsWith(r, NoGeneralInfo))
  {
    var head := GeneralHead(author);
    var asked := AskingAbout + query;
    var tail := GeneralTail(chunks);
    var r := GeneralAnswer(author, query, chunks);
    var rest := "\n\n" + tail;
    assert head + AskingAbout + query == head + asked;
    assert r == head + asked + "\n\n" + tail;
    assert r == head + asked + rest;
    ConcatPieces(head, asked, rest);
    ConcatPieces(head + asked, "\n\n", tail);
    assert EndsWith(r, tail);
  }

  /** The answer text of each branch. */
  function BranchAnswer(i: LocalIntent, author: Option<Author>, search: Search, query: string): string {
    match i
    case Greeting => GreetingAnswer(author)
    case GeneralKnowledge => AnswerGeneralKnowledge(search, query)
    case General => GeneralAnswer(author, query, search(query, 2))
    case BookStatus => AuthorAnswer(i, author)
    case RoyaltyInquiry => AuthorAnswer(i, author)
    case AuthorCopyQuery => AuthorAnswer(i, author)
  }

  /**
   * The author-specific branches ask for a name and e-mail address when the
   * author is unknown, and the greeting names the author in full.
   */
  lemma BranchAnswerAddressesAuthor(i: LocalIntent, author: Option<Author>, search: Search, query: string)
    ensures var r := BranchAnswer(i, author, search, query);
      (AuthorSpecific(i) && author.None? ==> Contains(r, NameAndEmail)) &&
      (i == Greeting ==> Hello <= r && (author.Some? ==> Hello + " " + author.value.fullName + "!" <= r))
  {
    if i == Greeting {
      GreetingShape(author);
    }
  }

  /**
   * The knowledge branch falls back exactly when the search is empty; the
   * general fallback repeats the query, thanks the author by name, and ends
   * in the no-information text when nothing was found.
   */
  lemma BranchAnswerFallbacks(i: LocalIntent, author: Option<Author>, search: Search, query: string)
    ensures var r := BranchAnswer(i, author, search, query);
      (i == GeneralKnowledge ==> (r == NoKnowledge <==> search(query, 3) == [])) &&
      (i == General ==>
         Contains(r, AskingAbout + query) &&
         (author.Some? ==> ThankYouLead + author.value.fullName + ". " <= r) &&
         (search(query, 2) == [] ==> EndsWith(r, NoGeneralInfo)))
  {
    if i == GeneralKnowledge {
      KnowledgeFallbackExactly(search, query);
    } else if i == General {
      GeneralShape(author, query, search(query, 2));
    }
  }

  /** The author-specific branches: the author's own record, or a request to identify themselves. */
  function AuthorAnswer(i: LocalIntent, author: Option<Author>): (r: string)
    ensures author.None? ==> Contains(r, NameAndEmail)
  {
    NeedIdentityShape();
    if i == BookStatus then
      if author.Some? then AnswerBookStatus(author.value.metadata) else NeedIdentityForBooks
    else if i == RoyaltyInquiry then
      if author.Some? then AnswerRoyaltyInquiry(author.value.metadata.royalty) else NeedIdentityForRoyalty
    else
      if author.Some? then AnswerAuthorCopy(author.value.metadata.authorCopy) else NeedIdentityForCopy
  }

  /** Each author-specific branch without an identity asks for the author's name and e-mail address. */
  lemma NeedIdentityShape()
    ensures Contains(NeedIdentityForBooks, NameAndEmail)
    ensures Contains(NeedIdentityForRoyalty, NameAndEmail)
    ensures Contains(NeedIdentityForCopy, NameAndEmail)
  {
    ConcatPieces("I'd be happy to check your book status! To provide accurate information, I'll need to identify you. " +
                 "Could you please provide your ", NameAndEmail, "?");
    ConcatPieces("I can help you with royalty information! To access your specific payment details, please provide your ",
                 NameAndEmail, ".");
    ConcatPieces("I can check the status of your author copy! Please provide your ", NameAndEmail,
                 " so I can look up your information.");
  }

  /**
   * `process_query`: classify, answer with the branch's text at the
   * branch's confidence, and respond when that confidence reaches 0.80.
   */
  function ProcessQuery(search: Search, query: string, author: Option<Author>)
    : (r: LocalResult)
    ensures r.intent == ClassifyIntent(query)
    ensures r.confidence ==
      BranchConfidence(r.intent, author.Some?, search(query, 2) != [])
    ensures r.action == Respond <==> r.confidence >= RespondThreshold
    ensures r.action == Respond <==>
      r.intent == Greeting || r.intent == GeneralKnowledge || (AuthorSpecific(r.intent) && author.Some?)
    ensures r.hasIdentity <==> author.Some?
    ensures r.authorName.Some? <==> author.Some?
    ensures author.Some? ==> r.authorName.value == author.value.fullName
    ensures r.answer == BranchAnswer(r.intent, author, search, query)
  {
    var intent := ClassifyIntent(query);
    var hasChunks := search(query, 2) != [];
    var confidence := BranchConfidence(intent, author.Some?, hasChunks);
    BranchResponds(intent, author.Some?, hasChunks);
    LocalResult(BranchAnswer(intent, author, search, query), confidence, intent, ActionFor(confidence),
                author.Some?, if author.Some? then Some(author.value.fullName) else None)
  }

  /**
   * Offline, the fallback branch's higher confidence (0.75) needs a chunk of
   * the knowledge base that mentions one of the query's keywords.
   */
  lemma OfflineHitNeedsKeyword(kb: seq<LocalRetriever.KbChunk>, query: string)
    requires OfflineSearch(kb)(query, 2) != []
    ensures exists c | c in kb :: exists j | 0 <= j < |LocalRetriever.ExtractKeywords(query)| ::
      Contains(ToLower(c.chunkText), LocalRetriever.ExtractKeywords(query)[j])
  {
    LocalRetriever.RetrieveFromTable(kb, query, 2, 0);
  }

  lemma BranchResponds(i: LocalIntent, hasAuthor: bool, hasChunks: bool)
    ensures BranchConfidence(i, hasAuthor, hasChunks) >= RespondThreshold <==>
      i == Greeting || i == GeneralKnowledge || (AuthorSpecific(i) && hasAuthor)
  {
  }
}

=== FILE: local_retriever.dfy ===
/**
 * `LocalRAGRetriever`: keyword search over the knowledge-base chunks held
 * in the local store, and the character-budgeted context built from the
 * hits. The chunk table is a parameter; `\w` is read as ASCII letters,
 * digits and `_`.
 */
module LocalRetriever {
  import opened Wrappers
  import opened Strings
  import opened Sorting

  // ---------------------------------------------------------------------
  // extract_keywords

  /** A maximal run of word characters, as `\b\w+\b` finds it. */
  predicate IsToken(w: string) {
    |w| > 0 && forall k | 0 <= k < |w| :: IsWordChar(w[k])
  }

  /** The length of the word-character run that starts `s`. */
  function RunLength(s: string): (n: nat)
    ensures n <= |s|
    ensures forall k | 0 <= k < n :: IsWordChar(s[k])
    ensures n < |s| ==> !IsWordChar(s[n])
  {
    if s == [] || !IsWordChar(s[0]) then 0 else 1 + RunLength(s[1..])
  }

  /** `re.findall(r'\b\w+\b', s)`: the word-character runs, left to right. */
  function Tokens(s: string): (ts: seq<string>)
    ensures forall k | 0 <= k < |ts| :: IsToken(ts[k]) && Contains(s, ts[k])
    decreases |s|
  {
    if s == [] then []
    else if !IsWordChar(s[0]) then
      var rest := Tokens(s[1..]);
      forall k | 0 <= k < |rest| ensures Contains(s, rest[k]) {
        ContainsInTail(s, rest[k]);
      }
      rest
    else
      var n := RunLength(s);
      var rest := Tokens(s[n..]);
      ContainsAt(s, s[..n], 0);
      forall k | 0 <= k < |rest| ensures Contains(s, rest[k]) {
        ContainsInSuffix(s, n, rest[k]);
      }
      [s[..n]] + rest
  }

  lemma ContainsInTail(s: string, t: string)
    requires s != [] && Contains(s[1..], t)
    ensures Contains(s, t)
  {
    ContainsInSuffix(s, 1, t);
  }

  lemma ContainsInSuffix(s: string, n: nat, t: string)
    requires n <= |s| && Contains(s[n..], t)
    ensures Contains(s, t)
  {
    var i := ContainsWitness(s[n..], t);
    assert s[n + i..n + i + |t|] == s[n..][i..i + |t|];
    ContainsAt(s, t, n + i);
  }

  /** A run of word characters is one token: `RunLength` takes all of it. */
  lemma {:induction false} RunLengthOfToken(w: string)
    requires forall k | 0 <= k < |w| :: IsWordChar(w[k])
    ensures RunLength(w) == |w|
  {
    if w != [] {
      RunLengthOfToken(w[1..]);
    }
  }

  /** A run stops at a non-word character, whatever follows it. */
  lemma {:induction false} RunLengthStops(a: string, c: char, b: string)
    requires !IsWordChar(c)
    ensures RunLength(a + [c] + b) == RunLength(a)
  {
    if a == [] {
      assert (a + [c] + b)[0] == c;
    } else if IsWordChar(a[0]) {
      assert (a + [c] + b)[1..] == a[1..] + [c] + b;
      RunLengthStops(a[1..], c, b);
    }
  }

  /** A single token is found whole. */
  lemma TokensOfToken(w: string)
    requires IsToken(w)
    ensures Tokens(w) == [w]
  {
    RunLengthOfToken(w);
    assert w[..|w|] == w && w[|w|..] == [];
  }

  /**
   * Tokens never cross a non-word character: the tokens of `a + [c] + b`
   * are those of `a` followed by those of `b`. With `TokensOfToken` this
   * determines `Tokens` on every string, repeats and order included.
   */
  lemma {:induction false} TokensSplit(a: string, c: char, b: string)
    requires !IsWordChar(c)
    ensures Tokens(a + [c] + b) == Tokens(a) + Tokens(b)
    decreases |a|
  {
    var s := a + [c] + b;
    if a == [] {
      assert s[1..] == b;
    } else if !IsWordChar(a[0]) {
      TokensSplitSkip(a, c, b);
      TokensSplit(a[1..], c, b);
    } else {
      var n := RunLength(a);
      TokensSplitRun(a, c, b);
      TokensSplit(a[n..], c, b);
      assert [a[..n]] + (Tokens(a[n..]) + Tokens(b)) == [a[..n]] + Tokens(a[n..]) + Tokens(b);
    }
  }

  /** The step of `TokensSplit` past a leading non-word character. */
  lemma TokensSplitSkip(a: string, c: char, b: string)
    requires a != [] && !IsWordChar(a[0])
    ensures Tokens(a + [c] + b) == Tokens(a[1..] + [c] + b)
    ensures Tokens(a) == Tokens(a[1..])
  {
    var s := a + [c] + b;
    assert s[0] == a[0] && s[1..] == a[1..] + [c] + b;
  }

  /** The step of `TokensSplit` past a leading run of word characters. */
  lemma TokensSplitRun(a: string, c: char, b: string)
    requires !IsWordChar(c) && a != [] && IsWordChar(a[0])
    ensures RunLength(a) <= |a|
    ensures Tokens(a + [c] + b) == [a[..RunLength(a)]] + Tokens(a[RunLength(a)..] + [c] + b)
    ensures Tokens(a) == [a[..RunLength(a)]] + Tokens(a[RunLength(a)..])
  {
    var s := a + [c] + b;
    assert s[0] == a[0];
    RunLengthStops(a, c, b);
    var n := RunLength(a);
    assert s[..n] == a[..n];
    assert s[n..] == a[n..] + [c] + b;
  }

  const StopWords: set<string> := {
    "a", "an", "and", "are", "as", "at", "be", "by", "for", "from",
    "has", "he", "in", "is", "it", "its", "of", "on", "that", "the",
    "to", "was", "will", "with", "i", "my", "me", "you", "your",
    "when", "where", "who", "what", "why", "how", "can", "could",
    "should", "would", "do", "does", "did"}

  /** A token is kept when it is longer than two characters and not a stop word. */
  predicate IsKeyword(w: string) {
    |w| > 2 && w !in StopWords
  }

  function KeepKeywords(ts: seq<string>): (r: seq<string>)
    ensures forall w :: w in r <==> w in ts && IsKeyword(w)
    ensures |r| <= |ts|
  {
    if ts == [] then []
    else (if IsKeyword(ts[0]) then [ts[0]] else []) + KeepKeywords(ts[1..])
  }

  /** Keeping keywords splits over concatenation, so the kept ones stay in order, repeats included. */
  lemma {:induction false} KeepKeywordsAppend(a: seq<string>, b: seq<string>)
    ensures KeepKeywords(a + b) == KeepKeywords(a) + KeepKeywords(b)
  {
    if a == [] {
      assert a + b == b;
    } else {
      assert (a + b)[1..] == a[1..] + b;
      KeepKeywordsAppend(a[1..], b);
    }
  }

  /**
   * `extract_keywords`: the lower-cased tokens of the query, in order,
   * without stop words and tokens of one or two characters. Every keyword
   * occurs in the lower-cased query.
   */
  function ExtractKeywords(query: string): (r: seq<string>)
    ensures forall w :: w in r <==> w in Tokens(ToLower(query)) && IsKeyword(w)
    ensures forall w | w in r :: |w| > 2 && IsToken(w) && Contains(ToLower(query), w)
  {
    KeepKeywords(Tokens(ToLower(query)))
  }

  /** Lower-casing keeps word characters word characters and the others not. */
  lemma LowerCharWord(c: char)
    ensures IsWordChar(LowerChar(c)) <==> IsWordChar(c)
  {
  }

  /**
   * The keywords of `a + [c] + b`, for a non-word `c`, are those of `a`
   * followed by those of `b`: keywords keep the query's order and repeats.
   */
  lemma ExtractKeywordsSplit(a: string, c: char, b: string)
    requires !IsWordChar(c)
    ensures ExtractKeywords(a + [c] + b) == ExtractKeywords(a) + ExtractKeywords(b)
  {
    LowerCharWord(c);
    assert ToLower(a + [c] + b) == ToLower(a) + [LowerChar(c)] + ToLower(b);
    TokensSplit(ToLower(a), LowerChar(c), ToLower(b));
    KeepKeywordsAppend(Tokens(ToLower(a)), Tokens(ToLower(b)));
  }

  /** A single word yields its lower-cased form when that is a keyword, and nothing otherwise. */
  lemma ExtractKeywordsOfToken(w: string)
    requires IsToken(w)
    ensures ExtractKeywords(w) == if IsKeyword(ToLower(w)) then [ToLower(w)] else []
  {
    var l := ToLower(w);
    forall k | 0 <= k < |l| ensures IsWordChar(l[k]) {
      LowerCharWord(w[k]);
    }
    TokensOfToken(l);
    assert KeepKeywords([l]) == (if IsKeyword(l) then [l] else []) + KeepKeywords([]);
  }

  // ---------------------------------------------------------------------
  // search_chunks

  /** A row of `knowledge_embeddings`, joined with its document's title and type. */
  datatype KbChunk = KbChunk(
    chunkText: string,
    chunkIndex: nat,
    documentId: nat,
    documentTitle: Option<string>,
    documentType: Option<string>)

  /** Occurrences count up to three; a space-delimited occurrence earns one more. */
  const FrequencyCap: nat := 3

  /** What one keyword adds to a chunk's score; `text` is the lower-cased chunk. */
  function KeywordScore(text: string, keyword: string): (n: nat)
    ensures n <= FrequencyCap + 1
    ensures n > 0 <==> Contains(text, keyword)
    ensures n > 0 ==> n >= 1 + (if Contains(" " + text + " ", " " + keyword + " ") then 1 else 0)
  {
    var count := Count(text, keyword);
    if count == 0 then 0
    else (if count < FrequencyCap then count else FrequencyCap) +
         (if Contains(" " + text + " ", " " + keyword + " ") then 1 else 0)
  }

  function ChunkScore(text: string, keywords: seq<string>): (n: nat)
    ensures n <= (FrequencyCap + 1) * |keywords|
    ensures n > 0 <==> exists k | 0 <= k < |keywords| :: Contains(text, keywords[k])
  {
    if keywords == [] then 0
    else
      var rest := ChunkScore(text, keywords[1..]);
      assert forall k | 1 <= k < |keywords| :: keywords[k] == keywords[1..][k - 1];
      KeywordScore(text, keywords[0]) + rest
  }

  /** A chunk that matched, with its score. */
  datatype Scored = Scored(chunk: KbChunk, score: nat)

  function ScoreKey(c: Scored): real { c.score as real }

  /** The chunks scoring above zero, in table order. */
  function Matching(chunks: seq<KbChunk>, keywords: seq<string>): (r: seq<Scored>)
    ensures forall c | c in r :: c.chunk in chunks && c.score > 0 &&
                                 c.score == ChunkScore(ToLower(c.chunk.chunkText), keywords)
    ensures forall k | 0 <= k < |chunks| ::
      ChunkScore(ToLower(chunks[k].chunkText), keywords) > 0 ==>
        Scored(chunks[k], ChunkScore(ToLower(chunks[k].chunkText), keywords)) in r
    ensures |r| <= |chunks|
  {
    if chunks == [] then []
    else
      var score := ChunkScore(ToLower(chunks[0].chunkText), keywords);
      var rest := Matching(chunks[1..], keywords);
      assert forall k | 1 <= k < |chunks| :: chunks[k] == chunks[1..][k - 1];
      (if score > 0 then [Scored(chunks[0], score)] else []) + rest
  }

  /**
   * `search_chunks`: the matching chunks, best score first (ties in table
   * order), cut to `topK`.
   */
  function SearchChunks(chunks: seq<KbChunk>, keywords: seq<string>, topK: nat): (r: seq<Scored>)
    ensures |r| <= topK
    ensures SortedDesc(r, ScoreKey)
    ensures forall c | c in r :: c.chunk in chunks && c.score > 0 &&
                                 c.score == ChunkScore(ToLower(c.chunk.chunkText), keywords)
    ensures |r| == if |Matching(chunks, keywords)| <= topK then |Matching(chunks, keywords)| else topK
    ensures |Matching(chunks, keywords)| <= topK ==>
      forall c | c in Matching(chunks, keywords) :: c in r
  {
    var all := Matching(chunks, keywords);
    var sorted := SortDesc(all, ScoreKey);
    SortDescSameElements(all, ScoreKey);
    var n := if |sorted| <= topK then |sorted| else topK;
    SortedPrefix(sorted, sorted[..n], ScoreKey);
    sorted[..n]
  }

  /**
   * `search_chunks` keeps the best: every matching chunk left out scores no
   * higher than any chunk returned.
   */
  lemma SearchChunksTopK(chunks: seq<KbChunk>, keywords: seq<string>, topK: nat)
    ensures var r := SearchChunks(chunks, keywords, topK);
      forall c, d | c in Matching(chunks, keywords) && c !in r && d in r :: d.score >= c.score
  {
    var all := Matching(chunks, keywords);
    var sorted := SortDesc(all, ScoreKey);
    SortDescSameElements(all, ScoreKey);
    var r := SearchChunks(chunks, keywords, topK);
    assert r <= sorted;
    SortedPrefixDominates(sorted, r, ScoreKey);
  }

  /**
   * Ties keep table order: for every score, the results with that score
   * come in the order their chunks have in the table (a prefix of them).
   */
  lemma SearchChunksStable(chunks: seq<KbChunk>, keywords: seq<string>, topK: nat, v: real)
    ensures KeyFilter(SearchChunks(chunks, keywords, topK), ScoreKey, v) <=
            KeyFilter(Matching(chunks, keywords), ScoreKey, v)
  {
    var all := Matching(chunks, keywords);
    var sorted := SortDesc(all, ScoreKey);
    var r := SearchChunks(chunks, keywords, topK);
    assert r == sorted[..|r|];
    SortDescStable(all, ScoreKey, v);
    KeyFilterPrefix(sorted, |r|, ScoreKey, v);
  }

  /** A formatted retrieval result. */
  datatype Retrieved = Retrieved(chunkText: string, chunkIndex: nat, score: nat,
                                 documentTitle: string, documentType: string)

  function ToRetrieved(c: Scored): Retrieved {
    Retrieved(c.chunk.chunkText, c.chunk.chunkIndex, c.score,
              c.chunk.documentTitle.GetOr("Unknown"), c.chunk.documentType.GetOr("unknown"))
  }

  function ToRetrievedAll(hits: seq<Scored>): (r: seq<Retrieved>)
    ensures |r| == |hits|
    ensures forall k | 0 <= k < |hits| :: r[k] == ToRetrieved(hits[k])
  {
    seq(|hits|, k requires 0 <= k < |hits| => ToRetrieved(hits[k]))
  }

  lemma RetrievedOrder(hits: seq<Scored>)
    requires SortedDesc(hits, ScoreKey)
    requires forall c | c in hits :: c.score > 0
    ensures var r := ToRetrievedAll(hits);
      (forall i, j | 0 <= i < j < |r| :: r[i].score >= r[j].score) &&
      (forall k | 0 <= k < |r| :: r[k].score > 0)
  {
    var r := ToRetrievedAll(hits);
    forall i, j | 0 <= i < j < |r| ensures r[i].score >= r[j].score {
      assert ScoreKey(hits[i]) >= ScoreKey(hits[j]);
    }
    forall k | 0 <= k < |r| ensures r[k].score > 0 {
      assert hits[k] in hits;
    }
  }

  /**
   * `retrieve`: no keywords means no results; otherwise the top `topK`
   * chunks by score, best first, each scoring above zero.
   */
  function Retrieve(chunks: seq<KbChunk>, query: string, topK: nat): (r: seq<Retrieved>)
    ensures ExtractKeywords(query) == [] ==> r == []
    ensures ExtractKeywords(query) != [] ==>
      r == ToRetrievedAll(SearchChunks(chunks, ExtractKeywords(query), topK))
    ensures |r| <= topK
    ensures forall i, j | 0 <= i < j < |r| :: r[i].score >= r[j].score
    ensures forall k | 0 <= k < |r| :: r[k].score > 0
  {
    var keywords := ExtractKeywords(query);
    if keywords == [] then []
    else
      var hits := SearchChunks(chunks, keywords, topK);
      RetrievedOrder(hits);
      ToRetrievedAll(hits)
  }

  /**
   * Every result is a chunk of the table that mentions some keyword of the
   * query, scored as `search_chunks` scores it.
   */
  lemma RetrieveFromTable(chunks: seq<KbChunk>, query: string, topK: nat, k: nat)
    requires k < |Retrieve(chunks, query, topK)|
    ensures exists c | c in chunks ::
      (c.chunkText == Retrieve(chunks, query, topK)[k].chunkText &&
       Retrieve(chunks, query, topK)[k].score == ChunkScore(ToLower(c.chunkText), ExtractKeywords(query)) &&
       exists j | 0 <= j < |ExtractKeywords(query)| :: Contains(ToLower(c.chunkText), ExtractKeywords(query)[j]))
  {
    var keywords := ExtractKeywords(query);
    var hits := SearchChunks(chunks, keywords, topK);
    assert hits[k] in hits;
    var c := hits[k].chunk;
    assert c in chunks && ChunkScore(ToLower(c.chunkText), keywords) > 0;
  }

  /**
   * The results are the best matches: a chunk that mentions a keyword but
   * is not among the results scores no higher than any result.
   */
  lemma RetrieveTopK(chunks: seq<KbChunk>, query: string, topK: nat)
    ensures var r := Retrieve(chunks, query, topK);
      forall c | c in Matching(chunks, ExtractKeywords(query)) && ToRetrieved(c) !in r ::
        forall k | 0 <= k < |r| :: r[k].score >= c.score
  {
    var keywords := ExtractKeywords(query);
    var r := Retrieve(chunks, query, topK);
    if keywords != [] {
      var hits := SearchChunks(chunks, keywords, topK);
      SearchChunksTopK(chunks, keywords, topK);
      forall c | c in Matching(chunks, keywords) && ToRetrieved(c) !in r
        ensures forall k | 0 <= k < |r| :: r[k].score >= c.score
      {
        assert c !in hits;
        forall k | 0 <= k < |r| ensures r[k].score >= c.score {
          assert hits[k] in hits;
        }
      }
    }
  }

  // ---------------------------------------------------------------------
  // build_context

  /** `From "<title>":\n<text>\n`. */
  function Formatted(c: Retrieved): string {
    "From \"" + c.documentTitle + "\":\n" + c.chunkText + "\n"
  }

  const Separator := "\n---\n\n"

  function FormattedAll(cs: seq<Retrieved>): (r: seq<string>)
    ensures |r| == |cs|
    ensures forall k | 0 <= k < |cs| :: r[k] == Formatted(cs[k])
  {
    seq(|cs|, k requires 0 <= k < |cs| => Formatted(cs[k]))
  }

  /** How many chunks, from the front, fit in `budget` characters after `used` are spent. */
  function FitCount(parts: seq<string>, used: nat, budget: nat): (n: nat)
    ensures n <= |parts|
    ensures used + SumLengths(parts[..n]) <= budget || n == 0
    ensures n < |parts| ==> used + SumLengths(parts[..n + 1]) > budget
  {
    if parts == [] || used + |parts[0]| > budget then 0
    else
      var n := 1 + FitCount(parts[1..], used + |parts[0]|, budget);
      assert parts[..n] == [parts[0]] + parts[1..][..n - 1];
      SumLengthsCons(parts[0], parts[1..][..n - 1]);
      if n < |parts| then
        assert parts[..n + 1] == [parts[0]] + parts[1..][..n];
        SumLengthsCons(parts[0], parts[1..][..n]);
        n
      else n
  }

  lemma SumLengthsCons(p: string, ps: seq<string>)
    ensures SumLengths([p] + ps) == |p| + SumLengths(ps)
  {
    assert ([p] + ps)[1..] == ps;
  }

  /**
   * `build_context`: the longest prefix of the chunks whose formatted texts
   * fit in `maxTokens * 4` characters, stopping at the first chunk that
   * does not fit, joined by the separator; "" for no chunks.
   */
  function BuildContext(chunks: seq<Retrieved>, maxTokens: nat): (r: string)
    ensures chunks == [] ==> r == ""
    ensures var parts := FormattedAll(chunks);
      var n := FitCount(parts, 0, maxTokens * 4);
      r == Join(parts[..n], Separator) &&
      SumLengths(parts[..n]) <= maxTokens * 4 &&
      (n < |chunks| ==> SumLengths(parts[..n + 1]) > maxTokens * 4)
  {
    var parts := FormattedAll(chunks);
    var n := FitCount(parts, 0, maxTokens * 4);
    assert parts[..0] == [];
    Join(parts[..n], Separator)
  }

  /**
   * The budget counts only the formatted chunks, not the separators between
   * them: the context can be longer than `maxTokens * 4` characters by five
   * characters per included chunk after the first.
   */
  lemma ContextLength(chunks: seq<Retrieved>, maxTokens: nat)
    ensures var parts := FormattedAll(chunks);
      var n := FitCount(parts, 0, maxTokens * 4);
      n > 0 ==> |BuildContext(chunks, maxTokens)| == SumLengths(parts[..n]) + |Separator| * (n - 1) &&
                |BuildContext(chunks, maxTokens)| <= maxTokens * 4 + |Separator| * (n - 1)
  {
    var parts := FormattedAll(chunks);
    var n := FitCount(parts, 0, maxTokens * 4);
    if n > 0 {
      JoinLength(parts[..n], Separator);
    }
  }
}

=== FILE: matcher.dfy ===
/**
 * The identity-matching pipeline (`IdentityMatcher.match_identity`) over
 * the in-memory store. Stages run in order and the first that succeeds
 * answers:
 *   1. exact lookups: the (platform, identifier) handle, then the
 *      normalised e-mail, then the normalised phone;
 *   2. a fuzzy match on the normalised name, boosted by matching contacts;
 *   3. model-assisted disambiguation of uncertain stage-2 candidates;
 *   4. a new author with a new identity.
 * The phone normaliser, the two fuzzy scorers and the disambiguation reply
 * are parameters collected in `Env`.
 */
module Matcher {
  import opened Wrappers
  import opened Strings
  import opened Records
  import opened Store
  import Normalizer
  import Fuzzy
  import Disambiguate
  import Sorting

  /** Everything the pipeline calls but does not define. */
  datatype Env = Env(
    normalizePhone: string -> Option<string>,
    tokenSort: Fuzzy.Scorer,
    partial: Fuzzy.Scorer,
    fuzzy: Fuzzy.FuzzyMatcher,
    disambiguator: seq<Author> -> Disambiguate.LlmReply)

  /** The arguments of `match_identity` (the conversation context only feeds the model). */
  datatype Query = Query(
    name: Option<string>,
    email: Option<string>,
    phone: Option<string>,
    platform: string,
    platformIdentifier: Option<string>)

  /** A successful match: the author, the identity row that links the handle, and how. */
  datatype Resolution = Resolution(author: Author, identity: Identity, confidence: real, via: string)

  /** The `threshold` passed to `match_name_advanced`. */
  const FuzzyThreshold: real := 85.0
  /** How many fuzzy matches are checked against the contacts. */
  const Examined: nat := 5
  const ContactBoost: real := 0.15
  const BoostCap: real := 0.95
  /** Candidates below this adjusted confidence are dropped. */
  const RetainThreshold: real := 0.70
  /** The first retained candidate is committed at or above this confidence. */
  const CommitThreshold: real := 0.75
  const NewIdentityConfidence: real := 0.5
  /** Links at or above this confidence are created verified. */
  const AutoVerifyThreshold: real := 0.95

  // ---------------------------------------------------------------------
  // Input normalisation

  function NormalizedEmail(q: Query): Option<string> {
    if Truthy(q.email) then Normalizer.NormalizeEmail(q.email.value) else None
  }

  function NormalizedPhone(env: Env, q: Query): Option<string> {
    if Truthy(q.phone) then env.normalizePhone(q.phone.value) else None
  }

  function NormalizedName(q: Query): Option<string> {
    if Truthy(q.name) then Normalizer.NormalizeName(q.name.value) else None
  }

  /**
   * The handle the pipeline works with: the given platform identifier, else
   * the normalised e-mail, else the normalised phone, else
   * `unknown_<platform>`. It is never empty.
   */
  function Handle(env: Env, q: Query): (pid: string)
    ensures pid != ""
    ensures Truthy(q.platformIdentifier) ==> pid == q.platformIdentifier.value
    ensures !Truthy(q.platformIdentifier) && Truthy(NormalizedEmail(q)) ==>
      pid == NormalizedEmail(q).value
    ensures (!Truthy(q.platformIdentifier) && !Truthy(NormalizedEmail(q)) &&
             Truthy(NormalizedPhone(env, q))) ==> pid == NormalizedPhone(env, q).value
    ensures (!Truthy(q.platformIdentifier) && !Truthy(NormalizedEmail(q)) &&
             !Truthy(NormalizedPhone(env, q))) ==> pid == "unknown_" + q.platform
  {
    var e := NormalizedEmail(q);
    var p := NormalizedPhone(env, q);
    if Truthy(q.platformIdentifier) then q.platformIdentifier.value
    else if Truthy(e) then e.value
    else if Truthy(p) then p.value
    else "unknown_" + q.platform
  }

  // ---------------------------------------------------------------------
  // _create_identity_link

  predicate IsPhonePlatform(platform: string) {
    platform == "whatsapp" || platform == "phone"
  }

  /**
   * The `normalized_identifier` stored with a new link: e-mail
   * normalisation for anything containing '@', phone normalisation on phone
   * platforms, and lower-case-and-strip otherwise.
   */
  function NormalizedIdentifier(env: Env, platform: string, pid: string): (r: Option<string>)
    ensures '@' in pid ==> r == Normalizer.NormalizeEmail(pid) && r.Some?
    ensures '@' !in pid && IsPhonePlatform(platform) ==> r == env.normalizePhone(pid)
    ensures '@' !in pid && !IsPhonePlatform(platform) ==>
      r == Some(Strip(ToLower(pid))) && IsLowerCase(r.value) && Strip(r.value) == r.value
  {
    if '@' in pid then Normalizer.NormalizeEmail(pid)
    else if IsPhonePlatform(platform) then env.normalizePhone(pid)
    else
      Normalizer.CanonicalLowerCase(pid);
      StripIdempotent(ToLower(pid));
      Some(Normalizer.Canonical(pid))
  }

  predicate IsHandleOf(i: Identity, platform: string, pid: string) {
    i.platform == platform && i.platformIdentifier == pid
  }

  /** Append the identity row linking `platform`/`pid` to the author. */
  function CreateIdentityLink(env: Env, s: Store, authorId: nat, platform: string, pid: string,
                              confidence: real, matchingMethod: string): (r: (Store, Identity))
    requires Valid(s) && authorId in AuthorIds(s)
    ensures Valid(r.0) && AuthorIds(r.0) == AuthorIds(s)
    ensures r.0.authors == s.authors && r.0.identities == s.identities + [r.1]
    ensures r.0.nextId == s.nextId + 1 && r.1.id == s.nextId
    ensures r.1.authorId == authorId && IsHandleOf(r.1, platform, pid)
    ensures r.1.confidence == confidence && r.1.matchingMethod == matchingMethod
    ensures r.1.verified <==> confidence >= AutoVerifyThreshold
    ensures r.1.normalizedIdentifier == NormalizedIdentifier(env, platform, pid)
  {
    InsertIdentityValid(s, authorId, platform, pid, NormalizedIdentifier(env, platform, pid),
                        confidence, matchingMethod, confidence >= AutoVerifyThreshold);
    InsertIdentity(s, authorId, platform, pid, NormalizedIdentifier(env, platform, pid),
                   confidence, matchingMethod, confidence >= AutoVerifyThreshold)
  }

  // ---------------------------------------------------------------------
  // Stage 1: exact lookups

  /** The author an identity row points at. */
  function AuthorOf(s: Store, i: Identity): (a: Author)
    requires Valid(s) && i in s.identities
    ensures a in s.authors && a.id == i.authorId
  {
    FindAuthor(s, i.authorId).value
  }

  /** What a successful match guarantees about the store it returns. */
  ghost predicate Resolved(s: Store, r: Resolution) {
    r.author in s.authors && r.identity in s.identities && r.identity.authorId == r.author.id
  }

  /**
   * `_stage1_exact_match`: an existing handle is reused as it is; an
   * identity whose normalised identifier equals the normalised e-mail, and
   * failing that the normalised phone, is linked to the new handle.
   */
  function Stage1(env: Env, s: Store, email: Option<string>, phone: Option<string>,
                  platform: string, pid: string): (r: (Store, Option<Resolution>))
    requires Valid(s)
    ensures Valid(r.0) && Extends(r.0, s) && r.0.authors == s.authors
    ensures r.1.None? ==> r.0 == s
    ensures r.1.Some? ==>
      Resolved(r.0, r.1.value) && r.1.value.confidence == 1.0 &&
      IsHandleOf(r.1.value.identity, platform, pid)
    ensures r.1.Some? && r.1.value.via == "exact_identity_match" ==> r.0 == s
    ensures r.1.Some? && r.1.value.via != "exact_identity_match" ==>
      r.0.identities == s.identities + [r.1.value.identity]
    ensures r.1.None? || r.1.value.via in {"exact_identity_match", "exact_email_match", "exact_phone_match"}
  {
    var byHandle := FirstIndex(s.identities, (i: Identity) => IsHandleOf(i, platform, pid));
    var byEmail := FirstIndex(s.identities, (i: Identity) => i.normalizedIdentifier == email);
    var byPhone := FirstIndex(s.identities, (i: Identity) => i.normalizedIdentifier == phone);
    if byHandle.Some? then
      var i := s.identities[byHandle.value];
      (s, Some(Resolution(AuthorOf(s, i), i, 1.0, "exact_identity_match")))
    else if Truthy(email) && byEmail.Some? then
      var a := AuthorOf(s, s.identities[byEmail.value]);
      var (t, link) := CreateIdentityLink(env, s, a.id, platform, pid, 1.0, "exact_email_match");
      (t, Some(Resolution(a, link, 1.0, "exact_email_match")))
    else if Truthy(phone) && byPhone.Some? then
      var a := AuthorOf(s, s.identities[byPhone.value]);
      var (t, link) := CreateIdentityLink(env, s, a.id, platform, pid, 1.0, "exact_phone_match");
      (t, Some(Resolution(a, link, 1.0, "exact_phone_match")))
    else (s, None)
  }

  /**
   * Lookup precedence: a handle already on file always wins, and then the
   * answer is the author of the first identity row carrying it.
   */
  lemma Stage1HandleFirst(env: Env, s: Store, email: Option<string>, phone: Option<string>,
                          platform: string, pid: string, k: nat)
    requires Valid(s) && k < |s.identities| && IsHandleOf(s.identities[k], platform, pid)
    ensures var (t, r) := Stage1(env, s, email, phone, platform, pid);
      t == s && r.Some? && r.value.via == "exact_identity_match" &&
      exists j | 0 <= j <= k :: r.value.identity == s.identities[j] &&
        forall m | 0 <= m < j :: !IsHandleOf(s.identities[m], platform, pid)
  {
    var byHandle := FirstIndex(s.identities, (i: Identity) => IsHandleOf(i, platform, pid));
    assert byHandle.Some?;
  }

  /**
   * Without the handle on file, an identity carrying the normalised e-mail
   * is found, and the author of the first such row gets the new link.
   */
  lemma Stage1EmailNext(env: Env, s: Store, email: Option<string>, phone: Option<string>,
                        platform: string, pid: string, k: nat)
    requires Valid(s) && Truthy(email)
    requires forall m | 0 <= m < |s.identities| :: !IsHandleOf(s.identities[m], platform, pid)
    requires k < |s.identities| && s.identities[k].normalizedIdentifier == email
    ensures var (t, r) := Stage1(env, s, email, phone, platform, pid);
      r.Some? && r.value.via == "exact_email_match" &&
      exists j | 0 <= j <= k :: s.identities[j].normalizedIdentifier == email &&
        r.value.author.id == s.identities[j].authorId
  {
    var byHandle := FirstIndex(s.identities, (i: Identity) => IsHandleOf(i, platform, pid));
    var byEmail := FirstIndex(s.identities, (i: Identity) => i.normalizedIdentifier == email);
    assert byHandle.None?;
    assert byEmail.Some?;
  }

  /** Stage 1 misses exactly when no row carries the handle, the e-mail or the phone. */
  lemma Stage1Miss(env: Env, s: Store, email: Option<string>, phone: Option<string>,
                   platform: string, pid: string)
    requires Valid(s)
    ensures Stage1(env, s, email, phone, platform, pid).1.None? <==>
      forall m | 0 <= m < |s.identities| ::
        !IsHandleOf(s.identities[m], platform, pid) &&
        (Truthy(email) ==> s.identities[m].normalizedIdentifier != email) &&
        (Truthy(phone) ==> s.identities[m].normalizedIdentifier != phone)
  {
    var byHandle := FirstIndex(s.identities, (i: Identity) => IsHandleOf(i, platform, pid));
    var byEmail := FirstIndex(s.identities, (i: Identity) => i.normalizedIdentifier == email);
    var byPhone := FirstIndex(s.identities, (i: Identity) => i.normalizedIdentifier == phone);
  }

  // ---------------------------------------------------------------------
  // Stage 2: fuzzy name match with contact boosts

  /** `[c.get("full_name", "") for c in authors]`. */
  function FullNames(authors: seq<Author>): (names: seq<string>)
    ensures |names| == |authors|
    ensures forall k | 0 <= k < |authors| :: names[k] == authors[k].fullName
  {
    if authors == [] then [] else [authors[0].fullName] + FullNames(authors[1..])
  }

  /** A fuzzy match after the contact check. */
  datatype Candidate = Candidate(author: Author, combinedScore: real, adjusted: real)

  function CombinedScoreOf(c: Candidate): real { c.combinedScore }

  /** `min(0.95, confidence + 0.15)`. */
  function Boosted(confidence: real): (r: real)
    ensures r <= BoostCap
    ensures confidence <= BoostCap ==> r >= confidence
    ensures r == BoostCap || r == confidence + ContactBoost
  {
    if confidence + ContactBoost < BoostCap then confidence + ContactBoost else BoostCap
  }

  predicate EmailAgrees(author: Author, email: Option<string>) {
    Truthy(email) && Truthy(author.email) && Normalizer.NormalizeEmail(author.email.value) == email
  }

  predicate PhoneAgrees(env: Env, author: Author, phone: Option<string>) {
    Truthy(phone) && Truthy(author.phone) && env.normalizePhone(author.phone.value) == phone
  }

  /** The confidence after the e-mail boost and then the phone boost. */
  function Adjusted(env: Env, confidence: real, author: Author, email: Option<string>,
                    phone: Option<string>): (r: real)
    ensures !EmailAgrees(author, email) && !PhoneAgrees(env, author, phone) ==> r == confidence
    ensures confidence <= BoostCap ==> confidence <= r <= BoostCap
    ensures confidence <= BoostCap && (EmailAgrees(author, email) || PhoneAgrees(env, author, phone)) ==>
      r >= confidence + ContactBoost || r == BoostCap
  {
    var c1 := if EmailAgrees(author, email) then Boosted(confidence) else confidence;
    if PhoneAgrees(env, author, phone) then Boosted(c1) else c1
  }

  /** The examined matches as candidates, in the fuzzy matcher's order. */
  function ToCandidates(env: Env, authors: seq<Author>, matches: seq<Fuzzy.AdvancedMatch>,
                        email: Option<string>, phone: Option<string>): (r: seq<Candidate>)
    requires forall m | m in matches :: m.index < |authors|
    ensures |r| == |matches|
    ensures forall k | 0 <= k < |r| ::
      r[k].author == authors[matches[k].index] &&
      r[k].combinedScore == matches[k].combinedScore &&
      r[k].adjusted == Adjusted(env, matches[k].confidence, r[k].author, email, phone)
  {
    if matches == [] then []
    else
      var a := authors[matches[0].index];
      [Candidate(a, matches[0].combinedScore, Adjusted(env, matches[0].confidence, a, email, phone))]
      + ToCandidates(env, authors, matches[1..], email, phone)
  }

  /** The candidates whose adjusted confidence reaches 0.70, order kept. */
  function Retained(cs: seq<Candidate>): (r: seq<Candidate>)
    ensures forall c | c in r :: c in cs && c.adjusted >= RetainThreshold
    ensures forall c | c in cs && c.adjusted >= RetainThreshold :: c in r
    ensures |r| <= |cs|
  {
    if cs == [] then []
    else (if cs[0].adjusted >= RetainThreshold then [cs[0]] else []) + Retained(cs[1..])
  }

  /** Filtering keeps a best-first order. */
  lemma {:induction false} RetainedSorted(cs: seq<Candidate>)
    requires Sorting.SortedDesc(cs, CombinedScoreOf)
    ensures Sorting.SortedDesc(Retained(cs), CombinedScoreOf)
  {
    if cs != [] {
      RetainedSorted(cs[1..]);
      var rest := Retained(cs[1..]);
      if cs[0].adjusted >= RetainThreshold {
        if rest != [] {
          assert rest[0] in cs[1..];
          var k :| 1 <= k < |cs| && cs[k] == rest[0];
        }
        Sorting.ConsSortedDesc(cs[0], rest, CombinedScoreOf);
        assert Retained(cs) == [cs[0]] + rest;
      } else {
        assert Retained(cs) == rest;
      }
    }
  }

  /** How stage 2 ends. */
  datatype Stage2Outcome =
    | FuzzyMiss
    | FuzzyCommit(store: Store, resolution: Resolution, shownScore: real)
    | FuzzyUncertain(candidates: seq<Candidate>)

  /** The authors' fuzzy matches against the normalised name, best combined score first. */
  function NameMatches(env: Env, s: Store, name: string): (r: seq<Fuzzy.AdvancedMatch>)
    ensures forall m | m in r :: m.index < |s.authors|
    ensures Sorting.SortedDesc(r, Fuzzy.Combined)
  {
    var names := FullNames(s.authors);
    Fuzzy.MatchNameAdvancedSound(env.fuzzy, env.tokenSort, env.partial, name, names, Some(FuzzyThreshold));
    Fuzzy.MatchNameAdvanced(env.fuzzy, env.tokenSort, env.partial, name, names, Some(FuzzyThreshold))
  }

  /** The top five matches as candidates, in combined-score order. */
  function Examine(env: Env, s: Store, name: string, email: Option<string>, phone: Option<string>)
    : (r: seq<Candidate>)
    ensures |r| <= Examined
    ensures Sorting.SortedDesc(r, CombinedScoreOf)
    ensures forall c | c in r :: c.author in s.authors
  {
    var matches := NameMatches(env, s, name);
    var top := Fuzzy.Take(matches, Examined);
    assert forall k | 0 <= k < |top| :: top[k] == matches[k];
    Sorting.SortedPrefix(matches, top, Fuzzy.Combined);
    CandidatesFollowMatches(env, s.authors, top, email, phone);
    ToCandidates(env, s.authors, top, email, phone)
  }

  /** Candidates built from sorted matches are sorted the same way, and name real authors. */
  lemma CandidatesFollowMatches(env: Env, authors: seq<Author>, matches: seq<Fuzzy.AdvancedMatch>,
                                email: Option<string>, phone: Option<string>)
    requires forall m | m in matches :: m.index < |authors|
    requires Sorting.SortedDesc(matches, Fuzzy.Combined)
    ensures var r := ToCandidates(env, authors, matches, email, phone);
      Sorting.SortedDesc(r, CombinedScoreOf) && forall c | c in r :: c.author in authors
  {
    var r := ToCandidates(env, authors, matches, email, phone);
    forall i, j | 0 <= i < j < |r| ensures CombinedScoreOf(r[i]) >= CombinedScoreOf(r[j]) {
      assert Fuzzy.Combined(matches[i]) >= Fuzzy.Combined(matches[j]);
    }
    forall c | c in r ensures c.author in authors {
      var k :| 0 <= k < |r| && r[k] == c;
      assert matches[k] in matches;
    }
  }

  /**
   * `_stage2_fuzzy_match`: the first retained candidate (the best combined
   * name score, whatever the boosts did) is committed when its adjusted
   * confidence reaches 0.75, and otherwise every retained candidate goes on
   * to disambiguation. The score shown in the reasoning is the combined
   * score of the last examined match.
   */
  function Stage2(env: Env, s: Store, name: string, email: Option<string>, phone: Option<string>,
                  platform: string, pid: string): (r: Stage2Outcome)
    requires Valid(s)
    ensures r.FuzzyCommit? ==>
      Valid(r.store) && r.store.authors == s.authors &&
      r.store.identities == s.identities + [r.resolution.identity] &&
      Resolved(r.store, r.resolution) && IsHandleOf(r.resolution.identity, platform, pid) &&
      r.resolution.via == "fuzzy_match" &&
      CommitThreshold <= r.resolution.confidence <= BoostCap
    ensures r.FuzzyUncertain? ==>
      r.candidates != [] && |r.candidates| <= Examined &&
      r.candidates[0].adjusted < CommitThreshold &&
      forall c | c in r.candidates :: c.author in s.authors && c.adjusted >= RetainThreshold
    ensures r.FuzzyCommit? || r.FuzzyUncertain? ==> s.authors != []
    ensures var kept := Retained(Examine(env, s, name, email, phone));
      (r.FuzzyMiss? <==> kept == []) &&
      (r.FuzzyCommit? <==> kept != [] && kept[0].adjusted >= CommitThreshold) &&
      (r.FuzzyCommit? ==>
        r.resolution.author == kept[0].author && r.resolution.confidence == kept[0].adjusted) &&
      (r.FuzzyUncertain? ==> r.candidates == kept)
  {
    if s.authors == [] then
      assert Examine(env, s, name, email, phone) == [];
      FuzzyMiss
    else
      var cands := Examine(env, s, name, email, phone);
      var kept := Retained(cands);
      if kept == [] then FuzzyMiss
      else
        var best := kept[0];
        assert best in cands;
        if best.adjusted >= CommitThreshold then
          AdjustedBounded(env, s, name, email, phone, best);
          var (t, link) := CreateIdentityLink(env, s, best.author.id, platform, pid,
                                              best.adjusted, "fuzzy_match");
          FuzzyCommit(t, Resolution(best.author, link, best.adjusted, "fuzzy_match"),
                      cands[|cands| - 1].combinedScore)
        else FuzzyUncertain(kept)
  }

  /** An adjusted confidence never exceeds the 0.95 cap. */
  lemma AdjustedBounded(env: Env, s: Store, name: string, email: Option<string>,
                        phone: Option<string>, c: Candidate)
    requires c in Examine(env, s, name, email, phone)
    ensures c.adjusted <= BoostCap
  {
    var top := Fuzzy.Take(NameMatches(env, s, name), Examined);
    var cands := Examine(env, s, name, email, phone);
    var k :| 0 <= k < |cands| && cands[k] == c;
    var m := top[k];
    assert m in NameMatches(env, s, name);
    var names := FullNames(s.authors);
    Fuzzy.MatchNameAdvancedSound(env.fuzzy, env.tokenSort, env.partial, name, names, Some(FuzzyThreshold));
    assert m.confidence <= 0.9;
  }

  /**
   * The committed candidate has the best combined name score among those
   * retained; a later candidate may well have the higher adjusted
   * confidence (its contact details matched), and it is passed over.
   */
  lemma Stage2CommitsBestName(env: Env, s: Store, name: string, email: Option<string>,
                              phone: Option<string>)
    ensures var kept := Retained(Examine(env, s, name, email, phone));
      forall c | c in kept :: kept[0].combinedScore >= c.combinedScore
  {
    var kept := Retained(Examine(env, s, name, email, phone));
    RetainedSorted(Examine(env, s, name, email, phone));
    forall c | c in kept ensures kept[0].combinedScore >= c.combinedScore {
      var k :| 0 <= k < |kept| && kept[k] == c;
      if k > 0 {
        assert CombinedScoreOf(kept[0]) >= CombinedScoreOf(kept[k]);
      }
    }
  }

  /**
   * The commit rule looks only at the first retained candidate: here the
   * second has the better name-plus-contact confidence, yet the first,
   * with the better name score, is the one committed.
   */
  lemma Stage2PassesOverBetterContact(a0: Author, a1: Author)
    ensures var cs := [Candidate(a0, 95.0, 0.80), Candidate(a1, 90.0, 0.95)];
      var kept := Retained(cs);
      Sorting.SortedDesc(cs, CombinedScoreOf) && kept == cs &&
      kept[1].adjusted > kept[0].adjusted >= CommitThreshold
  {
    var cs := [Candidate(a0, 95.0, 0.80), Candidate(a1, 90.0, 0.95)];
    assert Retained(cs[1..]) == [cs[1]] + Retained(cs[1..][1..]);
  }

  // ---------------------------------------------------------------------
  // Stage 4: a new author

  /**
   * `_stage4_create_new`: a new author (named `name`, or "Unknown User"
   * when there is none, with the raw e-mail and phone) and an unverified
   * link at confidence 0.5.
   */
  function Stage4(env: Env, s: Store, q: Query, pid: string): (r: (Store, Resolution))
    requires Valid(s)
    ensures Valid(r.0) && Resolved(r.0, r.1) && Extends(r.0, s)
    ensures r.0.authors == s.authors + [r.1.author]
    ensures r.0.identities == s.identities + [r.1.identity]
    ensures r.1.author.id !in AuthorIds(s)
    ensures r.1.author.fullName == (if Truthy(q.name) then q.name.value else "Unknown User")
    ensures r.1.author.email == q.email && r.1.author.phone == q.phone
    ensures r.1.confidence == NewIdentityConfidence && r.1.via == "new_identity_created"
    ensures IsHandleOf(r.1.identity, q.platform, pid) && !r.1.identity.verified
  {
    var meta := EmptyMetadata.(createdFrom := Some(q.platform), initialIdentifier := Some(pid));
    var fullName := if Truthy(q.name) then q.name.value else "Unknown User";
    InsertAuthorValid(s, fullName, q.email, q.phone, meta);
    var (s1, a) := InsertAuthor(s, fullName, q.email, q.phone, meta);
    var (s2, link) := CreateIdentityLink(env, s1, a.id, q.platform, pid, NewIdentityConfidence,
                                         "new_identity_created");
    assert a in s2.authors && link in s2.identities;
    (s2, Resolution(a, link, NewIdentityConfidence, "new_identity_created"))
  }

  // ---------------------------------------------------------------------
  // match_identity

  function CandidateAuthors(cs: seq<Candidate>): (r: seq<Author>)
    ensures |r| == |cs| && forall k | 0 <= k < |cs| :: r[k] == cs[k].author
  {
    if cs == [] then [] else [cs[0].author] + CandidateAuthors(cs[1..])
  }

  /** Stage 3, and stage 4 when the model does not confirm a candidate. */
  function Stage3(env: Env, s: Store, q: Query, pid: string, cs: seq<Candidate>): (r: (Store, Resolution))
    requires Valid(s) && forall c | c in cs :: c.author in s.authors
    ensures Valid(r.0) && Resolved(r.0, r.1) && Extends(r.0, s)
    ensures IsHandleOf(r.1.identity, q.platform, pid)
    ensures r.1.via in {"llm_disambiguation", "new_identity_created"}
    ensures r.1.via == "llm_disambiguation" ==>
      r.0.authors == s.authors && r.0.identities == s.identities + [r.1.identity] &&
      Disambiguate.ConfidenceFloor <= r.1.confidence <= Disambiguate.ConfidenceCeiling
    ensures r.1.via == "new_identity_created" ==>
      r.0.authors == s.authors + [r.1.author] && r.0.identities == s.identities + [r.1.identity]
  {
    var auths := CandidateAuthors(cs);
    var d := Disambiguate.Disambiguate(auths, env.disambiguator(auths));
    Disambiguate.DisambiguateSound(auths, env.disambiguator(auths));
    if d.matchFound then
      var a := d.bestMatch.value;
      assert a in s.authors by {
        var k :| 0 <= k < |auths| && auths[k] == a;
        assert cs[k] in cs;
      }
      var (t, link) := CreateIdentityLink(env, s, a.id, q.platform, pid, d.confidence,
                                          "llm_disambiguation");
      (t, Resolution(a, link, d.confidence, "llm_disambiguation"))
    else Stage4(env, s, q, pid)
  }

  /** Stages 2 to 4, after stage 1 found nothing. */
  function AfterStage1(env: Env, s: Store, q: Query, pid: string): (r: (Store, Resolution))
    requires Valid(s)
    ensures Valid(r.0) && Extends(r.0, s) && Resolved(r.0, r.1)
    ensures IsHandleOf(r.1.identity, q.platform, pid)
    ensures r.0.identities == s.identities + [r.1.identity]
    ensures r.1.via in {"fuzzy_match", "llm_disambiguation", "new_identity_created"}
    ensures r.1.via == "new_identity_created" <==> r.0.authors == s.authors + [r.1.author]
    ensures r.1.via != "new_identity_created" ==> r.0.authors == s.authors
    ensures r.1.via == "fuzzy_match" ==> CommitThreshold <= r.1.confidence <= BoostCap
    ensures r.1.via == "llm_disambiguation" ==>
      Disambiguate.ConfidenceFloor <= r.1.confidence <= Disambiguate.ConfidenceCeiling
    ensures r.1.via == "new_identity_created" ==> r.1.confidence == NewIdentityConfidence
  {
    var name := NormalizedName(q);
    var st2 := if Truthy(name)
               then Stage2(env, s, name.value, NormalizedEmail(q), NormalizedPhone(env, q), q.platform, pid)
               else FuzzyMiss;
    match st2
    case FuzzyCommit(t, res, _) => (t, res)
    case FuzzyUncertain(cs) => Stage3(env, s, q, pid, cs)
    case FuzzyMiss => Stage4(env, s, q, pid)
  }

  /**
   * `match_identity`: normalise the inputs, pick the handle, and run the
   * stages in order; stage 2 runs only with a non-empty normalised name,
   * and stage 3 only on stage 2's uncertain candidates.
   */
  function MatchIdentity(env: Env, s: Store, q: Query): (r: (Store, Resolution))
    requires Valid(s)
    ensures Valid(r.0) && Extends(r.0, s) && Resolved(r.0, r.1)
    ensures IsHandleOf(r.1.identity, q.platform, Handle(env, q))
    ensures |r.0.authors| <= |s.authors| + 1 && |r.0.identities| <= |s.identities| + 1
    ensures r.1.via == "exact_identity_match" <==> r.0 == s
    ensures r.1.via == "new_identity_created" <==> |r.0.authors| == |s.authors| + 1
    ensures r.1.via != "exact_identity_match" ==> r.0.identities == s.identities + [r.1.identity]
    ensures r.1.via in {"exact_identity_match", "exact_email_match", "exact_phone_match"} ==>
      r.1.confidence == 1.0
    ensures r.1.via == "fuzzy_match" ==> CommitThreshold <= r.1.confidence <= BoostCap
    ensures r.1.via == "llm_disambiguation" ==>
      Disambiguate.ConfidenceFloor <= r.1.confidence <= Disambiguate.ConfidenceCeiling
    ensures r.1.via == "new_identity_created" ==> r.1.confidence == NewIdentityConfidence
  {
    var pid := Handle(env, q);
    var (s1, r1) := Stage1(env, s, NormalizedEmail(q), NormalizedPhone(env, q), q.platform, pid);
    if r1.Some? then (s1, r1.value)
    else
      var r := AfterStage1(env, s, q, pid);
      assert r.0 != s by {
        assert |r.0.identities| == |s.identities| + 1;
      }
      r
  }

  /** In a valid store an author is the one row carrying its id. */
  lemma FindAuthorOfMember(s: Store, a: Author)
    requires Valid(s) && a in s.authors
    ensures FindAuthor(s, a.id) == Some(a)
  {
    var r := FindAuthor(s, a.id);
    var i :| 0 <= i < |s.authors| && s.authors[i] == a;
    var j :| 0 <= j < |s.authors| && s.authors[j] == r.value;
    if i != j {
      assert false;
    }
  }

  /**
   * Matching is stable: asking again with the same query finds the handle
   * the first call left on file, returns the same author, and changes
   * nothing.
   */
  lemma MatchIdentityStable(env: Env, s: Store, q: Query)
    requires Valid(s)
    ensures var (s1, r1) := MatchIdentity(env, s, q);
      var (s2, r2) := MatchIdentity(env, s1, q);
      s2 == s1 && r2.via == "exact_identity_match" && r2.author == r1.author
  {
    var (s1, r1) := MatchIdentity(env, s, q);
    var pid := Handle(env, q);
    var k :| 0 <= k < |s1.identities| && s1.identities[k] == r1.identity;
    Stage1HandleFirst(env, s1, NormalizedEmail(q), NormalizedPhone(env, q), q.platform, pid, k);
    var (s2, r2) := MatchIdentity(env, s1, q);
    var j :| 0 <= j <= k && r2.identity == s1.identities[j] &&
      forall m | 0 <= m < j :: !IsHandleOf(s1.identities[m], q.platform, pid);
    if r1.via == "exact_identity_match" {
      var byHandle := FirstIndex(s.identities, (i: Identity) => IsHandleOf(i, q.platform, pid));
      assert r1.identity == s.identities[byHandle.value];
    } else {
      Stage1Miss(env, s, NormalizedEmail(q), NormalizedPhone(env, q), q.platform, pid);
      assert j == k;
    }
    FindAuthorOfMember(s1, r1.author);
  }
}

=== FILE: normalizer.dfy ===
/**
 * Canonical forms of the identifiers an author presents: e-mail addresses
 * (with the gmail dot and plus rules), person names (with titles and
 * suffixes stripped), and the e-mail shape check.
 *
 * Phone normalisation goes through the `phonenumbers` library and is a
 * parameter of the modules that need it (a partial map to E.164 text).
 */
module Normalizer {
  import opened Wrappers
  import opened Strings

  // ---------------------------------------------------------------------
  // normalize_email

  /** Position of the last '@' (the separator `rsplit('@', 1)` splits at). */
  function AtIndex(e: string): (i: nat)
    requires '@' in e
    ensures i < |e| && e[i] == '@'
    ensures '@' !in e[i + 1..]
  {
    LastIndexOfChar(e, '@')
  }

  /** Text before the last '@'. */
  function LocalPart(e: string): string
    requires '@' in e
  {
    e[..AtIndex(e)]
  }

  /** Text after the last '@'; it never contains an '@'. */
  function DomainPart(e: string): string
    requires '@' in e
  {
    e[AtIndex(e) + 1..]
  }

  lemma SplitAtLastAt(local: string, domain: string)
    requires '@' !in domain
    ensures '@' in local + "@" + domain
    ensures LocalPart(local + "@" + domain) == local
    ensures DomainPart(local + "@" + domain) == domain
  {
    LastIndexOfCharConcat(local, '@', domain);
    assert local + "@" + domain == local + ['@'] + domain;
  }

  predicate IsGmailDomain(domain: string) {
    domain == "gmail.com" || domain == "googlemail.com"
  }

  /** A gmail local part loses all its dots and everything from the first '+'. */
  function GmailLocal(local: string): (r: string)
    ensures '.' !in r && '+' !in r
    ensures r <= RemoveChar(local, '.')
    ensures '+' in RemoveChar(local, '.') ==> RemoveChar(local, '.')[|r|] == '+'
    ensures '+' !in RemoveChar(local, '.') ==> r == RemoveChar(local, '.')
  {
    var l := RemoveChar(local, '.');
    if '+' in l then l[..IndexOfChar(l, '+')] else l
  }

  /** The lower-cased, trimmed text the e-mail rules start from. */
  function Canonical(email: string): string {
    Strip(ToLower(email))
  }

  /**
   * `normalize_email`: None for text without an '@' (including ""); else the
   * lower-cased trimmed address split at its last '@', with gmail and
   * googlemail local parts reduced by the gmail rules and their domain
   * unified to gmail.com.
   */
  function NormalizeEmail(email: string): (r: Option<string>)
    ensures r.None? <==> '@' !in email
  {
    if email == "" then None
    else
      var e := Canonical(email);
      AtSurvivesCanonical(email);
      if '@' !in e then None
      else
        var local, domain := LocalPart(e), DomainPart(e);
        if IsGmailDomain(domain) then Some(GmailLocal(local) + "@" + "gmail.com")
        else Some(e)
  }

  lemma AtSurvivesCanonical(email: string)
    ensures '@' in Canonical(email) <==> '@' in email
  {
    NonLetterInToLower(email, '@');
    NonSpaceInStrip(ToLower(email), '@');
  }

  lemma CanonicalLowerCase(email: string)
    ensures IsLowerCase(Canonical(email))
  {
    ToLowerIsLowerCase(email);
    StripLowerCase(ToLower(email));
  }

  /** The result is lower-case and still contains an '@'. */
  lemma NormalizeEmailLowerCase(email: string)
    requires '@' in email
    ensures IsLowerCase(NormalizeEmail(email).value) && '@' in NormalizeEmail(email).value
  {
    var e := Canonical(email);
    AtSurvivesCanonical(email);
    if IsGmailDomain(DomainPart(e)) {
      GmailAddressLowerCase(email);
    } else {
      CanonicalLowerCase(email);
      NormalizeEmailOtherDomain(email);
    }
  }

  lemma GmailAddressLowerCase(email: string)
    requires '@' in email && '@' in Canonical(email)
    requires IsGmailDomain(DomainPart(Canonical(email)))
    ensures IsLowerCase(NormalizeEmail(email).value)
  {
    var l := GmailLocal(LocalPart(Canonical(email)));
    NormalizeEmailGmailValue(email);
    LocalPartLowerCase(email);
    GmailLocalLowerCase(LocalPart(Canonical(email)));
    GmailAddressOfLowerLocal(l);
  }

  lemma NormalizeEmailGmailValue(email: string)
    requires '@' in email && '@' in Canonical(email)
    requires IsGmailDomain(DomainPart(Canonical(email)))
    ensures NormalizeEmail(email) == Some(GmailLocal(LocalPart(Canonical(email))) + "@" + "gmail.com")
  {
  }

  lemma GmailAddressOfLowerLocal(l: string)
    requires IsLowerCase(l)
    ensures IsLowerCase(l + "@" + "gmail.com")
  {
    LowerCaseConcat(l, "@");
    LowerCaseConcat(l + "@", "gmail.com");
  }

  lemma LocalPartLowerCase(email: string)
    requires '@' in Canonical(email)
    ensures IsLowerCase(LocalPart(Canonical(email)))
  {
    CanonicalLowerCase(email);
  }

  /** Other domains: the address changes only by case and trimming. */
  lemma NormalizeEmailOtherDomain(email: string)
    requires '@' in email
    requires '@' in Canonical(email) && !IsGmailDomain(DomainPart(Canonical(email)))
    ensures NormalizeEmail(email) == Some(Canonical(email))
  {
  }

  /** gmail and googlemail: the domain becomes gmail.com and the local part is reduced. */
  lemma NormalizeEmailGmail(email: string)
    requires '@' in email
    requires '@' in Canonical(email) && IsGmailDomain(DomainPart(Canonical(email)))
    ensures var v := NormalizeEmail(email).value;
      '@' in v && DomainPart(v) == "gmail.com" &&
      LocalPart(v) == GmailLocal(LocalPart(Canonical(email)))
  {
    SplitAtLastAt(GmailLocal(LocalPart(Canonical(email))), "gmail.com");
  }

  lemma GmailLocalLowerCase(local: string)
    requires IsLowerCase(local)
    ensures IsLowerCase(GmailLocal(local))
  {
    var l := RemoveChar(local, '.');
    forall k | 0 <= k < |l| ensures !IsUpper(l[k]) {
      assert l[k] in local;
    }
  }

  /** An address is its local part, an '@', and its domain. */
  lemma LocalAtDomain(e: string)
    requires '@' in e
    ensures e == LocalPart(e) + "@" + DomainPart(e)
  {
  }

  /** The gmail reduction leaves a local part without '.' and '+' as it is. */
  lemma GmailLocalFixed(local: string)
    requires '.' !in local && '+' !in local
    ensures GmailLocal(local) == local
  {
    RemoveCharAbsent(local, '.');
  }

  /** For gmail addresses the result's local part has no '.' and no '+'. */
  lemma GmailLocalHasNoDotOrPlus(email: string)
    requires '@' in email
    requires IsGmailDomain(DomainPart(Canonical(email)))
    requires '@' in Canonical(email)
    ensures var v := NormalizeEmail(email).value;
      '@' in v && '.' !in LocalPart(v) && '+' !in LocalPart(v) && DomainPart(v) == "gmail.com"
  {
    NormalizeEmailGmail(email);
  }

  /**
   * Normalising an already normalised address changes nothing, as long as
   * the address does not start with whitespace (see `LeadingSpaceNotIdempotent`).
   */
  lemma NormalizeEmailIdempotent(email: string)
    requires NormalizeEmail(email).Some?
    requires !IsSpace(NormalizeEmail(email).value[0])
    ensures NormalizeEmail(NormalizeEmail(email).value) == NormalizeEmail(email)
  {
    var e := Canonical(email);
    var v := NormalizeEmail(email).value;
    NormalizedIsCanonical(email);
    if IsGmailDomain(DomainPart(e)) {
      NormalizeEmailGmail(email);
      LocalAtDomain(v);
      GmailLocalFixed(LocalPart(v));
    } else {
      NormalizeEmailOtherDomain(email);
    }
  }

  /** A normalised address without leading whitespace is already canonical. */
  lemma NormalizedIsCanonical(email: string)
    requires NormalizeEmail(email).Some?
    requires !IsSpace(NormalizeEmail(email).value[0])
    ensures Canonical(NormalizeEmail(email).value) == NormalizeEmail(email).value
  {
    NormalizedClean(email);
    CanonicalOfClean(NormalizeEmail(email).value);
  }

  /** A normalised address is non-empty lower-case text ending in a non-space. */
  lemma NormalizedClean(email: string)
    requires NormalizeEmail(email).Some?
    ensures var v := NormalizeEmail(email).value;
      v != [] && IsLowerCase(v) && !IsSpace(v[|v| - 1])
  {
    NormalizeEmailLowerCase(email);
    NormalizedEndsNonSpace(email);
  }

  /** Lower-case text with no surrounding whitespace is its own canonical form. */
  lemma CanonicalOfClean(v: string)
    requires v != [] && IsLowerCase(v) && !IsSpace(v[0]) && !IsSpace(v[|v| - 1])
    ensures Canonical(v) == v
  {
    ToLowerOfLowerCase(v);
    StripOfStripped(v);
  }

  lemma NormalizedEndsNonSpace(email: string)
    requires NormalizeEmail(email).Some?
    ensures var v := NormalizeEmail(email).value; !IsSpace(v[|v| - 1])
  {
    var e := Canonical(email);
    var v := NormalizeEmail(email).value;
    AtSurvivesCanonical(email);
    if IsGmailDomain(DomainPart(e)) {
      NormalizeEmailGmail(email);
      LocalAtDomain(v);
      assert v[|v| - 1] == DomainPart(v)[|DomainPart(v)| - 1];
    } else {
      NormalizeEmailOtherDomain(email);
    }
  }

  lemma RemoveCharAbsent(s: string, c: char)
    requires c !in s
    ensures RemoveChar(s, c) == s
  {
  }

  /** How `normalize_email` treats an address already lower-case and trimmed. */
  lemma NormalizeCleanEmail(local: string, domain: string)
    requires '@' !in domain
    requires IsLowerCase(local + "@" + domain)
    requires local == [] || !IsSpace(local[0])
    requires domain == [] || !IsSpace(domain[|domain| - 1])
    ensures NormalizeEmail(local + "@" + domain) ==
      if IsGmailDomain(domain) then Some(GmailLocal(local) + "@" + "gmail.com")
      else Some(local + "@" + domain)
  {
    var e := local + "@" + domain;
    SplitAtLastAt(local, domain);
    ToLowerOfLowerCase(e);
    assert e[0] == if local == [] then '@' else local[0];
    assert e[|e| - 1] == if domain == [] then '@' else domain[|domain| - 1];
    StripOfStripped(e);
  }

  /** Normalisation never lengthens the canonical address. */
  lemma NormalizeEmailNeverLonger(email: string)
    requires '@' in email
    ensures '@' in Canonical(email)
    ensures |NormalizeEmail(email).value| <= |Canonical(email)|
  {
    var e := Canonical(email);
    AtSurvivesCanonical(email);
    if IsGmailDomain(DomainPart(e)) {
      NormalizeEmailGmailValue(email);
      LocalAtDomain(e);
    } else {
      NormalizeEmailOtherDomain(email);
    }
  }

  /**
   * An address that starts with whitespace is not a fixed point: the next
   * round trims it, and nothing makes it longer again.
   */
  lemma LeadingSpaceNotIdempotent(email: string)
    requires '@' in email
    requires IsSpace(NormalizeEmail(email).value[0])
    ensures NormalizeEmail(NormalizeEmail(email).value) != NormalizeEmail(email)
  {
    var v := NormalizeEmail(email).value;
    NormalizeEmailLowerCase(email);
    ToLowerOfLowerCase(v);
    assert Canonical(v) == Strip(v);
    assert !AllSpace(v) by { assert v[AtIndex(v)] == '@'; }
    assert FirstNonSpace(v) >= 1;
    NormalizeEmailNeverLonger(v);
  }

  /**
   * Such addresses exist: a gmail local part made of a dot, a space and a
   * plain word ends up with a leading space once the dot is removed.
   */
  lemma LeadingSpaceReachable(w: string)
    requires IsLowerCase(w) && '.' !in w && '+' !in w && '@' !in w
    ensures var v := NormalizeEmail(". " + w + "@" + "gmail.com");
      v.Some? && |v.value| > 0 && v.value[0] == ' '
  {
    var local := ". " + w;
    DotSpaceLocalLowerCase(w);
    NormalizeCleanEmail(local, "gmail.com");
    GmailLocalDotSpace(w);
  }

  lemma DotSpaceLocalLowerCase(w: string)
    requires IsLowerCase(w)
    ensures IsLowerCase(". " + w + "@" + "gmail.com")
  {
    LowerCaseConcat(". ", w);
    GmailAddressOfLowerLocal(". " + w);
  }

  lemma GmailLocalDotSpace(w: string)
    requires '.' !in w && '+' !in w
    ensures GmailLocal(". " + w) == " " + w
  {
    var local := ". " + w;
    assert local[1..] == " " + w;
    assert (" " + w)[1..] == w;
    RemoveCharAbsent(w, '.');
    assert RemoveChar(local, '.') == " " + w;
  }

  // ---------------------------------------------------------------------
  // normalize_name

  const Titles: seq<string> := ["mr", "mrs", "ms", "miss", "dr", "prof"]
  const Suffixes: seq<string> := ["jr", "sr", "ii", "iii", "iv", "esq", "phd", "md"]

  /** Python's `s.rstrip('.')`. */
  function RStripDots(s: string): (r: string)
    ensures r <= s
    ensures r == [] || r[|r| - 1] != '.'
    ensures forall k | |r| <= k < |s| :: s[k] == '.'
  {
    if s != [] && s[|s| - 1] == '.' then RStripDots(s[..|s| - 1]) else s
  }

  predicate IsTitle(word: string) { RStripDots(word) in Titles }

  predicate IsSuffix(word: string) { RStripDots(word) in Suffixes }

  /** The tokens `normalize_name` works on (collapsing whitespace runs first does not change `split()`). */
  function NameTokens(name: string): seq<string> {
    Words(Strip(ToLower(name)))
  }

  /** One leading title, then one trailing suffix, are dropped from the tokens. */
  function DropTitleAndSuffix(parts: seq<string>): seq<string> {
    var parts1 := if |parts| > 0 && IsTitle(parts[0]) then parts[1..] else parts;
    if |parts1| > 0 && IsSuffix(parts1[|parts1| - 1]) then parts1[..|parts1| - 1] else parts1
  }

  /**
   * `normalize_name`: None for ""; otherwise the lower-cased tokens with one
   * leading title and then one trailing suffix removed, joined by single
   * spaces. The result may be "" (a name that is only a title).
   */
  function NormalizeName(name: string): (r: Option<string>)
    ensures r.None? <==> name == ""
  {
    if name == "" then None
    else Some(Join(DropTitleAndSuffix(NameTokens(name)), " "))
  }

  /**
   * What survives is a contiguous run of the tokens: the first is dropped
   * exactly when it is a title, and the last of the remainder exactly when
   * it is a suffix.
   */
  lemma DropTitleAndSuffixIsRun(ws: seq<string>) returns (i: nat, j: nat)
    ensures i <= j <= |ws| && DropTitleAndSuffix(ws) == ws[i..j]
    ensures i == 1 <==> |ws| > 0 && IsTitle(ws[0])
    ensures i <= 1 && j + 1 >= |ws|
    ensures j + 1 == |ws| <==> i < |ws| && IsSuffix(ws[|ws| - 1])
  {
    i := if |ws| > 0 && IsTitle(ws[0]) then 1 else 0;
    j := if i < |ws| && IsSuffix(ws[|ws| - 1]) then |ws| - 1 else |ws|;
    var parts1 := ws[i..];
    if |parts1| > 0 {
      assert parts1[|parts1| - 1] == ws[|ws| - 1];
    }
    assert parts1[..j - i] == ws[i..j];
  }

  /** A normalised name is the space-join of a contiguous run of the input's tokens. */
  lemma NormalizeNameIsTokenRun(name: string) returns (i: nat, j: nat)
    requires name != ""
    ensures var ws := NameTokens(name);
      i <= 1 && i <= j <= |ws| && j + 1 >= |ws| &&
      NormalizeName(name) == Some(Join(ws[i..j], " "))
  {
    i, j := DropTitleAndSuffixIsRun(NameTokens(name));
  }

  /**
   * Title removal happens once: "<title> <title> <w>" loses one title, and
   * normalising the result loses the other, so `normalize_name` is not
   * idempotent (for example "mr mr smith" gives "mr smith", then "smith").
   */
  lemma NormalizeNameNotIdempotent(title: string, w: string)
    requires IsWord(title) && IsLowerCase(title) && IsTitle(title) && !IsSuffix(title)
    requires IsWord(w) && IsLowerCase(w) && !IsSuffix(w)
    ensures NormalizeName(title + " " + w) == Some(w)
    ensures NormalizeName(title + " " + (title + " " + w)) == Some(title + " " + w)
  {
    NormalizeTitledWord(title, w);
    NormalizeDoublyTitledWord(title, w);
  }

  lemma NormalizeTitledWord(title: string, w: string)
    requires IsWord(title) && IsLowerCase(title) && IsTitle(title)
    requires IsWord(w) && IsLowerCase(w) && !IsSuffix(w)
    ensures NormalizeName(title + " " + w) == Some(w)
  {
    TitledTokens(title, w);
    DropTitleOnce(title, w);
    JoinTwo(title, w);
  }

  lemma TitledTokens(title: string, w: string)
    requires IsWord(title) && IsLowerCase(title)
    requires IsWord(w) && IsLowerCase(w)
    ensures NameTokens(title + " " + w) == [title, w]
  {
    TitleTokens(title, w);
    WordsOfWord(w);
  }

  lemma NormalizeDoublyTitledWord(title: string, w: string)
    requires IsWord(title) && IsLowerCase(title) && IsTitle(title)
    requires IsWord(w) && IsLowerCase(w) && !IsSuffix(w)
    ensures NormalizeName(title + " " + (title + " " + w)) == Some(title + " " + w)
  {
    DoublyTitledTokens(title, w);
    DropTitleTwice(title, w);
    JoinTwo(title, w);
  }

  lemma DoublyTitledTokens(title: string, w: string)
    requires IsWord(title) && IsLowerCase(title)
    requires IsWord(w) && IsLowerCase(w)
    ensures NameTokens(title + " " + (title + " " + w)) == [title, title, w]
  {
    var once := title + " " + w;
    TitleThenWordIsClean(title, w);
    TitleTokens(title, once);
    TwoWords(title, w);
  }

  lemma TwoWords(a: string, b: string)
    requires IsWord(a) && IsWord(b)
    ensures Words(a + " " + b) == [a, b]
  {
    WordsOfWordSpace(a, b);
    WordsOfWord(b);
  }

  /** "mr" is a title and a lower-case word, but not a suffix. */
  lemma TitleMr()
    ensures IsWord("mr") && IsLowerCase("mr")
    ensures IsTitle("mr") && !IsSuffix("mr")
  {
    assert RStripDots("mr") == "mr";
  }

  /** The tokens of "<title> <s>" for lower-case, stripped `s`. */
  lemma TitleTokens(title: string, s: string)
    requires IsWord(title) && IsLowerCase(title)
    requires s != [] && IsLowerCase(s) && !IsSpace(s[0]) && !IsSpace(s[|s| - 1])
    ensures NameTokens(title + " " + s) == [title] + Words(s)
  {
    var t := title + " " + s;
    TitlePrefixLowerCase(title, s);
    assert t[|t| - 1] == s[|s| - 1];
    assert t[0] == title[0];
    CleanNameTokens(t);
    WordsOfWordSpace(title, s);
  }

  lemma TitlePrefixLowerCase(title: string, s: string)
    requires IsLowerCase(title) && IsLowerCase(s)
    ensures IsLowerCase(title + " " + s)
  {
    LowerCaseConcat(title, " ");
    LowerCaseConcat(title + " ", s);
  }

  /** Lower-case text with no surrounding whitespace is split as it stands. */
  lemma CleanNameTokens(t: string)
    requires t != [] && IsLowerCase(t) && !IsSpace(t[0]) && !IsSpace(t[|t| - 1])
    ensures NameTokens(t) == Words(t)
  {
    ToLowerOfLowerCase(t);
    StripOfStripped(t);
  }

  lemma TitleThenWordIsClean(title: string, w: string)
    requires IsWord(title) && IsLowerCase(title)
    requires IsWord(w) && IsLowerCase(w)
    ensures var once := title + " " + w;
      IsLowerCase(once) && !IsSpace(once[0]) && !IsSpace(once[|once| - 1])
  {
    var once := title + " " + w;
    TitlePrefixLowerCase(title, w);
    assert once[0] == title[0];
    assert once[|once| - 1] == w[|w| - 1];
  }

  lemma DropTitleOnce(title: string, w: string)
    requires IsTitle(title) && !IsSuffix(w)
    ensures DropTitleAndSuffix([title, w]) == [w]
  {
  }

  lemma DropTitleTwice(title: string, w: string)
    requires IsTitle(title) && !IsSuffix(w)
    ensures DropTitleAndSuffix([title, title, w]) == [title, w]
  {
  }

  lemma JoinTwo(a: string, b: string)
    ensures Join([b], " ") == b && Join([a, b], " ") == a + " " + b
  {
    assert [a, b][1..] == [b];
  }

  // ---------------------------------------------------------------------
  // validate_email

  /** `[a-zA-Z0-9._%+-]` */
  predicate IsLocalChar(c: char) {
    IsAlnum(c) || c == '.' || c == '_' || c == '%' || c == '+' || c == '-'
  }

  /** `[a-zA-Z0-9.-]` */
  predicate IsDomainChar(c: char) {
    IsAlnum(c) || c == '.' || c == '-'
  }

  predicate AllLocalChars(s: string) { forall k | 0 <= k < |s| :: IsLocalChar(s[k]) }

  predicate AllDomainChars(s: string) { forall k | 0 <= k < |s| :: IsDomainChar(s[k]) }

  predicate AllAlpha(s: string) { forall k | 0 <= k < |s| :: IsAlpha(s[k]) }

  /**
   * The language of `[a-zA-Z0-9._%+-]+@[a-zA-Z0-9.-]+\.[a-zA-Z]{2,}`,
   * stated as the existence of a decomposition.
   */
  ghost predicate InEmailLanguage(s: string) {
    exists a: string, d: string, t: string ::
      s == a + "@" + d + "." + t &&
      |a| > 0 && AllLocalChars(a) && |d| > 0 && AllDomainChars(d) && |t| >= 2 && AllAlpha(t)
  }

  /** Decides the whole-string match by locating the '@' and the last '.'. */
  predicate MatchesEmailShape(s: string) {
    '@' in s &&
    var at := IndexOfChar(s, '@');
    var local, domain := s[..at], s[at + 1..];
    |local| > 0 && AllLocalChars(local) && '.' in domain &&
    var dot := LastIndexOfChar(domain, '.');
    dot > 0 && AllDomainChars(domain[..dot]) && |domain| - dot - 1 >= 2 && AllAlpha(domain[dot + 1..])
  }

  lemma MatchesEmailShapeIsLanguage(s: string)
    ensures MatchesEmailShape(s) <==> InEmailLanguage(s)
  {
    if MatchesEmailShape(s) {
      ShapeInLanguage(s);
    }
    if InEmailLanguage(s) {
      var a: string, d: string, t: string :|
        s == a + "@" + d + "." + t &&
        |a| > 0 && AllLocalChars(a) && |d| > 0 && AllDomainChars(d) && |t| >= 2 && AllAlpha(t);
      DecompositionMatches(s, a, d, t);
    }
  }

  /** The split the decision procedure finds is a witness of the language. */
  lemma ShapeInLanguage(s: string)
    requires MatchesEmailShape(s)
    ensures InEmailLanguage(s)
  {
    var at := IndexOfChar(s, '@');
    var domain := s[at + 1..];
    var dot := LastIndexOfChar(domain, '.');
    var a, d, t := s[..at], domain[..dot], domain[dot + 1..];
    assert domain == d + "." + t;
    assert s == a + "@" + d + "." + t;
    assert |a| > 0 && AllLocalChars(a) && |d| > 0 && AllDomainChars(d) && |t| >= 2 && AllAlpha(t);
  }

  lemma LocalHasNoAt(a: string)
    requires AllLocalChars(a)
    ensures '@' !in a
  {
    forall k | 0 <= k < |a| ensures a[k] != '@' { assert IsLocalChar(a[k]); }
  }

  lemma AlphaHasNoDot(t: string)
    requires AllAlpha(t)
    ensures '.' !in t
  {
    forall k | 0 <= k < |t| ensures t[k] != '.' { assert IsAlpha(t[k]); }
  }

  /** A decomposition fixes the '@' and the last '.' where the decision procedure looks. */
  lemma DecompositionMatches(s: string, a: string, d: string, t: string)
    requires s == a + "@" + d + "." + t
    requires |a| > 0 && AllLocalChars(a) && |d| > 0 && AllDomainChars(d) && |t| >= 2 && AllAlpha(t)
    ensures MatchesEmailShape(s)
  {
    LocalHasNoAt(a);
    AlphaHasNoDot(t);
    var rest := d + "." + t;
    SplitAtFirstAt(s, a, rest);
    SplitAtLastDot(rest, d, t);
  }

  /** The first '@' of `a + "@" + rest`, when `a` has none, is right after `a`. */
  lemma SplitAtFirstAt(s: string, a: string, rest: string)
    requires s == a + "@" + rest && '@' !in a
    ensures '@' in s && IndexOfChar(s, '@') == |a| && s[..|a|] == a && s[|a| + 1..] == rest
  {
    assert s == a + ['@'] + rest;
    IndexOfCharConcat(a, '@', rest);
  }

  /** The last '.' of `d + "." + t`, when `t` has none, is right after `d`. */
  lemma SplitAtLastDot(rest: string, d: string, t: string)
    requires rest == d + "." + t && '.' !in t
    ensures '.' in rest && LastIndexOfChar(rest, '.') == |d| && rest[..|d|] == d && rest[|d| + 1..] == t
  {
    assert rest == d + ['.'] + t;
    LastIndexOfCharConcat(d, '.', t);
  }

  /**
   * `validate_email`: `re.match` of the pattern above, where `$` also
   * matches just before a final newline.
   */
  function ValidateEmail(email: string): (ok: bool)
    ensures ok <==> (InEmailLanguage(email) ||
      (|email| > 0 && email[|email| - 1] == '\n' && InEmailLanguage(email[..|email| - 1])))
  {
    MatchesEmailShapeIsLanguage(email);
    if email == "" then false
    else
      MatchesEmailShapeIsLanguage(email[..|email| - 1]);
      MatchesEmailShape(email) ||
      (email[|email| - 1] == '\n' && MatchesEmailShape(email[..|email| - 1]))
  }
}

=== FILE: processor.dfy ===
/**
 * `QueryProcessor`: the end-to-end answer pipeline. Identity resolution,
 * intent classification, retrieval, response generation, confidence
 * scoring and escalation run in that order. The model and retrieval calls
 * are parameters; the conversation, message and analytics rows the
 * pipeline writes are not modelled.
 */
module Processor {
  import opened Wrappers
  import opened Strings
  import opened Records
  import opened Store
  import Matcher
  import Confidence

  // ---------------------------------------------------------------------
  // _assess_llm_confidence

  const BaseLlmConfidence: real := 0.7
  const ContextBoost: real := 0.15
  const SupportPenalty: real := 0.2
  const UncertaintyPenalty: real := 0.3

  /** Retrieval context "longer than 100 characters" earns the boost. */
  predicate RichContext(rag: Option<string>) {
    Truthy(rag) && |rag.value| > 100
  }

  function ClampLlm(c: real): (r: real)
    ensures 0.1 <= r <= 0.95
    ensures 0.1 <= c <= 0.95 ==> r == c
  {
    if c < 0.1 then 0.1 else if c > 0.95 then 0.95 else c
  }

  /**
   * `_assess_llm_confidence` as written: the uncertainty phrases are looked
   * for in the lower-cased response, but both phrases begin with a capital
   * `I`, so that branch never applies. Only the context boost and the
   * "contact support" penalty ever change the score.
   */
  function AssessLlmConfidenceAsWritten(response: string, rag: Option<string>): (c: real)
    ensures 0.1 <= c <= 0.95
    ensures c == (if RichContext(rag) then BaseLlmConfidence + ContextBoost else BaseLlmConfidence) -
                 (if Contains(ToLower(response), "contact support") then SupportPenalty else 0.0)
  {
    var lowered := ToLower(response);
    ToLowerIsLowerCase(response);
    LowerCaseAvoidsUpperNeedle(lowered, "I don't know", 0);
    LowerCaseAvoidsUpperNeedle(lowered, "I'm not sure", 0);
    var boosted := if RichContext(rag) then BaseLlmConfidence + ContextBoost else BaseLlmConfidence;
    var adjusted :=
      if Contains(lowered, "I don't know") || Contains(lowered, "I'm not sure")
      then boosted - UncertaintyPenalty
      else if Contains(lowered, "contact support") then boosted - SupportPenalty
      else boosted;
    ClampLlm(adjusted)
  }

  /** The response admits it does not know, in any letter case. */
  predicate AdmitsUncertainty(response: string) {
    Contains(ToLower(response), "i don't know") || Contains(ToLower(response), "i'm not sure")
  }

  /**
   * The heuristic as intended: an admission of uncertainty, in any letter
   * case, costs 0.3 and takes precedence over the "contact support" penalty.
   */
  function AssessLlmConfidence(response: string, rag: Option<string>): (c: real)
    ensures 0.1 <= c <= 0.95
    ensures AdmitsUncertainty(response) ==> c <= BaseLlmConfidence + ContextBoost - UncertaintyPenalty
    ensures !AdmitsUncertainty(response) && !Contains(ToLower(response), "contact support") ==>
      c >= BaseLlmConfidence
    ensures !AdmitsUncertainty(response) ==> c == AssessLlmConfidenceAsWritten(response, rag)
    ensures RichContext(rag) ==> c >= BaseLlmConfidence + ContextBoost - UncertaintyPenalty
  {
    var lowered := ToLower(response);
    var boosted := if RichContext(rag) then BaseLlmConfidence + ContextBoost else BaseLlmConfidence;
    var adjusted :=
      if Contains(lowered, "i don't know") || Contains(lowered, "i'm not sure")
      then boosted - UncertaintyPenalty
      else if Contains(lowered, "contact support") then boosted - SupportPenalty
      else boosted;
    ClampLlm(adjusted)
  }

  /**
   * The two definitions part ways on every response that admits
   * uncertainty without mentioning support: for "I don't know" the written
   * heuristic keeps its base score of at least 0.7, the intended one gives
   * at most 0.55.
   */
  lemma UncertaintyIgnoredAsWritten(response: string, rag: Option<string>)
    requires AdmitsUncertainty(response) && !Contains(ToLower(response), "contact support")
    ensures AssessLlmConfidenceAsWritten(response, rag) >= BaseLlmConfidence
    ensures AssessLlmConfidence(response, rag) <= BaseLlmConfidence + ContextBoost - UncertaintyPenalty
    ensures AssessLlmConfidence(response, rag) < AssessLlmConfidenceAsWritten(response, rag)
  {
  }

  // ---------------------------------------------------------------------
  // _create_escalation priority

  datatype Priority = High | Medium | Low

  function PriorityRank(p: Priority): nat {
    match p
    case High => 2
    case Medium => 1
    case Low => 0
  }

  /** Lower confidence means a more urgent escalation. */
  function PriorityFor(confidence: real): (p: Priority)
    ensures p == High <==> confidence < 0.3
    ensures p == Medium <==> 0.3 <= confidence < 0.5
    ensures p == Low <==> confidence >= 0.5
  {
    if confidence < 0.3 then High else if confidence < 0.5 then Medium else Low
  }

  /** A less confident answer is never given a lower priority. */
  lemma PriorityAntitone(c1: real, c2: real)
    requires c1 <= c2
    ensures PriorityRank(PriorityFor(c1)) >= PriorityRank(PriorityFor(c2))
  {
  }

  /**
   * The escalation row `_create_escalation` inserts (less the conversation
   * and message ids); the confidence it is given only chooses the priority.
   */
  datatype Escalation = Escalation(reason: string, priority: Priority, status: string)

  // ---------------------------------------------------------------------
  // _retrieve_rag_context

  function Sum(xs: seq<real>): real {
    if xs == [] then 0.0 else Sum(xs[..|xs| - 1]) + xs[|xs| - 1]
  }

  lemma {:induction false} SumBounds(xs: seq<real>, lo: real, hi: real)
    requires forall k | 0 <= k < |xs| :: lo <= xs[k] <= hi
    ensures lo * |xs| as real <= Sum(xs) <= hi * |xs| as real
  {
    if xs != [] {
      SumBounds(xs[..|xs| - 1], lo, hi);
    }
  }

  /** Each chunk's `similarity`, or 0 when a chunk has none. */
  function Similarities(chunks: seq<Option<real>>): (r: seq<real>)
    ensures |r| == |chunks|
    ensures forall k | 0 <= k < |chunks| :: r[k] == chunks[k].GetOr(0.0)
  {
    seq(|chunks|, k requires 0 <= k < |chunks| => chunks[k].GetOr(0.0))
  }

  /** `avg_relevance`: the mean similarity, 0.0 for no chunks. */
  function AvgRelevance(chunks: seq<Option<real>>): (r: real)
    ensures chunks == [] ==> r == 0.0
    ensures chunks != [] ==> r * |chunks| as real == Sum(Similarities(chunks))
  {
    if chunks == [] then 0.0 else Sum(Similarities(chunks)) / |chunks| as real
  }

  lemma DivideBounds(x: real, n: real, lo: real, hi: real)
    requires n > 0.0 && lo * n <= x <= hi * n
    ensures lo <= x / n <= hi
  {
    assert x / n * n == x;
    if x / n < lo {
      MulStrict(x / n, lo, n);
    }
    if x / n > hi {
      MulStrict(hi, x / n, n);
    }
  }

  lemma MulStrict(a: real, b: real, n: real)
    requires a < b && n > 0.0
    ensures a * n < b * n
  {
  }

  /** The mean lies between the least and the greatest similarity. */
  lemma AvgRelevanceBounded(chunks: seq<Option<real>>, lo: real, hi: real)
    requires chunks != []
    requires forall k | 0 <= k < |chunks| :: lo <= chunks[k].GetOr(0.0) <= hi
    ensures lo <= AvgRelevance(chunks) <= hi
  {
    var xs := Similarities(chunks);
    SumBounds(xs, lo, hi);
    DivideBounds(Sum(xs), |chunks| as real, lo, hi);
  }

  /** What a retrieval produced: the built context text and each chunk's similarity. */
  datatype RagResult = RagResult(contextText: string, similarities: seq<Option<real>>)

  /** The retrieval call, given the document-type filter (`None` for all documents). */
  type Retriever = Option<seq<string>> -> RagResult

  const SupportDocuments: seq<string> := ["author_dashboard", "technical_support"]

  /** What step 3 settles: the context handed to the model, its relevance, and whether author data is fetched. */
  datatype Routing = Routing(ragContext: Option<string>, relevance: real, authorContext: bool)

  /**
   * Intent routing: knowledge questions search every document, support
   * questions only the dashboard and support documents, both scored by the
   * mean similarity; author questions fix the relevance at 0.8; anything
   * else, a `null` intent included, keeps the neutral 0.5 without context.
   */
  function Route(intent: Option<string>, retrieve: Retriever): (r: Routing)
    ensures intent == Some("general_knowledge") ==>
      r == Routing(Some(retrieve(None).contextText), AvgRelevance(retrieve(None).similarities), false)
    ensures intent == Some("technical_support") ==>
      r.ragContext == Some(retrieve(Some(SupportDocuments)).contextText) &&
      r.relevance == AvgRelevance(retrieve(Some(SupportDocuments)).similarities)
    ensures intent == Some("author_specific") ==> r == Routing(None, 0.8, true)
    ensures r.authorContext <==> intent == Some("author_specific")
    ensures r.ragContext.Some? <==> intent in {Some("general_knowledge"), Some("technical_support")}
    ensures intent !in {Some("general_knowledge"), Some("technical_support"), Some("author_specific")} ==>
      r == Routing(None, 0.5, false)
  {
    if intent == Some("general_knowledge") then
      var rag := retrieve(None);
      Routing(Some(rag.contextText), AvgRelevance(rag.similarities), false)
    else if intent == Some("author_specific") then Routing(None, 0.8, true)
    else if intent == Some("technical_support") then
      var rag := retrieve(Some(SupportDocuments));
      Routing(Some(rag.contextText), AvgRelevance(rag.similarities), false)
    else Routing(None, 0.5, false)
  }

  /**
   * The routed relevance is a proportion whenever the retrieved
   * similarities are: the mean of values in [0, 1], or one of the fixed
   * 0.8 and 0.5.
   */
  lemma RouteRelevanceInUnit(intent: Option<string>, retrieve: Retriever)
    requires forall k | 0 <= k < |retrieve(None).similarities| ::
      0.0 <= retrieve(None).similarities[k].GetOr(0.0) <= 1.0
    requires forall k | 0 <= k < |retrieve(Some(SupportDocuments)).similarities| ::
      0.0 <= retrieve(Some(SupportDocuments)).similarities[k].GetOr(0.0) <= 1.0
    ensures 0.0 <= Route(intent, retrieve).relevance <= 1.0
  {
    var all := retrieve(None).similarities;
    var support := retrieve(Some(SupportDocuments)).similarities;
    if intent == Some("general_knowledge") && all != [] {
      AvgRelevanceBounded(all, 0.0, 1.0);
    } else if intent == Some("technical_support") && support != [] {
      AvgRelevanceBounded(support, 0.0, 1.0);
    }
  }

  // ---------------------------------------------------------------------
  // process_query

  /**
   * The classifier's answer, the JSON object the model returned: its
   * `intent` and `confidence` keys may each be missing or `null`.
   */
  datatype IntentReply = IntentReply(intent: Field<string>, confidence: Field<real>)

  const ErrorText :=
    "I apologize, but I'm experiencing technical difficulties. Please try again or contact our support team."

  /** The dictionary `process_query` returns. */
  datatype QueryResponse =
    | Failed(error: string, details: string)
    | Answered(
        response: string,
        breakdown: Confidence.Breakdown,
        escalation: Option<Escalation>,
        authorId: nat,
        identityConfidence: real,
        identityMethod: string,
        intent: Option<string>,
        intentConfidence: Option<real>)
  {
    predicate Success() { Answered? }
    function ReportedConfidence(): real { if Failed? then 0.0 else breakdown.overall }
    predicate ShouldEscalate() { Failed? || breakdown.action == Confidence.Escalate }
  }

  /** `_error_response`: a failure is reported at confidence 0 and always escalates. */
  function ErrorResponse(error: string, details: string): (r: QueryResponse)
    ensures !r.Success() && r.ReportedConfidence() == 0.0 && r.ShouldEscalate()
    ensures r.error == error && r.details == details
  {
    Failed(error, details)
  }

  /**
   * Steps 2 to 7 of `process_query`, once the identity is resolved:
   * classify, route, generate, score, and escalate when the exact
   * confidence is below the threshold. A missing intent means general
   * knowledge and a missing intent confidence 0.5; a `null` one stays
   * `None`, which routes nowhere and which the scorer counts as 0.5.
   * `generate` stands for the response model given the intent and context;
   * `percent` formats percentages in the escalation reason.
   */
  function Answer(res: Matcher.Resolution, classify: IntentReply, retrieve: Retriever,
                  generate: (Option<string>, Option<string>) -> string, percent: real -> string): (r: QueryResponse)
    ensures r.Success()
    ensures r.authorId == res.author.id && r.identityConfidence == res.confidence &&
            r.identityMethod == res.via
    ensures r.intent == classify.intent.Get("general_knowledge")
    ensures r.intentConfidence == classify.confidence.Get(0.5)
    ensures r.response == generate(r.intent, Route(r.intent, retrieve).ragContext)
    ensures var exact := Confidence.InputScores(Some(res.confidence), r.intentConfidence,
                                                Some(Route(r.intent, retrieve).relevance),
                                                Some(AssessLlmConfidence(r.response, Route(r.intent, retrieve).ragContext)));
      r.breakdown.scores == Confidence.RoundScores(exact) &&
      r.ReportedConfidence() == Confidence.Round3(Confidence.WeightedSum(Confidence.DefaultWeights, exact)) &&
      (r.ShouldEscalate() <==> Confidence.WeightedSum(Confidence.DefaultWeights, exact) < Confidence.DefaultThreshold)
    ensures r.escalation.Some? <==> r.ShouldEscalate()
    ensures r.escalation.Some? ==>
      r.escalation.value.priority == PriorityFor(r.ReportedConfidence()) &&
      r.escalation.value.status == "pending" &&
      r.escalation.value.reason == Confidence.EscalationReason(r.breakdown, percent)
  {
    var intent := classify.intent.Get("general_knowledge");
    var intentConfidence := classify.confidence.Get(0.5);
    var routing := Route(intent, retrieve);
    var response := generate(intent, routing.ragContext);
    var llm := AssessLlmConfidence(response, routing.ragContext);
    var b := Confidence.CalculateConfidence(Confidence.DefaultWeights, Confidence.DefaultThreshold,
                                            Some(res.confidence), intentConfidence,
                                            Some(routing.relevance), Some(llm));
    var escalation :=
      if Confidence.ShouldEscalate(b)
      then Some(Escalation(Confidence.EscalationReason(b, percent), PriorityFor(b.overall), "pending"))
      else None;
    Answered(response, b, escalation, res.author.id, res.confidence, res.via, intent, intentConfidence)
  }

  /**
   * `process_query` as intended: it checks the matcher's `match_found`,
   * which the in-memory matcher always sets, and answers.
   */
  function ProcessQuery(env: Matcher.Env, s: Store, q: Matcher.Query, classify: IntentReply,
                        retrieve: Retriever, generate: (Option<string>, Option<string>) -> string,
                        percent: real -> string): (r: (Store, QueryResponse))
    requires Valid(s)
    ensures Valid(r.0) && Extends(r.0, s)
    ensures var (t, res) := Matcher.MatchIdentity(env, s, q);
      r == (t, Answer(res, classify, retrieve, generate, percent))
    ensures r.1.Success()
  {
    var (t, res) := Matcher.MatchIdentity(env, s, q);
    (t, Answer(res, classify, retrieve, generate, percent))
  }

  /** Keys a result dictionary may carry; `SuccessKey` is "success". */
  datatype ResultKey = MatchFoundKey | AuthorKey | IdentityKey | ConfidenceKey | MethodKey | SuccessKey

  /** The keys of the matcher's result dictionary: "success" is not among them. */
  const MatchResultKeys: set<ResultKey> := {MatchFoundKey, AuthorKey, IdentityKey, ConfidenceKey, MethodKey}

  /** The matcher reports `match_found` but never `success`. */
  lemma NoSuccessKey()
    ensures SuccessKey !in MatchResultKeys && MatchFoundKey in MatchResultKeys
  {
    assert MatchResultKeys == {MatchFoundKey, AuthorKey, IdentityKey, ConfidenceKey, MethodKey};
  }

  /**
   * `process_query` as written: it reads `identity_result["success"]`, a
   * key the matcher's result does not have (`MatchResultKeys`). The
   * `KeyError`, whose text is the quoted key, lands in the catch-all
   * handler, so the query fails after the matcher has already stored
   * whatever it created, and nothing after the lookup runs.
   */
  function ProcessQueryAsWritten(env: Matcher.Env, s: Store, q: Matcher.Query, classify: IntentReply,
                                 retrieve: Retriever, generate: (Option<string>, Option<string>) -> string,
                                 percent: real -> string): (r: (Store, QueryResponse))
    requires Valid(s)
    ensures Valid(r.0) && Extends(r.0, s)
    ensures r.0 == Matcher.MatchIdentity(env, s, q).0
    ensures !r.1.Success() && r.1.ShouldEscalate() && r.1.ReportedConfidence() == 0.0
    ensures r.1.details == "'success'"
  {
    var (t, _) := Matcher.MatchIdentity(env, s, q);
    (t, ErrorResponse("Query processing failed", "'success'"))
  }

  /**
   * Every query fails as written, whatever the user asked, while the
   * intended pipeline answers every query from the same store.
   */
  lemma EveryQueryFailsAsWritten(env: Matcher.Env, s: Store, q: Matcher.Query, classify: IntentReply,
                                 retrieve: Retriever, generate: (Option<string>, Option<string>) -> string,
                                 percent: real -> string)
    requires Valid(s)
    ensures var r := ProcessQueryAsWritten(env, s, q, classify, retrieve, generate, percent);
      r.1 == Failed("Query processing failed", "'success'") && r.1.ShouldEscalate()
    ensures ProcessQuery(env, s, q, classify, retrieve, generate, percent).1.Success()
    ensures SuccessKey !in MatchResultKeys && MatchFoundKey in MatchResultKeys
  {
    assert ProcessQueryAsWritten(env, s, q, classify, retrieve, generate, percent).1 ==
           ErrorResponse("Query processing failed", "'success'");
    NoSuccessKey();
  }

  /**
   * An unknown user (a new author, identity confidence 0.5) asking an
   * unrecognised kind of question (or one the classifier left `null`) can
   * never be answered automatically: even a perfect intent score leaves the
   * total below 0.72.
   */
  lemma NewAuthorOffTopicEscalates(env: Matcher.Env, s: Store, q: Matcher.Query, classify: IntentReply,
                                   retrieve: Retriever, generate: (Option<string>, Option<string>) -> string,
                                   percent: real -> string)
    requires Valid(s)
    requires Matcher.MatchIdentity(env, s, q).1.via == "new_identity_created"
    requires classify.intent.Get("general_knowledge") !in
      {Some("general_knowledge"), Some("technical_support"), Some("author_specific")}
    requires classify.confidence.Get(0.5).GetOr(Confidence.MissingScore) <= 1.0
    ensures var r := ProcessQuery(env, s, q, classify, retrieve, generate, percent).1;
      r.ShouldEscalate() && r.escalation.Some?
  {
    var (t, res) := Matcher.MatchIdentity(env, s, q);
    var r := Answer(res, classify, retrieve, generate, percent);
    var routing := Route(r.intent, retrieve);
    assert routing.relevance == 0.5;
    var exact := Confidence.InputScores(Some(res.confidence), r.intentConfidence, Some(routing.relevance),
                                        Some(AssessLlmConfidence(r.response, routing.ragContext)));
    assert exact.identity == Matcher.NewIdentityConfidence;
    assert exact.intent <= 1.0;
    assert exact.rag == 0.5;
    assert exact.llm <= 0.95;
  }
}

=== FILE: prompts.dfy ===
/**
 * `build_response_prompt`: the user-side prompt sent to the model, put
 * together from up to five sections — an instruction for the classified
 * intent, the knowledge-base context, the author's facts, the question
 * and the closing task — joined by newlines.
 */
module Prompts {
  import opened Wrappers
  import opened Strings
  import opened Records

  datatype Section =
    | Instruction(kind: IntentKind)
    | Knowledge(context: string)
    | AuthorInfo(facts: seq<Fact>)
    | Question(message: string)
    | Task

  /** The place of each kind of section in the prompt. */
  function Rank(s: Section): nat {
    match s
    case Instruction(_) => 0
    case Knowledge(_) => 1
    case AuthorInfo(_) => 2
    case Question(_) => 3
    case Task => 4
  }

  const AuthorSpecificText := "This is a question about the author's specific account or data. Use the provided author context to answer."
  const GeneralKnowledgeText := "This is a general question about publishing. Use the knowledge base context to provide a comprehensive answer."
  const TechnicalSupportText := "This is a technical support question. Provide troubleshooting steps and offer to escalate if needed."
  const OutOfScopeText := "This question is outside our scope. Politely redirect to publishing-related topics."

  const KnownIntents: set<string> := {"author_specific", "general_knowledge", "technical_support", "out_of_scope"}

  /** The four intents that carry an instruction. */
  datatype IntentKind = AuthorSpecific | GeneralKnowledge | TechnicalSupport | OutOfScope

  /** The instruction kind for a classified intent; unknown or missing intents get none. */
  function IntentKindOf(intent: Option<string>): (k: Option<IntentKind>)
    ensures k.Some? <==> intent.Some? && intent.value in KnownIntents
    ensures intent == Some("author_specific") ==> k == Some(AuthorSpecific)
    ensures intent == Some("general_knowledge") ==> k == Some(GeneralKnowledge)
    ensures intent == Some("technical_support") ==> k == Some(TechnicalSupport)
    ensures intent == Some("out_of_scope") ==> k == Some(OutOfScope)
  {
    match intent
    case None => None
    case Some(i) =>
      if i == "author_specific" then Some(AuthorSpecific)
      else if i == "general_knowledge" then Some(GeneralKnowledge)
      else if i == "technical_support" then Some(TechnicalSupport)
      else if i == "out_of_scope" then Some(OutOfScope)
      else None
  }

  /** The instruction text of each kind. */
  function InstructionText(k: IntentKind): string {
    match k
    case AuthorSpecific => AuthorSpecificText
    case GeneralKnowledge => GeneralKnowledgeText
    case TechnicalSupport => TechnicalSupportText
    case OutOfScope => OutOfScopeText
  }

  /** The instruction for a classified intent, as text. */
  function IntentInstruction(intent: Option<string>): (r: Option<string>)
    ensures r.Some? <==> intent.Some? && intent.value in KnownIntents
    ensures intent == Some("author_specific") ==> r == Some(AuthorSpecificText)
    ensures intent == Some("general_knowledge") ==> r == Some(GeneralKnowledgeText)
    ensures intent == Some("technical_support") ==> r == Some(TechnicalSupportText)
    ensures intent == Some("out_of_scope") ==> r == Some(OutOfScopeText)
  {
    match IntentKindOf(intent)
    case None => None
    case Some(k) => Some(InstructionText(k))
  }

  /** One line of the author section. */
  datatype Fact =
    | Name(name: string)
    | Email(email: string)
    | BooksPublished(books: string)
    | Genre(genre: string)

  function FactRank(f: Fact): nat {
    match f
    case Name(_) => 0
    case Email(_) => 1
    case BooksPublished(_) => 2
    case Genre(_) => 3
  }

  /** At least one of the four author facts the prompt reports is present. */
  predicate HasAuthorFacts(author: Option<Author>) {
    author.Some? &&
    (author.value.fullName != "" || Truthy(author.value.email) ||
     Truthy(author.value.metadata.booksPublished) || Truthy(author.value.metadata.genre))
  }

  /** The author facts the prompt reports: name, e-mail, books published, genre — each only when present. */
  function AuthorFacts(author: Option<Author>): (facts: seq<Fact>)
    ensures |facts| <= 4
    ensures facts == [] <==> !HasAuthorFacts(author)
  {
    match author
    case None => []
    case Some(a) =>
      var (name, email, books, genre) := FactsOf(a);
      var hasName, hasEmail := a.fullName != "", Truthy(a.email);
      var hasBooks, hasGenre := Truthy(a.metadata.booksPublished), Truthy(a.metadata.genre);
      FactsPresence(name, email, books, genre, hasName, hasEmail, hasBooks, hasGenre);
      Opt(hasName, name) + Opt(hasEmail, email) + Opt(hasBooks, books) + Opt(hasGenre, genre)
  }

  /** The four candidate facts of an author, missing values read as empty. */
  function FactsOf(a: Author): (Fact, Fact, Fact, Fact) {
    (Name(a.fullName), Email(a.email.GetOr("")),
     BooksPublished(a.metadata.booksPublished.GetOr("")), Genre(a.metadata.genre.GetOr("")))
  }

  /** The reported facts come in field order. */
  lemma AuthorFactsOrdered(author: Option<Author>)
    ensures var facts := AuthorFacts(author);
      forall i, j | 0 <= i < j < |facts| :: FactRank(facts[i]) < FactRank(facts[j])
  {
    match author
    case None =>
    case Some(a) =>
      var (name, email, books, genre) := FactsOf(a);
      FactsOrdered(name, email, books, genre, a.fullName != "", Truthy(a.email),
        Truthy(a.metadata.booksPublished), Truthy(a.metadata.genre));
  }

  /** Each fact is reported exactly when the author has it. */
  lemma AuthorFactsPresent(a: Author)
    ensures var facts := AuthorFacts(Some(a));
      (a.fullName != "" <==> Name(a.fullName) in facts) &&
      (Truthy(a.email) <==> a.email.Some? && Email(a.email.value) in facts) &&
      (Truthy(a.metadata.booksPublished) <==>
        a.metadata.booksPublished.Some? && BooksPublished(a.metadata.booksPublished.value) in facts) &&
      (Truthy(a.metadata.genre) <==> a.metadata.genre.Some? && Genre(a.metadata.genre.value) in facts)
  {
    var (name, email, books, genre) := FactsOf(a);
    var n, e, b, g := a.fullName != "", Truthy(a.email), Truthy(a.metadata.booksPublished), Truthy(a.metadata.genre);
    assert AuthorFacts(Some(a)) == Opt(n, name) + Opt(e, email) + Opt(b, books) + Opt(g, genre);
    FactsPresence(name, email, books, genre, n, e, b, g);
  }

  /** Every reported fact carries the author's own value. */
  lemma AuthorFactsValues(a: Author)
    ensures forall f | f in AuthorFacts(Some(a)) :: match f
      case Name(v) => v == a.fullName
      case Email(v) => Some(v) == a.email
      case BooksPublished(v) => Some(v) == a.metadata.booksPublished
      case Genre(v) => Some(v) == a.metadata.genre
  {
    var (name, email, books, genre) := FactsOf(a);
    var n, e, b, g := a.fullName != "", Truthy(a.email), Truthy(a.metadata.booksPublished), Truthy(a.metadata.genre);
    assert AuthorFacts(Some(a)) == Opt(n, name) + Opt(e, email) + Opt(b, books) + Opt(g, genre);
    FactsPresence(name, email, books, genre, n, e, b, g);
  }

  function Opt(present: bool, f: Fact): seq<Fact> {
    if present then [f] else []
  }

  /** Four optional facts of distinct kinds: which are present, and nothing else. */
  lemma FactsPresence(name: Fact, email: Fact, books: Fact, genre: Fact, n: bool, e: bool, b: bool, g: bool)
    requires name.Name? && email.Email? && books.BooksPublished? && genre.Genre?
    ensures var fs := Opt(n, name) + Opt(e, email) + Opt(b, books) + Opt(g, genre);
      |fs| <= 4 && (fs == [] <==> !(n || e || b || g)) &&
      (forall f | f in fs :: f == name || f == email || f == books || f == genre) &&
      (name in fs <==> n) && (email in fs <==> e) && (books in fs <==> b) && (genre in fs <==> g)
  {
    var fs := Opt(n, name) + Opt(e, email) + Opt(b, books) + Opt(g, genre);
    assert forall f | f in fs :: f in Opt(n, name) || f in Opt(e, email) || f in Opt(b, books) || f in Opt(g, genre);
  }

  /** Four optional facts of increasing rank stay in rank order. */
  lemma FactsOrdered(name: Fact, email: Fact, books: Fact, genre: Fact, n: bool, e: bool, b: bool, g: bool)
    requires name.Name? && email.Email? && books.BooksPublished? && genre.Genre?
    ensures var fs := Opt(n, name) + Opt(e, email) + Opt(b, books) + Opt(g, genre);
      forall i, j | 0 <= i < j < |fs| :: FactRank(fs[i]) < FactRank(fs[j])
  {
    var fs := Opt(n, name) + Opt(e, email) + Opt(b, books) + Opt(g, genre);
    var p, q, r := |Opt(n, name)|, |Opt(e, email)|, |Opt(b, books)|;
    assert forall i | 0 <= i < |fs| ::
      FactRank(fs[i]) == (if i < p then 0 else if i < p + q then 1 else if i < p + q + r then 2 else 3);
  }

  function FactLine(f: Fact): string {
    match f
    case Name(v) => "Author: " + v
    case Email(v) => "Email: " + v
    case BooksPublished(v) => "Books Published: " + v
    case Genre(v) => "Genre: " + v
  }

  /** The sections of the prompt, in order; each optional kind at most once. */
  function Sections(userMessage: string, ragContext: Option<string>, author: Option<Author>, intent: Option<string>)
    : (ss: seq<Section>)
    ensures 2 <= |ss| <= 5
    ensures ss[|ss| - 2] == Question(userMessage) && ss[|ss| - 1] == Task
    ensures forall i, j | 0 <= i < j < |ss| :: Rank(ss[i]) < Rank(ss[j])
  {
    var instruction, knowledge, info := InstructionPiece(intent), KnowledgePiece(ragContext), AuthorPiece(author);
    SectionsShape(instruction, knowledge, info, userMessage);
    instruction + knowledge + info + [Question(userMessage), Task]
  }

  /** The intent instruction, if the intent has one. */
  function InstructionPiece(intent: Option<string>): (p: seq<Section>)
    ensures |p| <= 1 && forall s | s in p :: s.Instruction?
    ensures p != [] <==> intent.Some? && intent.value in KnownIntents
    ensures forall s | s in p :: Some(s.kind) == IntentKindOf(intent)
  {
    match IntentKindOf(intent) case Some(k) => [Instruction(k)] case None => []
  }

  /** The knowledge-base section, if there is retrieved text. */
  function KnowledgePiece(ragContext: Option<string>): (p: seq<Section>)
    ensures |p| <= 1 && forall s | s in p :: s.Knowledge?
    ensures p != [] <==> Truthy(ragContext)
    ensures forall s | s in p :: Some(s.context) == ragContext
  {
    if Truthy(ragContext) then [Knowledge(ragContext.value)] else []
  }

  /** The author section, if the author has a fact to report. */
  function AuthorPiece(author: Option<Author>): (p: seq<Section>)
    ensures |p| <= 1 && forall s | s in p :: s.AuthorInfo?
    ensures p != [] <==> HasAuthorFacts(author)
    ensures forall s | s in p :: s.facts == AuthorFacts(author)
  {
    var facts := AuthorFacts(author);
    if facts != [] then [AuthorInfo(facts)] else []
  }

  /** The intent instruction is present exactly for the four known intents, with its text. */
  lemma InstructionSection(userMessage: string, ragContext: Option<string>, author: Option<Author>, intent: Option<string>)
    ensures var ss := Sections(userMessage, ragContext, author, intent);
      ((exists i | 0 <= i < |ss| :: ss[i].Instruction?) <==> intent.Some? && intent.value in KnownIntents) &&
      (forall i | 0 <= i < |ss| && ss[i].Instruction? :: Some(ss[i].kind) == IntentKindOf(intent))
  {
    SectionsOfPieces(userMessage, ragContext, author, intent);
  }

  /** The knowledge-base section is present exactly when the retrieved context is non-empty. */
  lemma KnowledgeSection(userMessage: string, ragContext: Option<string>, author: Option<Author>, intent: Option<string>)
    ensures var ss := Sections(userMessage, ragContext, author, intent);
      ((exists i | 0 <= i < |ss| :: ss[i].Knowledge?) <==> Truthy(ragContext)) &&
      (forall i | 0 <= i < |ss| && ss[i].Knowledge? :: Some(ss[i].context) == ragContext)
  {
    SectionsOfPieces(userMessage, ragContext, author, intent);
  }

  /** The author section is present exactly when one of the four facts is, and lists them. */
  lemma AuthorSection(userMessage: string, ragContext: Option<string>, author: Option<Author>, intent: Option<string>)
    ensures var ss := Sections(userMessage, ragContext, author, intent);
      ((exists i | 0 <= i < |ss| :: ss[i].AuthorInfo?) <==> HasAuthorFacts(author)) &&
      (forall i | 0 <= i < |ss| && ss[i].AuthorInfo? :: ss[i].facts == AuthorFacts(author))
  {
    SectionsOfPieces(userMessage, ragContext, author, intent);
  }

  /** The sections are the three pieces followed by the question and the task. */
  lemma SectionsOfPieces(userMessage: string, ragContext: Option<string>, author: Option<Author>, intent: Option<string>)
    ensures var ss := Sections(userMessage, ragContext, author, intent);
      var instruction := InstructionPiece(intent);
      var knowledge := KnowledgePiece(ragContext);
      var info := AuthorPiece(author);
      ss == instruction + knowledge + info + [Question(userMessage), Task] &&
      ((exists i | 0 <= i < |ss| :: ss[i].Instruction?) <==> instruction != []) &&
      ((exists i | 0 <= i < |ss| :: ss[i].Knowledge?) <==> knowledge != []) &&
      ((exists i | 0 <= i < |ss| :: ss[i].AuthorInfo?) <==> info != []) &&
      (forall i | 0 <= i < |ss| :: (ss[i].Instruction? ==> ss[i] in instruction) &&
        (ss[i].Knowledge? ==> ss[i] in knowledge) && (ss[i].AuthorInfo? ==> ss[i] in info))
  {
    var instruction, knowledge, info := InstructionPiece(intent), KnowledgePiece(ragContext), AuthorPiece(author);
    assert Sections(userMessage, ragContext, author, intent) == instruction + knowledge + info + [Question(userMessage), Task];
    SectionsShape(instruction, knowledge, info, userMessage);
  }

  /** The optional sections, each of its own kind, put before the question and the task. */
  lemma SectionsShape(instruction: seq<Section>, knowledge: seq<Section>, info: seq<Section>, userMessage: string)
    requires |instruction| <= 1 && |knowledge| <= 1 && |info| <= 1
    requires forall s | s in instruction :: s.Instruction?
    requires forall s | s in knowledge :: s.Knowledge?
    requires forall s | s in info :: s.AuthorInfo?
    ensures var ss := instruction + knowledge + info + [Question(userMessage), Task];
      (forall i, j | 0 <= i < j < |ss| :: Rank(ss[i]) < Rank(ss[j])) &&
      (forall i | 0 <= i < |ss| :: (ss[i].Instruction? ==> ss[i] in instruction) &&
        (ss[i].Knowledge? ==> ss[i] in knowledge) && (ss[i].AuthorInfo? ==> ss[i] in info)) &&
      ((exists i | 0 <= i < |ss| :: ss[i].Instruction?) <==> instruction != []) &&
      ((exists i | 0 <= i < |ss| :: ss[i].Knowledge?) <==> knowledge != []) &&
      ((exists i | 0 <= i < |ss| :: ss[i].AuthorInfo?) <==> info != [])
  {
    var ss := instruction + knowledge + info + [Question(userMessage), Task];
    var n := |instruction| + |knowledge| + |info|;
    assert forall i | 0 <= i < |ss| :: ss[i] == if i < |instruction| then instruction[i]
      else if i < |instruction| + |knowledge| then knowledge[i - |instruction|]
      else if i < n then info[i - |instruction| - |knowledge|]
      else if i == n then Question(userMessage) else Task;
    if instruction != [] { assert ss[0].Instruction?; }
    if knowledge != [] { assert ss[|instruction|].Knowledge?; }
    if info != [] { assert ss[|instruction| + |knowledge|].AuthorInfo?; }
  }

  const TaskText := "\n**YOUR TASK:**\nProvide a helpful, accurate response based on the information above.\n- Be conversational and friendly\n- Keep it concise (2-4 paragraphs)\n- If you can't fully answer, explain what information you need\n- Offer next steps or additional help if appropriate\n"

  /** The text of one section. */
  function Render(s: Section): (t: string)
    ensures s.Task? ==> t == TaskText
    ensures s.Instruction? ==> t == InstructionText(s.kind)
    ensures s.Knowledge? ==> Contains(t, s.context)
    ensures s.Question? ==> Contains(t, s.message)
  {
    match s
    case Instruction(kind) => InstructionText(kind)
    case Knowledge(context) =>
      var head := "\n**KNOWLEDGE BASE INFORMATION:**\n";
      ContainsAt(head + context + "\n", context, |head|);
      head + context + "\n"
    case AuthorInfo(facts) => "\n**AUTHOR INFORMATION:**\n" + Join(FactLines(facts), "\n") + "\n"
    case Question(message) =>
      var head := "\n**USER QUESTION:**\n";
      ContainsAt(head + message + "\n", message, |head|);
      head + message + "\n"
    case Task => TaskText
  }

  function FactLines(facts: seq<Fact>): (ls: seq<string>)
    ensures |ls| == |facts| && forall k | 0 <= k < |facts| :: ls[k] == FactLine(facts[k])
  {
    seq(|facts|, k requires 0 <= k < |facts| => FactLine(facts[k]))
  }

  function RenderAll(ss: seq<Section>): (ts: seq<string>)
    ensures |ts| == |ss| && forall k | 0 <= k < |ss| :: ts[k] == Render(ss[k])
  {
    seq(|ss|, k requires 0 <= k < |ss| => Render(ss[k]))
  }

  /** `build_response_prompt`: the rendered sections joined by newlines. */
  function BuildResponsePrompt(userMessage: string, ragContext: Option<string>, author: Option<Author>, intent: Option<string>)
    : (p: string)
    ensures Contains(p, userMessage)
    ensures Truthy(ragContext) ==> Contains(p, ragContext.value)
    ensures EndsWith(p, TaskText)
  {
    var ss := Sections(userMessage, ragContext, author, intent);
    KnowledgeSection(userMessage, ragContext, author, intent);
    PromptFacts(ss, userMessage, ragContext);
    Join(RenderAll(ss), "\n")
  }

  lemma PromptFacts(ss: seq<Section>, userMessage: string, ragContext: Option<string>)
    requires 2 <= |ss| && ss[|ss| - 2] == Question(userMessage) && ss[|ss| - 1] == Task
    requires (exists i | 0 <= i < |ss| :: ss[i].Knowledge?) <==> Truthy(ragContext)
    requires forall i | 0 <= i < |ss| && ss[i].Knowledge? :: Some(ss[i].context) == ragContext
    ensures var p := Join(RenderAll(ss), "\n");
      Contains(p, userMessage) && (Truthy(ragContext) ==> Contains(p, ragContext.value)) &&
      EndsWith(p, TaskText)
  {
    var ts := RenderAll(ss);
    PromptHasEverySection(ts);
    ContainsTransitive(Join(ts, "\n"), ts[|ss| - 2], userMessage);
    if Truthy(ragContext) {
      var i :| 0 <= i < |ss| && ss[i].Knowledge?;
      ContainsTransitive(Join(ts, "\n"), ts[i], ragContext.value);
    }
    JoinEndsWithLast(ts, "\n");
  }

  lemma PromptHasEverySection(ts: seq<string>)
    ensures forall k | 0 <= k < |ts| :: Contains(Join(ts, "\n"), ts[k])
  {
    forall k | 0 <= k < |ts| {
      JoinContainsPart(ts, "\n", k);
    }
  }

  predicate EndsWith(s: string, suffix: string) {
    |s| >= |suffix| && s[|s| - |suffix|..] == suffix
  }

  /** A join ends with its last piece. */
  lemma {:induction false} JoinEndsWithLast(parts: seq<string>, sep: string)
    requires |parts| > 0
    ensures EndsWith(Join(parts, sep), parts[|parts| - 1])
  {
    if |parts| > 1 {
      JoinEndsWithLast(parts[1..], sep);
    }
  }

  lemma ContainsTransitive(s: string, t: string, u: string)
    requires Contains(s, t) && Contains(t, u)
    ensures Contains(s, u)
  {
    var i := ContainsWitness(s, t);
    var j := ContainsWitness(t, u);
    forall k | 0 <= k < |u|
      ensures s[i + j + k] == u[k]
    {
      assert s[i..i + |t|][j + k] == t[j + k];
      assert t[j..j + |u|][k] == u[k];
    }
    assert s[i + j..i + j + |u|] == t[j..j + |u|];
    ContainsAt(s, u, i + j);
  }
}

=== FILE: records.dfy ===
/**
 * The rows the assistant stores and reads: authors with their metadata
 * blob, and the platform identities linked to them.
 *
 * On a table column (`email`, `phone`, `normalized_identifier`) `None`
 * is SQL NULL; the source reads those without a default, so NULL and a
 * missing key behave alike. In the `metadata` blob `None` is a key the
 * blob does not carry: the source reads it through `dict.get` with a
 * default, which applies only to a missing key, so a JSON `null` there
 * would reach the code as Python's `None`. Metadata holding `null` values
 * is not modelled.
 */
module Records {
  import opened Wrappers

  /** Python truthiness of an optional string: present and non-empty. */
  predicate Truthy(o: Option<string>) {
    o.Some? && o.value != ""
  }

  /** One entry of `metadata.books`. */
  datatype Book = Book(
    title: Option<string>,
    status: Option<string>,
    publishedDate: Option<string>,
    isbn: Option<string>,
    expectedDate: Option<string>,
    submissionDate: Option<string>)

  /** `metadata.royalty`. */
  datatype Royalty = Royalty(
    nextPaymentDate: Option<string>,
    amount: Option<string>,
    period: Option<string>,
    bestseller: bool)

  /** `metadata.author_copy`. */
  datatype AuthorCopy = AuthorCopy(
    status: Option<string>,
    deliveredDate: Option<string>,
    copies: Option<int>,
    trackingNumber: Option<string>,
    shippedDate: Option<string>,
    expectedDelivery: Option<string>,
    expectedDate: Option<string>,
    note: Option<string>)

  /** The author's free-form `metadata` column. */
  datatype Metadata = Metadata(
    preferredContact: Option<string>,
    genre: Option<string>,
    booksPublished: Option<string>,
    books: seq<Book>,
    royalty: Royalty,
    authorCopy: AuthorCopy,
    createdFrom: Option<string>,
    initialIdentifier: Option<string>)

  const EmptyMetadata := Metadata(None, None, None, [],
    Royalty(None, None, None, false),
    AuthorCopy(None, None, None, None, None, None, None, None),
    None, None)

  /** A row of the `authors` table. */
  datatype Author = Author(
    id: nat,
    fullName: string,
    email: Option<string>,
    phone: Option<string>,
    metadata: Metadata)

  /** A row of the `identities` table: one platform handle of one author. */
  datatype Identity = Identity(
    id: nat,
    authorId: nat,
    platform: string,
    platformIdentifier: string,
    normalizedIdentifier: Option<string>,
    confidence: real,
    matchingMethod: string,
    verified: bool)
}

=== FILE: seeding.dfy ===
/**
 * The seed scripts (`seed_authors_and_identities`, for the local and the
 * remote store alike): each mock author is inserted, and each inserted
 * author gets an e-mail identity, a phone or WhatsApp identity and, for
 * authors who prefer Instagram, an Instagram handle derived from the
 * e-mail.
 *
 * Whether an insert succeeds is decided by the database, so it is a
 * parameter (`Accepts`). How an identifier is normalised before it is
 * stored is a parameter too: the scripts lower-case and trim
 * (`SeedNormalization`), and the matcher looks identities up by its own
 * normal forms (`MatcherNormalization`).
 */
module Seeding {
  import opened Wrappers
  import opened Strings
  import opened Records
  import opened Store
  import Normalizer
  import Matcher

  /** An entry of the mock author list. */
  datatype MockAuthor = MockAuthor(fullName: string, email: Option<string>, phone: Option<string>, metadata: Metadata)

  /** One insert the script attempts: author number `k`, or one of its identities. */
  datatype Attempt = AuthorInsert(k: nat) | IdentityInsert(k: nat, platform: string)

  type Accepts = Attempt -> bool

  /** How `normalized_identifier` is computed from the platform and the identifier. */
  type Normalization = (string, string) -> Option<string>

  /** An identity the script wants for an author. */
  datatype Planned = Planned(platform: string, identifier: string)

  const SeedMethod := "exact"
  const SeedConfidence: real := 1.0

  // ---------------------------------------------------------------------
  // create_identity

  /** `identifier.lower().strip() if identifier else None`. */
  function SeedNormalization(platform: string, identifier: string): (r: Option<string>)
    ensures r.None? <==> identifier == ""
    ensures r.Some? ==> r.value == Strip(ToLower(identifier)) && IsLowerCase(r.value) && Strip(r.value) == r.value
  {
    if identifier == "" then None
    else
      Normalizer.CanonicalLowerCase(identifier);
      StripIdempotent(ToLower(identifier));
      Some(Normalizer.Canonical(identifier))
  }

  const AsWritten: Normalization := (platform: string, identifier: string) => SeedNormalization(platform, identifier)

  /** The normal form the matcher stores and looks identities up by. */
  function MatcherNormalization(env: Matcher.Env): Normalization {
    (platform: string, identifier: string) => Matcher.NormalizedIdentifier(env, platform, identifier)
  }

  /** `create_identity`: an exact, verified identity at confidence 1.0. */
  function CreateIdentity(s: Store, normalize: Normalization, authorId: nat, p: Planned): (r: (Store, Identity))
    requires Valid(s) && authorId in AuthorIds(s)
    ensures Valid(r.0) && AuthorIds(r.0) == AuthorIds(s)
    ensures r.0.authors == s.authors && r.0.identities == s.identities + [r.1] && r.0.nextId == s.nextId + 1
    ensures r.1.authorId == authorId && r.1.platform == p.platform && r.1.platformIdentifier == p.identifier
    ensures r.1.normalizedIdentifier == normalize(p.platform, p.identifier)
    ensures r.1.confidence == SeedConfidence && r.1.matchingMethod == SeedMethod && r.1.verified
  {
    var n := normalize(p.platform, p.identifier);
    InsertIdentityValid(s, authorId, p.platform, p.identifier, n, SeedConfidence, SeedMethod, true);
    InsertIdentity(s, authorId, p.platform, p.identifier, n, SeedConfidence, SeedMethod, true)
  }

  // ---------------------------------------------------------------------
  // The identities planned for one author

  /** `email.split("@")[0]`: the text before the first '@'. */
  function UserName(email: string): (u: string)
    ensures '@' !in u && u <= email
    ensures '@' !in email ==> u == email
  {
    if '@' in email then email[..IndexOfChar(email, '@')] else email
  }

  /** The phone identity's platform: WhatsApp for authors who prefer it, else phone. */
  function PhonePlatform(m: Metadata): (p: string)
    ensures p == "whatsapp" <==> m.preferredContact == Some("whatsapp")
    ensures p == "whatsapp" || p == "phone"
  {
    if m.preferredContact == Some("whatsapp") then "whatsapp" else "phone"
  }

  predicate PrefersInstagram(a: MockAuthor) {
    a.metadata.preferredContact == Some("instagram")
  }

  /** A planned identity is one of the three the script derives from the author's data. */
  predicate PlanRow(a: MockAuthor, p: Planned) {
    (Truthy(a.email) && p == Planned("email", a.email.value)) ||
    (Truthy(a.phone) && p == Planned(PhonePlatform(a.metadata), a.phone.value)) ||
    (PrefersInstagram(a) && Truthy(a.email) && p == Planned("instagram", "@" + UserName(a.email.value)))
  }

  /** The identities the script creates for an inserted author, in order, one per platform. */
  function Plan(a: MockAuthor): (ps: seq<Planned>)
    ensures |ps| <= 3
    ensures forall p | p in ps :: PlanRow(a, p)
    ensures forall i, j | 0 <= i < j < |ps| :: ps[i].platform != ps[j].platform
  {
    var email := if Truthy(a.email) then [Planned("email", a.email.value)] else [];
    var phone := if Truthy(a.phone) then [Planned(PhonePlatform(a.metadata), a.phone.value)] else [];
    var insta := if PrefersInstagram(a) && Truthy(a.email) then [Planned("instagram", "@" + UserName(a.email.value))] else [];
    PlanShape(email, phone, insta);
    email + phone + insta
  }

  /** Every author with an e-mail address gets exactly that address as an e-mail identity. */
  lemma PlanEmail(a: MockAuthor)
    ensures (exists p | p in Plan(a) :: p.platform == "email") <==> Truthy(a.email)
    ensures Truthy(a.email) ==> Planned("email", a.email.value) in Plan(a)
  {
    if Truthy(a.email) {
      assert Plan(a)[0] == Planned("email", a.email.value);
    }
  }

  /** A phone number gives one phone identity, on WhatsApp exactly for authors who prefer it. */
  lemma PlanPhone(a: MockAuthor)
    ensures (exists p | p in Plan(a) :: IsPhonePlatformName(p.platform)) <==> Truthy(a.phone)
    ensures Truthy(a.phone) ==> Planned(PhonePlatform(a.metadata), a.phone.value) in Plan(a)
    ensures Planned("whatsapp", a.phone.GetOr("")) in Plan(a) <==>
      Truthy(a.phone) && a.metadata.preferredContact == Some("whatsapp")
  {
    if Truthy(a.phone) {
      assert Planned(PhonePlatform(a.metadata), a.phone.value) in Plan(a);
    }
  }

  /** The Instagram handle "@" + user name exists exactly for Instagram-preferring authors with an e-mail. */
  lemma PlanInstagram(a: MockAuthor)
    ensures (exists p | p in Plan(a) :: p.platform == "instagram") <==> PrefersInstagram(a) && Truthy(a.email)
    ensures PrefersInstagram(a) && Truthy(a.email) ==>
      Planned("instagram", "@" + UserName(a.email.value)) in Plan(a)
  {
    var ps := Plan(a);
    if PrefersInstagram(a) && Truthy(a.email) {
      assert ps[|ps| - 1] == Planned("instagram", "@" + UserName(a.email.value));
    }
  }

  predicate IsPhonePlatformName(platform: string) {
    platform == "whatsapp" || platform == "phone"
  }

  lemma PlanShape(email: seq<Planned>, phone: seq<Planned>, insta: seq<Planned>)
    requires |email| <= 1 && |phone| <= 1 && |insta| <= 1
    requires forall p | p in email :: p.platform == "email"
    requires forall p | p in phone :: IsPhonePlatformName(p.platform)
    requires forall p | p in insta :: p.platform == "instagram"
    ensures var ps := email + phone + insta;
      (forall p | p in ps :: p in email || p in phone || p in insta) &&
      (forall i, j | 0 <= i < j < |ps| :: ps[i].platform != ps[j].platform)
  {
    var ps := email + phone + insta;
    assert forall i | 0 <= i < |ps| :: ps[i] in email || ps[i] in phone || ps[i] in insta;
  }

  /** The planned identities whose insert succeeds, in order. */
  function Accepted(ps: seq<Planned>, k: nat, ok: Accepts): (r: seq<Planned>)
    ensures |r| <= |ps|
    ensures forall p | p in r :: p in ps && ok(IdentityInsert(k, p.platform))
    ensures forall p | p in ps && ok(IdentityInsert(k, p.platform)) :: p in r
  {
    if ps == [] then []
    else (if ok(IdentityInsert(k, ps[0].platform)) then [ps[0]] else []) + Accepted(ps[1..], k, ok)
  }

  /** An identity row as `create_identity` writes it for the planned identity. */
  predicate SeededRow(i: Identity, authorId: nat, p: Planned, normalize: Normalization) {
    i.authorId == authorId && i.platform == p.platform && i.platformIdentifier == p.identifier &&
    i.normalizedIdentifier == normalize(p.platform, p.identifier) &&
    i.confidence == SeedConfidence && i.matchingMethod == SeedMethod && i.verified
  }

  /** Insert the accepted identities of one author, in order. */
  function CreateAll(s: Store, normalize: Normalization, authorId: nat, ps: seq<Planned>): (r: Store)
    requires Valid(s) && authorId in AuthorIds(s)
    ensures Valid(r) && AuthorIds(r) == AuthorIds(s) && r.authors == s.authors
    ensures |r.identities| == |s.identities| + |ps| && r.identities[..|s.identities|] == s.identities
    ensures r.nextId == s.nextId + |ps|
    ensures forall j | 0 <= j < |ps| :: SeededRow(r.identities[|s.identities| + j], authorId, ps[j], normalize)
    decreases |ps|
  {
    if ps == [] then s
    else
      var (t, _) := CreateIdentity(s, normalize, authorId, ps[0]);
      var u := CreateAll(t, normalize, authorId, ps[1..]);
      assert u.identities[..|s.identities|] == u.identities[..|t.identities|][..|s.identities|];
      u
  }

  // ---------------------------------------------------------------------
  // seed_authors_and_identities

  /** What seeding one author leaves behind: the store and the two counters' increments. */
  datatype Seeded = Seeded(store: Store, authorsCreated: nat, identitiesCreated: nat)

  /**
   * One iteration of the loop: an author whose insert fails is skipped;
   * otherwise the author and its accepted identities are inserted and
   * counted.
   */
  function SeedOne(s: Store, normalize: Normalization, ok: Accepts, k: nat, a: MockAuthor): (r: Seeded)
    requires Valid(s)
    ensures Valid(r.store) && Extends(r.store, s)
    ensures !ok(AuthorInsert(k)) ==> r == Seeded(s, 0, 0)
    ensures ok(AuthorInsert(k)) ==>
      r.authorsCreated == 1 && r.store.authors == s.authors + [Author(s.nextId, a.fullName, a.email, a.phone, a.metadata)] &&
      r.identitiesCreated == |Accepted(Plan(a), k, ok)|
    ensures |r.store.identities| == |s.identities| + r.identitiesCreated
    ensures ok(AuthorInsert(k)) ==> forall j | 0 <= j < r.identitiesCreated ::
      SeededRow(r.store.identities[|s.identities| + j], s.nextId, Accepted(Plan(a), k, ok)[j], normalize)
  {
    if !ok(AuthorInsert(k)) then Seeded(s, 0, 0) else SeedInserted(s, normalize, Accepted(Plan(a), k, ok), a)
  }

  /** An author whose insert succeeded, followed by its accepted identities `ps`. */
  function SeedInserted(s: Store, normalize: Normalization, ps: seq<Planned>, a: MockAuthor): (r: Seeded)
    requires Valid(s)
    ensures Valid(r.store) && Extends(r.store, s)
    ensures r.authorsCreated == 1 && r.identitiesCreated == |ps|
    ensures r.store.authors == s.authors + [Author(s.nextId, a.fullName, a.email, a.phone, a.metadata)]
    ensures |r.store.identities| == |s.identities| + |ps|
    ensures forall j | 0 <= j < |ps| :: SeededRow(r.store.identities[|s.identities| + j], s.nextId, ps[j], normalize)
  {
    var (t, author) := InsertAuthor(s, a.fullName, a.email, a.phone, a.metadata);
    InsertAuthorValid(s, a.fullName, a.email, a.phone, a.metadata);
    var u := CreateAll(t, normalize, author.id, ps);
    Seeded(u, 1, |ps|)
  }

  /** The whole loop over the mock authors, numbered from `k`. */
  function SeedAll(s: Store, normalize: Normalization, ok: Accepts, k: nat, authors: seq<MockAuthor>): (r: Seeded)
    requires Valid(s)
    ensures Valid(r.store) && Extends(r.store, s)
    ensures r.authorsCreated == |r.store.authors| - |s.authors| <= |authors|
    ensures r.identitiesCreated == |r.store.identities| - |s.identities|
    ensures r.authorsCreated == CountAccepted(ok, k, |authors|)
    decreases |authors|
  {
    if authors == [] then Seeded(s, 0, 0)
    else
      var one := SeedOne(s, normalize, ok, k, authors[0]);
      var rest := SeedAll(one.store, normalize, ok, k + 1, authors[1..]);
      ExtendsTransitive(rest.store, one.store, s);
      assert one.authorsCreated == (if ok(AuthorInsert(k)) then 1 else 0);
      Seeded(rest.store, one.authorsCreated + rest.authorsCreated, one.identitiesCreated + rest.identitiesCreated)
  }

  /** How many of the author inserts `k .. k + n - 1` succeed. */
  function CountAccepted(ok: Accepts, k: nat, n: nat): (c: nat)
    ensures c <= n
    decreases n
  {
    if n == 0 then 0 else (if ok(AuthorInsert(k)) then 1 else 0) + CountAccepted(ok, k + 1, n - 1)
  }

  // ---------------------------------------------------------------------
  // Seeded identities against the matcher's exact lookups

  /** The store after seeding a single author into an empty store, every insert succeeding. */
  function SeedSingle(normalize: Normalization, a: MockAuthor): (t: Store)
    ensures Valid(t)
  {
    EmptyStoreValid();
    SeedOne(EmptyStore, normalize, _ => true, 0, a).store
  }

  /** The identity rows of `t` are the planned identities of `a`, normalised by `normalize`. */
  ghost predicate HoldsPlan(t: Store, normalize: Normalization, a: MockAuthor) {
    var ps := Plan(a);
    |t.identities| == |ps| &&
    forall j | 0 <= j < |ps| :: t.identities[j].platform == ps[j].platform &&
      t.identities[j].normalizedIdentifier == normalize(ps[j].platform, ps[j].identifier)
  }

  lemma SeedSingleIdentities(normalize: Normalization, a: MockAuthor)
    ensures HoldsPlan(SeedSingle(normalize, a), normalize, a)
  {
    EmptyStoreValid();
    var ok: Accepts := _ => true;
    AcceptedAll(Plan(a), 0, ok);
  }

  lemma {:induction false} AcceptedAll(ps: seq<Planned>, k: nat, ok: Accepts)
    requires forall x :: ok(x)
    ensures Accepted(ps, k, ok) == ps
  {
    if ps != [] {
      AcceptedAll(ps[1..], k, ok);
    }
  }

  /**
   * As written: a gmail author whose address has a dot in its local part is
   * seeded under the lower-cased address, but the matcher looks the
   * address up under its gmail form without dots. The author's own e-mail,
   * arriving from the web chat, is then not found by the exact e-mail
   * lookup (nor any other exact lookup), though the author is on file.
   */
  lemma SeededGmailMissedAsWritten(env: Matcher.Env, a: MockAuthor)
    requires Truthy(a.email) && '@' in a.email.value
    requires '@' in Normalizer.Canonical(a.email.value)
    requires Normalizer.IsGmailDomain(Normalizer.DomainPart(Normalizer.Canonical(a.email.value)))
    requires '.' in Normalizer.LocalPart(Normalizer.Canonical(a.email.value))
    requires !PrefersInstagram(a) && (Truthy(a.phone) ==> '@' !in a.phone.value)
    ensures var key := Normalizer.NormalizeEmail(a.email.value);
      key.Some? &&
      Matcher.Stage1(env, SeedSingle(AsWritten, a), key, None, "web_chat", key.value).1.None?
  {
    var key := Normalizer.NormalizeEmail(a.email.value);
    var t := SeedSingle(AsWritten, a);
    SeedSingleIdentities(AsWritten, a);
    SeededRowsMiss(t, a);
    EmailMissed(env, t, key.value);
  }

  /** Under the scripts' normalisation no seeded row carries the author's gmail key, nor the web-chat handle. */
  lemma SeededRowsMiss(t: Store, a: MockAuthor)
    requires HoldsPlan(t, AsWritten, a)
    requires Truthy(a.email) && '@' in a.email.value
    requires '@' in Normalizer.Canonical(a.email.value)
    requires Normalizer.IsGmailDomain(Normalizer.DomainPart(Normalizer.Canonical(a.email.value)))
    requires '.' in Normalizer.LocalPart(Normalizer.Canonical(a.email.value))
    requires !PrefersInstagram(a) && (Truthy(a.phone) ==> '@' !in a.phone.value)
    ensures var key := Normalizer.NormalizeEmail(a.email.value);
      key.Some? && '@' in key.value &&
      forall m | 0 <= m < |t.identities| ::
        t.identities[m].platform != "web_chat" && t.identities[m].normalizedIdentifier != key
  {
    var e := a.email.value;
    var key := Normalizer.NormalizeEmail(e);
    Normalizer.GmailLocalHasNoDotOrPlus(e);
    SeededKeyDiffers(e);
    var ps := Plan(a);
    forall m | 0 <= m < |t.identities|
      ensures t.identities[m].platform != "web_chat" && t.identities[m].normalizedIdentifier != key
    {
      assert ps[m] in ps;
      RowMisses(ps[m], e, key.value);
    }
  }

  /** One seeded row against the gmail key: the e-mail row keeps its dot, and phone rows have no '@'. */
  lemma RowMisses(p: Planned, e: string, key: string)
    requires '@' in key && Some(key) != Some(Normalizer.Canonical(e))
    requires p == Planned("email", e) || (IsPhonePlatformName(p.platform) && '@' !in p.identifier)
    ensures p.platform != "web_chat" && AsWritten(p.platform, p.identifier) != Some(key)
  {
    if p.platform != "email" {
      Normalizer.AtSurvivesCanonical(p.identifier);
    }
  }

  /** Stage 1 misses when no row has the web-chat platform or the e-mail key. */
  lemma EmailMissed(env: Matcher.Env, t: Store, key: string)
    requires Valid(t) && key != ""
    requires forall m | 0 <= m < |t.identities| ::
      t.identities[m].platform != "web_chat" && t.identities[m].normalizedIdentifier != Some(key)
    ensures Matcher.Stage1(env, t, Some(key), None, "web_chat", key).1.None?
  {
    Matcher.Stage1Miss(env, t, Some(key), None, "web_chat", key);
  }

  /** The lower-cased address keeps the dot the gmail form drops. */
  lemma SeededKeyDiffers(e: string)
    requires '@' in e && '@' in Normalizer.Canonical(e)
    requires Normalizer.IsGmailDomain(Normalizer.DomainPart(Normalizer.Canonical(e)))
    requires '.' in Normalizer.LocalPart(Normalizer.Canonical(e))
    ensures Normalizer.NormalizeEmail(e) != Some(Normalizer.Canonical(e))
  {
    Normalizer.GmailLocalHasNoDotOrPlus(e);
    var v := Normalizer.NormalizeEmail(e).value;
    assert '.' !in Normalizer.LocalPart(v) && '.' in Normalizer.LocalPart(Normalizer.Canonical(e));
  }

  /**
   * Corrected: seeding with the matcher's normal forms makes every seeded
   * author with an e-mail address found by the exact e-mail lookup of that
   * address, whatever platform and handle the query arrives with.
   */
  lemma SeededEmailFound(env: Matcher.Env, a: MockAuthor, phone: Option<string>, platform: string, pid: string)
    requires Truthy(a.email) && '@' in a.email.value
    ensures var key := Normalizer.NormalizeEmail(a.email.value);
      key.Some? &&
      Matcher.Stage1(env, SeedSingle(MatcherNormalization(env), a), key, phone, platform, pid).1.Some?
  {
    var e := a.email.value;
    var key := Normalizer.NormalizeEmail(e);
    var t := SeedSingle(MatcherNormalization(env), a);
    SeedSingleIdentities(MatcherNormalization(env), a);
    PlanEmail(a);
    var ps := Plan(a);
    var m :| 0 <= m < |ps| && ps[m] == Planned("email", e);
    assert t.identities[m].normalizedIdentifier == key;
    KeyFound(env, t, key, phone, platform, pid, m);
  }

  /**
   * Corrected, phones: a seeded phone number the phone normaliser accepts
   * is found by the exact phone lookup of the same number.
   */
  lemma SeededPhoneFound(env: Matcher.Env, a: MockAuthor, platform: string, pid: string)
    requires Truthy(a.phone) && '@' !in a.phone.value && Truthy(env.normalizePhone(a.phone.value))
    ensures Matcher.Stage1(env, SeedSingle(MatcherNormalization(env), a), None,
                           env.normalizePhone(a.phone.value), platform, pid).1.Some?
  {
    var key := env.normalizePhone(a.phone.value);
    var t := SeedSingle(MatcherNormalization(env), a);
    SeedSingleIdentities(MatcherNormalization(env), a);
    PlanPhone(a);
    var ps := Plan(a);
    var m :| 0 <= m < |ps| && ps[m] == Planned(PhonePlatform(a.metadata), a.phone.value);
    assert t.identities[m].normalizedIdentifier == key;
    PhoneKeyFound(env, t, key, platform, pid, m);
  }

  /** A row carrying the e-mail key makes stage 1 succeed. */
  lemma KeyFound(env: Matcher.Env, t: Store, key: Option<string>, phone: Option<string>,
                 platform: string, pid: string, m: nat)
    requires Valid(t) && Truthy(key) && m < |t.identities| && t.identities[m].normalizedIdentifier == key
    ensures Matcher.Stage1(env, t, key, phone, platform, pid).1.Some?
  {
    Matcher.Stage1Miss(env, t, key, phone, platform, pid);
  }

  /** A row carrying the phone key makes stage 1 succeed. */
  lemma PhoneKeyFound(env: Matcher.Env, t: Store, key: Option<string>, platform: string, pid: string, m: nat)
    requires Valid(t) && Truthy(key) && m < |t.identities| && t.identities[m].normalizedIdentifier == key
    ensures Matcher.Stage1(env, t, None, key, platform, pid).1.Some?
  {
    Matcher.Stage1Miss(env, t, None, key, platform, pid);
  }
}

=== FILE: sorting.dfy ===
/**
 * Python's `sorted(xs, key=k, reverse=True)`: a stable sort on a real key,
 * largest first. Python's sort is stable under `reverse=True` too, so
 * items with equal keys keep their original relative order.
 */
module Sorting {

  /** Keys never increase from left to right. */
  ghost predicate SortedDesc<T>(s: seq<T>, key: T -> real) {
    forall i, j | 0 <= i < j < |s| :: key(s[i]) >= key(s[j])
  }

  /** Insert `x` before the first element whose key is not larger than its own. */
  function InsertDesc<T(==)>(x: T, t: seq<T>, key: T -> real): (r: seq<T>)
    requires SortedDesc(t, key)
    ensures multiset(r) == multiset(t) + multiset{x}
    ensures |r| == |t| + 1
    ensures SortedDesc(r, key)
    ensures r[0] == x || (|t| > 0 && r[0] == t[0])
  {
    if t == [] || key(t[0]) <= key(x) then
      ConsSortedDesc(x, t, key);
      [x] + t
    else
      var rest := InsertDesc(x, t[1..], key);
      assert t == [t[0]] + t[1..];
      assert |t| > 1 ==> key(t[1]) <= key(t[0]);
      ConsSortedDesc(t[0], rest, key);
      [t[0]] + rest
  }

  /** A prefix of a sorted sequence is sorted. */
  lemma SortedPrefix<T>(s: seq<T>, r: seq<T>, key: T -> real)
    requires SortedDesc(s, key) && r <= s
    ensures SortedDesc(r, key)
  {
    forall i, j | 0 <= i < j < |r| ensures key(r[i]) >= key(r[j]) {
      assert r[i] == s[i] && r[j] == s[j];
    }
  }

  /** A head no smaller than the first key keeps a sorted sequence sorted. */
  lemma ConsSortedDesc<T>(h: T, s: seq<T>, key: T -> real)
    requires SortedDesc(s, key) && (s == [] || key(s[0]) <= key(h))
    ensures SortedDesc([h] + s, key)
  {
    var r := [h] + s;
    forall i, j | 0 <= i < j < |r| ensures key(r[i]) >= key(r[j]) {
      assert r[j] == s[j - 1];
      if i > 0 {
        assert r[i] == s[i - 1];
      }
    }
  }

  /** Stable descending sort: equal keys keep their input order. */
  function SortDesc<T(==)>(s: seq<T>, key: T -> real): (r: seq<T>)
    ensures multiset(r) == multiset(s)
    ensures |r| == |s|
    ensures SortedDesc(r, key)
  {
    if s == [] then []
    else
      assert s == [s[0]] + s[1..];
      InsertDesc(s[0], SortDesc(s[1..], key), key)
  }

  /** The elements whose key is `v`, in order. */
  function KeyFilter<T>(s: seq<T>, key: T -> real, v: real): (r: seq<T>)
    ensures |r| <= |s|
    ensures forall x | x in r :: x in s && key(x) == v
  {
    if s == [] then [] else (if key(s[0]) == v then [s[0]] else []) + KeyFilter(s[1..], key, v)
  }

  /** Inserting `x` puts it ahead of every element with the same key. */
  lemma {:induction false} InsertDescKeyFilter<T>(x: T, t: seq<T>, key: T -> real, v: real)
    requires SortedDesc(t, key)
    ensures KeyFilter(InsertDesc(x, t, key), key, v) ==
      (if key(x) == v then [x] else []) + KeyFilter(t, key, v)
  {
    var hx := if key(x) == v then [x] else [];
    if t == [] || key(t[0]) <= key(x) {
      var r := [x] + t;
      assert InsertDesc(x, t, key) == r;
      assert r[0] == x && r[1..] == t;
    } else {
      var rest := InsertDesc(x, t[1..], key);
      var r := [t[0]] + rest;
      assert InsertDesc(x, t, key) == r;
      assert r[0] == t[0] && r[1..] == rest;
      assert SortedDesc(t[1..], key);
      InsertDescKeyFilter(x, t[1..], key, v);
      var h0 := if key(t[0]) == v then [t[0]] else [];
      var k := KeyFilter(t[1..], key, v);
      assert KeyFilter(r, key, v) == h0 + KeyFilter(rest, key, v);
      assert KeyFilter(r, key, v) == h0 + (hx + k);
      assert KeyFilter(t, key, v) == h0 + k;
      SwapEmpty(h0, hx, k);
    }
  }

  /** Two pieces of which one is empty can trade places. */
  lemma SwapEmpty<T>(a: seq<T>, b: seq<T>, c: seq<T>)
    requires a == [] || b == []
    ensures a + (b + c) == b + (a + c)
  {
    if a == [] {
      assert a + (b + c) == b + c;
    } else {
      assert b + (a + c) == a + c;
    }
  }

  /**
   * Stability: for every key value, the elements with that key come out of
   * the sort in the order they went in.
   */
  lemma {:induction false} SortDescStable<T>(s: seq<T>, key: T -> real, v: real)
    ensures KeyFilter(SortDesc(s, key), key, v) == KeyFilter(s, key, v)
  {
    if s != [] {
      SortDescStable(s[1..], key, v);
      InsertDescKeyFilter(s[0], SortDesc(s[1..], key), key, v);
    }
  }

  /** Everything a sorted prefix leaves out has a key no larger than any key it keeps. */
  lemma SortedPrefixDominates<T>(s: seq<T>, r: seq<T>, key: T -> real)
    requires SortedDesc(s, key) && r <= s
    ensures forall c, d | c in s && c !in r && d in r :: key(d) >= key(c)
  {
    forall c, d | c in s && c !in r && d in r ensures key(d) >= key(c) {
      var j :| 0 <= j < |s| && s[j] == c;
      var i :| 0 <= i < |r| && r[i] == d;
      assert j >= |r| by {
        assert forall k | 0 <= k < |r| :: s[k] == r[k] && r[k] in r;
      }
    }
  }

  /** The key-filter of a prefix is a prefix of the key-filter. */
  lemma {:induction false} KeyFilterPrefix<T>(s: seq<T>, n: nat, key: T -> real, v: real)
    requires n <= |s|
    ensures KeyFilter(s[..n], key, v) <= KeyFilter(s, key, v)
  {
    if n > 0 {
      assert s[..n][1..] == s[1..][..n - 1];
      KeyFilterPrefix(s[1..], n - 1, key, v);
    }
  }

  /** The sorted sequence holds exactly the input's elements. */
  lemma SortDescSameElements<T>(s: seq<T>, key: T -> real)
    ensures forall x :: x in SortDesc(s, key) <==> x in s
  {
    var r := SortDesc(s, key);
    assert multiset(r) == multiset(s);
    forall x
      ensures x in r <==> x in s
    {
      assert x in r <==> x in multiset(r);
      assert x in s <==> x in multiset(s);
    }
  }

  /** Sorting an already ordered sequence changes nothing. */
  lemma {:induction false} SortDescOfSorted<T>(s: seq<T>, key: T -> real)
    requires forall i | 0 < i < |s| :: key(s[i - 1]) > key(s[i])
    ensures SortDesc(s, key) == s
  {
    if s != [] {
      SortDescOfSorted(s[1..], key);
    }
  }

  /** No two elements share a value of `f`. */
  ghost predicate DistinctBy<T, U>(s: seq<T>, f: T -> U) {
    forall i, j | 0 <= i < j < |s| :: f(s[i]) != f(s[j])
  }

  /** Inserting adds `x` and nothing else. */
  lemma InsertDescMembers<T>(x: T, t: seq<T>, key: T -> real)
    requires SortedDesc(t, key)
    ensures forall y | y in InsertDesc(x, t, key) :: y == x || y in t
  {
    var r := InsertDesc(x, t, key);
    forall y | y in r ensures y == x || y in t {
      assert y in multiset(r);
    }
  }

  /** The head of `t` differs under `f` from everything inserted behind it. */
  lemma HeadDistinctFromRest<T, U>(x: T, t: seq<T>, key: T -> real, f: T -> U)
    requires |t| > 0 && SortedDesc(t[1..], key) && DistinctBy(t, f)
    requires forall y | y in t :: f(y) != f(x)
    ensures forall y | y in InsertDesc(x, t[1..], key) :: f(t[0]) != f(y)
  {
    InsertDescMembers(x, t[1..], key);
    forall y | y in InsertDesc(x, t[1..], key) ensures f(t[0]) != f(y) {
      if y != x {
        var k :| 0 <= k < |t[1..]| && t[1..][k] == y;
        assert t[k + 1] == y;
      }
    }
  }

  lemma {:induction false} InsertDescDistinct<T, U>(x: T, t: seq<T>, key: T -> real, f: T -> U)
    requires SortedDesc(t, key) && DistinctBy(t, f)
    requires forall y | y in t :: f(y) != f(x)
    ensures DistinctBy(InsertDesc(x, t, key), f)
  {
    var r := InsertDesc(x, t, key);
    if t == [] || key(t[0]) <= key(x) {
      assert r == [x] + t;
      forall i, j | 0 <= i < j < |r|
        ensures f(r[i]) != f(r[j])
      {
        assert r[j] == t[j - 1] && t[j - 1] in t;
        if i > 0 {
          assert r[i] == t[i - 1];
        }
      }
    } else {
      var rest := InsertDesc(x, t[1..], key);
      assert r == [t[0]] + rest;
      assert forall y | y in t[1..] :: y in t;
      InsertDescDistinct(x, t[1..], key, f);
      HeadDistinctFromRest(x, t, key, f);
      forall i, j | 0 <= i < j < |r|
        ensures f(r[i]) != f(r[j])
      {
        assert r[j] == rest[j - 1] && rest[j - 1] in rest;
        if i > 0 {
          assert r[i] == rest[i - 1];
        }
      }
    }
  }

  /** Sorting keeps elements distinct under `f`. */
  lemma {:induction false} SortDescDistinct<T, U>(s: seq<T>, key: T -> real, f: T -> U)
    requires DistinctBy(s, f)
    ensures DistinctBy(SortDesc(s, key), f)
  {
    if s != [] {
      assert forall k | 0 <= k < |s[1..]| :: s[1..][k] == s[k + 1];
      SortDescDistinct(s[1..], key, f);
      var t := SortDesc(s[1..], key);
      assert forall y | y in t :: y in multiset(s[1..]);
      InsertDescDistinct(s[0], t, key, f);
    }
  }
}

=== FILE: store.dfy ===
/**
 * An in-memory stand-in for the `authors` and `identities` tables. Rows are
 * kept in insertion order, so "the first row a query returns" is the first
 * matching row of the sequence. Row ids come from a counter.
 */
module Store {
  import opened Wrappers
  import opened Records

  datatype Store = Store(authors: seq<Author>, identities: seq<Identity>, nextId: nat)

  const EmptyStore := Store([], [], 0)

  function AuthorIds(s: Store): set<nat> {
    set a | a in s.authors :: a.id
  }

  /**
   * Every row id is below the counter, author ids are distinct, and every
   * identity points at an existing author (the schema's foreign key).
   */
  ghost predicate Valid(s: Store) {
    (forall i | 0 <= i < |s.authors| :: s.authors[i].id < s.nextId) &&
    (forall i, j | 0 <= i < j < |s.authors| :: s.authors[i].id != s.authors[j].id) &&
    (forall i | 0 <= i < |s.identities| ::
      s.identities[i].id < s.nextId && s.identities[i].authorId in AuthorIds(s))
  }

  lemma EmptyStoreValid()
    ensures Valid(EmptyStore) && AuthorIds(EmptyStore) == {}
  {
  }

  /** The author row with the given id, if any. */
  function FindAuthor(s: Store, id: nat): (r: Option<Author>)
    ensures r.Some? ==> r.value in s.authors && r.value.id == id
    ensures r.None? <==> id !in AuthorIds(s)
  {
    FirstAuthorWithId(s.authors, id)
  }

  function FirstAuthorWithId(authors: seq<Author>, id: nat): (r: Option<Author>)
    ensures r.Some? ==> r.value in authors && r.value.id == id
    ensures r.None? <==> forall a | a in authors :: a.id != id
  {
    if authors == [] then None
    else if authors[0].id == id then Some(authors[0])
    else FirstAuthorWithId(authors[1..], id)
  }

  /** Index of the first row satisfying `p`, as a `.limit(1)` query returns it. */
  function FirstIndex<T>(rows: seq<T>, p: T -> bool): (r: Option<nat>)
    ensures r.Some? ==> r.value < |rows| && p(rows[r.value])
    ensures r.Some? ==> forall k | 0 <= k < r.value :: !p(rows[k])
    ensures r.None? <==> forall k | 0 <= k < |rows| :: !p(rows[k])
  {
    if rows == [] then None
    else if p(rows[0]) then Some(0)
    else
      var t := FirstIndex(rows[1..], p);
      if t.None? then None else Some(t.value + 1)
  }

  /** Append an author row with a fresh id. */
  function InsertAuthor(s: Store, fullName: string, email: Option<string>, phone: Option<string>,
                        metadata: Metadata): (r: (Store, Author))
    ensures r.1 == Author(s.nextId, fullName, email, phone, metadata)
    ensures r.0.authors == s.authors + [r.1] && r.0.identities == s.identities
    ensures r.0.nextId == s.nextId + 1
  {
    var a := Author(s.nextId, fullName, email, phone, metadata);
    (Store(s.authors + [a], s.identities, s.nextId + 1), a)
  }

  /** Append an identity row with a fresh id. */
  function InsertIdentity(s: Store, authorId: nat, platform: string, platformIdentifier: string,
                          normalized: Option<string>, confidence: real, matchingMethod: string,
                          verified: bool): (r: (Store, Identity))
    ensures r.1 == Identity(s.nextId, authorId, platform, platformIdentifier, normalized,
                            confidence, matchingMethod, verified)
    ensures r.0.identities == s.identities + [r.1] && r.0.authors == s.authors
    ensures r.0.nextId == s.nextId + 1
  {
    var i := Identity(s.nextId, authorId, platform, platformIdentifier, normalized,
                      confidence, matchingMethod, verified);
    (Store(s.authors, s.identities + [i], s.nextId + 1), i)
  }

  lemma InsertAuthorValid(s: Store, fullName: string, email: Option<string>, phone: Option<string>,
                          metadata: Metadata)
    requires Valid(s)
    ensures var (t, a) := InsertAuthor(s, fullName, email, phone, metadata);
      Valid(t) && AuthorIds(t) == AuthorIds(s) + {a.id} && a.id !in AuthorIds(s)
  {
    var (t, a) := InsertAuthor(s, fullName, email, phone, metadata);
    assert forall x | x in t.authors :: x in s.authors || x == a;
    assert a in t.authors;
    assert forall x | x in s.authors :: x in t.authors;
  }

  lemma InsertIdentityValid(s: Store, authorId: nat, platform: string, platformIdentifier: string,
                            normalized: Option<string>, confidence: real, matchingMethod: string,
                            verified: bool)
    requires Valid(s) && authorId in AuthorIds(s)
    ensures var (t, _) := InsertIdentity(s, authorId, platform, platformIdentifier, normalized,
                                         confidence, matchingMethod, verified);
      Valid(t) && AuthorIds(t) == AuthorIds(s)
  {
  }

  /** `s` is `t` with rows appended and the counter moved forward. */
  predicate Extends(t: Store, s: Store) {
    s.authors <= t.authors && s.identities <= t.identities && s.nextId <= t.nextId
  }

  lemma ExtendsTransitive(u: Store, t: Store, s: Store)
    requires Extends(u, t) && Extends(t, s)
    ensures Extends(u, s)
  {
  }
}

=== FILE: strings.dfy ===
/**
 * Python string primitives used throughout the assistant, restricted to
 * ASCII: `lower()`, `strip()`, `split()`, `sep.join(...)`, `in`, `count`,
 * `split(sep)`, `str(int)` and the character classes behind `isspace`,
 * `isdigit`, `isalpha`, `isupper` and the regex class `\w`.
 */
module Strings {
  import opened Wrappers

  // ---------------------------------------------------------------------
  // Character classes

  /**
   * Python's whitespace within ASCII: space, \t, \n, \v, \f, \r and the
   * four separators U+001C..U+001F, which `str.split()` and `\s` also treat
   * as whitespace.
   */
  predicate IsSpace(c: char) {
    c == ' ' || ('\t' <= c <= '\r') || ('\U{1C}' <= c <= '\U{1F}')
  }

  predicate IsUpper(c: char) { 'A' <= c <= 'Z' }

  predicate IsLowerLetter(c: char) { 'a' <= c <= 'z' }

  predicate IsAlpha(c: char) { IsUpper(c) || IsLowerLetter(c) }

  predicate IsDigit(c: char) { '0' <= c <= '9' }

  predicate IsAlnum(c: char) { IsAlpha(c) || IsDigit(c) }

  /** The regex class `\w` (ASCII letters, digits and underscore). */
  predicate IsWordChar(c: char) { IsAlnum(c) || c == '_' }

  function LowerChar(c: char): (d: char)
    ensures !IsUpper(d)
    ensures IsUpper(c) ==> d == (c as int + 32) as char
    ensures !IsUpper(c) ==> d == c
  {
    if IsUpper(c) then (c as int + 32) as char else c
  }

  // ---------------------------------------------------------------------
  // lower()

  function ToLower(s: string): (r: string)
    ensures |r| == |s|
    ensures forall i | 0 <= i < |s| :: r[i] == LowerChar(s[i])
  {
    seq(|s|, i requires 0 <= i < |s| => LowerChar(s[i]))
  }

  /** No upper-case letter occurs in `s`. */
  predicate IsLowerCase(s: string) {
    forall i | 0 <= i < |s| :: !IsUpper(s[i])
  }

  lemma ToLowerIsLowerCase(s: string)
    ensures IsLowerCase(ToLower(s))
  {
  }

  /** `lower()` leaves a string without upper-case letters unchanged. */
  lemma ToLowerOfLowerCase(s: string)
    requires IsLowerCase(s)
    ensures ToLower(s) == s
  {
  }

  lemma LowerCaseConcat(a: string, b: string)
    requires IsLowerCase(a) && IsLowerCase(b)
    ensures IsLowerCase(a + b)
  {
  }

  lemma ToLowerIdempotent(s: string)
    ensures ToLower(ToLower(s)) == ToLower(s)
  {
  }

  lemma ToLowerConcat(a: string, b: string)
    ensures ToLower(a + b) == ToLower(a) + ToLower(b)
  {
  }

  lemma ToLowerSlice(s: string, i: nat, j: nat)
    requires i <= j <= |s|
    ensures ToLower(s[i..j]) == ToLower(s)[i..j]
  {
    assert forall k | 0 <= k < j - i :: s[i..j][k] == s[i + k];
  }

  // ---------------------------------------------------------------------
  // strip()

  /** Index of the first non-whitespace character, or |s| if there is none. */
  function FirstNonSpace(s: string): (i: nat)
    ensures i <= |s|
    ensures forall k | 0 <= k < i :: IsSpace(s[k])
    ensures i < |s| ==> !IsSpace(s[i])
  {
    if |s| == 0 || !IsSpace(s[0]) then 0 else 1 + FirstNonSpace(s[1..])
  }

  /** One past the last non-whitespace character, or 0 if there is none. */
  function EndNonSpace(s: string): (j: nat)
    ensures j <= |s|
    ensures forall k | j <= k < |s| :: IsSpace(s[k])
    ensures j > 0 ==> !IsSpace(s[j - 1])
  {
    if |s| == 0 || !IsSpace(s[|s| - 1]) then |s| else EndNonSpace(s[..|s| - 1])
  }

  /** Every character of `s` is whitespace (vacuously so for ""). */
  predicate AllSpace(s: string) {
    forall k | 0 <= k < |s| :: IsSpace(s[k])
  }

  /** Python's `s.strip()`: the text between the outer whitespace runs. */
  function Strip(s: string): (r: string)
    ensures r == [] <==> AllSpace(s)
    ensures r != [] ==> !IsSpace(r[0]) && !IsSpace(r[|r| - 1])
    ensures r != [] ==> FirstNonSpace(s) < EndNonSpace(s) && r == s[FirstNonSpace(s)..EndNonSpace(s)]
  {
    var i := FirstNonSpace(s);
    if i == |s| then []
    else
      var j := EndNonSpace(s);
      assert !IsSpace(s[i]);
      assert j > i;
      s[i..j]
  }

  lemma StripLowerCase(s: string)
    requires IsLowerCase(s)
    ensures IsLowerCase(Strip(s))
  {
  }

  /** `strip()` is the identity on text that has no outer whitespace. */
  lemma StripOfStripped(s: string)
    requires s == [] || (!IsSpace(s[0]) && !IsSpace(s[|s| - 1]))
    ensures Strip(s) == s
  {
    if s != [] {
      assert FirstNonSpace(s) == 0;
      assert EndNonSpace(s) == |s|;
    }
  }

  lemma StripIdempotent(s: string)
    ensures Strip(Strip(s)) == Strip(s)
  {
    StripOfStripped(Strip(s));
  }

  /** Lower-casing and stripping commute (case mapping never touches whitespace). */
  lemma StripToLower(s: string)
    ensures Strip(ToLower(s)) == ToLower(Strip(s))
  {
    var t := ToLower(s);
    assert forall k | 0 <= k < |s| :: IsSpace(t[k]) == IsSpace(s[k]);
    FirstNonSpaceAgree(s, t);
    EndNonSpaceAgree(s, t);
    if !AllSpace(s) {
      ToLowerSlice(s, FirstNonSpace(s), EndNonSpace(s));
    }
  }

  lemma {:induction false} FirstNonSpaceAgree(s: string, t: string)
    requires |s| == |t|
    requires forall k | 0 <= k < |s| :: IsSpace(t[k]) == IsSpace(s[k])
    ensures FirstNonSpace(s) == FirstNonSpace(t)
    decreases |s|
  {
    if |s| > 0 && IsSpace(s[0]) {
      FirstNonSpaceAgree(s[1..], t[1..]);
    }
  }

  lemma {:induction false} EndNonSpaceAgree(s: string, t: string)
    requires |s| == |t|
    requires forall k | 0 <= k < |s| :: IsSpace(t[k]) == IsSpace(s[k])
    ensures EndNonSpace(s) == EndNonSpace(t)
    decreases |s|
  {
    if |s| > 0 && IsSpace(s[|s| - 1]) {
      EndNonSpaceAgree(s[..|s| - 1], t[..|t| - 1]);
    }
  }

  // ---------------------------------------------------------------------
  // Substrings: `needle in s`, `s.count(needle)`, first occurrence

  /** Python's `needle in s`. */
  predicate Contains(s: string, needle: string)
    decreases |s|
  {
    needle <= s || (|s| > 0 && Contains(s[1..], needle))
  }

  /** Python's `s.endswith(suffix)`. */
  predicate EndsWith(s: string, suffix: string) {
    |suffix| <= |s| && s[|s| - |suffix|..] == suffix
  }

  /** An occurrence at a known position witnesses `needle in s`. */
  lemma {:induction false} ContainsAt(s: string, needle: string, i: nat)
    requires i + |needle| <= |s|
    requires s[i..i + |needle|] == needle
    ensures Contains(s, needle)
    decreases i
  {
    if i == 0 {
      assert needle <= s;
    } else {
      assert s[1..][i - 1..i - 1 + |needle|] == needle;
      ContainsAt(s[1..], needle, i - 1);
    }
  }

  /** Every occurrence lies somewhere in `s`. */
  lemma {:induction false} ContainsWitness(s: string, needle: string) returns (i: nat)
    requires Contains(s, needle)
    ensures i + |needle| <= |s| && s[i..i + |needle|] == needle
    decreases |s|
  {
    if needle <= s {
      i := 0;
    } else {
      var j := ContainsWitness(s[1..], needle);
      i := j + 1;
      assert s[i..i + |needle|] == s[1..][j..j + |needle|];
    }
  }

  /** A text without upper-case letters contains no needle that has one. */
  lemma LowerCaseAvoidsUpperNeedle(s: string, needle: string, k: nat)
    requires IsLowerCase(s)
    requires k < |needle| && IsUpper(needle[k])
    ensures !Contains(s, needle)
  {
    if Contains(s, needle) {
      var i := ContainsWitness(s, needle);
    }
  }

  /** First index at which `needle` occurs in `s`. */
  function Find(s: string, needle: string): (r: Option<nat>)
    ensures r.Some? ==> r.value + |needle| <= |s| && s[r.value..r.value + |needle|] == needle
    ensures r.Some? ==> forall k | 0 <= k < r.value :: !(needle <= s[k..])
    ensures r.None? ==> !Contains(s, needle)
    decreases |s|
  {
    if needle <= s then Some(0)
    else if |s| == 0 then None
    else
      match Find(s[1..], needle)
      case None => None
      case Some(i) =>
        assert s[i + 1..i + 1 + |needle|] == s[1..][i..i + |needle|];
        assert forall k | 1 <= k < i + 1 :: s[k..] == s[1..][k - 1..];
        Some(i + 1)
  }

  /** Python's `s.count(needle)`: non-overlapping occurrences, left to right. */
  function Count(s: string, needle: string): (n: nat)
    ensures n > 0 <==> Contains(s, needle)
    decreases |s|
  {
    if |needle| == 0 then |s| + 1
    else if |s| < |needle| then
      assert !Contains(s, needle) by { NoRoomNoOccurrence(s, needle); }
      0
    else if needle <= s then 1 + Count(s[|needle|..], needle)
    else Count(s[1..], needle)
  }

  lemma NoRoomNoOccurrence(s: string, needle: string)
    requires |s| < |needle|
    ensures !Contains(s, needle)
  {
    if Contains(s, needle) {
      var i := ContainsWitness(s, needle);
    }
  }

  // ---------------------------------------------------------------------
  // split() and sep.join(parts)

  /** Index of the first whitespace character, or |s|. */
  function FirstSpace(s: string): (i: nat)
    ensures i <= |s|
    ensures forall k | 0 <= k < i :: !IsSpace(s[k])
    ensures i < |s| ==> IsSpace(s[i])
  {
    if |s| == 0 || IsSpace(s[0]) then 0 else 1 + FirstSpace(s[1..])
  }

  /** A non-empty run of non-whitespace characters. */
  predicate IsWord(w: string) {
    |w| > 0 && forall k | 0 <= k < |w| :: !IsSpace(w[k])
  }

  /** Python's `s.split()`: the maximal runs of non-whitespace characters. */
  function Words(s: string): (ws: seq<string>)
    ensures forall k | 0 <= k < |ws| :: IsWord(ws[k])
    ensures ws == [] <==> AllSpace(s)
    decreases |s|
  {
    var i := FirstNonSpace(s);
    if i == |s| then []
    else
      var t := s[i..];
      var k := FirstSpace(t);
      assert k >= 1;
      [t[..k]] + Words(t[k..])
  }

  /** A word followed by whitespace (or nothing) is the first token. */
  lemma WordsOfWordThenRest(w: string, rest: string)
    requires IsWord(w)
    requires rest == [] || IsSpace(rest[0])
    ensures Words(w + rest) == [w] + Words(rest)
  {
    var s := w + rest;
    assert !IsSpace(s[0]);
    assert FirstNonSpace(s) == 0;
    assert s[0..] == s;
    FirstSpaceAfterWord(w, rest);
    assert s[..|w|] == w && s[|w|..] == rest;
  }

  lemma {:induction false} FirstSpaceAfterWord(w: string, rest: string)
    requires forall k | 0 <= k < |w| :: !IsSpace(w[k])
    requires rest == [] || IsSpace(rest[0])
    ensures FirstSpace(w + rest) == |w|
  {
    if w != [] {
      assert (w + rest)[1..] == w[1..] + rest;
      FirstSpaceAfterWord(w[1..], rest);
    } else {
      assert w + rest == rest;
    }
  }

  /** A word, a space, then more text: the word is the first token. */
  lemma WordsOfWordSpace(w: string, rest: string)
    requires IsWord(w)
    ensures Words(w + " " + rest) == [w] + Words(rest)
  {
    assert w + " " + rest == w + ([' '] + rest);
    WordsOfWordThenRest(w, [' '] + rest);
    WordsAfterSpace(' ', rest);
  }

  /** A single word is its own only token. */
  lemma WordsOfWord(w: string)
    requires IsWord(w)
    ensures Words(w) == [w]
  {
    assert w + [] == w;
    WordsOfWordThenRest(w, []);
  }

  /** Leading whitespace produces no token. */
  lemma WordsAfterSpace(c: char, rest: string)
    requires IsSpace(c)
    ensures Words([c] + rest) == Words(rest)
  {
    var s := [c] + rest;
    assert s[1..] == rest;
    assert FirstNonSpace(s) == 1 + FirstNonSpace(rest);
    if FirstNonSpace(rest) < |rest| {
      assert s[FirstNonSpace(s)..] == rest[FirstNonSpace(rest)..];
    }
  }

  /** Python's `sep.join(parts)`. */
  function Join(parts: seq<string>, sep: string): string {
    if |parts| == 0 then ""
    else if |parts| == 1 then parts[0]
    else parts[0] + sep + Join(parts[1..], sep)
  }

  function SumLengths(parts: seq<string>): nat {
    if |parts| == 0 then 0 else |parts[0]| + SumLengths(parts[1..])
  }

  /** A join is as long as its pieces plus one separator between each pair. */
  lemma {:induction false} JoinLength(parts: seq<string>, sep: string)
    requires |parts| > 0
    ensures |Join(parts, sep)| == SumLengths(parts) + |sep| * (|parts| - 1)
  {
    if |parts| > 1 {
      JoinLength(parts[1..], sep);
    }
  }

  lemma JoinAppend(parts: seq<string>, p: string, sep: string)
    requires |parts| > 0
    ensures Join(parts + [p], sep) == Join(parts, sep) + sep + p
  {
    if |parts| == 1 {
      assert parts + [p] == [parts[0], p];
    } else {
      assert (parts + [p])[1..] == parts[1..] + [p];
      JoinAppend(parts[1..], p, sep);
    }
  }

  /** Every piece of a join occurs in it. */
  lemma {:induction false} JoinContainsPart(parts: seq<string>, sep: string, k: nat)
    requires k < |parts|
    ensures Contains(Join(parts, sep), parts[k])
  {
    if |parts| == 1 {
      ContainsAt(Join(parts, sep), parts[k], 0);
    } else if k == 0 {
      ContainsAt(Join(parts, sep), parts[0], 0);
    } else {
      JoinContainsPart(parts[1..], sep, k - 1);
      var j := Join(parts, sep);
      var rest := Join(parts[1..], sep);
      var i := ContainsWitness(rest, parts[k]);
      var off := |parts[0]| + |sep|;
      assert j[off + i..off + i + |parts[k]|] == rest[i..i + |parts[k]|];
      ContainsAt(j, parts[k], off + i);
    }
  }

  /** Python's `s.split(sep)` for a non-empty separator (an empty one raises). */
  function SplitOn(s: string, sep: string): (parts: seq<string>)
    requires |sep| > 0
    ensures |parts| >= 1
    ensures Join(parts, sep) == s
    decreases |s|
  {
    match Find(s, sep)
    case None => [s]
    case Some(i) =>
      var rest := SplitOn(s[i + |sep|..], sep);
      assert s == s[..i] + sep + s[i + |sep|..];
      [s[..i]] + rest
  }

  // ---------------------------------------------------------------------
  // Single characters: index, removal, filtering

  function IndexOfChar(s: string, c: char): (i: nat)
    requires c in s
    ensures i < |s| && s[i] == c
    ensures forall k | 0 <= k < i :: s[k] != c
  {
    if s[0] == c then 0 else 1 + IndexOfChar(s[1..], c)
  }

  function LastIndexOfChar(s: string, c: char): (i: nat)
    requires c in s
    ensures i < |s| && s[i] == c
    ensures forall k | i < k < |s| :: s[k] != c
  {
    if s[|s| - 1] == c then |s| - 1 else LastIndexOfChar(s[..|s| - 1], c)
  }

  /** The last occurrence of `c` is the one followed by a `c`-free tail. */
  lemma LastIndexOfCharConcat(a: string, c: char, b: string)
    requires c !in b
    ensures c in a + [c] + b && LastIndexOfChar(a + [c] + b, c) == |a|
  {
    var s := a + [c] + b;
    assert s[|a|] == c;
    var i := LastIndexOfChar(s, c);
  }

  /** The first occurrence of `c` is the one preceded by a `c`-free head. */
  lemma IndexOfCharConcat(a: string, c: char, b: string)
    requires c !in a
    ensures c in a + [c] + b && IndexOfChar(a + [c] + b, c) == |a|
  {
    var s := a + [c] + b;
    assert s[|a|] == c;
    var i := IndexOfChar(s, c);
  }

  /** Lower-casing neither adds nor removes a non-letter character. */
  lemma NonLetterInToLower(s: string, c: char)
    requires !IsAlpha(c)
    ensures c in ToLower(s) <==> c in s
  {
    if c in s {
      var k :| 0 <= k < |s| && s[k] == c;
      assert ToLower(s)[k] == c;
    }
  }

  /** Stripping neither adds nor removes a non-whitespace character. */
  lemma NonSpaceInStrip(s: string, c: char)
    requires !IsSpace(c)
    ensures c in Strip(s) <==> c in s
  {
    if c in s {
      var k :| 0 <= k < |s| && s[k] == c;
      var i, j := FirstNonSpace(s), EndNonSpace(s);
      assert !AllSpace(s);
      assert i <= k < j;
      assert Strip(s)[k - i] == c;
    }
  }

  /** Every character of the stripped text comes from the original. */
  lemma StripCharsFromInput(s: string)
    ensures forall c | c in Strip(s) :: c in s
  {
    var r := Strip(s);
    forall c | c in r ensures c in s {
      var k :| 0 <= k < |r| && r[k] == c;
      assert s[FirstNonSpace(s) + k] == c;
    }
  }

  /** Python's `s.replace(c, '')` for a single character. */
  function RemoveChar(s: string, c: char): (r: string)
    ensures c !in r
    ensures |r| <= |s|
    ensures forall d | d in r :: d in s
    ensures c !in s ==> r == s
  {
    if |s| == 0 then []
    else (if s[0] == c then [] else [s[0]]) + RemoveChar(s[1..], c)
  }

  /** The digit characters of `s`, in order (`''.join(c for c in s if c.isdigit())`). */
  function Digits(s: string): (r: string)
    ensures forall k | 0 <= k < |r| :: IsDigit(r[k])
    ensures |r| <= |s|
  {
    if |s| == 0 then []
    else (if IsDigit(s[0]) then [s[0]] else []) + Digits(s[1..])
  }

  // ---------------------------------------------------------------------
  // str(n)

  function DigitChar(d: nat): (c: char)
    requires d < 10
    ensures IsDigit(c)
  {
    ('0' as int + d) as char
  }

  /** Python's `str(n)` for a natural number. */
  function NatToString(n: nat): (r: string)
    ensures |r| > 0
    ensures forall k | 0 <= k < |r| :: IsDigit(r[k])
  {
    if n < 10 then [DigitChar(n)] else NatToString(n / 10) + [DigitChar(n % 10)]
  }

  /** Python's `str(i)` for any integer. */
  function IntToString(i: int): string {
    if i < 0 then "-" + NatToString(-i) else NatToString(i)
  }
}

=== FILE: wrappers.dfy ===
/** The optional-value datatypes used for the source's `None` returns and JSON fields. */
module Wrappers {

  datatype Option<+T> = None | Some(value: T) {

    /** The wrapped value, or `default` when there is none. */
    function GetOr(default: T): T {
      match this
      case Some(v) => v
      case None => default
    }
  }

  /**
   * A field of a JSON object as `dict.get` sees it: the key may be missing,
   * present with `null`, or present with a value. `dict.get(key, default)`
   * returns the default only in the first case.
   */
  datatype Field<+T> = Absent | Null | Present(value: T) {

    /** `dict.get(key, default)`: `None` stands for the JSON `null`. */
    function Get(default: T): (r: Option<T>)
      ensures r.None? <==> this.Null?
      ensures this.Absent? ==> r == Some(default)
      ensures this.Present? ==> r == Some(this.value)
    {
      match this
      case Absent => Some(default)
      case Null => None
      case Present(v) => Some(v)
    }
  }
}
